=== FILE: README.md ===
# pm-sound-js core in Dafny

pm-sound-js is a music toolchain and player for the Pokémon mini's sound driver, PMMusic. A song is written as text in a small music language: directives, BGM pattern lists, MML bodies and track bodies. It is parsed into an AST of commands and validated. The compiler turns it into driver commands, and each command is packed into one to six 16-bit words. The player is an interrupt-driven engine that steps through those commands and drives the handheld's timers and audio register. The handheld's registers and timers are emulated too.

This project models that core as immutable datatypes and pure functions and proves properties of it:

- `util.dfy` (`Util`): 32-bit wrap-around (`capU32`, `capS32`), truncating division `cdiv`, and the `undefinedThrowsEmpty` wrapper.
- `bits.dfy` (`Bits`): JavaScript's bitwise `&`, `|`, `>>` and `>>>` on numbers, written out over integers.
- `text.dfy` (`Text`): JavaScript's `trim`, `toUpperCase`/`toLowerCase` and number printing.
- `float.dfy` (`Float`): the part of binary64 arithmetic that dotted note lengths go through: a rounded quotient and `Math.trunc`.
- `timers.dfy` (`Timers`): the general timers. This covers the byte-level sub-timer registers, the decrement table, `sync` with reload, borrow, underflow and pivot events, and the packed `preset`/`count` getters.
- `pm.dfy` (`Pm`): memory and the register file. This covers `read1`/`read2`/`write1`/`write2`/`write2Reg`, the timer and audio cases of `readReg`/`writeReg`, and `load`.
- `command.dfy` (`Encoding`): `PMMusicCommand.toU16Array`, and a decoder that reads the words back.
- `ast.dfy` (`Ast`): the command variants with their `validate` range checks, `PulseWidth.outOf`, the note/string maps and `hexify`.
- `notegen.dfy` (`NoteGen`): note presets (`_getnotefreq`), `_mapVolume`, the MSVC-style random generator, and `_quant_sustain`/`_make_note` with arpeggio, portamento and random effects.
- `compiler.dfy` (`Compiler`): `Compiler.compile` over command sets, loops, macros and patterns, and the top-level `compile`.
- `parser.dfy` (`Parser`): the parser after tokenisation. This covers the number, boolean and name helpers, the option directives, the loop stack for track and MML bodies, the MML dialect rewrites, and the hidden `<name>_ENDBGM` pattern that ends or loops a BGM.
- `engine.dfy` (`MusicEngine`): `PMMusicEngine`. This covers its volume, play and stop operations, `irq`, and the `playdec` logic of `emulate`.

Errors the source throws are `Result`/`Option` values here. A fault in the player is returned next to the state the player was left in. Callbacks (`onEnd`, `onUnderflow`, `onPivot`) are events returned by the operation that would call them.

A BGM list is parsed as the code is written, not as its error message promises. A second `|` opens a set inside the first, because the "one loop mark" guard tests a flag that is never set (src/pmmusic/parser.ts:315, 333).

## Model

| member | source | states |
|---|---|---|
| Util.CapU32 | src/pmmusic/util.ts:1-4 | the result lies in [0, 2^32) and differs from the operand by a multiple of 2^32 |
| Util.CapS32 | src/pmmusic/util.ts:6-8 | the result lies in [-2^31, 2^31) and differs from the operand by a multiple of 2^32 |
| Util.CapU32Idempotent | src/pmmusic/util.ts:1-4 | capping an already capped value changes nothing |
| Util.CDiv | src/pmmusic/util.ts:10-16 | the quotient is `Abs(x) / Abs(y)` rounded down, negated when exactly one operand is negative, so it is zero whenever `Abs(x) < Abs(y)` |
| Util.CDivNegate | src/pmmusic/util.ts:10-16 | negating the dividend negates the quotient |
| Util.CDivBounds | src/pmmusic/util.ts:10-16 | the quotient never overshoots in magnitude, and what it leaves is smaller than the divisor |
| Util.UndefinedThrowsEmpty | src/pm/util.ts:10-17 | the wrapped source fails with `EmptyError` exactly when the sample is undefined, and otherwise passes the sample through |
| Timers.TableDec | src/pm/timers.ts:3-29 | a table entry is zero exactly for prescales 0 to 7 and never above 2^23 |
| Timers.TableDecSlower | src/pm/timers.ts:3-29 | a larger enabled prescale gives a strictly smaller decrement on either oscillator; Osc1's entries divide 2^24 exactly |
| Timers.DecZeroIff | src/pm/timers.ts:50-59 | a consistent half has a zero decrement exactly when it is disabled or its prescale is below 8 |
| Timers.SetEnabled | src/pm/timers.ts:65-68 | only `enabled` and the decrement change, and the half stays consistent |
| Timers.SetPrescale | src/pm/timers.ts:74-77 | only `prescale` and the decrement change, and the half stays consistent |
| Timers.SetOscillator | src/pm/timers.ts:83-86 | only bit 0 of the value is kept, only the oscillator and the decrement change, and the half stays consistent |
| Timers.SettersCommute | src/pm/timers.ts:50-86 | the three setters can be applied in any order with the same result |
| Timers.Reload | src/pm/timers.ts:133 | a reloaded count is a 32-bit value whose shown byte is the preset's low byte |
| Timers.ReloadIsShift | src/pm/timers.ts:133 | `capU32(preset << 24)` with JavaScript's shift is that reloaded count, for every preset |
| Timers.TopByteIsShift | src/pm/timers.ts:105 | `count >>> 24` is the count's shown byte |
| Timers.HighByteIsMask | src/pm/timers.ts:139 | `(count >>> 16) & 0xff00` is the shown byte moved up by 8 bits |
| Timers.CombineIsOr | src/pm/timers.ts:149-150 | OR-ing a shown byte with a shifted byte, in either order, gives their 16-bit sum, which `capU32` keeps |
| Timers.PresetWord | src/pm/timers.ts:159-161 | for byte presets, the `preset` getter is `hi * 256 + lo` |
| Timers.CountWordIsGetter | src/pm/timers.ts:163-165 | the `count` getter's JavaScript expression is the pair of shown bytes as one 16-bit value |
| Timers.CountDown | src/pm/timers.ts:130-137 | a disabled half is unchanged; an enabled one drops by `dec * cycles`, or restarts from its preset when it would go below zero; only the count changes |
| Timers.SyncSplit | src/pm/timers.ts:129-156 | split mode counts each half on its own, reports each half's underflow, and reports the pivot when `hi` is enabled and the count crosses the pivot from above |
| Timers.SyncWide | src/pm/timers.ts:103-128 | wide mode does nothing while `lo` is disabled; otherwise `lo` borrows from `hi`, and only `hi` running out is reported, together with a pivot crossing |
| Timers.Sync | src/pm/timers.ts:102-157 | only the counts change, no event repeats, and each of the three events is reported exactly under the condition the source checks |
| Timers.SyncDisabled | src/pm/timers.ts:102-157 | a timer with no counting half enabled is left alone and reports nothing |
| Timers.SyncIdle | src/pm/timers.ts:102-157 | a sync of zero cycles changes nothing and reports nothing |
| Timers.WideCountsDown | src/pm/timers.ts:104-117 | a wide-mode sync that borrows at most once lowers the combined counter by exactly the drain and reports no underflow |
| Timers.WideReloadShowsPreset | src/pm/timers.ts:109-114 | when `hi` runs out in wide mode, the `count` getter shows the `preset` getter's value |
| Pm.InitTimers | src/pm/pm.ts:27-38 | three timers exist afterwards, and validity is kept |
| Pm.InitAudio | src/pm/pm.ts:40-46 | the audio exists at level 3 afterwards, and validity is kept |
| Pm.NewPMValid | src/pm/pm.ts:16-25 | a new machine is valid, and so is one after `initTimers` and `initAudio` |
| Pm.TimerRegOf | src/pm/pm.ts:106-184 | only registers 0x18 to 0x4d name a timer field, and always one of the three timers |
| Pm.WriteTimer | src/pm/pm.ts:230-326 | a timer register write keeps the timer well formed |
| Pm.ReadRegAsWritten | src/pm/pm.ts:98-199 | a read fails exactly for register numbers outside 0 to 0xff |
| Pm.ReadReg | src/pm/pm.ts:98-199 | a read fails exactly for register numbers outside 0 to 0xff, with that number in the error; a plain register reads its stored byte |
| Pm.SetReg | src/pm/pm.ts:223-343 | the raw byte is stored first; timers change only for timer registers and the audio level only for 0x70 and 0x71; validity is kept |
| Pm.WriteReg | src/pm/pm.ts:223-224 | a write throws, and changes nothing, exactly for register numbers outside 0 to 0xff |
| Pm.Write2Reg | src/pm/pm.ts:85-88 | the pair fails unless `0 <= reg < 0xff`; at 0xff the low byte lands before the second write throws |
| Pm.Read1 | src/pm/pm.ts:48-54 | register addresses read the register; other addresses read memory and fail only outside it |
| Pm.Write1 | src/pm/pm.ts:67-74 | writes outside RAM and the registers throw "cannot write to ROM" and change nothing |
| Pm.Write2 | src/pm/pm.ts:76-83 | writes outside RAM and the registers throw "cannot write to ROM"; the only other fault is a register pair at the last register |
| Pm.Load | src/pm/pm.ts:90-96 | a load past the end throws before writing; otherwise every byte lands at its address and nothing else in memory changes |
| Pm.BankAddressValue | src/pm/pm.ts:49-50 | an address below 0x8000 is used as it is; one above selects `page * 0x8000` plus its low 15 bits |
| Pm.RamRoundTrip | src/pm/pm.ts:48-74 | a RAM byte written with `write1` reads back with `read1` as its low 8 bits |
| Pm.RamWordRoundTrip | src/pm/pm.ts:56-83 | a RAM word written with `write2` reads back with `read2` as its low 16 bits |
| Pm.WriteRegStoresByte | src/pm/pm.ts:224 | every register write stores its raw low byte |
| Pm.Write2RegStores | src/pm/pm.ts:85-88 | `write2Reg` stores the low byte at `reg` and `value >> 8` at `reg + 1` |
| Pm.PlainRegisterRoundTrip | src/pm/pm.ts:48-74 | a register with nothing behind it reads back the byte written |
| Pm.RegisterWordRoundTrip | src/pm/pm.ts:56-88 | two plain registers written with `write2` read back with `read2` as the 16-bit value |
| Pm.TimerRoundTrip | src/pm/pm.ts:106-372 | writing a timer register replaces that one timer by the written one, and reading the register back reads that timer's field |
| Pm.PrescaleRoundTrip | src/pm/pm.ts:201-204 | a prescale register reads back the byte written |
| Pm.OscRoundTrip | src/pm/pm.ts:206-209 | an oscillator register reads back the low two bits written |
| Pm.LoControlRoundTrip | src/pm/pm.ts:211-215 | a low control register reads back `value & 0x84` |
| Pm.HiControlRoundTrip | src/pm/pm.ts:217-221 | a high control register reads back `value & 0x04` |
| Pm.PresetRoundTrip | src/pm/pm.ts:256-263 | preset registers keep the value written as it is |
| Pm.PivotLowRoundTrip | src/pm/pm.ts:264-268 | a byte written to the pivot's low register replaces only the pivot's low byte, reads back, and leaves the high register alone |
| Pm.PivotHighRoundTrip | src/pm/pm.ts:269-273 | a byte written to the pivot's high register replaces only the pivot's high byte |
| Pm.AudioVolumeWrites | src/pm/pm.ts:332-338 | register 0x71 sets the level to `value & 3`; 0x70 silences when either low bit is set |
| Pm.AudioVolumeRoundTrip | src/pm/pm.ts:336-338 | the level written to 0x71 reads back from `ReadReg` |
| Pm.AudioVolumeReadsAmplitude | src/pm/pm.ts:191-193 | as written, register 0x71 reads back the amplitude 0x2000 after level 1 is written |
| Pm.Write2PresetWord | src/pm/pm.ts:85-88 | a 16-bit value written to a preset pair is what the `preset` getter shows |
| Pm.Write2PivotWord | src/pm/pm.ts:85-88 | a 16-bit value written to a pivot pair becomes the pivot |
| Encoding.FlagsOfLiteral | src/pmmusic/compiler.ts:8-15 | the eight `flags & FLAG_*` tests on a flags byte read its eight bits |
| Encoding.VolumeBits | src/pmmusic/compiler.ts:42-45 | `0x0400 + ((volume & 3) << 8)` puts the level in bits 8-9 with bit 10 set; `0x0300` sets level 3 |
| Encoding.RamWord | src/pmmusic/compiler.ts:49 | `(ramAddr << 8) \| ramData` is `addr * 256 + data` for byte operands |
| Encoding.EndMask | src/pmmusic/compiler.ts:63 | `data[0] &= 0xFC00` keeps exactly the presence bits |
| Encoding.EndOr | src/pmmusic/compiler.ts:64 | `\|= 0x4401` sets the end marker's jump bit, volume bit and a one-tick wait, keeping bits 11-13 |
| Encoding.LoopWord | src/pmmusic/compiler.ts:72-79 | `loopID << 10` and `(loopID << 10) \| (loopNum & 255)` put the id above bit 10 and the count in the low byte |
| Encoding.ToU16Array | src/pmmusic/compiler.ts:38-82 | a command packs into word 0 plus one word per present field, one to six words |
| Encoding.Word0Value | src/pmmusic/compiler.ts:39-79 | the `\|=`/`&=` updates build word 0 as wait byte, level bits and presence bits, one field per bit range |
| Encoding.TailValue | src/pmmusic/compiler.ts:47-79 | the optional words are the RAM, preset, pivot, jump and loop words in that order, each present exactly when its flag asks for it |
| Encoding.DecodeEncode | src/pmmusic/compiler.ts:38-82 | reading a packed command back, word 0's presence bits announce exactly the words that follow, and every field decodes to its value modulo the word size |
| Encoding.DecodeAllEncodeAll | src/pmmusic/compiler.ts:169-180 | a packed command list reads back command by command |
| Ast.CountCheck | src/pmmusic/ast.ts:270-276 | the shared count check passes exactly for values of at least 1 that respect a present, nonzero maximum, and otherwise names the failing field |
| Ast.ValidateLoop | src/pmmusic/ast.ts:76-80 | loop repeats pass exactly when they are 0 or more |
| Ast.ValidateWait | src/pmmusic/ast.ts:270-276 | a wait passes exactly when it is at least 1 and within a present, nonzero maximum |
| Ast.ValidateLength | src/pmmusic/ast.ts:377-383 | a length passes exactly when it is at least 1 and within a present, nonzero maximum |
| Ast.ValidateQuant | src/pmmusic/ast.ts:434-440 | a quantize value passes exactly when it is at least 1 and within a present, nonzero maximum |
| Ast.ValidateSustain | src/pmmusic/ast.ts:455-461 | a sustain passes exactly when it is at least 1 and within a present, nonzero maximum |
| Ast.ValidateEffectTicks | src/pmmusic/ast.ts:476-482 | effect ticks pass exactly when they are at least 1 and within a present, nonzero maximum |
| Ast.QuantSustainBounds | src/pmmusic/ast.ts:434-461 | against 64, quantize and sustain reject 0 and 65 and accept 1 and 64; an absent or zero maximum only asks for at least 1 |
| Ast.ValidateVolume | src/pmmusic/ast.ts:291-295 | a volume passes exactly when it lies in 0 to 15 |
| Ast.ValidateOctave | src/pmmusic/ast.ts:413-419 | an octave passes exactly when it respects each bound that is present, zero included |
| Ast.OutOf | src/pmmusic/ast.ts:312-316 | a percentage scales into 0 to max; a raw width is returned unchanged |
| Ast.OutOfPercent | src/pmmusic/ast.ts:312-316 | a percentage from 0 to 100 gives `max * w / 100` rounded down, and 100% gives the maximum |
| Ast.ValidatePulseWidthAsWritten | src/pmmusic/ast.ts:318-327 | as written: raw widths always pass, and a percentage passes when it lies in 0 to 100 and, with a maximum, not above it |
| Ast.RawWidthUnchecked | src/pmmusic/ast.ts:318-327 | as written, every raw width passes, -1 and 300 against 255 included |
| Ast.ValidatePulseWidth | src/pmmusic/ast.ts:318-327 | a percentage passes exactly in 0 to 100; a raw width passes exactly when it is non-negative and within a present, nonzero maximum |
| Ast.PulseWidthValidInRange | src/pmmusic/ast.ts:312-327 | a width that passes the check lands in 0 to max once scaled by `outOf` |
| Ast.ValidateRam | src/pmmusic/ast.ts:351-362 | without bounds anything passes; with bounds the address must lie in them and the data must equal `data & mask` |
| Ast.DataFitsIff | src/pmmusic/ast.ts:358-359 | for widths up to 30 bits, the mask test holds exactly for data in 0 to 2^bits - 1 |
| Ast.RamByteBounds | src/pmmusic/ast.ts:351-362 | against address 0 to 255 and 8 data bits, exactly byte addresses and byte data pass |
| Ast.ValidatePlayPattern | src/pmmusic/ast.ts:116-121 | a pattern call passes exactly when its name is non-empty and, with a table, defined |
| Ast.ValidatePlayMacro | src/pmmusic/ast.ts:136-141 | a macro call passes exactly when its name is non-empty and, with a table, defined |
| Ast.ValidateEffectStart | src/pmmusic/ast.ts:499-507 | an effect passes exactly when its name is non-empty and, with a table, supported |
| Ast.ValidatePlayNote | src/pmmusic/ast.ts:233-253 | a note passes exactly when it is a note, any length is at least 1 and within a nonzero maximum, and the extension is non-negative and within its maximum |
| Ast.ValidateRow | src/pmmusic/ast.ts:164-192 | a row passes exactly when every present field passes its own check against the row bounds |
| Ast.Str2Note | src/pmmusic/ast.ts:526-579 | a name the table knows is one or two characters and gives a note from rest to B+ |
| Ast.Str2NoteTable | src/pmmusic/ast.ts:526-541 | every key of the name table gives its note |
| Ast.Str2NoteMisses | src/pmmusic/ast.ts:526-579 | lower-case names, `#`, a doubled accidental and the empty name are not in the table |
| Ast.Note2Str | src/pmmusic/ast.ts:581-588 | every note has a sharp-spelled name, and without an octave the octave text is empty |
| Ast.Note2Flat | src/pmmusic/ast.ts:590-597 | every note has a flat-spelled name, and without an octave the octave text is empty |
| Ast.NoteNameRoundTrip | src/pmmusic/ast.ts:543-588 | a pitched note rendered by `note2str` without an octave reads back as that note |
| Ast.FlatNameRoundTrip | src/pmmusic/ast.ts:560-597 | a pitched note rendered by `note2flat` without an octave reads back as that note |
| Ast.RestName | src/pmmusic/ast.ts:582 | the rest renders as "r", which reads back only after upper-casing |
| Ast.NoteOctaveWraps | src/pmmusic/ast.ts:583-586 | with an octave, C- renders as b of the octave below and B+ as c of the octave above, naming the same pitch |
| Ast.NoteOctaveNatural | src/pmmusic/ast.ts:581-588 | C to B keep their name and octave, and the upper-cased name reads back |
| Ast.Hexify | src/pmmusic/ast.ts:336-339 | the text starts with "$" |
| Ast.HexifyDigits | src/pmmusic/ast.ts:336-339 | for a non-negative number the text after "$" has at least `len` hex digits, and they spell the number |
| NoteGen.DefaultCtxOk | src/pmmusic/compiler.ts:230-246 | the default compiler context lies within the ranges validation keeps every field in |
| NoteGen.GetNoteFreqAsWritten | src/pmmusic/compiler.ts:494-506 | as written, the lookup is undefined exactly at semitone index 84, one past the table |
| NoteGen.TopNoteUndefined | src/pmmusic/compiler.ts:494-506 | C in octave 9 (and B+ in octave 8) has index 84 and reads past the table |
| NoteGen.GetNoteFreq | src/pmmusic/compiler.ts:494-506 | off the table the preset is 0xFFFF, on it the table entry; every result lies in 0x1F9 to 0xFFFF |
| NoteGen.GetNoteFreqAgrees | src/pmmusic/compiler.ts:494-506 | wherever the as-written lookup is defined it gives the corrected one's value |
| NoteGen.NoteTableDecreasing | src/pmmusic/compiler.ts:497-505 | a higher semitone always has a strictly smaller preset |
| NoteGen.NoteTableRange | src/pmmusic/compiler.ts:497-505 | every table entry lies between the last entry 0x1F9 and the first 0xEEE3 |
| NoteGen.OctaveUp | src/pmmusic/compiler.ts:495 | one octave up, or twelve semitones up, is twelve table entries on |
| NoteGen.MapVolume | src/pmmusic/compiler.ts:573-578 | a volume maps to level 0 to 3, at least 1 above 2, at least 2 above 4 and 3 above 8 |
| NoteGen.MapVolumeMonotone | src/pmmusic/compiler.ts:573-578 | a louder volume never maps to a lower level |
| NoteGen.Rand | src/pmmusic/compiler.ts:594-597 | the new state is `state * 1103515245 + 12345` modulo 2^32, and the output is its bits 16 to 30 |
| NoteGen.RandBits | src/pmmusic/compiler.ts:596 | `(state >> 16) & 0x7fff` with JavaScript's signed shift gives bits 16 to 30 of the state |
| NoteGen.Srand | src/pmmusic/compiler.ts:590-592 | the seed is stored modulo 2^32 |
| NoteGen.EffectPreset | src/pmmusic/compiler.ts:540-558 | only the random effect draws from the generator; without an effect the preset is the note's, and an arpeggio picks one of its three presets |
| NoteGen.NoteFlagsRead | src/pmmusic/compiler.ts:533-537 | the flag tests on a note command read back volume, preset and pivot for a sounding note, and the RAM write when one is pending |
| NoteGen.PivotOf | src/pmmusic/compiler.ts:561 | the pivot is a 16-bit value |
| NoteGen.NoteCommand | src/pmmusic/compiler.ts:527-565 | one command waits 1 to 255 ticks (the effect tick count under an effect when sounding), has a volume level 0 to 3, the flags its note and RAM write call for, and the pending RAM write |
| NoteGen.NoteCommandEncodable | src/pmmusic/compiler.ts:527-565 | a note command built from a validated context is one the encoder packs |
| NoteGen.NoteLoop | src/pmmusic/compiler.ts:526-570 | the loop emits at least one command, only the first carries the RAM write, the pointer moves on once per command, and without a wait-changing effect the waits add up to the ticks asked for |
| NoteGen.MakeNote | src/pmmusic/compiler.ts:524-571 | a wait of 0 or less still plays one tick; otherwise as the loop |
| NoteGen.SplitNote | src/pmmusic/compiler.ts:508-522 | the sustained, released and silent parts are non-negative and add up to the wait (at least 1); full quantize leaves no silent part |
| NoteGen.OnBounds | src/pmmusic/compiler.ts:510-513 | `trunc(w * q / 64)` lies in 0 to `w`, and equals `w` at 64 |
| NoteGen.AppendEmitted | src/pmmusic/compiler.ts:508-571 | output from a context followed by output from where it stopped is output from that context, and the ticks add up |
| NoteGen.QuantSustain | src/pmmusic/compiler.ts:508-522 | a note emits at least one command of the `_make_note` shape, and without an effect its waits add up to the wait (at least 1) |
| NoteGen.ThreeParts | src/pmmusic/compiler.ts:512-521 | the sustained, released and silent parts in a row keep that shape and add up to the parts' ticks |
| Compiler.FixedPacks | src/pmmusic/compiler.ts:38-82 | the mark, loop, jump, end and rest commands pack whenever their loop id is one the compiler hands out |
| Compiler.ArpPointer | src/pmmusic/compiler.ts:464-465 | JavaScript's signed `% 3`, moved up by 3 when negative, is the arithmetic residue in 0 to 2 |
| Compiler.ApplyEffect | src/pmmusic/compiler.ts:455-492 | an effect succeeds exactly when it is known and has few enough parameters, with the matching error otherwise; `s` only reseeds the generator; the others set their notes or pointer and the effect type and leave the generator alone |
| Compiler.StepOctave | src/pmmusic/compiler.ts:368-374 | `>` goes up one octave but never past 9, `<` down one but never below 1 |
| Compiler.StepOctaveInverse | src/pmmusic/compiler.ts:368-374 | inside 1 to 9, a step is undone by the opposite step and the octave stays inside |
| Compiler.SetCount | src/pmmusic/compiler.ts:347-390 | wait, length, quantize, sustain and effect ticks are validated against 255, 64, 64, 64 and 128 and stored; a wait passes exactly in 1 to 255 and a quantize in 1 to 64 |
| Compiler.SetSound | src/pmmusic/compiler.ts:351-378 | an octave passes exactly in 1 to 9, a RAM write exactly for a byte to a byte address, and a step moves the octave within 1 to 9 |
| Compiler.SetContext | src/pmmusic/compiler.ts:347-394 | the setting commands keep the context valid, and only an effect command moves the generator |
| Compiler.RowLimitsMean | src/pmmusic/compiler.ts:284-293 | validation against the compiler's row limits admits a row exactly when each present field lies in its range |
| Compiler.RowSettings | src/pmmusic/compiler.ts:294-315 | a row's present fields replace the context's wait, quantize, sustain and RAM write, and leave the effect notes alone |
| Compiler.RowContext | src/pmmusic/compiler.ts:284-318 | a row without an effect passes exactly when its fields fit, keeps the generator and sets the wait it names |
| Compiler.CompileRow | src/pmmusic/compiler.ts:283-328 | a row compiles exactly when its context updates pass, emits packable commands with legal waits, whose first alone carries the context's RAM write, and without an effect lasts the row's wait |
| Compiler.DotNum | src/pmmusic/compiler.ts:583 | the dot factor's numerator is one less than twice its denominator |
| Compiler.DottedTicks | src/pmmusic/compiler.ts:580-584 | the ticks of a note, computed as the source computes them in doubles, are never negative |
| Compiler.ExactTicks | src/pmmusic/compiler.ts:580-584 | the exact ticks of a note of up to four dots lie below twice the wait |
| Compiler.DottedTicksNearExact | src/pmmusic/compiler.ts:331-344 | double arithmetic gives the exact ticks, except that a dotted note whose exact ticks are whole can come out one short |
| Compiler.DottedTicksShort | src/pmmusic/compiler.ts:331-344 | `w70 l7 c.` gives 14 ticks where the exact value is 15, and `l9 c..` at wait 36 gives 6 where it is 7 |
| Compiler.RestAsWritten | src/pmmusic/compiler.ts:333-339 | as written, a rest is one volume-0 command carrying the whole tick count (at least 1) |
| Compiler.RestWaitByte | src/pmmusic/compiler.ts:41 | that rest command counts down only the low byte of its wait |
| Compiler.LongRestWraps | src/pmmusic/compiler.ts:333-339 | a dotted whole rest at wait 255 lasts 382 ticks, and the one command carrying them packs a wait of 126 |
| Compiler.RestRun | src/pmmusic/compiler.ts:333-339 | a rest is cut into volume-0 commands of at most 255 ticks whose waits add up to the rest's ticks (at least 1) |
| Compiler.CompilePlayNote | src/pmmusic/compiler.ts:329-346 | a note compiles exactly when it validates against length 64 and four dots; a rest keeps the context and lasts the note's ticks; a sounding note emits note output which, without an effect, lasts the note's ticks |
| Compiler.WithNext | src/pmmusic/compiler.ts:415-419 | a pattern ends in an `End` or a jump afterwards, and only a jump was added, if anything |
| Compiler.CompileSet | src/pmmusic/compiler.ts:259-276 | a set entered at loop id 3 is refused; a loop of 0 repeats emits nothing; a repeated loop starts with its mark and ends with its loop command for `repeats - 1` more plays; every pattern a plain set plays lands in the pattern memo |
| Compiler.CompileLooped | src/pmmusic/compiler.ts:270-275 | a repeated loop begins with the mark and ends with the loop command for `times` more plays |
| Compiler.CompileList | src/pmmusic/compiler.ts:278-441 | the commands compile in order, the context and memo tables are kept valid, and every pattern played lands in the pattern memo |
| Compiler.CompileOne | src/pmmusic/compiler.ts:278-441 | a pattern emits nothing and lands in the memo; a pattern after emitted commands and a stray command set are refused |
| Compiler.CompileStep | src/pmmusic/compiler.ts:283-437 | `End` emits the end marker, a jump its jump command, rows and notes emit something, the setting commands emit nothing, and the memo tables are left alone |
| Compiler.CompileMacro | src/pmmusic/compiler.ts:395-408 | a macro must exist and be named; without transclusion it compiles once, is memoised and leaves the caller's context alone, and a memoised macro is reused as it is |
| Compiler.CompilePattern | src/pmmusic/compiler.ts:409-422 | a played pattern must exist and be named, emits nothing where it is played, keeps the caller's context, and is compiled only once |
| Compiler.PatternNames | src/pmmusic/compiler.ts:107 | a BGM lists, position by position, the names of the patterns it plays |
| Compiler.CompileBgms | src/pmmusic/compiler.ts:101-108 | every BGM asked for must exist and maps to its pattern names, all of which are in the pattern memo; a missing BGM is an error |
| Compiler.CompilePatterns | src/pmmusic/compiler.ts:113-119 | every pattern asked for must exist and is in the output; a missing one is an error |
| Compiler.CompileSfxs | src/pmmusic/compiler.ts:121-125 | every sound effect asked for must exist and is in the output; a missing one is an error |
| Compiler.Compile | src/pmmusic/compiler.ts:91-128 | the output holds exactly the BGMs and sound effects asked for and every pattern asked for or played by a BGM; every list packs; a missing name is an error |
| Compiler.CompiledReadsBack | src/pmmusic/compiler.ts:91-128 | every compiled pattern and sound effect reads back from its packed words as the packets it stands for |
| Compiler.RepeatedLoopShape | src/pmmusic/compiler.ts:266-281 | a loop of more than one repeat is its mark, its body compiled as if something had been emitted, and the loop command for `repeats - 1` more plays; it fails exactly when the body does |
| Compiler.LoopedShape | src/pmmusic/compiler.ts:270-275 | a repeated loop compiles to mark, body and loop command, fails exactly when its body does, and with the body's error |
| Compiler.PlainSetIsList | src/pmmusic/compiler.ts:266-281 | a plain set, or a loop played once, is its commands compiled in order with nothing before them |
| Compiler.LoopOnceIsBody | src/pmmusic/compiler.ts:266-281 | a loop played once emits no mark and no loop command |
| Compiler.NestedLoopsExceed | src/pmmusic/compiler.ts:259-262 | loops nested deeper than loop id 2 are refused with "number of loops exceeded", whatever the innermost loop holds |
| Compiler.NestedSetExceeds | src/pmmusic/compiler.ts:259-262 | a repeated loop whose loops nest past the last id is refused |
| Compiler.DeepestSetExceeds | src/pmmusic/compiler.ts:261-262 | a set entered with loop id 3 is refused |
| Compiler.FixedFlagBits | src/pmmusic/compiler.ts:8-15 | the flags of the fixed commands fit in a byte, never ask for a RAM write, and a mark or loop command carries exactly its own flag |
| Compiler.RowCounts | src/pmmusic/compiler.ts:300-315 | a row's wait, quantize, sustain and effect ticks replace the context's when present, and nothing else changes |
| Compiler.RowSound | src/pmmusic/compiler.ts:295-313 | a row's RAM write and mapped volume replace the context's when present, and only octave, volume, pulse and RAM fields change |
| Compiler.Sound | src/pmmusic/compiler.ts:283-346 | a row or a note that compiles emits at least one packable command and keeps the context valid |
| Compiler.ExactExamples | src/pmmusic/compiler.ts:580-584 | the exact ticks of `w70 l7 c.` are 15 and of `l9 c..` at wait 36 are 7 |
| Compiler.DottedOnce | src/pmmusic/compiler.ts:344 | `w70 l7 c.` computes 14 ticks in doubles |
| Compiler.DottedTwice | src/pmmusic/compiler.ts:344 | `l9 c..` at wait 36 computes 6 ticks in doubles |
| Compiler.PackedRoundTrip | src/pmmusic/compiler.ts:38-82 | a list of packable commands reads back from its packed words as the packets it stands for |
| Compiler.SetPassesError | src/pmmusic/compiler.ts:278-282 | a repeated loop whose body runs out of loop ids is refused the same way |
| Compiler.OneLoopFails | src/pmmusic/compiler.ts:279-282 | a loop whose own set is refused for too many loops makes the enclosing list refused the same way |
| Parser.Run | src/pmmusic/parser.ts:7-9 | the digit run the number patterns consume greedily: every character in it is a digit of the base and the next one is not |
| Parser.DigitsAt | src/pmmusic/parser.ts:7-9 | a literal is found at a position exactly when at least one digit follows, and it is well formed with the base and sign asked for |
| Parser.ParsedToNum | src/pmmusic/parser.ts:600-604 | a number is read exactly when a hex or a decimal capture is present |
| Parser.ParseNumDecimal | src/pmmusic/parser.ts:586-598 | both number readers read any integer written in decimal back as itself |
| Parser.ParseNumHex | src/pmmusic/parser.ts:593-598 | `parseNum` reads any integer written in hex after `$` or `0x`, with its sign after the prefix, back as itself |
| Parser.ParseNum1Hex | src/pmmusic/parser.ts:586-591 | `parseNum1` reads any integer written as sign, `$` or `#`, then hex digits, back as itself |
| Parser.SignBeforePrefix | src/pmmusic/parser.ts:586-598 | `-$1F` is 31 to `parseNum`, which skips the leading minus, and -31 to `parseNum1` |
| Parser.SignAfterPrefix | src/pmmusic/parser.ts:586-598 | `$-1F` is -31 to `parseNum`, while `parseNum1` finds only the decimal `-1` |
| Parser.ParsedToNumAgrees | src/pmmusic/parser.ts:600-604 | a captured literal of either base, signed or not, reads as the integer it spells |
| Parser.ParseBool | src/pmmusic/parser.ts:606-614 | false exactly for `no`, `false` or `0` and true exactly for `yes`, `true` or `1`, ignoring case and surrounding space |
| Parser.ParseBoolTrimmed | src/pmmusic/parser.ts:606-614 | trimming first changes nothing |
| Parser.ParseBoolAnyCase | src/pmmusic/parser.ts:606-614 | upper-casing first changes nothing |
| Parser.LeadingName | src/pmmusic/parser.ts:4-5 | the identifier at the start of the text: a prefix of it, starting with a letter or `_`, all word characters, and not followed by one; empty exactly when the text does not start with a name character |
| Parser.NameBodySplit | src/pmmusic/parser.ts:580-584 | the trimmed text is the name, some blank space and the body, with nothing lost |
| Parser.AsWrittenAgrees | src/pmmusic/parser.ts:580-584 | the two readings agree when the trimmed text starts with a name or holds none |
| Parser.NameSearchUnanchored | src/pmmusic/parser.ts:580-584 | for text like `1ab;…`, as written the name is `ab` and the body starts at `b`, where the anchored reading gives no name and the whole text as body |
| Parser.NestSucceeds | src/pmmusic/parser.ts:430-443 | the stack run succeeds exactly when no close comes with no loop open, every close has a count and no error token appears |
| Parser.NestKeepsItems | src/pmmusic/parser.ts:430-443 | a run that closes everything it opens keeps every item, in order, once the loops are flattened |
| Parser.BodyKeepsItems | src/pmmusic/parser.ts:341-453 | a balanced body keeps every item, in order, once the loops are flattened |
| Parser.LoopShapes | src/pmmusic/parser.ts:481-492 | `[c]3` nests c in a loop of 3, a loop left open at the end of a body is dropped, and a stray close is refused |
| Parser.Plays | src/pmmusic/parser.ts:329-331 | each pattern name becomes a play of that pattern, in order |
| Parser.FinishBgm | src/pmmusic/parser.ts:272-293 | an empty BGM is dropped; otherwise the list closes by playing the hidden `<name>_ENDBGM` pattern, which holds one command |
| Parser.AddBgm | src/pmmusic/parser.ts:269-294 | a non-empty BGM body enters the BGM and its hidden pattern and touches neither sound effects nor macros; an empty one leaves the song alone |
| Parser.BgmListPlain | src/pmmusic/parser.ts:313-339 | a BGM body without a loop mark is its names played in order |
| Parser.BgmListMarked | src/pmmusic/parser.ts:332-336 | a loop mark puts every later name in a set after the earlier ones |
| Parser.BgmWithoutLoop | src/pmmusic/parser.ts:286-292 | without a loop mark the BGM plays its patterns and then the hidden pattern, which ends the song |
| Parser.BgmWithLoop | src/pmmusic/parser.ts:277-292 | with a loop mark the looped names join the list before the hidden pattern, which jumps back over them, or ends the song when none follow the mark |
| Parser.MmlNote | src/pmmusic/parser.ts:493-499 | an MML note name with its accidental is a sounding note |
| Parser.AccidentalSteps | src/pmmusic/parser.ts:493-499 | `#` and `+` raise a note by one semitone and `-` lowers it by one |
| Parser.SystemVolumeAsWritten | src/pmmusic/parser.ts:536-540 | as written, every system-scale `v`, in the table or outside it, gives a volume that passes validation |
| Parser.SystemVolume | src/pmmusic/parser.ts:536-540 | the system scale has a volume exactly for steps 0 to 3, agrees with the table there and stays within 0 to 15 |
| Parser.SystemVolumeOverflow | src/pmmusic/parser.ts:536-540 | as written, `v5` in the system scale plays at 15 and passes validation, and `v-1` plays like `v3`; the corrected scale has no volume for either |
| Parser.SystemVolumeSteps | src/pmmusic/parser.ts:538 | the system steps rise strictly from 0 to 15 |
| Parser.MmlVolume | src/pmmusic/parser.ts:536-540 | `v` is the volume itself in the MML scale, the table's step in the system scale, and refused exactly for a system step outside 0 to 3 |
| Parser.ShortQuantRange | src/pmmusic/parser.ts:550-553 | a short quantize passes the compiler's limit of 64 exactly for steps 0 to 8 |
| Parser.MmlItem | src/pmmusic/parser.ts:481-575 | `[` opens and `]` closes a loop, with 2 repeats when no count is given; only a `v` or an effect can be refused |
| Parser.MmlOne | src/pmmusic/parser.ts:529-560 | only `v` among the single-number commands can be refused, and the rest each give one command |
| Parser.OctaveReverseSwaps | src/pmmusic/parser.ts:561-566 | reversing the octave swaps what `<` and `>` do, and `>` goes up by default |
| Parser.EffectTokens | src/pmmusic/parser.ts:507-525 | `xt` sets the effect ticks, defaulting to 1 and refusing two arguments; every other effect letter starts that effect with its arguments |
| Parser.MmlItems | src/pmmusic/parser.ts:461-576 | each MML token gives its own loop-stack token, in order |
| Parser.MmlBodyFlat | src/pmmusic/parser.ts:455-578 | an MML body without loops and without refused tokens is its commands in order |
| Parser.TrackItem | src/pmmusic/parser.ts:360-450 | a row is an item; a loop end carries its count; `MACRO` plays the trimmed name and fails without one; unknown words are skipped |
| Parser.LoopEndCount | src/pmmusic/parser.ts:437-440 | a loop end's count is missing only when a non-blank argument is not a number |
| Parser.LoopEndCounts | src/pmmusic/parser.ts:437-440 | no argument or a blank one keeps the default of 2, and a decimal number is read as itself |
| Parser.TrackItems | src/pmmusic/parser.ts:349-451 | a track gives at most one loop-stack token per command |
| Parser.TrackWordCase | src/pmmusic/parser.ts:360 | track words are recognised in any case |
| Parser.TrackSkipsUnknown | src/pmmusic/parser.ts:360-450 | a word the track does not know is skipped |
| Parser.TrackStrayEnd | src/pmmusic/parser.ts:434-436 | a loop end with no loop open is refused as an unexpected `ENDLOOP` |
| Parser.MacroNeedsName | src/pmmusic/parser.ts:444-446 | a `MACRO` with no argument fails the track |
| Parser.StrayAfterItem | src/pmmusic/parser.ts:434-436 | a close after an item at the top level is the stray error |
| Parser.TrackLoop | src/pmmusic/parser.ts:430-446 | `LOOP`, `MACRO name`, `ENDLOOP n` gives a loop of n around the call |
| Parser.TrackRepeatExample | src/pmmusic/parser.ts:430-446 | a loop end with a decimal count repeats that often |
| Parser.LoopAround | src/pmmusic/parser.ts:430-443 | open, item, close with n gives a loop of n around the item |
| Parser.OptionCase | src/pmmusic/parser.ts:119 | directive names are recognised in any case |
| Parser.VolLevel | src/pmmusic/parser.ts:171-182 | `VOLLEVEL` accepts exactly `mml`, `16`, `system` and `4`, in any case, and picks the MML scale exactly for the first two |
| Parser.SetOption | src/pmmusic/parser.ts:153-197 | each option directive sets exactly its option when its argument reads, fails with the matching error otherwise, and never touches the bodies |
| Parser.SetOptionTwice | src/pmmusic/parser.ts:153-197 | giving an option directive twice is the same as giving it once |
| Parser.SetOptionsCommute | src/pmmusic/parser.ts:153-197 | two different option directives can be given in either order |
| Parser.Define | src/pmmusic/parser.ts:295-303 | a pattern, sound effect or macro body is stored under its name in its own table and nothing else changes |
| Parser.RedefineReplaces | src/pmmusic/parser.ts:295-303 | defining a body again under the same name replaces the first |
| MusicEngine.EnableBgm | src/pmmusic/engine.ts:144-145 | enabling the music sets its bit and leaves the effect's bit as it was |
| MusicEngine.EnableSfx | src/pmmusic/engine.ts:179-180 | enabling the effect sets its bit and leaves the music's bit as it was |
| MusicEngine.DisableBgm | src/pmmusic/engine.ts:160-161 | disabling the music clears its bit, keeps the effect's, and leaves nothing enabled exactly when the effect was off |
| MusicEngine.DisableSfx | src/pmmusic/engine.ts:193-194 | disabling the effect clears its bit, keeps the music's, and leaves nothing enabled exactly when the music was off |
| MusicEngine.EnableBitsAreMasks | src/pmmusic/engine.ts:144-145 | the source's `&= 0x02`, `\|= 0x01` and the other mask steps compute exactly these enable and disable operations |
| MusicEngine.SetVolAsWritten | src/pmmusic/engine.ts:115-127 | as written, a volume below 5 becomes the master volume with its table row; a negative one reads `VOLTABLE[-1]`, which is no table at all; 5 and above change nothing |
| MusicEngine.SetVol | src/pmmusic/engine.ts:115-127 | a volume from 0 to 4 becomes the master volume with its table row, any other changes nothing, and nothing else in the stream changes |
| MusicEngine.NegativeVolumeLosesTable | src/pmmusic/engine.ts:115-127 | as written, setting volume -1 leaves the stream without a volume table, where the corrected setter ignores it |
| MusicEngine.SetVolAgrees | src/pmmusic/engine.ts:115-127 | the two setters agree on every volume that is not negative |
| MusicEngine.SetMasterTime | src/pmmusic/engine.ts:129-132 | the master time is recorded and nothing but the machine changes |
| MusicEngine.MasterTimeSetsPreset | src/pmmusic/engine.ts:129-132 | a 16-bit master time becomes timer 1's preset |
| MusicEngine.PatternAt | src/pmmusic/engine.ts:137 | the first pattern of a list, or nothing when the list is empty |
| MusicEngine.PlayBgm | src/pmmusic/engine.ts:134-155 | the music restarts at the first command of the first pattern with no loops and wait 1, its bit is set, the effect is untouched, and a registered end callback is called |
| MusicEngine.StopBgm | src/pmmusic/engine.ts:156-166 | the music's data is emptied and its bit cleared, the effect's bit is kept, only the machine changes besides, and a registered end callback is called |
| MusicEngine.PlaySfx | src/pmmusic/engine.ts:171-187 | the effect restarts at its first command with no loops and wait 1, its bit is set, the music is untouched, and a registered end callback is called |
| MusicEngine.StopSfx | src/pmmusic/engine.ts:189-198 | the effect's data is emptied and its bit cleared, the music's bit is kept, only the machine changes besides, and a registered end callback is called |
| MusicEngine.PlayThenStopBgm | src/pmmusic/engine.ts:134-166 | playing then stopping the music leaves only the effect's bit, as it was |
| MusicEngine.PlayThenStopSfx | src/pmmusic/engine.ts:171-198 | playing then stopping the effect leaves only the music's bit, as it was |
| MusicEngine.Take | src/pmmusic/engine.ts:217-223 | a fetched command sets the wait, moves the cursor one on, and sets the play volume from the table only when it carries a volume |
| MusicEngine.Tune | src/pmmusic/engine.ts:231-236 | a command's preset and pivot replace the stream's only when their flags are set |
| MusicEngine.StoreRam | src/pmmusic/engine.ts:91-95 | a RAM write through the player's window succeeds exactly for an address inside the window and writes that byte |
| MusicEngine.CommandRam | src/pmmusic/engine.ts:228-230 | a command without the RAM flag writes nothing; a write never touches timers or audio |
| MusicEngine.JumpOf | src/pmmusic/engine.ts:244 | a 16-bit pattern offset is read as the signed number it encodes |
| MusicEngine.RepeatLoop | src/pmmusic/engine.ts:259-266 | a repeat without its mark is unmarked; otherwise it jumps back while the count differs from the repeat number and falls through once it is reached |
| MusicEngine.LoopPlaysBody | src/pmmusic/engine.ts:259-266 | after k jumps back, the count has grown by k, and the loop jumps again exactly while the count is below the repeat number |
| MusicEngine.Output | src/pmmusic/engine.ts:271-278 | the play volume's low two bits go to the audio volume register |
| MusicEngine.Tone | src/pmmusic/engine.ts:272-276 | programming the tone changes timers only, not the audio volume |
| MusicEngine.OutputProgramsTimer | src/pmmusic/engine.ts:272-277 | the stream's frequency becomes timer 2's preset and its pivot, shifted down four bits when the play volume's bit 2 is set, timer 2's pivot |
| MusicEngine.BgmOutput | src/pmmusic/engine.ts:270-278 | the music reaches the hardware only when the effect is off or at master volume 0 |
| MusicEngine.BgmLoops | src/pmmusic/engine.ts:252-267 | loop bookkeeping faults exactly on a repeat with no mark, and touches neither the effect nor the machine |
| MusicEngine.BgmJump | src/pmmusic/engine.ts:242-251 | a pattern jump faults and stops the player exactly when it leaves the pattern list, and otherwise continues at the start of the target pattern |
| MusicEngine.BgmCommand | src/pmmusic/engine.ts:216-267 | a music command past the end of its pattern stops the player with an out-of-range fault; an end command disables the music and keeps the effect's bit |
| MusicEngine.BgmCommandAsWritten | src/pmmusic/engine.ts:216-226 | as written, the read past the end throws before the range check and leaves the player enabled; otherwise it is the corrected command |
| MusicEngine.RangeCheckUnreachable | src/pmmusic/engine.ts:216-226 | as written, a read that gets past the read itself never fails the range check that follows |
| MusicEngine.RunOffEnd | src/pmmusic/engine.ts:216-226 | a music stream read past the end stays enabled as written, where the corrected one is disabled and later interrupts do nothing |
| MusicEngine.BgmFetch | src/pmmusic/engine.ts:213-280 | the fetch loop spends budget, stops on a nonzero wait while budget is left, reports events only when the music ends, and then clears only the music's bit |
| MusicEngine.BgmPhase | src/pmmusic/engine.ts:207-282 | with the music off nothing happens; a wait above 1 only counts down; an end clears only the music's bit |
| MusicEngine.SfxLoops | src/pmmusic/engine.ts:319-332 | the effect's loop bookkeeping faults exactly on a repeat with no mark, and touches neither the music nor the machine |
| MusicEngine.SfxCommand | src/pmmusic/engine.ts:293-332 | an effect command past the end faults out of range and stops the player; an end or a pattern jump, once its RAM write succeeds, and only that, stops the effect and keeps the music's bit |
| MusicEngine.SfxCommandAsWritten | src/pmmusic/engine.ts:293-304 | as written, the effect's read past the end throws before the range check and leaves the player enabled |
| MusicEngine.SfxRunOffEnd | src/pmmusic/engine.ts:293-304 | an effect read past the end stays enabled as written, where the corrected one is disabled and later interrupts do nothing |
| MusicEngine.SfxFetch | src/pmmusic/engine.ts:290-342 | the effect's fetch loop spends budget, stops on a nonzero wait while budget is left, and leaves the music alone |
| MusicEngine.SfxPhase | src/pmmusic/engine.ts:284-344 | with the effect off nothing happens, and the music is never touched |
| MusicEngine.Irq | src/pmmusic/engine.ts:204-350 | an interrupt keeps the player well formed and its pattern list intact |
| MusicEngine.QuietIrq | src/pmmusic/engine.ts:204-350 | with both streams off an interrupt does nothing |
| MusicEngine.BgmWaits | src/pmmusic/engine.ts:208-212 | with only the music on and a wait above 1, an interrupt only counts the wait down |
| MusicEngine.BgmEndSkipsSfx | src/pmmusic/engine.ts:238-241 | when the music ends inside an interrupt the interrupt returns at once: the effect is not processed, no fault is raised, and only the music's bit is cleared |
| MusicEngine.FetchEndsWaiting | src/pmmusic/engine.ts:269 | a fetch that stops with budget left leaves a nonzero wait |
| MusicEngine.SelfJumpOnlyJumps | src/pmmusic/compiler.ts:12-13 | the command with only the pattern flag and offset 0 jumps and does nothing else |
| MusicEngine.SpinStep | src/pmmusic/engine.ts:242-251 | a pattern that only jumps to itself reads back the state it started from |
| MusicEngine.SpinsOut | src/pmmusic/engine.ts:213-215 | such a pattern spends the whole fetch budget without changing anything |
| MusicEngine.SelfJumpOverflows | src/pmmusic/engine.ts:346-349 | an interrupt on such a pattern ends in the recursive-overflow fault with the player disabled |
| MusicEngine.SelfJumpSpends | src/pmmusic/engine.ts:205-215 | the music half of that interrupt spends the budget down to -1 with wait 0 |
| MusicEngine.JumpSpends | src/pmmusic/engine.ts:205-215 | any command that only jumps by 0 spends the budget the same way |
| MusicEngine.SetTimer | src/pmmusic/engine.ts:359-360 | syncing one timer replaces that timer and nothing else |
| MusicEngine.SyncAll | src/pmmusic/engine.ts:366-370 | a round of timer updates keeps the player well formed |
| MusicEngine.Rounds | src/pmmusic/engine.ts:358-370 | any number of rounds keeps the player well formed |
| MusicEngine.QuietSync | src/pmmusic/engine.ts:366-370 | a silent player stays silent through a round, with no events or fault |
| MusicEngine.QuietRounds | src/pmmusic/engine.ts:358-370 | a silent player stays silent through any number of rounds |
| MusicEngine.Emulate | src/pmmusic/engine.ts:352-374 | `playdec` is reset to 36 while anything is enabled and counts down otherwise, and the answer is whether it is nonzero |
| MusicEngine.Answers | src/pmmusic/engine.ts:352-374 | n calls give at most n answers |
| MusicEngine.SilenceWindsDown | src/pmmusic/engine.ts:352-374 | once the player is silent, the k-th later call answers that playback continues exactly when `playdec` was not k |
| MusicEngine.QuietStep | src/pmmusic/engine.ts:352-374 | a silent player's call counts `playdec` down by one without a fault |
| MusicEngine.NewEngine | src/pmmusic/engine.ts:67-113 | a new player fails exactly when its RAM offset lies outside -0x1000 to 0x1000 (a negative offset opens the window over the BIOS area below RAM); otherwise nothing is enabled, audio is silent, both streams wait 1 with master volume 4, and the window is where it was asked |
| Float.Quot | src/pmmusic/compiler.ts:583 | the quotient of two positive integers rounded to the nearest double: a 53-bit mantissa within half a unit of the exact quotient, and even on a tie |
| Float.Trunc | src/pmmusic/compiler.ts:344 | `Math.trunc` of a positive double: the largest integer not above it |
| Float.TruncQuot | src/pmmusic/compiler.ts:335 | truncating a rounded quotient of integers gives the floored integer quotient |
| Float.DivByQuot | src/pmmusic/compiler.ts:344 | dividing an integer by a rounded quotient gives another normal double |
| Float.TwoRoundings | src/pmmusic/compiler.ts:344 | `Math.trunc(w / (a / b))` is the exact `w * b / a` rounded down, or one less, and only when that quotient is whole |

## Left out

- Tokenisation: the regular expressions of the parser (src/pmmusic/parser.ts:4-67) are not modelled. Token streams (`BgmTok`, `MmlTok`, `TrackTok`) stand for what they deliver, with numbers already read. `lineChar` error positions and message texts are not modelled.
- `Parser.TrackItem`: the `ROW` sub-command parsing of a track (src/pmmusic/parser.ts:361-429) is not modelled, and neither is its `lastOctave` tracking. A `TRow` token carries the finished `Row`.
- The top-level `parse` loop (src/pmmusic/parser.ts:101-311) is modelled as separate operations: `Parser.SetOption`, `Parser.Define`, `Parser.AddBgm`, `Parser.MmlBody` and `Parser.TrackBody`. `INCLUDE` needs a text fetcher (I/O). `TITLE` and the other text directives only store trimmed strings. The `DESCRIPTION` block is text reflow. None of these is modelled.
- `MASTERBPM` (src/pmmusic/parser.ts:157-170) computes in floating point and is not modelled.
- `whole` integrality checks in the validators are vacuous, because every number in the model is an integer; the parser only produces integers.
- `CompileReturn.toPMAS` (src/pmmusic/compiler.ts:147-209) formats text from encoded words and is not modelled.
- `makeEndCommand` (src/pmmusic/engine.ts:376-382) builds the same command as the compiler's `End`, `Compiler.EndCommand`, and has no member of its own.
- src/pm/audio.ts is not part of this model. That covers synthesis, filters, the sample FIFO and `Player.play`. Audio appears only as the volume level that register 0x71 stores; `audio.sync` in `emulate` is not modelled.
- src/pm/audout/node.ts, src/pm/audout/worker.js, src/pmsound.ts and the index files are output sinks, the command line and re-exports, and are not part of this model.
- `Compiler.DottedTicks`: doubles are modelled only for operands up to `MaxTickOperand` (2^20). Overflow, subnormals and infinities cannot arise there and are not modelled.
- `NoteGen.Rand`: the model uses the exact recurrence `(seed * 1103515245 + 12345) mod 2^32`. The source multiplies in doubles, which lose low bits once the product passes 2^53. From seed 1 the source draws 16838, 5758, 5087; the model draws 16838, 5758, 10113.
- `Timers.TableDec`: the Osc2 decrements in the source's table are fractional (src/pm/timers.ts:17-29). The model floors them to integers.
- `Compiler.CompileSet`, `Compiler.CompileList`, `Compiler.CompileMacro`, `Compiler.CompilePattern`, `Compiler.Compile`: these take a `fuel` parameter, and `Exhausted` is returned when it runs out. The source has no such bound; a macro or pattern that plays itself recurses until the JavaScript stack overflows. `LoopsExceeded` is the source's own "number of loops exceeded".
- `Compiler.WithNext`: the source appends `JumpPattern(1)` to the pattern's AST in place (src/pmmusic/compiler.ts:418). The model compiles a copy with the jump added and leaves the AST unchanged. Later reads of the same AST therefore do not see the added jump.
- `Ast.ValidateRow`, `Compiler.SetSound`: these use the corrected `Ast.ValidatePulseWidth`, so a raw pulse width outside 0 to 255 is refused. The source accepts it (see Findings).
- `Compiler.CompileRow`, `Compiler.CompilePlayNote`: these use the corrected `NoteGen.GetNoteFreq`, so C in octave 9 gets no preset. In the source the preset is `undefined` (see Findings).
- `Compiler.CompilePlayNote`: a rest uses the corrected `Compiler.RestRun`, which splits a long rest into commands of at most 255 ticks. The source emits one command whose wait the encoder cuts to a byte (see Findings).
- `Parser.MmlVolume`: this uses the corrected `Parser.SystemVolume`, so a system-scale `v` outside 0 to 3 is refused. The source plays it at volume 15 (see Findings).
- `MusicEngine.BgmCommand`, `MusicEngine.SfxCommand`: these check the range before reading, so a read past the end disables the player. The source throws before its own check and leaves the player enabled (see Findings).
- `Pm.Read1`, `Pm.Read2`: these read register 0x71 through the corrected `Pm.ReadReg`, which returns the stored level. The source returns the audio amplitude (see Findings).
- `MusicEngine.SetVol`: a negative volume is ignored. The source stores `VOLTABLE[-1]`, which is `undefined` (see Findings).
- `Parser.GetNameMaybeBody`: the name is anchored at the start of the text. The source searches for it anywhere (see Findings).

## Findings

Nothing was executed. Each row names a member that models the code as written together with a lemma exhibiting the input, and the corrected member that the rest of the model uses.

| source | as written | input that shows it | evidently intended | confidence | as-written member | corrected member |
|---|---|---|---|---|---|---|
| src/pmmusic/ast.ts:318-327 | the width range checks are `else` branches of the inner `if` under `if (this.percent)`, so a raw width is never range-checked | `PulseWidth(300)` or `PulseWidth(-1)` validated against 255 passes | raw widths checked against `maxWidth` and for being negative | not executed | Ast.ValidatePulseWidthAsWritten, Ast.RawWidthUnchecked | Ast.ValidatePulseWidth, Ast.PulseWidthValidInRange |
| src/pmmusic/compiler.ts:494-506 | the guard `num > 7 * 12` lets index 84 through to an 84-entry table | C in octave 9 (or note 12 in octave 8) reads `undefined` | index 84 treated as off the table (0xFFFF) | not executed | NoteGen.GetNoteFreqAsWritten, NoteGen.TopNoteUndefined | NoteGen.GetNoteFreq, NoteGen.GetNoteFreqAgrees |
| src/pmmusic/compiler.ts:333-339 | a rest is one command carrying all its ticks, and the encoder keeps only the wait's low byte | `w255 r1.` lasts 382 ticks but encodes wait 126 | a long rest split into commands of at most 255 ticks, like notes | not executed | Compiler.RestAsWritten, Compiler.LongRestWraps | Compiler.RestRun, Compiler.CompilePlayNote |
| src/pmmusic/parser.ts:536-540 | `[0, 4, 8, 15][arg1]` is read without a bounds check, and `undefined` becomes the default volume 15 | `v5` in the system scale plays at 15 and passes validation | a system step outside 0 to 3 refused | not executed | Parser.SystemVolumeAsWritten, Parser.SystemVolumeOverflow | Parser.SystemVolume, Parser.MmlVolume |
| src/pmmusic/engine.ts:216-226 | `bgmData[bgmDataOffset]` is read before the range check, so past the end `cmd.wait` throws a TypeError and `audEna` stays set; the check itself can never fail | a BGM pattern with no end command runs off its end | the range check stops the player (`audEna = 0`) | not executed | MusicEngine.BgmCommandAsWritten, MusicEngine.RunOffEnd, MusicEngine.RangeCheckUnreachable | MusicEngine.BgmCommand |
| src/pmmusic/engine.ts:293-304 | the same read-before-check in the SFX fetch | a sound effect with no end command runs off its end | the range check stops the player | not executed | MusicEngine.SfxCommandAsWritten, MusicEngine.SfxRunOffEnd | MusicEngine.SfxCommand |
| src/pm/pm.ts:191-193 | reading register 0x71 returns `audio.volume`, the amplitude, not the level written | write 1 to 0x71, read 0x2000 back | the register reads back the level, `value & 3` | not executed | Pm.ReadRegAsWritten, Pm.AudioVolumeReadsAmplitude | Pm.ReadReg, Pm.AudioVolumeRoundTrip |
| src/pmmusic/engine.ts:115-127 | `volume < 5` admits negative volumes, storing `VOLTABLE[-1]`, which is `undefined` | `setVolBGM(-1)`, then any command with a volume throws | volumes 0 to 4 only | not executed | MusicEngine.SetVolAsWritten, MusicEngine.NegativeVolumeLosesTable | MusicEngine.SetVol, MusicEngine.SetVolAgrees |
| src/pmmusic/parser.ts:580-584 | the name pattern is searched anywhere in the text, but the body is cut at the name's length from the start | `PATTERN 1ab c` gives name `ab` and body `b c` | the name anchored at the start | not executed | Parser.GetNameMaybeBodyAsWritten, Parser.NameSearchUnanchored | Parser.GetNameMaybeBody, Parser.NameBodySplit |

=== FILE: ast.dfy ===
/** The music AST: a closed sum of command variants, the range checks each
    variant's `validate` performs, the note/name tables and `hexify`. */
module Ast {
  import opened Wrappers
  import opened Util
  import opened Bits
  import opened Text

  // ---------------------------------------------------------------------
  // Notes: a rest, then the semitones of an octave with the two enharmonic
  // spill-overs Cb (previous octave's B) and Bs (next octave's C).

  const Rest: int := -2
  const Cb: int := -1
  const C: int := 0
  const Cs: int := 1
  const D: int := 2
  const Ds: int := 3
  const E: int := 4
  const F: int := 5
  const Fs: int := 6
  const G: int := 7
  const Gs: int := 8
  const A: int := 9
  const As: int := 10
  const B: int := 11
  const Bs: int := 12

  predicate IsNote(n: int) {
    Rest <= n <= Bs
  }

  /** Index into the driver's 84-entry preset table of note `n` in octave `o`. */
  function Pitch(n: int, o: int): int {
    (o - 1) * 12 + (n - 12)
  }

  // ---------------------------------------------------------------------
  // Commands

  datatype PulseWidth = PulseWidth(width: int, percent: bool)

  datatype RowNote = RowNote(note: int, octave: Option<int>)

  datatype RamWrite = RamWrite(addr: int, data: int)

  datatype Effect = Effect(kind: string, params: seq<int>)

  /** A tracker row: every field is optional. */
  datatype Row = Row(
    note: Option<RowNote>,
    wait: Option<int>,
    volume: Option<int>,
    pulseWidth: Option<PulseWidth>,
    quant: Option<int>,
    sustain: Option<int>,
    ram: Option<RamWrite>,
    effectTicks: Option<int>,
    effect: Option<Effect>)

  const EmptyRow := Row(None, None, None, None, None, None, None, None, None)

  datatype Command =
    | CommandSet(commands: seq<Command>)
    | Loop(repeats: int, commands: seq<Command>)
    | JumpPattern(offset: int)
    | PlayPattern(name: string)
    | PlayMacro(name: string)
    | RowCmd(row: Row)
    | End
    | PlayNote(note: int, length: Option<int>, extend: int)
    | Wait(ticks: int)
    | Volume(volume: int)
    | PulseWidthCmd(pw: PulseWidth)
    | Ram(addr: int, data: int)
    | Length(defaultLength: int)
    | StepOctave(up: bool)
    | Octave(octave: int)
    | Quant(quant: int)
    | Sustain(sustain: int)
    | EffectTicks(ticks: int)
    | EffectStart(effect: string, params: seq<int>)

  /** Constructor defaults of the variants whose argument is optional. */
  const DefaultLoopRepeats := 2
  const DefaultWait := 24
  const DefaultVolume := 15
  const DefaultWidth := 128
  const DefaultLength := 4
  const DefaultOctave := 4
  const DefaultQuant := 64
  const DefaultSustain := 64
  const DefaultEffectTicks := 1

  /** A song: named BGMs, patterns, sound effects and macros (each the command
      list of a `CommandSet`) plus the dialect switches. */
  datatype PMMusic = PMMusic(
    bgm: map<string, seq<Command>>,
    pattern: map<string, seq<Command>>,
    sfx: map<string, seq<Command>>,
    macro: map<string, seq<Command>>,
    masterTime: int,
    volLevelIsMML: bool,
    octaveReverse: bool,
    shortQuantize: bool,
    transcludeMacro: bool)

  const EmptySong := PMMusic(map[], map[], map[], map[], 260, true, false, false, false)

  // ---------------------------------------------------------------------
  // Validation

  datatype ValidationError =
    | OutOfRange(what: string)
    | NotDefined(what: string)
    | Nameless(what: string)

  type Check = Result<(), ValidationError>

  /** A JavaScript optional bound is active only when present and nonzero. */
  predicate Truthy(o: Option<int>) {
    o.Some? && o.value != 0
  }

  /** The shape shared by `Wait`, `Length`, `Quant`, `Sustain` and
      `EffectTicks`: too large against an active bound, then below 1. */
  function CountCheck(x: int, max: Option<int>, what: string): (r: Check)
    ensures r.Ok? <==> 1 <= x && (Truthy(max) ==> x <= max.value)
    ensures r.Err? ==> r.error == OutOfRange(what)
  {
    if Truthy(max) && x > max.value then Err(OutOfRange(what))
    else if x < 1 then Err(OutOfRange(what))
    else Ok(())
  }

  function ValidateLoop(repeats: int): (r: Check)
    ensures r.Ok? <==> repeats >= 0
  {
    if repeats < 0 then Err(OutOfRange("loop repeats")) else Ok(())
  }

  function ValidateWait(ticks: int, maxWait: Option<int>): (r: Check)
    ensures r.Ok? <==> 1 <= ticks && (Truthy(maxWait) ==> ticks <= maxWait.value)
  {
    CountCheck(ticks, maxWait, "wait")
  }

  function ValidateLength(length: int, maxLength: Option<int>): (r: Check)
    ensures r.Ok? <==> 1 <= length && (Truthy(maxLength) ==> length <= maxLength.value)
  {
    CountCheck(length, maxLength, "length")
  }

  function ValidateQuant(quant: int, maxQuant: Option<int>): (r: Check)
    ensures r.Ok? <==> 1 <= quant && (Truthy(maxQuant) ==> quant <= maxQuant.value)
  {
    CountCheck(quant, maxQuant, "quant")
  }

  function ValidateSustain(sustain: int, maxSustain: Option<int>): (r: Check)
    ensures r.Ok? <==> 1 <= sustain && (Truthy(maxSustain) ==> sustain <= maxSustain.value)
  {
    CountCheck(sustain, maxSustain, "sustain")
  }

  function ValidateEffectTicks(ticks: int, maxTicks: Option<int>): (r: Check)
    ensures r.Ok? <==> 1 <= ticks && (Truthy(maxTicks) ==> ticks <= maxTicks.value)
  {
    CountCheck(ticks, maxTicks, "effect ticks")
  }

  /** Against the compiler's bound of 64, quantize and sustain 0 and 65 both
      fail while 1 and 64 pass; an absent or zero bound lets any positive
      count through. */
  lemma QuantSustainBounds(x: int)
    ensures ValidateQuant(0, Some(64)).Err? && ValidateQuant(65, Some(64)).Err?
    ensures ValidateSustain(0, Some(64)).Err? && ValidateSustain(65, Some(64)).Err?
    ensures ValidateQuant(1, Some(64)).Ok? && ValidateSustain(64, Some(64)).Ok?
    ensures x >= 1 ==> ValidateQuant(x, None).Ok? && ValidateSustain(x, Some(0)).Ok?
  {
  }

  function ValidateVolume(volume: int): (r: Check)
    ensures r.Ok? <==> 0 <= volume <= 15
  {
    if volume < 0 || volume > 15 then Err(OutOfRange("volume")) else Ok(())
  }

  function ValidateOctave(octave: int, minOctave: Option<int>, maxOctave: Option<int>): (r: Check)
    ensures r.Ok? <==> ((minOctave.Some? ==> octave >= minOctave.value)
                        && (maxOctave.Some? ==> octave <= maxOctave.value))
  {
    if minOctave.Some? && octave < minOctave.value then Err(OutOfRange("octave"))
    else if maxOctave.Some? && octave > maxOctave.value then Err(OutOfRange("octave"))
    else Ok(())
  }

  /** `PulseWidth.outOf(max)`: a percentage scaled to `max` and clamped, or
      the raw width. */
  function OutOf(pw: PulseWidth, maxWidth: int): (r: int)
    ensures pw.percent && maxWidth >= 0 ==> 0 <= r <= maxWidth
    ensures !pw.percent ==> r == pw.width
  {
    if pw.percent then Max(0, Min(maxWidth, CDiv(maxWidth * pw.width, 100)))
    else pw.width
  }

  /** A percentage within 0..100 selects that share of the maximum, rounded
      toward zero, with no clamping needed. */
  lemma OutOfPercent(w: int, maxWidth: int)
    requires 0 <= w <= 100 && maxWidth >= 0
    ensures OutOf(PulseWidth(w, true), maxWidth) == (maxWidth * w) / 100
    ensures OutOf(PulseWidth(100, true), maxWidth) == maxWidth
  {
    MulMonotone(maxWidth, w, 100);
    var p := maxWidth * w;
    assert CDiv(p, 100) == p / 100;
    assert p / 100 <= maxWidth;
  }

  /** `PulseWidth.validate` as written.  The two range checks meant for raw
      widths hang off the inner `if` of the percent test, so a raw width is
      never range-checked and a percentage is also compared with the raw
      maximum. */
  function ValidatePulseWidthAsWritten(pw: PulseWidth, maxWidth: Option<int>): (r: Check)
    ensures r.Ok? <==> !pw.percent || (0 <= pw.width <= 100 && (Truthy(maxWidth) ==> pw.width <= maxWidth.value))
  {
    if pw.percent then
      if pw.width < 0 || pw.width > 100 then Err(OutOfRange("pulse width"))
      else if Truthy(maxWidth) && pw.width > maxWidth.value then Err(OutOfRange("pulse width"))
      else if pw.width < 0 then Err(OutOfRange("pulse width"))
      else Ok(())
    else Ok(())
  }

  /** Any raw width passes the as-written check, however large or negative. */
  lemma RawWidthUnchecked(w: int, maxWidth: Option<int>)
    ensures ValidatePulseWidthAsWritten(PulseWidth(w, false), maxWidth).Ok?
    ensures ValidatePulseWidthAsWritten(PulseWidth(-1, false), Some(255)).Ok?
    ensures ValidatePulseWidthAsWritten(PulseWidth(300, false), Some(255)).Ok?
  {
  }

  /** `PulseWidth.validate` with the `else` branches on the percent test, as
      the error messages and indentation intend. */
  function ValidatePulseWidth(pw: PulseWidth, maxWidth: Option<int>): (r: Check)
    ensures pw.percent ==> (r.Ok? <==> 0 <= pw.width <= 100)
    ensures !pw.percent ==> (r.Ok? <==> 0 <= pw.width && (Truthy(maxWidth) ==> pw.width <= maxWidth.value))
  {
    if pw.percent then
      if pw.width < 0 || pw.width > 100 then Err(OutOfRange("pulse width")) else Ok(())
    else if Truthy(maxWidth) && pw.width > maxWidth.value then Err(OutOfRange("pulse width"))
    else if pw.width < 0 then Err(OutOfRange("pulse width"))
    else Ok(())
  }

  /** With the intended check, a validated width scaled to `max` lies in
      `0..max` in both modes. */
  lemma PulseWidthValidInRange(pw: PulseWidth, maxWidth: int)
    requires maxWidth > 0 && ValidatePulseWidth(pw, Some(maxWidth)).Ok?
    ensures 0 <= OutOf(pw, maxWidth) <= maxWidth
  {
  }

  datatype RamBounds = RamBounds(minAddr: Option<int>, maxAddr: int, dataBits: int)

  /** `(1 << dataBits) - 1` */
  function DataMask(dataBits: int): int {
    Shl(1, dataBits) - 1
  }

  function ValidateRam(addr: int, data: int, v: Option<RamBounds>): (r: Check)
    ensures v.None? ==> r.Ok?
    ensures v.Some? ==> (r.Ok? <==>
      v.value.minAddr.GetOr(0) <= addr <= v.value.maxAddr && And(data, DataMask(v.value.dataBits)) == data)
  {
    match v
    case None => Ok(())
    case Some(b) =>
      var minAddr := b.minAddr.GetOr(0);
      if addr < minAddr || addr > b.maxAddr then Err(OutOfRange("RAM address"))
      else if data != And(data, DataMask(b.dataBits)) then Err(OutOfRange("RAM data"))
      else Ok(())
  }

  /** For widths up to 30 bits the mask test means `0 <= data < 2^dataBits`. */
  lemma DataFitsIff(data: int, dataBits: nat)
    requires dataBits <= 30
    ensures And(data, DataMask(dataBits)) == data <==> 0 <= data < Pow2(dataBits)
  {
    DataMaskValue(dataBits);
    AndLow(data, dataBits);
    ModSelf(data, Pow2(dataBits));
  }

  lemma DataMaskValue(dataBits: nat)
    requires dataBits <= 30
    ensures DataMask(dataBits) == Pow2(dataBits) - 1
  {
    var p := Pow2(dataBits);
    assert p < TWO31 by {
      Pow2Words();
      Pow2Monotone(dataBits, 30);
      assert Pow2(31) == 2 * Pow2(30);
    }
    assert dataBits % 32 == dataBits;
    ShlSmall(1, dataBits);
  }

  lemma ModSelf(x: int, d: int)
    requires d > 0
    ensures x % d == x <==> 0 <= x < d
  {
    if 0 <= x < d {
      DivUnique(x, d, 0, x);
    }
  }

  /** The RAM bounds the compiler uses accept exactly byte addresses and byte
      data. */
  lemma RamByteBounds(addr: int, data: int)
    ensures ValidateRam(addr, data, Some(RamBounds(None, 255, 8))).Ok?
      <==> 0 <= addr <= 255 && 0 <= data <= 255
  {
    Pow2Values();
    DataFitsIff(data, 8);
  }

  function ValidateNamed(name: string, known: Option<set<string>>, what: string): (r: Check)
    ensures r.Ok? <==> (known.Some? ==> name in known.value) && name != ""
  {
    if known.Some? && name !in known.value then Err(NotDefined(what))
    else if name == "" then Err(Nameless(what))
    else Ok(())
  }

  function ValidatePlayPattern(name: string, patterns: Option<set<string>>): (r: Check)
    ensures r.Ok? <==> (patterns.Some? ==> name in patterns.value) && name != ""
  {
    ValidateNamed(name, patterns, "pattern")
  }

  function ValidatePlayMacro(name: string, macros: Option<set<string>>): (r: Check)
    ensures r.Ok? <==> (macros.Some? ==> name in macros.value) && name != ""
  {
    ValidateNamed(name, macros, "macro")
  }

  function ValidateEffectStart(effect: string, effects: Option<set<string>>): (r: Check)
    ensures r.Ok? <==> (effects.Some? ==> effect in effects.value) && effect != ""
  {
    ValidateNamed(effect, effects, "effect")
  }

  function ValidatePlayNote(note: int, length: Option<int>, extend: int,
                            maxLength: Option<int>, maxExtend: Option<int>): (r: Check)
    ensures r.Ok? <==>
      IsNote(note)
      && (length.Some? ==> 1 <= length.value && (Truthy(maxLength) ==> length.value <= maxLength.value))
      && (maxExtend.Some? ==> extend <= maxExtend.value)
      && 0 <= extend
  {
    if !IsNote(note) then Err(OutOfRange("note"))
    else if length.Some? && Truthy(maxLength) && length.value > maxLength.value then Err(OutOfRange("note length"))
    else if length.Some? && length.value < 1 then Err(OutOfRange("note length"))
    else if maxExtend.Some? && extend > maxExtend.value then Err(OutOfRange("note length extension"))
    else if extend < 0 then Err(OutOfRange("note length extension"))
    else Ok(())
  }

  /** The bounds a `Row` may be validated against. */
  datatype RowBounds = RowBounds(
    minOctave: int, maxOctave: int,
    maxWait: int, maxWidth: int, maxQuant: int, maxSustain: int,
    minAddr: Option<int>, maxAddr: int, dataBits: int,
    maxEffectTicks: int, validEffects: Option<set<string>>)

  function Field(v: Option<RowBounds>, f: RowBounds -> int): Option<int> {
    if v.Some? then Some(f(v.value)) else None
  }

  /** `Row.validate`: every present field in turn.  The octave is not
      checked, and the pulse width is checked without a maximum. */
  function ValidateRow(row: Row, v: Option<RowBounds>): (r: Check)
    ensures r.Ok? <==>
      (row.note.Some? ==> IsNote(row.note.value.note))
      && (row.wait.Some? ==> ValidateWait(row.wait.value, Field(v, (b: RowBounds) => b.maxWait)).Ok?)
      && (row.volume.Some? ==> 0 <= row.volume.value <= 15)
      && (row.pulseWidth.Some? ==> ValidatePulseWidth(row.pulseWidth.value, None).Ok?)
      && (row.quant.Some? ==> ValidateQuant(row.quant.value, Field(v, (b: RowBounds) => b.maxQuant)).Ok?)
      && (row.sustain.Some? ==> ValidateSustain(row.sustain.value, Field(v, (b: RowBounds) => b.maxSustain)).Ok?)
      && (row.ram.Some? && v.Some? ==>
            ValidateRam(row.ram.value.addr, row.ram.value.data,
                        Some(RamBounds(v.value.minAddr, v.value.maxAddr, v.value.dataBits))).Ok?)
      && (row.effectTicks.Some? ==> ValidateEffectTicks(row.effectTicks.value, Field(v, (b: RowBounds) => b.maxEffectTicks)).Ok?)
      && (row.effect.Some? ==>
            ValidateEffectStart(row.effect.value.kind, if v.Some? then v.value.validEffects else None).Ok?)
  {
    var _ :- if row.note.Some? && !IsNote(row.note.value.note) then Err(OutOfRange("note")) else Ok(());
    var _ :- if row.wait.Some? then ValidateWait(row.wait.value, Field(v, (b: RowBounds) => b.maxWait)) else Ok(());
    var _ :- if row.volume.Some? then ValidateVolume(row.volume.value) else Ok(());
    var _ :- if row.pulseWidth.Some? then ValidatePulseWidth(row.pulseWidth.value, None) else Ok(());
    var _ :- if row.quant.Some? then ValidateQuant(row.quant.value, Field(v, (b: RowBounds) => b.maxQuant)) else Ok(());
    var _ :- if row.sustain.Some? then ValidateSustain(row.sustain.value, Field(v, (b: RowBounds) => b.maxSustain)) else Ok(());
    var _ :- if row.ram.Some? && v.Some? then
               ValidateRam(row.ram.value.addr, row.ram.value.data,
                           Some(RamBounds(v.value.minAddr, v.value.maxAddr, v.value.dataBits)))
             else Ok(());
    var _ :- if row.effectTicks.Some? then ValidateEffectTicks(row.effectTicks.value, Field(v, (b: RowBounds) => b.maxEffectTicks)) else Ok(());
    if row.effect.Some? then
      ValidateEffectStart(row.effect.value.kind, if v.Some? then v.value.validEffects else None)
    else Ok(())
  }

  // ---------------------------------------------------------------------
  // Note names

  /** The name table read by `str2note` (upper-case keys): "R", a letter,
      or a letter followed by `+` (one semitone up) or `-` (one down).  Every
      key of the table has that shape and nothing else is in it, so the
      lookup is written over the characters; `Str2NoteTable` lists the
      table's entries. */
  function Str2Note(s: string): (r: Option<int>)
    ensures r.Some? ==> IsNote(r.value)
    ensures r.Some? ==> 1 <= |s| <= 2
  {
    if |s| == 1 && s[0] == 'R' then Some(Rest)
    else if |s| == 1 then Letter(s[0])
    else if |s| == 2 && s[1] == '+' && Letter(s[0]).Some? then Some(Letter(s[0]).value + 1)
    else if |s| == 2 && s[1] == '-' && Letter(s[0]).Some? then Some(Letter(s[0]).value - 1)
    else None
  }

  /** The natural note a letter names. */
  function Letter(c: char): (r: Option<int>)
    ensures r.Some? ==> C <= r.value <= B
  {
    if c == 'C' then Some(C)
    else if c == 'D' then Some(D)
    else if c == 'E' then Some(E)
    else if c == 'F' then Some(F)
    else if c == 'G' then Some(G)
    else if c == 'A' then Some(A)
    else if c == 'B' then Some(B)
    else None
  }

  /** Sharp-spelled names. */
  function SharpName(n: int): Option<string> {
    if n == Cb then Some("C-")
    else if n == C then Some("C")
    else if n == Cs then Some("C+")
    else if n == D then Some("D")
    else if n == Ds then Some("D+")
    else if n == E then Some("E")
    else if n == F then Some("F")
    else if n == Fs then Some("F+")
    else if n == G then Some("G")
    else if n == Gs then Some("G+")
    else if n == A then Some("A")
    else if n == As then Some("A+")
    else if n == B then Some("B")
    else if n == Bs then Some("B+")
    else None
  }

  /** Flat-spelled names. */
  function FlatName(n: int): Option<string> {
    if n == Cb then Some("C-")
    else if n == C then Some("C")
    else if n == Cs then Some("D-")
    else if n == D then Some("D")
    else if n == Ds then Some("E-")
    else if n == E then Some("E")
    else if n == F then Some("F")
    else if n == Fs then Some("G-")
    else if n == G then Some("G")
    else if n == Gs then Some("A-")
    else if n == A then Some("A")
    else if n == As then Some("B-")
    else if n == B then Some("B")
    else if n == Bs then Some("B+")
    else None
  }

  /** The shared shape of `note2str` and `note2flat`: a rest has no octave;
      with an octave, Cb and Bs are respelled in the neighbouring octave. */
  function NoteText(n: int, octave: Option<int>, names: int -> Option<string>): (Option<string>, string) {
    if n == Rest then (Some("r"), "")
    else if octave.Some? && n == Cb then (Some("b"), IntToString(octave.value - 1, 10))
    else if octave.Some? && n == Bs then (Some("c"), IntToString(octave.value + 1, 10))
    else (names(n), if octave.Some? then IntToString(octave.value, 10) else "")
  }

  /** `note2str`; an undefined table entry is `None`. */
  function Note2Str(n: int, octave: Option<int>): (r: (Option<string>, string))
    ensures IsNote(n) ==> r.0.Some?
    ensures octave.None? ==> r.1 == ""
  {
    NoteText(n, octave, SharpName)
  }

  /** `note2flat` */
  function Note2Flat(n: int, octave: Option<int>): (r: (Option<string>, string))
    ensures IsNote(n) ==> r.0.Some?
    ensures octave.None? ==> r.1 == ""
  {
    NoteText(n, octave, FlatName)
  }

  /** Rendering a pitched note without an octave and reading the name back
      gives the note, in both spellings. */
  lemma NoteNameRoundTrip(n: int)
    requires Cb <= n <= Bs
    ensures Str2Note(Note2Str(n, None).0.value) == Some(n)
  {
    assert Note2Str(n, None).0 == SharpName(n);
    SharpNameRead(n);
  }

  lemma FlatNameRoundTrip(n: int)
    requires Cb <= n <= Bs
    ensures Str2Note(Note2Flat(n, None).0.value) == Some(n)
  {
    assert Note2Flat(n, None).0 == FlatName(n);
    FlatNameRead(n);
  }

  lemma SharpNameRead(n: int)
    requires Cb <= n <= Bs
    ensures SharpName(n).Some? && Str2Note(SharpName(n).value) == Some(n)
  {
  }

  lemma FlatNameRead(n: int)
    requires Cb <= n <= Bs
    ensures FlatName(n).Some? && Str2Note(FlatName(n).value) == Some(n)
  {
  }

  /** The entries of the `str2note` table, key by key. */
  lemma Str2NoteTable()
    ensures Str2Note("R") == Some(Rest)
    ensures Str2Note("C-") == Some(Cb) && Str2Note("C") == Some(C)
    ensures Str2Note("C+") == Some(Cs) && Str2Note("D-") == Some(Cs)
    ensures Str2Note("D") == Some(D)
    ensures Str2Note("D+") == Some(Ds) && Str2Note("E-") == Some(Ds)
    ensures Str2Note("E") == Some(E) && Str2Note("F-") == Some(E)
    ensures Str2Note("F") == Some(F) && Str2Note("E+") == Some(F)
    ensures Str2Note("F+") == Some(Fs) && Str2Note("G-") == Some(Fs)
    ensures Str2Note("G") == Some(G)
    ensures Str2Note("G+") == Some(Gs) && Str2Note("A-") == Some(Gs)
    ensures Str2Note("A") == Some(A)
    ensures Str2Note("A+") == Some(As) && Str2Note("B-") == Some(As)
    ensures Str2Note("B") == Some(B) && Str2Note("B+") == Some(Bs)
  {
  }

  /** Keys outside the table: lower case, a doubled accidental, the
      `#` spelling the parser rewrites before the lookup. */
  lemma Str2NoteMisses()
    ensures Str2Note("r") == None && Str2Note("c") == None
    ensures Str2Note("C#") == None && Str2Note("C++") == None && Str2Note("") == None
  {
  }

  /** The rest renders as lower-case "r", which the table only knows in upper
      case (as `PlayNote`'s constructor supplies it). */
  lemma RestName()
    ensures Note2Str(Rest, None).0 == Some("r") && Str2Note("r") == None
    ensures Str2Note(Upper("r")) == Some(Rest)
  {
    assert Upper("r") == "R";
  }

  /** With an octave, Cb is written as b of the octave below and Bs as c of
      the octave above; both name the same preset-table pitch. */
  lemma NoteOctaveWraps(o: int)
    ensures Note2Str(Cb, Some(o)) == (Some("b"), IntToString(o - 1, 10))
    ensures Str2Note(Upper("b")) == Some(B) && Pitch(B, o - 1) == Pitch(Cb, o)
    ensures Note2Str(Bs, Some(o)) == (Some("c"), IntToString(o + 1, 10))
    ensures Str2Note(Upper("c")) == Some(C) && Pitch(C, o + 1) == Pitch(Bs, o)
  {
    assert Upper("b") == "B";
    assert Upper("c") == "C";
  }

  /** A name without lower-case letters is its own upper-case form. */
  lemma UpperNoLower(s: string)
    requires forall i :: 0 <= i < |s| ==> !('a' <= s[i] <= 'z')
    ensures Upper(s) == s
  {
  }

  /** C to B keep their name and octave, and the upper-cased name reads back
      as the note. */
  lemma NoteOctaveNatural(n: int, o: int)
    requires C <= n <= B
    ensures Note2Str(n, Some(o)) == (SharpName(n), IntToString(o, 10))
    ensures Str2Note(Upper(SharpName(n).value)) == Some(n)
  {
    UpperNoLower(SharpName(n).value);
  }

  // ---------------------------------------------------------------------
  // hexify

  /** `hexify(n, len)`: "$", zero padding up to `len`, then `n.toString(16)`. */
  function Hexify(n: int, len: int): (r: string)
    ensures |r| >= 2 && r[0] == '$'
  {
    var h := IntToString(n, 16);
    "$" + Repeat('0', Max(0, len - |h|)) + h
  }

  /** For a non-negative number the text after "$" is at least `len` hex
      digits whose value is the number. */
  lemma HexifyDigits(n: nat, len: int)
    ensures var r := Hexify(n, len);
      |r| - 1 >= len && AllDigits(r[1..], 16) && DigitsValue(r[1..], 16) == n
  {
    var h := NatDigits(n, 16);
    var z := Max(0, len - |h|);
    assert Hexify(n, len)[1..] == Repeat('0', z) + h;
    LeadingZerosValue(z, h, 16);
    NatDigitsValue(n, 16);
  }
}

=== FILE: bits.dfy ===
/** JavaScript's bitwise operators on numbers, modelled exactly: operands are
    converted to 32-bit two's complement (ToInt32, which is `Util.CapS32`,
    and ToUint32, which `CapU32IsToUint32` relates to `Util.CapU32`),
    combined bit by bit, and the result is read
    back as a signed (or, for `>>>`, unsigned) 32-bit integer.  Typed-array
    stores (`Uint8Array`, `Uint16Array`, `DataView.setUint8`) keep the value
    modulo 2^8 or 2^16.  The lemmas turn the bit-level definitions into the
    arithmetic facts the rest of the model relies on. */
module Bits {
  import opened Util

  function Pow2(k: nat): (r: nat)
    ensures r >= 1
  {
    if k == 0 then 1 else 2 * Pow2(k - 1)
  }

  /** Bit `k` of the two's complement representation of `x`. */
  predicate Bit(x: int, k: nat) {
    (x / Pow2(k)) % 2 == 1
  }

  function OrNat(a: nat, b: nat): nat
    decreases a + b
  {
    if a == 0 then b
    else if b == 0 then a
    else 2 * OrNat(a / 2, b / 2) + (if a % 2 == 1 || b % 2 == 1 then 1 else 0)
  }

  function AndNat(a: nat, b: nat): nat
    decreases a + b
  {
    if a == 0 || b == 0 then 0
    else 2 * AndNat(a / 2, b / 2) + (if a % 2 == 1 && b % 2 == 1 then 1 else 0)
  }

  /** JavaScript's ToUint32 on an integral number. */
  function ToUint32(n: int): int {
    n % TWO32
  }

  /** `a | b` */
  function Or(a: int, b: int): int {
    CapS32(OrNat(ToUint32(a), ToUint32(b)))
  }

  /** `a & b` */
  function And(a: int, b: int): int {
    CapS32(AndNat(ToUint32(a), ToUint32(b)))
  }

  /** `a << n`; JavaScript uses only the low five bits of the count. */
  function Shl(a: int, n: int): int {
    CapS32(ToUint32(a) * Pow2(n % 32))
  }

  /** `a >> n` (sign-propagating) */
  function Sar(a: int, n: int): int {
    CapS32(a) / Pow2(n % 32)
  }

  /** `a >>> n` (zero-filling) */
  function Shr(a: int, n: int): int {
    ToUint32(a) / Pow2(n % 32)
  }

  /** Store into a `Uint16Array` element. */
  function U16(x: int): int {
    x % 0x1_0000
  }

  /** Store into a `Uint8Array` element or through `DataView.setUint8`. */
  function U8(x: int): int {
    x % 0x100
  }

  // ---------------------------------------------------------------------
  // Arithmetic helpers

  lemma Pow2Values()
    ensures Pow2(1) == 2 && Pow2(2) == 4 && Pow2(4) == 16 && Pow2(8) == 0x100
    ensures Pow2(10) == 0x400 && Pow2(15) == 0x8000 && Pow2(16) == 0x1_0000
    ensures Pow2(24) == 0x100_0000 && Pow2(31) == 0x8000_0000 && Pow2(32) == 0x1_0000_0000
  {
    assert Pow2(1) == 2;
    assert Pow2(2) == 4;
    assert Pow2(3) == 8;
    assert Pow2(4) == 16;
    assert Pow2(5) == 32;
    assert Pow2(6) == 64;
    assert Pow2(7) == 128;
    assert Pow2(8) == 0x100;
    assert Pow2(9) == 0x200;
    assert Pow2(10) == 0x400;
    assert Pow2(11) == 0x800;
    assert Pow2(12) == 0x1000;
    assert Pow2(13) == 0x2000;
    assert Pow2(14) == 0x4000;
    assert Pow2(15) == 0x8000;
    assert Pow2(16) == 0x1_0000;
    assert Pow2(17) == 0x2_0000;
    assert Pow2(18) == 0x4_0000;
    assert Pow2(19) == 0x8_0000;
    assert Pow2(20) == 0x10_0000;
    assert Pow2(21) == 0x20_0000;
    assert Pow2(22) == 0x40_0000;
    assert Pow2(23) == 0x80_0000;
    assert Pow2(24) == 0x100_0000;
    assert Pow2(25) == 0x200_0000;
    assert Pow2(26) == 0x400_0000;
    assert Pow2(27) == 0x800_0000;
    assert Pow2(28) == 0x1000_0000;
    assert Pow2(29) == 0x2000_0000;
    assert Pow2(30) == 0x4000_0000;
    assert Pow2(31) == 0x8000_0000;
  }

  lemma Pow2Word()
    ensures Pow2(8) == 0x100 && Pow2(10) == 0x400 && Pow2(11) == 0x800 && Pow2(12) == 0x1000
    ensures Pow2(13) == 0x2000 && Pow2(14) == 0x4000 && Pow2(15) == 0x8000 && Pow2(16) == 0x1_0000
  {
    Pow2Values();
  }

  lemma {:induction false} MulAtLeast(d: int, t: int)
    requires d > 0 && t >= 1
    ensures d * t >= d
    decreases t
  {
    if t > 1 {
      MulAtLeast(d, t - 1);
      assert d * t == d * (t - 1) + d;
    }
  }

  lemma MulSmall(d: int, t: int)
    requires d > 0 && -d < d * t < d
    ensures t == 0
  {
    if t >= 1 {
      MulAtLeast(d, t);
    } else if t <= -1 {
      MulAtLeast(d, -t);
    }
  }

  /** Quotient and remainder are determined by any decomposition
      `x == d * q + s` with `0 <= s < d`. */
  lemma DivUnique(x: int, d: int, q: int, s: int)
    requires d > 0 && x == d * q + s && 0 <= s < d
    ensures x / d == q && x % d == s
  {
    var q', s' := x / d, x % d;
    assert x == d * q' + s';
    assert d * (q - q') == s' - s;
    MulSmall(d, q - q');
  }

  lemma {:induction false} Pow2Add(j: nat, m: nat)
    ensures Pow2(j + m) == Pow2(j) * Pow2(m)
    decreases m
  {
    if m > 0 {
      Pow2Add(j, m - 1);
      assert Pow2(j + m) == 2 * Pow2(j + m - 1);
      assert Pow2(j + m) == 2 * (Pow2(j) * Pow2(m - 1));
      assert Pow2(j) * Pow2(m) == Pow2(j) * (2 * Pow2(m - 1));
    }
  }

  lemma Pow2Monotone(j: nat, k: nat)
    requires j <= k
    ensures Pow2(j) <= Pow2(k)
    ensures Pow2(k) % Pow2(j) == 0
  {
    Pow2Add(j, k - j);
    assert Pow2(k) == Pow2(j) * Pow2(k - j);
    MulAtLeast(Pow2(j), Pow2(k - j));
    DivUnique(Pow2(k), Pow2(j), Pow2(k - j), 0);
  }

  lemma Pow2Strict(j: nat, k: nat)
    requires j < k
    ensures 2 * Pow2(j) <= Pow2(k)
  {
    Pow2Monotone(j + 1, k);
  }

  lemma Pow2Words()
    ensures Pow2(31) == TWO31 && Pow2(32) == TWO32
  {
    Pow2Values();
  }

  lemma Pow2Divides32(k: nat)
    requires k <= 32
    ensures Pow2(k) <= TWO32 && TWO32 % Pow2(k) == 0
    ensures k <= 31 ==> Pow2(k) <= TWO31
  {
    Pow2Words();
    Pow2Monotone(k, 32);
    if k <= 31 {
      Pow2Monotone(k, 31);
    }
  }

  /** Halving commutes with taking a quotient, and the remainder modulo `2p`
      is built from the remainder of the half. */
  lemma DivHalf(x: nat, p: nat)
    requires p >= 1
    ensures x / (2 * p) == (x / 2) / p
    ensures x % (2 * p) == 2 * ((x / 2) % p) + x % 2
  {
    var q := (x / 2) / p;
    var r := (x / 2) % p;
    assert x / 2 == p * q + r;
    assert x == 2 * (x / 2) + x % 2;
    assert x == (2 * p) * q + (2 * r + x % 2);
    DivUnique(x, 2 * p, q, 2 * r + x % 2);
  }

  lemma ModHalf(x: nat, p: nat)
    requires p >= 1
    ensures x % (2 * p) == 2 * ((x / 2) % p) + x % 2
  {
    DivHalf(x, p);
  }

  /** Bit 0 is the parity. */
  lemma BitZero(x: int)
    ensures Bit(x, 0) == (x % 2 == 1)
  {
    assert Pow2(0) == 1;
  }

  lemma BitHalf(x: nat, k: nat)
    requires k >= 1
    ensures Bit(x, k) == Bit(x / 2, k - 1)
  {
    DivHalf(x, Pow2(k - 1));
  }

  /** The remainder by a positive divisor lies below it. */
  lemma ModRange(x: int, p: int)
    requires p > 0
    ensures 0 <= x % p < p
  {
  }

  /** Values congruent modulo a multiple of `m` agree modulo `m`. */
  lemma ModOfCongruent(x: int, y: int, bigM: int, m: int)
    requires m >= 1 && bigM >= 1 && bigM % m == 0
    requires (x - y) % bigM == 0
    ensures x % m == y % m
  {
    var k := (x - y) / bigM;
    assert x - y == bigM * k;
    var j := bigM / m;
    assert bigM == m * j;
    assert x - y == m * (j * k);
    assert y == m * (y / m) + y % m;
    assert x == m * (y / m + j * k) + y % m;
    DivUnique(x, m, y / m + j * k, y % m);
  }

  // ---------------------------------------------------------------------
  // Bit-level facts

  lemma {:induction false} BitOr(a: nat, b: nat, k: nat)
    ensures Bit(OrNat(a, b), k) == (Bit(a, k) || Bit(b, k))
    decreases k
  {
    if a == 0 || b == 0 {
      assert 0 / Pow2(k) == 0;
    } else {
      var a2: nat, b2: nat := a / 2, b / 2;
      var low := if a % 2 == 1 || b % 2 == 1 then 1 else 0;
      DivUnique(OrNat(a, b), 2, OrNat(a2, b2), low);
      if k == 0 {
        BitZero(OrNat(a, b));
        BitZero(a);
        BitZero(b);
      } else {
        BitHalf(OrNat(a, b), k);
        BitHalf(a, k);
        BitHalf(b, k);
        BitOr(a2, b2, k - 1);
      }
    }
  }

  lemma {:induction false} BitAnd(a: nat, b: nat, k: nat)
    ensures Bit(AndNat(a, b), k) == (Bit(a, k) && Bit(b, k))
    decreases k
  {
    if a == 0 || b == 0 {
      assert 0 / Pow2(k) == 0;
    } else {
      var a2: nat, b2: nat := a / 2, b / 2;
      var low := if a % 2 == 1 && b % 2 == 1 then 1 else 0;
      DivUnique(AndNat(a, b), 2, AndNat(a2, b2), low);
      if k == 0 {
        BitZero(AndNat(a, b));
        BitZero(a);
        BitZero(b);
      } else {
        BitHalf(AndNat(a, b), k);
        BitHalf(a, k);
        BitHalf(b, k);
        BitAnd(a2, b2, k - 1);
      }
    }
  }

  /** Or of two values below `2^n` stays below `2^n`. */
  lemma {:induction false} OrNatBound(a: nat, b: nat, n: nat)
    requires a < Pow2(n) && b < Pow2(n)
    ensures OrNat(a, b) < Pow2(n)
    decreases n
  {
    if a == 0 || b == 0 {
    } else {
      OrNatBound(a / 2, b / 2, n - 1);
    }
  }

  lemma {:induction false} AndNatBound(a: nat, b: nat)
    ensures AndNat(a, b) <= a && AndNat(a, b) <= b
    decreases a + b
  {
    if a != 0 && b != 0 {
      AndNatBound(a / 2, b / 2);
    }
  }

  /** Or of bit fields that do not overlap is their sum. */
  lemma {:induction false} OrDisjoint(a: nat, b: nat, k: nat)
    requires a % Pow2(k) == 0 && b < Pow2(k)
    ensures OrNat(a, b) == a + b
    decreases k
  {
    if a == 0 || b == 0 {
    } else {
      assert k >= 1;
      ModHalf(a, Pow2(k - 1));
      OrDisjoint(a / 2, b / 2, k - 1);
    }
  }

  lemma {:induction false} OrNatComm(a: nat, b: nat)
    ensures OrNat(a, b) == OrNat(b, a)
    decreases a + b
  {
    if a != 0 && b != 0 {
      OrNatComm(a / 2, b / 2);
    }
  }

  /** Or-ing a value into the zero low bits of another adds them. */
  lemma OrAddLow(a: nat, b: nat, k: nat)
    requires a < Pow2(k) && b % Pow2(k) == 0
    ensures OrNat(a, b) == a + b
  {
    OrNatComm(a, b);
    OrDisjoint(b, a, k);
  }

  lemma OrEven(a: nat, b: nat)
    ensures OrNat(2 * a, 2 * b) == 2 * OrNat(a, b)
  {
    assert (2 * a) / 2 == a && (2 * b) / 2 == b;
  }

  lemma OrEvenOdd(a: nat, b: nat)
    ensures OrNat(2 * a, 2 * b + 1) == 2 * OrNat(a, b) + 1
  {
    assert (2 * a) / 2 == a && (2 * b + 1) / 2 == b;
  }

  lemma OrOddOdd(a: nat, b: nat)
    ensures OrNat(2 * a + 1, 2 * b + 1) == 2 * OrNat(a, b) + 1
  {
    assert (2 * a + 1) / 2 == a && (2 * b + 1) / 2 == b;
  }

  lemma OrEven8(a: nat, b: nat)
    ensures OrNat(8 * a, 8 * b) == 8 * OrNat(a, b)
  {
    OrEven(4 * a, 4 * b);
    OrEven(2 * a, 2 * b);
    OrEven(a, b);
  }

  lemma Or11(h: nat)
    requires h < 16
    ensures OrNat(h, 0x11) == (h / 2) * 2 + 0x11
  {
    assert Pow2(3) == 8;
    OrAddLow(h / 2, 8, 3);
    if h % 2 == 0 {
      OrEvenOdd(h / 2, 8);
    } else {
      OrOddOdd(h / 2, 8);
    }
  }

  lemma OrTimes512(h: nat)
    ensures OrNat(h * 0x200, 0x2200) == 0x200 * OrNat(h, 0x11)
  {
    var y := OrNat(h * 0x40, 0x440);
    var z := OrNat(h * 8, 0x88);
    assert OrNat(h * 0x200, 0x2200) == 8 * y by {
      OrEven8(h * 0x40, 0x440);
    }
    assert y == 8 * z by {
      OrEven8(h * 8, 0x88);
    }
    assert z == 8 * OrNat(h, 0x11) by {
      OrEven8(h, 0x11);
    }
  }

  /** Or-ing `0x4401` into bits 10 to 13: bit 10 is forced on. */
  lemma Or4401(h: nat)
    requires h < 16
    ensures OrNat(h * 0x400, 0x4401) == (h / 2) * 0x800 + 0x4401
  {
    var g := h / 2;
    assert OrNat(h * 0x400, 0x4401) == 2 * OrNat(h * 0x200, 0x2200) + 1 by {
      OrEvenOdd(h * 0x200, 0x2200);
    }
    assert OrNat(h * 0x200, 0x2200) == 0x200 * OrNat(h, 0x11) by { OrTimes512(h); }
    assert OrNat(h, 0x11) == g * 2 + 0x11 by { Or11(h); }
  }

  /** An even mask clears the operand's low bit. */
  lemma AndEven(a: nat, m: nat)
    requires m > 0
    ensures AndNat(a, 2 * m) == 2 * AndNat(a / 2, m)
  {
    assert (2 * m) / 2 == m && (2 * m) % 2 == 0;
  }

  /** Two clearing steps: a mask divisible by 4 drops two low bits. */
  lemma AndEven2(a: nat, m: nat)
    requires m > 0
    ensures AndNat(a, 4 * m) == 4 * AndNat(a / 4, m)
  {
    AndEven(a, 2 * m);
    AndEven(a / 2, m);
    assert (a / 2) / 2 == a / 4;
  }

  /** The mask `0xFC00` keeps bits 10 to 15. */
  lemma AndFC00(a: nat)
    ensures AndNat(a, 0xFC00) == ((a / 0x400) % 64) * 0x400
  {
    var a2, a4, a6, a8 := a / 4, a / 16, a / 64, a / 256;
    assert a4 == a2 / 4 && a6 == a4 / 4 && a8 == a6 / 4;
    AndEven2(a, 0x3F00);
    AndEven2(a2, 0xFC0);
    AndEven2(a4, 0x3F0);
    AndEven2(a6, 0xFC);
    AndEven2(a8, 0x3F);
    assert a8 / 4 == a / 0x400;
    AndLowMask(a / 0x400, 6);
    assert Pow2(6) == 64;
  }

  /** Masking with `2^k - 1` keeps the low `k` bits. */
  lemma {:induction false} AndLowMask(a: nat, k: nat)
    ensures AndNat(a, Pow2(k) - 1) == a % Pow2(k)
    decreases k
  {
    if k == 0 {
      assert AndNat(a, Pow2(k) - 1) == 0 == a % Pow2(k);
    } else if a == 0 {
      assert AndNat(a, Pow2(k) - 1) == 0;
      DivUnique(0, Pow2(k), 0, 0);
    } else {
      var p := Pow2(k - 1);
      var m := p - 1;
      assert Pow2(k) == 2 * p;
      assert Pow2(k) - 1 == 2 * m + 1;
      assert AndNat(a, 2 * m + 1) == 2 * AndNat(a / 2, m) + a % 2 by {
        assert (2 * m + 1) / 2 == m && (2 * m + 1) % 2 == 1;
      }
      assert AndNat(a / 2, m) == (a / 2) % p by { AndLowMask(a / 2, k - 1); }
      assert a % (2 * p) == 2 * ((a / 2) % p) + a % 2 by { ModHalf(a, p); }
      assert AndNat(a, Pow2(k) - 1) == a % (2 * p);
    }
  }

  /** Masking with a single bit `2^k` tests that bit. */
  lemma {:induction false} AndSingle(a: nat, k: nat)
    ensures AndNat(a, Pow2(k)) == if Bit(a, k) then Pow2(k) else 0
    decreases k
  {
    if a == 0 {
      assert 0 / Pow2(k) == 0;
    } else if k == 0 {
    } else {
      var p := Pow2(k - 1);
      assert Pow2(k) / 2 == p && Pow2(k) % 2 == 0;
      assert AndNat(a, Pow2(k)) == 2 * AndNat(a / 2, p);
      AndSingle(a / 2, k - 1);
      BitHalf(a, k);
    }
  }

  // ---------------------------------------------------------------------
  // The JavaScript operators on small non-negative operands

  /** The toolchain's `capU32` is JavaScript's ToUint32. */
  lemma CapU32IsToUint32(n: int)
    ensures CapU32(n) == ToUint32(n)
  {
  }

  lemma ToUint32Identity(n: int)
    requires 0 <= n < TWO32
    ensures ToUint32(n) == n
  {
  }

  /** `x & (2^k - 1)` is `x` modulo `2^k`, whatever the sign of `x`. */
  lemma AndLow(x: int, k: nat)
    requires k <= 31
    ensures And(x, Pow2(k) - 1) == x % Pow2(k)
  {
    Pow2Divides32(k);
    AndLowUnsigned(x, k, Pow2(k));
    AndOfLowMask(x, Pow2(k));
  }

  /** The low-bit mask on the unsigned image of `x`. */
  lemma AndLowUnsigned(x: int, k: nat, p: int)
    requires p == Pow2(k) && 1 <= p <= TWO31 && TWO32 % p == 0
    ensures AndNat(ToUint32(x), p - 1) == x % p
  {
    AndLowMask(ToUint32(x), k);
    ModOfCongruent(x, ToUint32(x), TWO32, p);
  }

  /** A result below 2^31 survives the signed wrap of `&`. */
  lemma AndOfLowMask(x: int, p: int)
    requires 1 <= p <= TWO31 && AndNat(ToUint32(x), p - 1) == x % p
    ensures And(x, p - 1) == x % p
  {
    assert ToUint32(p - 1) == p - 1;
    ModRange(x, p);
    CapS32Identity(x % p);
  }

  /** Or of two non-negative 31-bit operands is the bitwise union. */
  lemma OrSmall(a: int, b: int)
    requires 0 <= a < TWO31 && 0 <= b < TWO31
    ensures Or(a, b) == OrNat(a, b)
    ensures 0 <= Or(a, b) < TWO31
  {
    Pow2Values();
    ToUint32Identity(a);
    ToUint32Identity(b);
    OrNatBound(a, b, 31);
    CapS32Identity(OrNat(a, b));
  }

  /** And of two non-negative 31-bit operands is the bitwise intersection. */
  lemma AndSmall(a: int, b: int)
    requires 0 <= a < TWO31 && 0 <= b < TWO31
    ensures And(a, b) == AndNat(a, b)
    ensures 0 <= And(a, b) <= a && And(a, b) <= b
  {
    ToUint32Identity(a);
    ToUint32Identity(b);
    AndNatBound(a, b);
    CapS32Identity(AndNat(a, b));
  }

  /** `a << k` is a multiplication while the product fits 31 bits. */
  lemma ShlSmall(a: int, k: nat)
    requires k < 32 && 0 <= a && a * Pow2(k) < TWO31
    ensures Shl(a, k) == a * Pow2(k)
  {
    ToUint32Identity(a);
    CapS32Identity(a * Pow2(k));
  }

  /** `x >> k` for a value that already fits a signed 32-bit integer. */
  lemma SarSmall(x: int, k: nat)
    requires k < 32 && -TWO31 <= x < TWO31
    ensures Sar(x, k) == x / Pow2(k)
  {
    assert k % 32 == k;
    CapS32Identity(x);
  }

  /** `x << k` keeps only bits below 32, so modulo `2^16` it is `x * 2^k`. */
  lemma ShlU16(x: int, k: nat)
    requires k < 16
    ensures U16(Shl(x, k)) == (x * Pow2(k)) % 0x1_0000
  {
    var p := Pow2(k);
    var u := ToUint32(x);
    var w := CapS32(u * p);
    assert Shl(x, k) == w by { ShlBelow32(x, k); }
    ToUint32Congruent(x);
    ScaledLow16(x, u, p, w);
  }

  lemma ShlBelow32(x: int, k: nat)
    requires k < 32
    ensures Shl(x, k) == CapS32(ToUint32(x) * Pow2(k))
  {
    assert k % 32 == k;
  }

  /** A number congruent to `x` modulo 2^32, scaled by `p` and wrapped to
      32 bits, keeps the low 16 bits of `x * p`. */
  lemma ScaledLow16(x: int, u: int, p: int, w: int)
    requires (x - u) % TWO32 == 0 && (u * p - w) % TWO32 == 0
    ensures w % 0x1_0000 == (x * p) % 0x1_0000
  {
    ScaledCongruent(x, u, p);
    Congruent16(x * p, u * p, w);
  }

  /** ToUint32 changes its operand by a multiple of 2^32. */
  lemma ToUint32Congruent(x: int)
    ensures (x - ToUint32(x)) % TWO32 == 0
  {
    DivUnique(x - ToUint32(x), TWO32, x / TWO32, 0);
  }

  /** Two steps of congruence modulo 2^32 agree modulo 2^16. */
  lemma Congruent16(a: int, b: int, c: int)
    requires (a - b) % TWO32 == 0 && (b - c) % TWO32 == 0
    ensures a % 0x1_0000 == c % 0x1_0000
  {
    ModOfCongruent(a, b, TWO32, 0x1_0000);
    ModOfCongruent(b, c, TWO32, 0x1_0000);
  }

  /** Scaling keeps two numbers congruent modulo 2^32. */
  lemma ScaledCongruent(x: int, u: int, p: int)
    requires (x - u) % TWO32 == 0
    ensures (x * p - u * p) % TWO32 == 0
  {
    var q := (x - u) / TWO32;
    assert x - u == TWO32 * q;
    assert x * p - u * p == TWO32 * (q * p);
    DivUnique(x * p - u * p, TWO32, q * p, 0);
  }

  // ---------------------------------------------------------------------
  // The operators on 16-bit words, one step at a time

  /** `w | v` for 16-bit operands whose set bits do not overlap: `w` below
      bit `k`, `v` a multiple of `2^k`. */
  lemma OrWord(w: int, v: int, k: nat)
    requires k <= 16 && 0 <= w < Pow2(k) && 0 <= v < 0x1_0000 && v % Pow2(k) == 0
    ensures Or(w, v) == w + v
  {
    assert Pow2(k) <= 0x1_0000 by {
      Pow2Monotone(k, 16);
      Pow2Values();
    }
    assert Or(w, v) == OrNat(w, v) by {
      OrSmall(w, v);
    }
    OrAddLow(w, v, k);
  }

  /** `x & 0xff` */
  lemma AndByte(x: int)
    ensures And(x, 0xff) == x % 0x100
  {
    Pow2Word();
    AndLow(x, 8);
  }

  /** `x & 3` */
  lemma AndTwoBits(x: int)
    ensures And(x, 3) == x % 4
  {
    assert Pow2(2) == 4;
    AndLow(x, 2);
  }

  /** `x << k` of a value that stays within 16 bits. */
  lemma ShlWord(x: int, k: nat)
    requires k < 16 && 0 <= x && x * Pow2(k) < 0x1_0000
    ensures Shl(x, k) == x * Pow2(k)
  {
    Pow2Values();
    ShlSmall(x, k);
  }

  /** Storing a signed 32-bit result into a 16-bit cell forgets the wrap. */
  lemma U16CapS32(x: int)
    ensures U16(CapS32(x)) == U16(x)
  {
    ModOfCongruent(x, CapS32(x), TWO32, 0x1_0000);
  }

  // ---------------------------------------------------------------------
  // Operators on register bytes and 32-bit counts

  lemma OrComm(a: int, b: int)
    ensures Or(a, b) == Or(b, a)
  {
    OrNatComm(ToUint32(a), ToUint32(b));
  }

  /** The mask `0xFF00` keeps bits 8 to 15. */
  lemma AndFF00(a: nat)
    ensures AndNat(a, 0xFF00) == ((a / 0x100) % 0x100) * 0x100
  {
    var a2, a4, a6 := a / 4, a / 16, a / 64;
    assert a4 == a2 / 4 && a6 == a4 / 4 && a / 0x100 == a6 / 4;
    AndEven2(a, 0x3FC0);
    AndEven2(a2, 0xFF0);
    AndEven2(a4, 0x3FC);
    AndEven2(a6, 0xFF);
    AndLowMask(a / 0x100, 8);
    Pow2Word();
  }

  /** The mask `0xF0` keeps bits 4 to 7. */
  lemma AndF0(a: nat)
    ensures AndNat(a, 0xF0) == ((a / 16) % 16) * 16
  {
    AndEven2(a, 0x3C);
    AndEven2(a / 4, 0xF);
    assert (a / 4) / 4 == a / 16;
    AndLowMask(a / 16, 4);
    Pow2Values();
  }

  /** `x & 2^k` tests bit `k` of `x`'s 32-bit pattern. */
  lemma AndBit(x: int, k: nat)
    requires k <= 30
    ensures And(x, Pow2(k)) == if Bit(ToUint32(x), k) then Pow2(k) else 0
  {
    Pow2Divides32(k);
    Pow2Strict(k, 31);
    Pow2Words();
    ToUint32Identity(Pow2(k));
    AndSingle(ToUint32(x), k);
    CapS32Identity(AndNat(ToUint32(x), Pow2(k)));
  }

  /** `(x / p) % 2` is determined by `x % (2 * p)`. */
  lemma DivHalfMod(x: int, p: int)
    requires p >= 1
    ensures (x / p) % 2 == (x % (2 * p)) / p
  {
    var q, s := x / (2 * p), x % (2 * p);
    DivMod(x, 2 * p);
    var t, r := s / p, s % p;
    DivMod(s, p);
    assert t < 2 by {
      if t >= 2 {
        MulAtLeast(p, t - 1);
      }
    }
    assert x == p * (2 * q + t) + r by {
      assert (2 * p) * q + p * t == p * (2 * q + t);
    }
    DivUnique(x, p, 2 * q + t, r);
    DivUnique(2 * q + t, 2, q, t);
  }

  /** Euclidean division, spelled out. */
  lemma DivMod(x: int, d: int)
    requires d > 0
    ensures x == d * (x / d) + x % d && 0 <= x % d < d
  {
  }
}

=== FILE: command.dfy ===
/** The sound driver's command format: one `PMMusicCommand` is packed into
    one to six little-endian 16-bit words.  Word 0 holds the wait (low byte),
    the volume level (bits 8-9) and one presence bit per optional field
    (bits 10-15); the optional words follow in a fixed order: RAM write,
    preset, pivot, jump, loop.  `Decode` is the driver-side reading of that
    format, and `DecodeEncode` shows the two agree. */
module Encoding {
  import opened Wrappers
  import opened Util
  import opened Bits

  const FlagVol: int := 1
  const FlagWriteRam: int := 2
  const FlagPreset: int := 4
  const FlagPivot: int := 8
  const FlagEnd: int := 16
  const FlagPattern: int := 32
  const FlagMark: int := 64
  const FlagLoop: int := 128

  /** One driver command before packing.  Every field is a JavaScript number
      with an integral value. */
  datatype MusicCommand = MusicCommand(
    flags: int, wait: int, volume: int, ramAddr: int, ramData: int,
    preset: int, pivot: int, pattern: int, loopID: int, loopNum: int)
  {
    /** `flags & f` is truthy */
    predicate Has(f: int) {
      And(flags, f) != 0
    }
  }

  /** The eight flag tests, read as booleans. */
  datatype Flags = Flags(
    vol: bool, ram: bool, preset: bool, pivot: bool,
    end: bool, pattern: bool, mark: bool, loop: bool)

  function FlagsOf(c: MusicCommand): Flags {
    Flags(c.Has(FlagVol), c.Has(FlagWriteRam), c.Has(FlagPreset), c.Has(FlagPivot),
          c.Has(FlagEnd), c.Has(FlagPattern), c.Has(FlagMark), c.Has(FlagLoop))
  }

  /** `new PMMusicCommand()`: every field zero. */
  const Blank := MusicCommand(0, 0, 0, 0, 0, 0, 0, 0, 0, 0)

  function B2N(b: bool): nat {
    if b then 1 else 0
  }

  /** A loop word follows: a mark, or a repeat with a nonzero count. */
  function EmitsLoopOf(f: Flags, c: MusicCommand): bool {
    f.mark || (f.loop && c.loopNum != 0)
  }

  // ---------------------------------------------------------------------
  // Word 0: the `|=` and `&=` updates of one `Uint16Array` cell

  /** One update of word 0's cell: `w |= v` or `w &= m`. */
  datatype Step = SetBits(v: int) | KeepBits(m: int)

  function Apply(w: int, s: Step): (r: int)
    ensures 0 <= r < 0x1_0000
  {
    match s
    case SetBits(v) => U16(Or(w, v))
    case KeepBits(m) => U16(And(w, m))
  }

  /** The cell's value after the updates, in order. */
  function Run(w: int, steps: seq<Step>): (r: int)
    ensures steps != [] ==> 0 <= r < 0x1_0000
    decreases |steps|
  {
    if steps == [] then w else Run(Apply(w, steps[0]), steps[1..])
  }

  function When(b: bool, s: Step): seq<Step> {
    if b then [s] else []
  }

  /** `0x0400 + ((volume & 3) << 8)` with the volume flag, else `0x0300`. */
  function VolumeStep(vol: bool, volume: int): Step {
    if vol then SetBits(0x400 + Shl(And(volume, 3), 8)) else SetBits(0x300)
  }

  /** The RAM, preset and pivot presence bits. */
  function PresenceSteps(f: Flags): seq<Step> {
    When(f.ram, SetBits(0x800)) + (When(f.preset, SetBits(0x1000)) + When(f.pivot, SetBits(0x2000)))
  }

  /** An end marker masks word 0 to its presence bits and sets `0x4401`;
      otherwise a pattern jump sets bit 14. */
  function JumpSteps(f: Flags): seq<Step> {
    if f.end then [KeepBits(0xFC00), SetBits(0x4401)] else When(f.pattern, SetBits(0x4000))
  }

  function HeadSteps(f: Flags, volume: int): seq<Step> {
    [VolumeStep(f.vol, volume)] + PresenceSteps(f)
  }

  function Word0Steps(f: Flags, volume: int, loop: bool): seq<Step> {
    HeadSteps(f, volume) + (JumpSteps(f) + When(loop, SetBits(0x8000)))
  }

  /** Word 0 as `toU16Array` builds it, starting from `wait & 0xff`. */
  function Word0Of(f: Flags, c: MusicCommand): (w0: int)
    ensures 0 <= w0 < 0x1_0000
  {
    Run(U16(And(c.wait, 0xff)), Word0Steps(f, c.volume, EmitsLoopOf(f, c)))
  }

  // ---------------------------------------------------------------------
  // The optional words

  /** A word stored only when its field is present. */
  function Opt(present: bool, w: int): (r: seq<int>)
    ensures |r| == B2N(present)
  {
    if present then [U16(w)] else []
  }

  /** The optional words, in the order `toU16Array` appends them. */
  function TailOf(f: Flags, c: MusicCommand): seq<int> {
    Opt(f.ram, Or(Shl(c.ramAddr, 8), c.ramData))
    + (Opt(f.preset, c.preset)
    + (Opt(f.pivot, c.pivot)
    + ((if f.end then [U16(0)] else Opt(f.pattern, c.pattern * 4))
    + (if f.mark then [U16(Shl(c.loopID, 10))]
       else Opt(f.loop && c.loopNum != 0, Or(Shl(c.loopID, 10), And(c.loopNum, 255)))))))
  }

  /** Number of words a command packs into: word 0 plus one word for each
      optional field that is present. */
  function WordCount(c: MusicCommand): nat {
    var f := FlagsOf(c);
    1 + B2N(f.ram) + B2N(f.preset) + B2N(f.pivot) + B2N(f.end || f.pattern)
    + B2N(EmitsLoopOf(f, c))
  }

  /** `PMMusicCommand.toU16Array` */
  function ToU16Array(c: MusicCommand): (ws: seq<int>)
    ensures |ws| == WordCount(c)
    ensures 1 <= |ws| <= 6
  {
    var f := FlagsOf(c);
    [Word0Of(f, c)] + TailOf(f, c)
  }

  /** The word stream `CompileReturn.toPMAS` writes for a command list. */
  function EncodeAll(cs: seq<MusicCommand>): (ws: seq<int>)
    ensures |ws| >= |cs|
  {
    if cs == [] then [] else ToU16Array(cs[0]) + EncodeAll(cs[1..])
  }

  // ---------------------------------------------------------------------
  // The driver's reading of the format

  /** What the driver sees in one packed command.  `ram` is (address, data);
      `loop` is (loop id, repeat count), a count of 0 meaning a mark. */
  datatype Packet = Packet(
    wait: int, volOn: bool, level: int,
    ram: Option<(int, int)>, preset: Option<int>, pivot: Option<int>,
    jump: Option<int>, loop: Option<(int, int)>)

  /** The low `n` bits of `x`, least significant first. */
  function LowBits(x: int, n: nat): (bs: seq<bool>)
    ensures |bs| == n
    decreases n
  {
    if n == 0 then [] else [x % 2 == 1] + LowBits(x / 2, n - 1)
  }

  /** The number whose low bits are `bs`, least significant first. */
  function BitsValue(bs: seq<bool>): nat {
    if bs == [] then 0 else B2N(bs[0]) + 2 * BitsValue(bs[1..])
  }

  datatype Taken = Taken(word: Option<int>, rest: seq<int>)

  /** Reads the next word of the stream when the field is present. */
  function Take(present: bool, ws: seq<int>): (r: Option<Taken>)
    ensures r.None? <==> present && ws == []
    ensures r.Some? ==> |ws| - |r.value.rest| == B2N(present)
    ensures r.Some? ==> (r.value.word.Some? <==> present)
  {
    if !present then Some(Taken(None, ws))
    else if ws == [] then None
    else Some(Taken(Some(U16(ws[0])), ws[1..]))
  }

  /** A word cut into its field above the low byte (or above bit 10) and
      its low byte. */
  function Split(w: Option<int>, unit: int): Option<(int, int)>
    requires unit > 0
  {
    match w
    case None => None
    case Some(x) => Some((x / unit, x % 0x100))
  }

  /** Reads one optional word per presence bit, in order, and returns the
      stream after them. */
  function TakeAll(p: seq<bool>, ws: seq<int>): (r: Option<(seq<Option<int>>, seq<int>)>)
    ensures r.Some? ==> |r.value.0| == |p| && |r.value.1| <= |ws| && |ws| - |r.value.1| <= |p|
    decreases |p|
  {
    if p == [] then Some(([], ws))
    else
      var t :- Take(p[0], ws);
      var (fs, more) :- TakeAll(p[1..], t.rest);
      Some(([t.word] + fs, more))
  }

  /** Reads one command from the front of a word stream; `None` when the
      stream ends before the words that word 0 announces. */
  function Decode(ws: seq<int>): (r: Option<(Packet, nat)>)
    ensures r.Some? ==> 1 <= r.value.1 <= |ws| && r.value.1 <= 6
  {
    if ws == [] then None
    else
      var w0 := U16(ws[0]);
      var p := LowBits(w0 / 0x400, 6);
      var (fs, more) :- TakeAll(p[1..], ws[1..]);
      Some((PacketOf(w0, fs), |ws| - |more|))
  }

  /** The packet named by word 0 and the five optional words read after it. */
  function PacketOf(w0: int, fs: seq<Option<int>>): Packet
    requires |fs| == 5
  {
    Packet(w0 % 0x100, (w0 / 0x400) % 2 == 1, (w0 / 0x100) % 4,
           Split(fs[0], 0x100), fs[1], fs[2], fs[3], Split(fs[4], 0x400))
  }

  /** Reads a whole word stream into packets. */
  function DecodeAll(ws: seq<int>): Option<seq<Packet>>
    decreases |ws|
  {
    if ws == [] then Some([])
    else
      var (p, n) :- Decode(ws);
      var ps :- DecodeAll(ws[n..]);
      Some([p] + ps)
  }

  /** What a command with flags `f` means to the driver.  An end marker is a
      jump by 0 that also silences the channel for one tick; it keeps the
      RAM, preset and pivot words.  A pattern jump is stored as four times
      the offset. */
  function ExpectedOf(f: Flags, c: MusicCommand): Packet {
    Packet(
      WaitByte(f, c), f.end || f.vol, Level(f, c),
      if f.ram then Some((c.ramAddr, c.ramData)) else None,
      if f.preset then Some(c.preset % 0x1_0000) else None,
      if f.pivot then Some(c.pivot % 0x1_0000) else None,
      if f.end then Some(0) else if f.pattern then Some((c.pattern * 4) % 0x1_0000) else None,
      if f.mark then Some((c.loopID, 0))
      else if f.loop && c.loopNum != 0 then Some((c.loopID, c.loopNum % 0x100))
      else None)
  }

  /** The wait the driver counts down: one tick for an end marker. */
  function WaitByte(f: Flags, c: MusicCommand): int {
    if f.end then 1 else c.wait % 0x100
  }

  /** The volume level bits: 3 (with the volume bit clear) when no volume is
      set, 0 for an end marker. */
  function Level(f: Flags, c: MusicCommand): int {
    if f.end then 0 else if f.vol then c.volume % 4 else 3
  }

  function Expected(c: MusicCommand): Packet {
    ExpectedOf(FlagsOf(c), c)
  }

  function ExpectedAll(cs: seq<MusicCommand>): (ps: seq<Packet>)
    ensures |ps| == |cs| && forall i :: 0 <= i < |cs| ==> ps[i] == Expected(cs[i])
  {
    if cs == [] then [] else [Expected(cs[0])] + ExpectedAll(cs[1..])
  }

  /** The field ranges the compiler guarantees: a RAM write is a byte to a
      byte address, and a loop id fits the six bits above bit 10. */
  predicate EncodableOf(f: Flags, c: MusicCommand) {
    (f.ram ==> 0 <= c.ramAddr < 0x100 && 0 <= c.ramData < 0x100)
    && (EmitsLoopOf(f, c) ==> 0 <= c.loopID < 64)
  }

  predicate Encodable(c: MusicCommand) {
    EncodableOf(FlagsOf(c), c)
  }

  /** The eight flags of a flags byte, read bit by bit. */
  function ByteFlags(f: nat): Flags {
    Flags(f % 2 == 1, (f / 2) % 2 == 1, (f / 4) % 2 == 1, (f / 8) % 2 == 1,
          (f / 16) % 2 == 1, (f / 32) % 2 == 1, (f / 64) % 2 == 1, (f / 128) % 2 == 1)
  }

  /** The `&` tests on a flags byte agree with its bits. */
  lemma FlagsOfLiteral(c: MusicCommand, f: nat)
    requires c.flags == f < 0x100
    ensures FlagsOf(c) == ByteFlags(f)
  {
    Pow2Values();
    forall k | 0 <= k < 8
      ensures AndNat(f, Pow2(k)) == if Bit(f, k) then Pow2(k) else 0
    {
      AndSingle(f, k);
    }
    assert Pow2(3) == 8 && Pow2(5) == 32 && Pow2(6) == 64 && Pow2(7) == 128;
    AndSmall(f, 1); AndSmall(f, 2); AndSmall(f, 4); AndSmall(f, 8);
    AndSmall(f, 16); AndSmall(f, 32); AndSmall(f, 64); AndSmall(f, 128);
  }

  /** A command the encoder can pack, whose loop id is below `ids`. */
  predicate Packs(c: MusicCommand, ids: int) {
    Encodable(c) && 0 <= c.loopID < ids
  }

  predicate AllPack(cs: seq<MusicCommand>, ids: int) {
    forall i :: 0 <= i < |cs| ==> Packs(cs[i], ids)
  }

  lemma AllPackAppend(a: seq<MusicCommand>, b: seq<MusicCommand>, ids: int)
    ensures AllPack(a + b, ids) <==> AllPack(a, ids) && AllPack(b, ids)
  {
    if AllPack(a, ids) && AllPack(b, ids) {
      forall i | 0 <= i < |a + b| ensures Packs((a + b)[i], ids) {
        if i >= |a| { assert (a + b)[i] == b[i - |a|]; }
      }
    }
    if AllPack(a + b, ids) {
      forall i | 0 <= i < |a| ensures Packs(a[i], ids) {
        assert (a + b)[i] == a[i];
      }
      forall i | 0 <= i < |b| ensures Packs(b[i], ids) {
        assert (a + b)[|a| + i] == b[i];
      }
    }
  }

  lemma AllPackWiden(cs: seq<MusicCommand>, ids: int, more: int)
    requires AllPack(cs, ids) && ids <= more
    ensures AllPack(cs, more)
  {
  }

  // ---------------------------------------------------------------------
  // The packed words as plain arithmetic

  /** The presence bits of word 0, bit 10 first. */
  function PresenceOf(f: Flags, loop: bool): seq<bool> {
    [f.end || f.vol] + ([f.ram] + ([f.preset] + ([f.pivot] + ([f.end || f.pattern] + [loop]))))
  }

  /** Word 0: wait byte, two level bits, presence bits. */
  function Word0Layout(f: Flags, c: MusicCommand): int {
    WaitByte(f, c) + 0x100 * Level(f, c) + 0x400 * BitsValue(PresenceOf(f, EmitsLoopOf(f, c)))
  }

  function Word(present: bool, w: int): seq<int> {
    if present then [w] else []
  }

  /** The words present among `v`, in order. */
  function Words(p: seq<bool>, v: seq<int>): seq<int>
    requires |p| == |v|
    decreases |p|
  {
    if p == [] then [] else Word(p[0], v[0]) + Words(p[1..], v[1..])
  }

  function OptWord(present: bool, w: int): Option<int> {
    if present then Some(w) else None
  }

  /** What the driver holds for each optional field: the value when present. */
  function OptWords(p: seq<bool>, v: seq<int>): (r: seq<Option<int>>)
    requires |p| == |v|
    ensures |r| == |p|
    decreases |p|
  {
    if p == [] then [] else [OptWord(p[0], v[0])] + OptWords(p[1..], v[1..])
  }

  /** The loop word: the id above bit 10 and, for a repeat, the count. */
  function LoopLayout(f: Flags, c: MusicCommand): int {
    c.loopID * 0x400 + (if f.mark then 0 else c.loopNum % 0x100)
  }

  function JumpLayout(f: Flags, c: MusicCommand): int {
    if f.end then 0 else (c.pattern * 4) % 0x1_0000
  }

  /** The values of the five optional words, present or not. */
  function TailValues(f: Flags, c: MusicCommand): seq<int> {
    [c.ramAddr * 0x100 + c.ramData, c.preset % 0x1_0000, c.pivot % 0x1_0000,
     JumpLayout(f, c), LoopLayout(f, c)]
  }

  function TailLayout(f: Flags, c: MusicCommand): seq<int> {
    Words(PresenceOf(f, EmitsLoopOf(f, c))[1..], TailValues(f, c))
  }

  // ---------------------------------------------------------------------
  // Word 0, step by step

  lemma {:induction false} RunAppend(w: int, a: seq<Step>, b: seq<Step>)
    ensures Run(w, a + b) == Run(Run(w, a), b)
    decreases |a|
  {
    if a == [] {
      assert a + b == b;
    } else {
      assert (a + b)[0] == a[0];
      assert (a + b)[1..] == a[1..] + b;
      RunAppend(Apply(w, a[0]), a[1..], b);
    }
  }

  lemma Word0Fits(w: int)
    requires 0 <= w < 0x1_0000
    ensures U16(w) == w
  {
  }

  predicate PresenceBit(v: int) {
    v == 0x800 || v == 0x1000 || v == 0x2000 || v == 0x4000 || v == 0x8000
  }

  /** `w |= v` sets a presence bit above the bits already in use. */
  lemma SetOne(w: int, v: int)
    requires PresenceBit(v) && 0 <= w < v
    ensures Run(w, [SetBits(v)]) == w + v
  {
    var k := if v == 0x800 then 11 else if v == 0x1000 then 12 else if v == 0x2000 then 13
             else if v == 0x4000 then 14 else 15;
    assert U16(Or(w, v)) == w + v by {
      Pow2Word();
      OrWord(w, v, k);
      Word0Fits(w + v);
    }
  }

  lemma SetStep(w: int, b: bool, v: int)
    requires PresenceBit(v) && 0 <= w < v
    ensures Run(w, When(b, SetBits(v))) == if b then w + v else w
  {
    if b {
      SetOne(w, v);
    }
  }

  lemma SetThen(w: int, b: bool, v: int, rest: seq<Step>)
    requires PresenceBit(v) && 0 <= w < v
    ensures Run(w, When(b, SetBits(v)) + rest) == Run(if b then w + v else w, rest)
  {
    RunAppend(w, When(b, SetBits(v)), rest);
    SetStep(w, b, v);
  }

  lemma LowByte(wait: int)
    ensures U16(And(wait, 0xff)) == wait % 0x100
  {
    AndByte(wait);
    Word0Fits(wait % 0x100);
  }

  lemma VolumeBits(low: int, volume: int)
    requires 0 <= low < 0x100
    ensures U16(Or(low, 0x400 + Shl(And(volume, 3), 8))) == low + 0x100 * (volume % 4) + 0x400
    ensures U16(Or(low, 0x300)) == low + 0x100 * 3
  {
    var lvl := volume % 4;
    AndTwoBits(volume);
    Pow2Word();
    ShlWord(lvl, 8);
    OrWord(low, 0x400 + lvl * 0x100, 8);
    OrWord(low, 0x300, 8);
    Word0Fits(low + 0x400 + lvl * 0x100);
    Word0Fits(low + 0x300);
  }

  lemma VolumeRun(low: int, vol: bool, volume: int)
    requires 0 <= low < 0x100
    ensures Run(low, [VolumeStep(vol, volume)])
      == if vol then low + 0x100 * (volume % 4) + 0x400 else low + 0x300
  {
    VolumeBits(low, volume);
  }

  /** The RAM, preset and pivot bits land above the volume bits. */
  lemma PresenceRun(f: Flags, w1: int)
    requires 0 <= w1 < 0x800
    ensures Run(w1, PresenceSteps(f))
      == w1 + 0x800 * B2N(f.ram) + 0x1000 * B2N(f.preset) + 0x2000 * B2N(f.pivot)
  {
    var s2 := When(f.pivot, SetBits(0x2000));
    var s1 := When(f.preset, SetBits(0x1000)) + s2;
    var w2 := if f.ram then w1 + 0x800 else w1;
    var w3 := if f.preset then w2 + 0x1000 else w2;
    SetThen(w1, f.ram, 0x800, s1);
    SetThen(w2, f.preset, 0x1000, s2);
    SetStep(w3, f.pivot, 0x2000);
  }

  function HeadValue(f: Flags, low: int, volume: int): int {
    (if f.vol then low + 0x100 * (volume % 4) + 0x400 else low + 0x300)
    + 0x800 * B2N(f.ram) + 0x1000 * B2N(f.preset) + 0x2000 * B2N(f.pivot)
  }

  lemma HeadRun(f: Flags, low: int, volume: int)
    requires 0 <= low < 0x100
    ensures Run(low, HeadSteps(f, volume)) == HeadValue(f, low, volume)
  {
    var w1 := Run(low, [VolumeStep(f.vol, volume)]);
    RunAppend(low, [VolumeStep(f.vol, volume)], PresenceSteps(f));
    VolumeRun(low, f.vol, volume);
    assert 0 <= w1 < 0x800;
    PresenceRun(f, w1);
  }

  /** `w & 0xFC00` keeps the presence bits. */
  lemma EndMask(w: int)
    requires 0 <= w < 0x4000
    ensures U16(And(w, 0xFC00)) == (w / 0x400) * 0x400
  {
    assert And(w, 0xFC00) == AndNat(w, 0xFC00) by {
      AndSmall(w, 0xFC00);
    }
    AndFC00(w);
    EndMaskArith(w);
  }

  lemma EndMaskArith(w: int)
    requires 0 <= w < 0x4000
    ensures ((w / 0x400) % 64) * 0x400 == (w / 0x400) * 0x400
    ensures U16((w / 0x400) * 0x400) == (w / 0x400) * 0x400
  {
  }

  /** `| 0x4401` sets the end marker's jump bit, volume bit and one-tick wait. */
  lemma EndOr(h: int)
    requires 0 <= h < 16
    ensures U16(Or(h * 0x400, 0x4401)) == (h / 2) * 0x800 + 0x4401
  {
    assert Or(h * 0x400, 0x4401) == OrNat(h * 0x400, 0x4401) by {
      OrSmall(h * 0x400, 0x4401);
    }
    Or4401(h);
    Word0Fits((h / 2) * 0x800 + 0x4401);
  }

  lemma EndArith(w: int, r: int)
    requires 0 <= r < 8 && 0 <= w - r * 0x800 < 0x800
    ensures 0 <= w < 0x4000 && 0 <= w / 0x400 < 16 && (w / 0x400) / 2 == r
  {
  }

  /** The end marker keeps bits 11-13 of word 0 and rewrites the rest. */
  lemma JumpRun(w: int, f: Flags, r: int)
    requires 0 <= r < 8 && 0 <= w - r * 0x800 < 0x800
    ensures Run(w, JumpSteps(f))
      == if f.end then 0x4401 + r * 0x800 else if f.pattern then w + 0x4000 else w
  {
    if f.end {
      RunAppend(w, [KeepBits(0xFC00)], [SetBits(0x4401)]);
      assert [KeepBits(0xFC00)] + [SetBits(0x4401)] == [KeepBits(0xFC00), SetBits(0x4401)];
      EndArith(w, r);
      EndMask(w);
      EndOr(w / 0x400);
    } else {
      SetStep(w, f.pattern, 0x4000);
    }
  }

  /** Word 0's layout, summed field by field. */
  lemma Word0Arith(f: Flags, c: MusicCommand, r: int)
    requires r == B2N(f.ram) + 2 * B2N(f.preset) + 4 * B2N(f.pivot)
    ensures var w4 := HeadValue(f, c.wait % 0x100, c.volume);
      0 <= r < 8 && 0 <= w4 - r * 0x800 < 0x800 &&
      var w5 := if f.end then 0x4401 + r * 0x800 else if f.pattern then w4 + 0x4000 else w4;
      0 <= w5 < 0x8000
      && (if EmitsLoopOf(f, c) then w5 + 0x8000 else w5) == Word0Layout(f, c)
  {
    PresenceValue(f, EmitsLoopOf(f, c));
  }

  lemma BitsCons(x: bool, t: seq<bool>)
    ensures BitsValue([x] + t) == B2N(x) + 2 * BitsValue(t)
  {
    assert ([x] + t)[1..] == t;
  }

  /** Six bits, lowest first, and the number they spell. */
  lemma BitsSix(a: bool, b: bool, c: bool, d: bool, e: bool, g: bool)
    ensures BitsValue([a] + ([b] + ([c] + ([d] + ([e] + [g])))))
      == B2N(a) + 2 * B2N(b) + 4 * B2N(c) + 8 * B2N(d) + 16 * B2N(e) + 32 * B2N(g)
  {
    var t5: seq<bool> := [g];
    BitsCons(g, []);
    assert [g] + [] == t5;
    var t4 := [e] + t5;
    BitsCons(e, t5);
    var t3 := [d] + t4;
    BitsCons(d, t4);
    var t2 := [c] + t3;
    BitsCons(c, t3);
    var t1 := [b] + t2;
    BitsCons(b, t2);
    BitsCons(a, t1);
  }

  lemma PresenceValue(f: Flags, loop: bool)
    ensures BitsValue(PresenceOf(f, loop))
      == B2N(f.end || f.vol) + 2 * B2N(f.ram) + 4 * B2N(f.preset) + 8 * B2N(f.pivot)
         + 16 * B2N(f.end || f.pattern) + 32 * B2N(loop)
  {
    BitsSix(f.end || f.vol, f.ram, f.preset, f.pivot, f.end || f.pattern, loop);
  }

  /** `toU16Array` builds word 0 with the layout the driver reads. */
  lemma Word0Value(f: Flags, c: MusicCommand)
    ensures Word0Of(f, c) == Word0Layout(f, c)
  {
    var low := c.wait % 0x100;
    var loop := EmitsLoopOf(f, c);
    var h := HeadSteps(f, c.volume);
    var j := JumpSteps(f);
    var l := When(loop, SetBits(0x8000));
    LowByte(c.wait);
    RunAppend(low, h, j + l);
    HeadRun(f, low, c.volume);
    var w4 := HeadValue(f, low, c.volume);
    var r := B2N(f.ram) + 2 * B2N(f.preset) + 4 * B2N(f.pivot);
    Word0Arith(f, c, r);
    RunAppend(w4, j, l);
    JumpRun(w4, f, r);
    SetStep(Run(w4, j), loop, 0x8000);
  }

  // ---------------------------------------------------------------------
  // The optional words, field by field

  lemma FieldArith(hi: int, lo: int, unit: int)
    requires (unit == 0x100 && 0 <= hi < 0x100) || (unit == 0x400 && 0 <= hi < 64)
    requires 0 <= lo < 0x100
    ensures 0 <= hi * unit < 0x1_0000 && (hi * unit) % unit == 0
    ensures U16(hi * unit) == hi * unit && U16(hi * unit + lo) == hi * unit + lo
  {
  }

  lemma OrFields(a: int, b: int, k: nat)
    requires k <= 16 && 0 <= a < 0x1_0000 && a % Pow2(k) == 0 && 0 <= b < Pow2(k)
    ensures Or(a, b) == a + b
  {
    Pow2Monotone(k, 16);
    Pow2Values();
    OrWord(b, a, k);
    OrNatComm(a, b);
    OrSmall(a, b);
    OrSmall(b, a);
  }

  /** `(ramAddr << 8) | ramData` for a byte address and a byte. */
  lemma RamWord(addr: int, data: int)
    requires 0 <= addr < 0x100 && 0 <= data < 0x100
    ensures U16(Or(Shl(addr, 8), data)) == addr * 0x100 + data
  {
    Pow2Word();
    FieldArith(addr, data, 0x100);
    ShlWord(addr, 8);
    OrFields(addr * 0x100, data, 8);
  }

  /** `loopID << 10`, and `(loopID << 10) | (loopNum & 255)`. */
  lemma LoopWord(id: int, num: int)
    requires 0 <= id < 64
    ensures U16(Shl(id, 10)) == id * 0x400
    ensures U16(Or(Shl(id, 10), And(num, 255))) == id * 0x400 + num % 0x100
  {
    var w, b := id * 0x400, num % 0x100;
    assert U16(w) == w && U16(w + b) == w + b by { FieldArith(id, b, 0x400); }
    assert Shl(id, 10) == w by {
      Pow2Word();
      ShlWord(id, 10);
    }
    assert And(num, 255) == b by { AndByte(num); }
    assert Or(w, b) == w + b by {
      Pow2Word();
      FieldArith(id, b, 0x400);
      OrFields(w, b, 10);
    }
  }

  lemma RamValue(f: Flags, c: MusicCommand)
    requires EncodableOf(f, c)
    ensures Opt(f.ram, Or(Shl(c.ramAddr, 8), c.ramData)) == Word(f.ram, c.ramAddr * 0x100 + c.ramData)
  {
    if f.ram {
      RamWord(c.ramAddr, c.ramData);
    }
  }

  lemma LoopValue(f: Flags, c: MusicCommand)
    requires EncodableOf(f, c)
    ensures (if f.mark then [U16(Shl(c.loopID, 10))]
             else Opt(f.loop && c.loopNum != 0, Or(Shl(c.loopID, 10), And(c.loopNum, 255))))
      == Word(EmitsLoopOf(f, c), LoopLayout(f, c))
  {
    if EmitsLoopOf(f, c) {
      LoopWord(c.loopID, c.loopNum);
    }
  }

  lemma JumpValue(f: Flags, c: MusicCommand)
    ensures (if f.end then [U16(0)] else Opt(f.pattern, c.pattern * 4))
      == Word(f.end || f.pattern, JumpLayout(f, c))
  {
  }

  /** Five optional words, listed one by one. */
  lemma WordsFive(p: seq<bool>, v: seq<int>)
    requires |p| == 5 && |v| == 5
    ensures Words(p, v) == Word(p[0], v[0]) + (Word(p[1], v[1]) + (Word(p[2], v[2])
      + (Word(p[3], v[3]) + Word(p[4], v[4]))))
  {
    assert p[4..][1..] == [] && v[4..][1..] == [];
    var w4 := Words(p[4..], v[4..]);
    assert w4 == Word(p[4], v[4]) + Words([], []);
    assert p[3..][1..] == p[4..] && v[3..][1..] == v[4..];
    var w3 := Words(p[3..], v[3..]);
    assert w3 == Word(p[3], v[3]) + w4;
    assert p[2..][1..] == p[3..] && v[2..][1..] == v[3..];
    var w2 := Words(p[2..], v[2..]);
    assert w2 == Word(p[2], v[2]) + w3;
    assert p[1..][1..] == p[2..] && v[1..][1..] == v[2..];
    var w1 := Words(p[1..], v[1..]);
    assert w1 == Word(p[1], v[1]) + w2;
  }

  /** The optional words `toU16Array` appends are the layout's words. */
  lemma TailValue(f: Flags, c: MusicCommand)
    requires EncodableOf(f, c)
    ensures TailOf(f, c) == TailLayout(f, c)
  {
    var p := PresenceOf(f, EmitsLoopOf(f, c))[1..];
    var v := TailValues(f, c);
    WordsFive(p, v);
    RamValue(f, c);
    JumpValue(f, c);
    LoopValue(f, c);
  }

  // ---------------------------------------------------------------------
  // Reading the layout back

  /** The driver reads the bits it finds, lowest first. */
  lemma {:induction false} LowBitsValue(bs: seq<bool>)
    ensures LowBits(BitsValue(bs), |bs|) == bs
  {
    if bs != [] {
      var v := BitsValue(bs[1..]);
      assert BitsValue(bs) == B2N(bs[0]) + 2 * v;
      assert BitsValue(bs) % 2 == B2N(bs[0]) && BitsValue(bs) / 2 == v;
      LowBitsValue(bs[1..]);
      assert bs == [bs[0]] + bs[1..];
    }
  }

  lemma {:induction false} BitsValueBound(bs: seq<bool>)
    ensures BitsValue(bs) < Pow2(|bs|)
  {
    if bs != [] {
      BitsValueBound(bs[1..]);
    }
  }

  /** Word 0's three fields come apart again. */
  lemma Word0Fields(low: int, lvl: int, bits: int)
    requires 0 <= low < 0x100 && 0 <= lvl < 4 && 0 <= bits < 64
    ensures var w := low + 0x100 * lvl + 0x400 * bits;
      U16(w) == w && w % 0x100 == low && (w / 0x100) % 4 == lvl && w / 0x400 == bits
  {
  }

  lemma Word0Read(f: Flags, c: MusicCommand)
    ensures var w0 := Word0Layout(f, c);
      U16(w0) == w0 && w0 % 0x100 == WaitByte(f, c) && (w0 / 0x100) % 4 == Level(f, c)
      && LowBits(w0 / 0x400, 6) == PresenceOf(f, EmitsLoopOf(f, c))
  {
    var bs := PresenceOf(f, EmitsLoopOf(f, c));
    BitsValueBound(bs);
    Pow2Values();
    Word0Fields(WaitByte(f, c), Level(f, c), BitsValue(bs));
    LowBitsValue(bs);
  }

  lemma TakeWord(b: bool, w: int, more: seq<int>)
    requires b ==> 0 <= w < 0x1_0000
    ensures Take(b, Word(b, w) + more) == Some(Taken(OptWord(b, w), more))
  {
    if b {
      assert ([w] + more)[1..] == more;
      Word0Fits(w);
    } else {
      assert [] + more == more;
    }
  }

  /** The words present come back in order, with the stream after them. */
  lemma {:induction false} TakeAllWords(p: seq<bool>, v: seq<int>, rest: seq<int>)
    requires |p| == |v|
    requires forall i :: 0 <= i < |p| && p[i] ==> 0 <= v[i] < 0x1_0000
    ensures TakeAll(p, Words(p, v) + rest) == Some((OptWords(p, v), rest))
    decreases |p|
  {
    if p == [] {
      assert Words(p, v) + rest == rest;
    } else {
      var more := Words(p[1..], v[1..]) + rest;
      assert Words(p, v) + rest == Word(p[0], v[0]) + more;
      TakeWord(p[0], v[0], more);
      TakeAllWords(p[1..], v[1..], rest);
    }
  }

  lemma OptWordsFive(p: seq<bool>, v: seq<int>)
    requires |p| == 5 && |v| == 5
    ensures var fs := OptWords(p, v);
      fs[0] == OptWord(p[0], v[0]) && fs[1] == OptWord(p[1], v[1]) && fs[2] == OptWord(p[2], v[2])
      && fs[3] == OptWord(p[3], v[3]) && fs[4] == OptWord(p[4], v[4])
  {
    assert p[1..][1..] == p[2..] && v[1..][1..] == v[2..];
    assert p[2..][1..] == p[3..] && v[2..][1..] == v[3..];
    assert p[3..][1..] == p[4..] && v[3..][1..] == v[4..];
    var f3 := OptWords(p[3..], v[3..]);
    assert f3 == [OptWord(p[3], v[3])] + OptWords(p[4..], v[4..]);
    var f2 := OptWords(p[2..], v[2..]);
    assert f2 == [OptWord(p[2], v[2])] + f3;
    var f1 := OptWords(p[1..], v[1..]);
    assert f1 == [OptWord(p[1], v[1])] + f2;
  }

  lemma TailRead(f: Flags, c: MusicCommand, rest: seq<int>)
    requires EncodableOf(f, c)
    ensures TakeAll(PresenceOf(f, EmitsLoopOf(f, c))[1..], TailLayout(f, c) + rest)
      == Some((OptWords(PresenceOf(f, EmitsLoopOf(f, c))[1..], TailValues(f, c)), rest))
  {
    var p := PresenceOf(f, EmitsLoopOf(f, c))[1..];
    var v := TailValues(f, c);
    assert p == [f.ram] + ([f.preset] + ([f.pivot] + ([f.end || f.pattern] + [EmitsLoopOf(f, c)])));
    TakeAllWords(p, v, rest);
  }

  lemma RamRead(f: Flags, c: MusicCommand)
    requires EncodableOf(f, c)
    ensures Split(OptWord(f.ram, c.ramAddr * 0x100 + c.ramData), 0x100)
      == if f.ram then Some((c.ramAddr, c.ramData)) else None
  {
    if f.ram {
      FieldArith(c.ramAddr, c.ramData, 0x100);
    }
  }

  lemma LoopRead(f: Flags, c: MusicCommand)
    requires EncodableOf(f, c)
    ensures Split(OptWord(EmitsLoopOf(f, c), LoopLayout(f, c)), 0x400)
      == ExpectedOf(f, c).loop
  {
    if EmitsLoopOf(f, c) {
      FieldArith(c.loopID, if f.mark then 0 else c.loopNum % 0x100, 0x400);
    }
  }

  /** The fields of the optional words come apart into the command's
      values. */
  lemma FieldsRead(f: Flags, c: MusicCommand)
    requires EncodableOf(f, c)
    ensures PacketOf(Word0Layout(f, c), OptWords(PresenceOf(f, EmitsLoopOf(f, c))[1..], TailValues(f, c)))
      == ExpectedOf(f, c)
  {
    var p := PresenceOf(f, EmitsLoopOf(f, c))[1..];
    var v := TailValues(f, c);
    assert p == [f.ram] + ([f.preset] + ([f.pivot] + ([f.end || f.pattern] + [EmitsLoopOf(f, c)])));
    OptWordsFive(p, v);
    Word0Read(f, c);
    RamRead(f, c);
    LoopRead(f, c);
  }

  /** The driver's reading of the arithmetic layout. */
  lemma DecodeLayout(f: Flags, c: MusicCommand, rest: seq<int>)
    requires EncodableOf(f, c)
    ensures var ws := [Word0Layout(f, c)] + TailLayout(f, c);
      Decode(ws + rest) == Some((ExpectedOf(f, c), |ws|))
  {
    var ws := [Word0Layout(f, c)] + TailLayout(f, c);
    var all := ws + rest;
    assert all[0] == Word0Layout(f, c);
    assert all[1..] == TailLayout(f, c) + rest;
    Word0Read(f, c);
    TailRead(f, c, rest);
    FieldsRead(f, c);
  }

  /** The driver reads back what the compiler packed: word 0's presence bits
      announce exactly the words that follow, and each field decodes to its
      value modulo the word size. */
  lemma DecodeEncode(c: MusicCommand, rest: seq<int>)
    requires Encodable(c)
    ensures Decode(ToU16Array(c) + rest) == Some((Expected(c), |ToU16Array(c)|))
  {
    var f := FlagsOf(c);
    Word0Value(f, c);
    TailValue(f, c);
    DecodeLayout(f, c, rest);
  }

  /** A packed command list reads back, command by command. */
  lemma {:induction false} DecodeAllEncodeAll(cs: seq<MusicCommand>)
    requires forall i :: 0 <= i < |cs| ==> Encodable(cs[i])
    ensures DecodeAll(EncodeAll(cs)) == Some(ExpectedAll(cs))
  {
    if cs != [] {
      var ws := ToU16Array(cs[0]);
      var rest := EncodeAll(cs[1..]);
      assert EncodeAll(cs) == ws + rest;
      DecodeEncode(cs[0], rest);
      assert (ws + rest)[|ws|..] == rest;
      DecodeAllEncodeAll(cs[1..]);
    }
  }
}

=== FILE: compiler.dfy ===
/** The music compiler proper (`Compiler.compile`, `_effect` and the
    top-level `compile`): it walks a song's command sets with a mutable
    context, emits driver commands, memoises patterns and macros, and hands
    out one loop id per nesting level.

    JavaScript recursion that never ends (a macro that plays itself) is a
    stack overflow there; here every nested command set spends one unit of
    `fuel` and running out is the error `Exhausted`. */
module Compiler {
  import opened Wrappers
  import opened Util
  import opened Ast
  import opened Encoding
  import opened NoteGen
  import opened Float

  datatype CompileError =
    | LoopsExceeded
    | UnexpectedPlayPattern
    | UnexpectedCommandSet
    | WeirdBgm
    | NoBgm(name: string)
    | NoPattern(name: string)
    | NoSfx(name: string)
    | Invalid(error: ValidationError)
    | EffectArity(effect: string)
    | EffectUnsupported(effect: string)
    | Exhausted

  /** A validator's verdict as a compile result. */
  function Valid(c: Check): (r: Result<(), CompileError>)
    ensures r.Ok? <==> c.Ok?
  {
    if c.Err? then Err(Invalid(c.error)) else Ok(())
  }

  /** Loop ids 0, 1 and 2: the id a nested loop would get next is checked
      against 3 on entry. */
  const MaxLoops := 3

  // ---------------------------------------------------------------------
  // The commands with fixed flags

  function MarkCommand(id: int): MusicCommand {
    Blank.(flags := FlagMark, loopID := id)
  }

  function LoopCommand(id: int, times: int): MusicCommand {
    Blank.(flags := FlagLoop, loopID := id, loopNum := times)
  }

  function JumpCommand(offset: int): MusicCommand {
    Blank.(flags := FlagPattern, pattern := offset)
  }

  /** `FLAG_VOL | FLAG_END` with one tick of wait and volume 0; the two
      bits are distinct, so the `|` is a sum. */
  const EndCommand := Blank.(flags := FlagVol + FlagEnd, wait := 1)

  function RestCommand(wait: int): MusicCommand {
    Blank.(flags := FlagVol, wait := wait)
  }

  predicate FixedFlags(f: int) {
    f == FlagVol || f == FlagVol + FlagEnd || f == FlagPattern || f == FlagMark || f == FlagLoop
  }

  lemma FixedFlagBits(f: nat)
    requires FixedFlags(f)
    ensures f < 0x100 && !ByteFlags(f).ram
    ensures ByteFlags(f).mark || ByteFlags(f).loop ==> f == FlagMark || f == FlagLoop
  {
  }

  /** A command with one of the fixed flag sets packs whenever its loop id
      is one the compiler hands out. */
  lemma FixedPacks(c: MusicCommand)
    requires FixedFlags(c.flags) && 0 <= c.loopID < MaxLoops
    ensures Packs(c, MaxLoops)
  {
    FixedFlagBits(c.flags);
    FlagsOfLiteral(c, c.flags);
  }

  // ---------------------------------------------------------------------
  // Effects

  /** `params[i] ?? default` */
  function Param(params: seq<int>, i: nat, default: int): int {
    if i < |params| then params[i] else default
  }

  /** JavaScript's `k % 3`, which keeps the sign of `k`, moved up by 3 when
      negative: the arithmetic residue. */
  function ArpPointer(k: int): (r: int)
    ensures r == k % 3 && 0 <= r < 3
  {
    var rem := if k >= 0 then k % 3 else -((-k) % 3);
    if rem < 0 then rem + 3 else rem
  }

  predicate KnownEffect(kind: string) {
    kind == "d" || kind == "A" || kind == "a" || kind == "p" || kind == "r" || kind == "s"
  }

  /** How many parameters each effect takes at most. */
  function MaxParams(kind: string): nat {
    if kind == "d" then 0 else if kind == "a" then 2 else 1
  }

  /** `Compiler._effect`: the context and the generator state after an
      effect command. */
  function ApplyEffect(kind: string, params: seq<int>, ctx: Ctx, seed: int): (r: Result<(Ctx, int), CompileError>)
    requires CtxOk(ctx)
    ensures r.Ok? <==> KnownEffect(kind) && |params| <= MaxParams(kind)
    ensures !KnownEffect(kind) ==> r == Err(EffectUnsupported(kind))
    ensures KnownEffect(kind) && |params| > MaxParams(kind) ==> r == Err(EffectArity(kind))
    ensures r.Ok? ==> CtxOk(r.value.0) && r.value.0.wait == ctx.wait
    ensures r.Ok? && kind == "s" ==> r.value == (ctx, Srand(Param(params, 0, 1)))
    ensures r.Ok? && kind != "s" ==> r.value.1 == seed && r.value.0.effType == kind[0] as int
    ensures r.Ok? && kind == "A" ==>
      r.value.0 == ctx.(arpPtr := Param(params, 0, 0) % 3, effType := 'A' as int)
    ensures r.Ok? && kind == "a" ==>
      r.value.0 == ctx.(note2 := Param(params, 0, 0), note3 := Param(params, 1, 0), effType := EffectArpeggio)
    ensures r.Ok? && (kind == "p" || kind == "r") ==>
      r.value.0 == ctx.(note2 := Param(params, 0, 0), effType := kind[0] as int)
    ensures r.Ok? && kind == "d" ==> r.value.0 == ctx.(effType := EffectDisabled)
  {
    if !KnownEffect(kind) then Err(EffectUnsupported(kind))
    else if |params| > MaxParams(kind) then Err(EffectArity(kind))
    else if kind == "s" then Ok((ctx, Srand(Param(params, 0, 1))))
    else
      var c :=
        if kind == "A" then ctx.(arpPtr := ArpPointer(Param(params, 0, 0)))
        else if kind == "a" then ctx.(note2 := Param(params, 0, 0), note3 := Param(params, 1, 0))
        else if kind == "p" || kind == "r" then ctx.(note2 := Param(params, 0, 0))
        else ctx;
      Ok((c.(effType := kind[0] as int), seed))
  }

  // ---------------------------------------------------------------------
  // Commands that only change the context

  predicate SetsContext(cmd: Command) {
    cmd.Wait? || cmd.Volume? || cmd.PulseWidthCmd? || cmd.Ram? || cmd.Length?
    || cmd.StepOctave? || cmd.Octave? || cmd.Quant? || cmd.Sustain?
    || cmd.EffectTicks? || cmd.EffectStart?
  }

  /** `o` and `>`: one octave up or down, never beyond 1..9. */
  function StepOctave(octave: int, up: bool): (r: int)
    ensures up ==> r <= 9 && (octave < 9 ==> r == octave + 1)
    ensures !up ==> r >= 1 && (octave > 1 ==> r == octave - 1)
  {
    if up then Min(9, octave + 1) else Max(1, octave - 1)
  }

  /** Inside 1..9 a step is undone by the opposite step, and the octave
      stays inside. */
  lemma StepOctaveInverse(octave: int)
    requires 1 <= octave <= 9
    ensures 1 <= StepOctave(octave, true) <= 9 && 1 <= StepOctave(octave, false) <= 9
    ensures octave < 9 ==> StepOctave(StepOctave(octave, true), false) == octave
    ensures octave > 1 ==> StepOctave(StepOctave(octave, false), true) == octave
  {
  }

  /** The commands that set one of the context's counts: wait, length,
      quantize, sustain and effect ticks. */
  function SetCount(cmd: Command, ctx: Ctx): (r: Result<Ctx, CompileError>)
    requires (cmd.Wait? || cmd.Length? || cmd.Quant? || cmd.Sustain? || cmd.EffectTicks?) && CtxOk(ctx)
    ensures r.Ok? ==> CtxOk(r.value)
    ensures cmd.Wait? ==> (r.Ok? <==> 1 <= cmd.ticks <= 255)
    ensures cmd.Quant? ==> (r.Ok? <==> 1 <= cmd.quant <= 64)
  {
    match cmd
    case Wait(t) =>
      var _ :- Valid(ValidateWait(t, Some(255)));
      Ok(ctx.(wait := t))
    case Length(l) =>
      var _ :- Valid(ValidateLength(l, Some(64)));
      Ok(ctx.(length := l))
    case Quant(q) =>
      var _ :- Valid(ValidateQuant(q, Some(64)));
      Ok(ctx.(quantize := q))
    case Sustain(s) =>
      var _ :- Valid(ValidateSustain(s, Some(64)));
      Ok(ctx.(sustain := s))
    case EffectTicks(t) =>
      var _ :- Valid(ValidateEffectTicks(t, Some(128)));
      Ok(ctx.(effTick := t))
  }

  /** The commands that set the volume, the pulse width, the pending RAM
      write or the octave. */
  function SetSound(cmd: Command, ctx: Ctx): (r: Result<Ctx, CompileError>)
    requires (cmd.Volume? || cmd.PulseWidthCmd? || cmd.Ram? || cmd.StepOctave? || cmd.Octave?) && CtxOk(ctx)
    ensures r.Ok? ==> CtxOk(r.value)
    ensures cmd.Octave? ==> (r.Ok? <==> 1 <= cmd.octave <= 9)
    ensures cmd.Ram? ==> (r.Ok? <==> 0 <= cmd.addr <= 255 && 0 <= cmd.data <= 255)
    ensures cmd.StepOctave? ==> r == Ok(ctx.(octave := StepOctave(ctx.octave, cmd.up)))
  {
    match cmd
    case Volume(v) =>
      var _ :- Valid(ValidateVolume(v));
      Ok(ctx.(volume := MapVolume(v)))
    case PulseWidthCmd(pw) =>
      var _ :- Valid(ValidatePulseWidth(pw, Some(255)));
      Ok(ctx.(pulse := OutOf(pw, 255)))
    case Ram(a, d) =>
      RamByteBounds(a, d);
      var _ :- Valid(ValidateRam(a, d, Some(RamBounds(None, 255, 8))));
      Ok(ctx.(ramAddr := a, ramData := d))
    case StepOctave(up) =>
      Ok(ctx.(octave := StepOctave(ctx.octave, up)))
    case Octave(o) =>
      var _ :- Valid(ValidateOctave(o, Some(1), Some(9)));
      Ok(ctx.(octave := o))
  }

  /** The validation and the context update of the commands that emit
      nothing; only an effect command moves the generator. */
  function SetContext(cmd: Command, ctx: Ctx, seed: int): (r: Result<(Ctx, int), CompileError>)
    requires SetsContext(cmd) && CtxOk(ctx)
    ensures r.Ok? ==> CtxOk(r.value.0)
    ensures r.Ok? && !cmd.EffectStart? ==> r.value.1 == seed
  {
    if cmd.EffectStart? then
      var _ :- Valid(ValidateEffectStart(cmd.effect, None));
      ApplyEffect(cmd.effect, cmd.params, ctx, seed)
    else if cmd.Wait? || cmd.Length? || cmd.Quant? || cmd.Sustain? || cmd.EffectTicks? then
      var c :- SetCount(cmd, ctx);
      Ok((c, seed))
    else
      var c :- SetSound(cmd, ctx);
      Ok((c, seed))
  }

  // ---------------------------------------------------------------------
  // Rows and notes

  /** The bounds a tracker row is validated against. */
  const RowLimits := RowBounds(1, 9, 255, 255, 64, 64, None, 255, 8, 128, None)

  /** What validation against the row limits admits, field by field. */
  predicate RowFits(row: Row) {
    (row.note.Some? ==> IsNote(row.note.value.note))
    && (row.wait.Some? ==> 1 <= row.wait.value <= 255)
    && (row.volume.Some? ==> 0 <= row.volume.value <= 15)
    && (row.pulseWidth.Some? ==> ValidatePulseWidth(row.pulseWidth.value, None).Ok?)
    && (row.quant.Some? ==> 1 <= row.quant.value <= 64)
    && (row.sustain.Some? ==> 1 <= row.sustain.value <= 64)
    && (row.ram.Some? ==> 0 <= row.ram.value.addr < 0x100 && 0 <= row.ram.value.data < 0x100)
    && (row.effectTicks.Some? ==> 1 <= row.effectTicks.value <= 128)
    && (row.effect.Some? ==> ValidateEffectStart(row.effect.value.kind, None).Ok?)
  }

  lemma RowLimitsMean(row: Row)
    ensures ValidateRow(row, Some(RowLimits)).Ok? <==> RowFits(row)
  {
    if row.ram.Some? {
      RamByteBounds(row.ram.value.addr, row.ram.value.data);
    }
  }

  /** The fields of a valid row written into the context.  Each field sets
      its own part of the context, so the compiler's reading order does not
      matter: the counts go first here, then the sound. */
  function RowSettings(row: Row, ctx: Ctx): (c: Ctx)
    requires CtxOk(ctx) && RowFits(row)
    ensures CtxOk(c)
    ensures c.wait == (if row.wait.Some? then row.wait.value else ctx.wait)
    ensures c.effType == ctx.effType && c.note2 == ctx.note2 && c.note3 == ctx.note3
    ensures c.quantize == (if row.quant.Some? then row.quant.value else ctx.quantize)
    ensures c.sustain == (if row.sustain.Some? then row.sustain.value else ctx.sustain)
    ensures row.ram.Some? ==> c.ramAddr == row.ram.value.addr && c.ramData == row.ram.value.data
    ensures row.ram.None? ==> c.ramAddr == ctx.ramAddr && c.ramData == ctx.ramData
  {
    RowSound(row, RowCounts(row, ctx))
  }

  function RowCounts(row: Row, ctx: Ctx): (c: Ctx)
    requires CtxOk(ctx) && RowFits(row)
    ensures CtxOk(c)
    ensures c.wait == (if row.wait.Some? then row.wait.value else ctx.wait)
    ensures c.quantize == (if row.quant.Some? then row.quant.value else ctx.quantize)
    ensures c.sustain == (if row.sustain.Some? then row.sustain.value else ctx.sustain)
    ensures c.effTick == (if row.effectTicks.Some? then row.effectTicks.value else ctx.effTick)
    ensures c == ctx.(wait := c.wait, quantize := c.quantize, sustain := c.sustain, effTick := c.effTick)
  {
    var c2 := if row.wait.Some? then ctx.(wait := row.wait.value) else ctx;
    var c5 := if row.quant.Some? then c2.(quantize := row.quant.value) else c2;
    var c6 := if row.sustain.Some? then c5.(sustain := row.sustain.value) else c5;
    if row.effectTicks.Some? then c6.(effTick := row.effectTicks.value) else c6
  }

  function RowSound(row: Row, ctx: Ctx): (c: Ctx)
    requires CtxOk(ctx) && RowFits(row)
    ensures CtxOk(c)
    ensures row.ram.Some? ==> c.ramAddr == row.ram.value.addr && c.ramData == row.ram.value.data
    ensures row.ram.None? ==> c.ramAddr == ctx.ramAddr && c.ramData == ctx.ramData
    ensures row.volume.Some? ==> c.volume == MapVolume(row.volume.value)
    ensures c == ctx.(octave := c.octave, volume := c.volume, pulse := c.pulse,
                      ramAddr := c.ramAddr, ramData := c.ramData)
  {
    var c1 := if row.note.Some? && Truthy(row.note.value.octave) then ctx.(octave := row.note.value.octave.value) else ctx;
    var c3 := if row.volume.Some? then c1.(volume := MapVolume(row.volume.value)) else c1;
    var c4 := if row.pulseWidth.Some? then c3.(pulse := OutOf(row.pulseWidth.value, 255)) else c3;
    if row.ram.Some? then c4.(ramAddr := row.ram.value.addr, ramData := row.ram.value.data) else c4
  }

  /** The context a row leaves behind before its note is played: each
      present field, then the effect last. */
  function RowContext(row: Row, ctx: Ctx, seed: int): (r: Result<(Ctx, int), CompileError>)
    requires CtxOk(ctx)
    ensures r.Ok? ==> CtxOk(r.value.0) && RowFits(row)
    ensures row.effect.None? ==> (r.Ok? <==> RowFits(row))
    ensures r.Ok? ==> r.value.0.wait == (if row.wait.Some? then row.wait.value else ctx.wait)
    ensures r.Ok? && row.effect.None? ==> r.value.1 == seed && r.value.0.effType == ctx.effType
  {
    RowLimitsMean(row);
    var _ :- Valid(ValidateRow(row, Some(RowLimits)));
    var c := RowSettings(row, ctx);
    if row.effect.Some? then ApplyEffect(row.effect.value.kind, row.effect.value.params, c, seed)
    else Ok((c, seed))
  }

  /** The presets of a note and its two effect partners in the current
      octave. */
  function NotePresets(note: int, ctx: Ctx): Presets {
    Presets(GetNoteFreq(note, ctx.octave), GetNoteFreq(note + ctx.note2, ctx.octave),
            GetNoteFreq(note + ctx.note3, ctx.octave))
  }

  /** The presets of a rest: none of them sounds. */
  const Silent := Presets(-1, -1, -1)

  /** A row: the context updates, then its note (or a rest) for the
      context's wait. */
  function CompileRow(row: Row, ctx: Ctx, seed: int): (r: Result<Gen, CompileError>)
    requires CtxOk(ctx)
    ensures r.Ok? <==> RowContext(row, ctx, seed).Ok?
    ensures r.Ok? ==> r.value.cmds != [] && CtxOk(r.value.ctx) && AllPack(r.value.cmds, 1)
    ensures r.Ok? ==> Emitted(r.value, RowContext(row, ctx, seed).value.0, RowContext(row, ctx, seed).value.1)
    ensures r.Ok? && row.effect.None? && !EffectOn(ctx) ==>
      TotalWait(r.value.cmds) == (if row.wait.Some? then row.wait.value else ctx.wait)
  {
    var (c, s) :- RowContext(row, ctx, seed);
    var p := if row.note.Some? && row.note.value.note != Rest then NotePresets(row.note.value.note, c) else Silent;
    Ok(QuantSustain(c.wait, p, c, s))
  }

  /** The largest wait or length the tick computation is modelled for:
      far above the 255 and 64 the compiler's context and validation allow,
      and far below where doubles stop holding integers exactly. */
  const MaxTickOperand := 0x10_0000

  /** The dot factors 1, 1.5, 1.75, 1.875 and 1.9375 as the exact fractions
      `DotNum(e) / DotDen(e)` they are in binary. */
  function DotNum(extend: int): (r: int)
    requires 0 <= extend <= 4
    ensures r + 1 == 2 * DotDen(extend)
  {
    if extend == 0 then 1 else if extend == 1 then 3 else if extend == 2 then 7
    else if extend == 3 then 15 else 31
  }

  function DotDen(extend: int): (r: int)
    requires 0 <= extend <= 4
    ensures 1 <= r <= 16
  {
    if extend == 0 then 1 else if extend == 1 then 2 else if extend == 2 then 4
    else if extend == 3 then 8 else 16
  }

  /** The ticks of a note `length` long in a context whose whole note
      lasts `wait` ticks, with `extend` dots, computed in doubles as
      `_getLength` and the caller's division do: without dots `wait /
      length`; with dots `length / f` rounded, then `wait` over that,
      rounded; then truncated. */
  function DottedTicks(wait: int, length: int, extend: int): (r: int)
    requires 1 <= wait <= MaxTickOperand && 1 <= length <= MaxTickOperand && 0 <= extend <= 4
    ensures r >= 0
  {
    if extend == 0 then Trunc(Quot(wait, length))
    else
      DottedOperands(wait, length, extend);
      Trunc(DivByQuot(wait, length * DotDen(extend), DotNum(extend)))
  }

  lemma DottedOperands(wait: int, length: int, extend: int)
    requires 1 <= wait <= MaxTickOperand && 1 <= length <= MaxTickOperand && 0 <= extend <= 4
    ensures 1 <= length * DotDen(extend) <= 16 * MaxTickOperand
    ensures 1 <= wait * DotNum(extend) <= 31 * MaxTickOperand
  {
    MulMonotone(length, DotDen(extend), 16);
    MulMonotone(wait, DotNum(extend), 31);
    MulMonotone(DotDen(extend), 1, length);
    MulMonotone(DotNum(extend), 1, wait);
  }

  /** The same ticks in exact arithmetic: `wait * f / length` rounded
      toward zero. */
  function ExactTicks(wait: int, length: int, extend: int): (r: int)
    requires wait >= 1 && length >= 1 && 0 <= extend <= 4
    ensures 0 <= r < 2 * wait
  {
    DivAtMost(wait * DotNum(extend), length * DotDen(extend), DotDen(extend));
    MulMonotone(DotDen(extend), 1, length);
    assert wait * DotNum(extend) == DotDen(extend) * (2 * wait) - wait by {
      assert DotNum(extend) == 2 * DotDen(extend) - 1;
    }
    DivBelow(wait * DotNum(extend), DotDen(extend), 2 * wait);
    (wait * DotNum(extend)) / (length * DotDen(extend))
  }

  /** Doubles give the exact ticks, except that a dotted note whose exact
      ticks are a whole number can come out one short: `length / f` is
      rounded, and the second rounding can land just below the integer. */
  lemma DottedTicksNearExact(wait: int, length: int, extend: int)
    requires 1 <= wait <= MaxTickOperand && 1 <= length <= MaxTickOperand && 0 <= extend <= 4
    ensures var r, x := DottedTicks(wait, length, extend), ExactTicks(wait, length, extend);
      || r == x
      || (r == x - 1 && extend >= 1 && (wait * DotNum(extend)) % (length * DotDen(extend)) == 0)
  {
    if extend == 0 {
      TruncQuot(wait, length);
    } else {
      DottedOperands(wait, length, extend);
      TwoRoundings(wait, length * DotDen(extend), DotNum(extend));
    }
  }

  /** Where doubles come out one short: `w70 l7 c.` gives 14 ticks where
      70 * 1.5 / 7 is exactly 15, and `l9 c..` at wait 36 gives 6 for 7. */
  lemma DottedTicksShort()
    ensures DottedTicks(70, 7, 1) == 14 && ExactTicks(70, 7, 1) == 15
    ensures DottedTicks(36, 9, 2) == 6 && ExactTicks(36, 9, 2) == 7
  {
    DottedOnce();
    DottedTwice();
    ExactExamples();
  }

  /** The exact ticks of the two examples: 70 * 3 / 14 and 36 * 7 / 36. */
  lemma ExactExamples()
    ensures ExactTicks(70, 7, 1) == 15 && ExactTicks(36, 9, 2) == 7
  {
    assert DotNum(1) == 3 && DotDen(1) == 2;
    assert DotNum(2) == 7 && DotDen(2) == 4;
    assert (70 * 3) / (7 * 2) == 15;
    assert (36 * 7) / (9 * 4) == 7;
  }

  /** `l7 c.` at wait 70: 7 / 1.5 rounds up, so 70 over it falls below 15. */
  lemma DottedOnce()
    ensures DottedTicks(70, 7, 1) == 14
  {
    Pow2Binades();
    QuotIs(14, 3, 50, 5254199565265579);
    QuotIs(70 * 0x4_0000_0000_0000, 5254199565265579, 49, 8444249301319679);
    assert Trunc(Dbl(8444249301319679, 49)) == 14;
  }

  /** `l9 c..` at wait 36: 9 / 1.75 rounds up, so 36 over it falls below 7. */
  lemma DottedTwice()
    ensures DottedTicks(36, 9, 2) == 6
  {
    Pow2Binades();
    QuotIs(36, 7, 50, 5790342378047781);
    QuotIs(36 * 0x4_0000_0000_0000, 5790342378047781, 50, 7881299347898367);
    assert Trunc(Dbl(7881299347898367, 50)) == 6;
  }

  /** A quotient below `c` when the dividend is below `k * c`. */
  lemma DivBelow(n: nat, k: int, c: int)
    requires k >= 1 && n < k * c
    ensures n / k < c
  {
    assert n == k * (n / k) + n % k;
    if n / k >= c {
      MulMonotone(k, c, n / k);
    }
  }

  /** Dividing by more gives less. */
  lemma DivAtMost(n: nat, d: int, k: int)
    requires 1 <= k <= d
    ensures 0 <= n / d <= n / k
  {
    var q := n / d;
    MulMonotone(q, k, d);
    var m := n / k;
    assert q * k <= n < k * m + k;
    if m < q {
      MulMonotone(k, m + 1, q);
    }
  }

  /** The rest `PlayNote` emits as written: one command of the full
      length, which the encoder cuts to its low byte. */
  function RestAsWritten(ticks: int): (c: MusicCommand)
    requires ticks >= 0
    ensures c.wait >= 1 && c.flags == FlagVol && c.volume == 0
    ensures ticks >= 1 ==> c.wait == ticks
  {
    RestCommand(if ticks == 0 then 1 else ticks)
  }

  /** A whole note at wait 255 with one dot rests 382 ticks; the single
      command that carries them packs a wait byte of 126. */
  lemma LongRestWraps()
    ensures DottedTicks(255, 1, 1) == 382
    ensures RestAsWritten(382).wait == 382 && Expected(RestAsWritten(382)).wait == 126
  {
    Pow2Binades();
    QuotIs(2, 3, 53, 6004799503160661);
    QuotIs(255 * TWO53, 6004799503160661, 44, 6729011161989120);
    assert Trunc(Dbl(6729011161989120, 44)) == 382;
    RestWaitByte(382);
  }

  /** A rest command counts down the low byte of its wait. */
  lemma RestWaitByte(ticks: int)
    requires ticks >= 1
    ensures Expected(RestAsWritten(ticks)).wait == ticks % 0x100
  {
    VolOnlyFlags(RestAsWritten(ticks));
  }

  /** A flags byte of just the volume bit is no end marker. */
  lemma VolOnlyFlags(c: MusicCommand)
    requires c.flags == FlagVol
    ensures !FlagsOf(c).end
  {
    FlagsOfLiteral(c, 1);
    assert !ByteFlags(1).end;
  }

  /** A rest of `ticks` ticks cut into commands of at most 255 ticks, as
      `_make_note` cuts a sounding note. */
  function RestRun(ticks: int): (cs: seq<MusicCommand>)
    ensures cs != [] && WaitsOk(cs) && TotalWait(cs) == Max(ticks, 1)
    ensures AllPack(cs, 1)
    ensures forall i :: 0 <= i < |cs| ==> cs[i].flags == FlagVol && cs[i].volume == 0
    decreases ticks
  {
    var c := RestCommand(if ticks <= 255 then Max(ticks, 1) else 255);
    FixedPacks(c);
    if ticks <= 255 then [c]
    else
      var more := RestRun(ticks - 255);
      assert ([c] + more)[1..] == more;
      AllPackAppend([c], more, 1);
      [c] + more
  }

  /** `length ?? ctx.length` with its dots applied to the context's wait. */
  function NoteTicks(length: Option<int>, extend: int, ctx: Ctx): int
    requires CtxOk(ctx) && 0 <= extend <= 4 && (length.Some? ==> 1 <= length.value <= 64)
  {
    DottedTicks(ctx.wait, if length.Some? then length.value else ctx.length, extend)
  }

  /** A `PlayNote` (an MML note): a rest of the note's ticks, or the note
      cut by quantize and sustain. */
  function CompilePlayNote(note: int, length: Option<int>, extend: int, ctx: Ctx, seed: int): (r: Result<Gen, CompileError>)
    requires CtxOk(ctx)
    ensures r.Ok? <==> ValidatePlayNote(note, length, extend, Some(64), Some(4)).Ok?
    ensures r.Ok? ==> r.value.cmds != [] && CtxOk(r.value.ctx) && AllPack(r.value.cmds, 1)
    ensures r.Ok? && note == Rest ==>
      r.value.ctx == ctx && r.value.seed == seed && WaitsOk(r.value.cmds)
      && TotalWait(r.value.cmds) == Max(NoteTicks(length, extend, ctx), 1)
    ensures r.Ok? && note != Rest ==>
      Emitted(r.value, ctx, seed)
      && (!EffectOn(ctx) ==> TotalWait(r.value.cmds) == Max(NoteTicks(length, extend, ctx), 1))
  {
    var _ :- Valid(ValidatePlayNote(note, length, extend, Some(64), Some(4)));
    var ticks := NoteTicks(length, extend, ctx);
    if note == Rest then Ok(Gen(RestRun(ticks), ctx, seed))
    else Ok(QuantSustain(ticks, NotePresets(note, ctx), ctx, seed))
  }

  // ---------------------------------------------------------------------
  // Command sets

  /** The memo tables of one compiler run and its random generator. */
  datatype State = State(seed: int, pats: map<string, seq<MusicCommand>>, macros: map<string, seq<MusicCommand>>)

  /** `new Compiler(base)`: empty memo tables, generator state 1. */
  const Fresh := State(1, map[], map[])

  /** The memo tables hold packable output, and only patterns the song
      defines. */
  predicate StOk(song: PMMusic, st: State) {
    (forall n :: n in st.pats ==> AllPack(st.pats[n], MaxLoops))
    && (forall n :: n in st.macros ==> AllPack(st.macros[n], MaxLoops))
    && st.pats.Keys <= song.pattern.Keys
  }

  /** Commands emitted, the context after them, the compiler state. */
  datatype Out = Out(cmds: seq<MusicCommand>, ctx: Ctx, st: State)

  /** What every step keeps: a valid context, sound memo tables that only
      grow, and packable output. */
  predicate Keeps(song: PMMusic, st: State, o: Out) {
    CtxOk(o.ctx) && StOk(song, o.st) && AllPack(o.cmds, MaxLoops) && st.pats.Keys <= o.st.pats.Keys
  }

  /** A pattern's commands with the jump to the next pattern appended unless
      they already end in an `End` or a jump. */
  function WithNext(cmds: seq<Command>): (r: seq<Command>)
    ensures |r| > 0 && (r[|r| - 1].End? || r[|r| - 1].JumpPattern?)
    ensures cmds <= r && |r| <= |cmds| + 1
  {
    if cmds != [] && (cmds[|cmds| - 1].End? || cmds[|cmds| - 1].JumpPattern?) then cmds
    else cmds + [JumpPattern(1)]
  }

  /** `Compiler.compile(cmdset, loopID, ctx)`.  `repeats` is present when
      the set is a `Loop`. */
  function CompileSet(song: PMMusic, repeats: Option<int>, body: seq<Command>, loopID: int,
                      ctx: Ctx, st: State, fuel: nat): (r: Result<Out, CompileError>)
    requires -1 <= loopID <= MaxLoops && CtxOk(ctx) && StOk(song, st)
    ensures loopID == MaxLoops ==> r == Err(LoopsExceeded)
    ensures r.Ok? ==> Keeps(song, st, r.value)
    ensures loopID < MaxLoops && repeats == Some(0) ==> r == Ok(Out([], ctx, st))
    ensures r.Ok? && repeats.Some? && repeats.value > 1 ==>
      |r.value.cmds| >= 2 && r.value.cmds[0] == MarkCommand(Max(loopID, 0))
      && r.value.cmds[|r.value.cmds| - 1] == LoopCommand(Max(loopID, 0), repeats.value - 1)
    ensures r.Ok? && repeats.None? ==>
      forall i :: 0 <= i < |body| && body[i].PlayPattern? ==> body[i].name in r.value.st.pats
    decreases fuel, 4
  {
    if loopID == MaxLoops then Err(LoopsExceeded)
    else if repeats == Some(0) then Ok(Out([], ctx, st))
    else if repeats.Some? && repeats.value > 1 then
      CompileLooped(song, repeats.value - 1, body, Max(loopID, 0), ctx, st, fuel)
    else
      CompileList(song, body, false, if repeats.Some? then Max(loopID, 0) else loopID, ctx, st, fuel)
  }

  /** A loop played more than once: a mark, the body, and the command that
      jumps back to the mark `times` more times. */
  function CompileLooped(song: PMMusic, times: int, body: seq<Command>, id: int,
                         ctx: Ctx, st: State, fuel: nat): (r: Result<Out, CompileError>)
    requires 0 <= id < MaxLoops && CtxOk(ctx) && StOk(song, st)
    ensures r.Ok? ==> Keeps(song, st, r.value)
    ensures r.Ok? ==>
      |r.value.cmds| >= 2 && r.value.cmds[0] == MarkCommand(id)
      && r.value.cmds[|r.value.cmds| - 1] == LoopCommand(id, times)
    decreases fuel, 3
  {
    var mark, back := MarkCommand(id), LoopCommand(id, times);
    FixedPacks(mark);
    FixedPacks(back);
    var o :- CompileList(song, body, true, id, ctx, st, fuel);
    AllPackAppend([mark], o.cmds, MaxLoops);
    AllPackAppend([mark] + o.cmds, [back], MaxLoops);
    Ok(o.(cmds := [mark] + o.cmds + [back]))
  }

  /** The loop over a set's commands, giving what they emit; `emitted`
      tells whether the set has emitted anything before them (a repeated
      loop's mark counts). */
  function CompileList(song: PMMusic, cmds: seq<Command>, emitted: bool, loopID: int,
                       ctx: Ctx, st: State, fuel: nat): (r: Result<Out, CompileError>)
    requires -1 <= loopID < MaxLoops && CtxOk(ctx) && StOk(song, st)
    ensures r.Ok? ==> Keeps(song, st, r.value)
    ensures r.Ok? ==>
      forall i :: 0 <= i < |cmds| && cmds[i].PlayPattern? ==> cmds[i].name in r.value.st.pats
    decreases fuel, 2, |cmds|
  {
    if cmds == [] then Ok(Out([], ctx, st))
    else
      var o :- CompileOne(song, cmds[0], emitted, loopID, ctx, st, fuel);
      var r :- CompileList(song, cmds[1..], emitted || o.cmds != [], loopID, o.ctx, o.st, fuel);
      AllPackAppend(o.cmds, r.cmds, MaxLoops);
      assert forall i :: 1 <= i < |cmds| ==> cmds[i] == cmds[1..][i - 1];
      Ok(r.(cmds := o.cmds + r.cmds))
  }

  /** One command of a set.  `emitted` tells whether the set has emitted
      anything yet. */
  function CompileOne(song: PMMusic, cmd: Command, emitted: bool, loopID: int,
                      ctx: Ctx, st: State, fuel: nat): (r: Result<Out, CompileError>)
    requires -1 <= loopID < MaxLoops && CtxOk(ctx) && StOk(song, st)
    ensures r.Ok? ==> Keeps(song, st, r.value)
    ensures r.Ok? && cmd.PlayPattern? ==> r.value.cmds == [] && cmd.name in r.value.st.pats
    ensures cmd.PlayPattern? && emitted ==> r == Err(UnexpectedPlayPattern)
    ensures cmd.CommandSet? ==> r == Err(UnexpectedCommandSet)
    decreases fuel, 1
  {
    match cmd
    case Loop(repeats, body) =>
      var _ :- Valid(ValidateLoop(repeats));
      if fuel == 0 then Err(Exhausted)
      else CompileSet(song, Some(repeats), body, loopID + 1, ctx, st, fuel - 1)
    case PlayMacro(name) => CompileMacro(song, name, loopID, ctx, st, fuel)
    case PlayPattern(name) =>
      if emitted then Err(UnexpectedPlayPattern)
      else CompilePattern(song, name, loopID, ctx, st, fuel)
    case CommandSet(_) => Err(UnexpectedCommandSet)
    case _ => CompileStep(song, cmd, ctx, st)
  }

  /** A command that neither nests nor refers to another set: a row, a
      note, a jump, the end marker or a context setting. */
  function CompileStep(song: PMMusic, cmd: Command, ctx: Ctx, st: State): (r: Result<Out, CompileError>)
    requires CtxOk(ctx) && StOk(song, st)
    requires !cmd.Loop? && !cmd.PlayMacro? && !cmd.PlayPattern? && !cmd.CommandSet?
    ensures r.Ok? ==> Keeps(song, st, r.value) && r.value.st.pats == st.pats && r.value.st.macros == st.macros
    ensures cmd.End? ==> r == Ok(Out([EndCommand], ctx, st))
    ensures cmd.JumpPattern? ==> r == Ok(Out([JumpCommand(cmd.offset)], ctx, st))
    ensures r.Ok? && (cmd.RowCmd? || cmd.PlayNote?) ==> r.value.cmds != []
    ensures r.Ok? && !cmd.RowCmd? && !cmd.PlayNote? && !cmd.End? && !cmd.JumpPattern? ==> r.value.cmds == []
  {
    if cmd.RowCmd? || cmd.PlayNote? then
      var g :- Sound(cmd, ctx, st.seed);
      AllPackWiden(g.cmds, 1, MaxLoops);
      KeepsSeed(song, st, g.cmds, g.ctx, g.seed);
      Ok(Out(g.cmds, g.ctx, st.(seed := g.seed)))
    else if cmd.JumpPattern? then
      FixedPacks(JumpCommand(cmd.offset));
      KeepsSeed(song, st, [JumpCommand(cmd.offset)], ctx, st.seed);
      Ok(Out([JumpCommand(cmd.offset)], ctx, st))
    else if cmd.End? then
      FixedPacks(EndCommand);
      KeepsSeed(song, st, [EndCommand], ctx, st.seed);
      Ok(Out([EndCommand], ctx, st))
    else
      var (c, seed) :- SetContext(cmd, ctx, st.seed);
      KeepsSeed(song, st, [], c, seed);
      Ok(Out([], c, st.(seed := seed)))
  }

  /** A row or a note: the commands that sound it. */
  function Sound(cmd: Command, ctx: Ctx, seed: int): (r: Result<Gen, CompileError>)
    requires CtxOk(ctx) && (cmd.RowCmd? || cmd.PlayNote?)
    ensures r.Ok? ==> r.value.cmds != [] && CtxOk(r.value.ctx) && AllPack(r.value.cmds, 1)
  {
    if cmd.RowCmd? then CompileRow(cmd.row, ctx, seed)
    else CompilePlayNote(cmd.note, cmd.length, cmd.extend, ctx, seed)
  }

  /** Moving the generator on keeps the memo tables as they are. */
  lemma KeepsSeed(song: PMMusic, st: State, cmds: seq<MusicCommand>, ctx: Ctx, seed: int)
    requires CtxOk(ctx) && StOk(song, st) && AllPack(cmds, MaxLoops)
    ensures Keeps(song, st, Out(cmds, ctx, st.(seed := seed)))
  {
  }

  /** A macro: its commands in place.  Without transclusion they are
      compiled once, from the default context, and the caller's context
      carries on unchanged; with it they run in the caller's context every
      time. */
  function CompileMacro(song: PMMusic, name: string, loopID: int,
                        ctx: Ctx, st: State, fuel: nat): (r: Result<Out, CompileError>)
    requires -1 <= loopID < MaxLoops && CtxOk(ctx) && StOk(song, st)
    ensures r.Ok? ==> Keeps(song, st, r.value)
    ensures r.Ok? ==> name in song.macro && name != ""
    ensures r.Ok? && !song.transcludeMacro ==> r.value.ctx == ctx && name in r.value.st.macros
    ensures !song.transcludeMacro && name in song.macro && name != "" && name in st.macros ==>
      r == Ok(Out(st.macros[name], ctx, st))
    decreases fuel, 0
  {
    var _ :- Valid(ValidatePlayMacro(name, Some(song.macro.Keys)));
    if !song.transcludeMacro && name in st.macros then Ok(Out(st.macros[name], ctx, st))
    else if fuel == 0 then Err(Exhausted)
    else
      DefaultCtxOk();
      var start := if song.transcludeMacro then ctx else DefaultCtx;
      var o :- CompileSet(song, None, song.macro[name], loopID, start, st, fuel - 1);
      if song.transcludeMacro then Ok(o)
      else Ok(Out(o.cmds, ctx, o.st.(macros := o.st.macros[name := o.cmds])))
  }

  /** A pattern played from a set: compiled once, from the default context
      and with the jump to the next pattern, into the pattern table; it
      emits nothing where it is played. */
  function CompilePattern(song: PMMusic, name: string, loopID: int,
                          ctx: Ctx, st: State, fuel: nat): (r: Result<Out, CompileError>)
    requires -1 <= loopID < MaxLoops && CtxOk(ctx) && StOk(song, st)
    ensures r.Ok? ==> Keeps(song, st, r.value)
    ensures r.Ok? ==> r.value.cmds == [] && r.value.ctx == ctx && name in r.value.st.pats
    ensures r.Ok? ==> name in song.pattern && name != ""
    ensures name in song.pattern && name != "" && name in st.pats ==> r == Ok(Out([], ctx, st))
    decreases fuel, 0
  {
    var _ :- Valid(ValidatePlayPattern(name, Some(song.pattern.Keys)));
    if name in st.pats then Ok(Out([], ctx, st))
    else if fuel == 0 then Err(Exhausted)
    else
      DefaultCtxOk();
      var o :- CompileSet(song, None, WithNext(song.pattern[name]), loopID, DefaultCtx, st, fuel - 1);
      Ok(Out([], ctx, o.st.(pats := o.st.pats[name := o.cmds])))
  }

  // ---------------------------------------------------------------------
  // The whole song

  /** `CompileReturn`: for each BGM the names of the patterns it plays in
      order (`None` where a BGM command is not a `PlayPattern`), and the
      compiled patterns and sound effects by name. */
  datatype Compiled = Compiled(bgm: map<string, seq<Option<string>>>,
                               pattern: map<string, seq<MusicCommand>>,
                               sfx: map<string, seq<MusicCommand>>)

  /** The pattern names a BGM lists. */
  function PatternNames(cmds: seq<Command>): (r: seq<Option<string>>)
    ensures |r| == |cmds|
    ensures forall i :: 0 <= i < |cmds| ==>
      (r[i].Some? <==> cmds[i].PlayPattern?) && (r[i].Some? ==> r[i].value == cmds[i].name)
  {
    if cmds == [] then []
    else [if cmds[0].PlayPattern? then Some(cmds[0].name) else None] + PatternNames(cmds[1..])
  }

  /** Every pattern a BGM table names is among `keys`. */
  predicate NamesIn(bgm: map<string, seq<Option<string>>>, keys: set<string>) {
    forall b, i :: b in bgm && 0 <= i < |bgm[b]| && bgm[b][i].Some? ==> bgm[b][i].value in keys
  }

  /** Every list in a table packs. */
  predicate TablePacks(t: map<string, seq<MusicCommand>>) {
    forall n :: n in t ==> AllPack(t[n], MaxLoops)
  }

  /** The BGMs asked for, in order: each must exist and compile to nothing
      but patterns, all of which land in the pattern memo. */
  function CompileBgms(song: PMMusic, names: seq<string>, out: map<string, seq<Option<string>>>,
                       st: State, fuel: nat): (r: Result<(map<string, seq<Option<string>>>, State), CompileError>)
    requires StOk(song, st) && NamesIn(out, st.pats.Keys)
    ensures r.Ok? ==> StOk(song, r.value.1) && st.pats.Keys <= r.value.1.pats.Keys
    ensures r.Ok? ==> NamesIn(r.value.0, r.value.1.pats.Keys)
    ensures r.Ok? ==> forall b :: b in r.value.0 <==> b in out || b in names
    ensures r.Ok? ==> forall b :: b in names ==> b in song.bgm && r.value.0[b] == PatternNames(song.bgm[b])
    ensures r.Ok? ==> forall b :: b in out && b !in names ==> r.value.0[b] == out[b]
    ensures (exists b :: b in names && b !in song.bgm) ==> r.Err?
    decreases |names|
  {
    if names == [] then Ok((out, st))
    else
      var b := names[0];
      if b !in song.bgm then Err(NoBgm(b))
      else
        DefaultCtxOk();
        var o :- CompileSet(song, None, song.bgm[b], -1, DefaultCtx, st, fuel);
        if o.cmds != [] then Err(WeirdBgm)
        else
          var out' := out[b := PatternNames(song.bgm[b])];
          assert NamesIn(out', o.st.pats.Keys);
          var r :- CompileBgms(song, names[1..], out', o.st, fuel);
          assert forall x :: x in names <==> x == b || x in names[1..];
          Ok(r)
  }

  /** The patterns asked for, in order: each must exist; one not compiled
      yet is compiled as it stands, without the jump a BGM adds. */
  function CompilePatterns(song: PMMusic, names: seq<string>, out: map<string, seq<MusicCommand>>,
                           st: State, fuel: nat): (r: Result<(map<string, seq<MusicCommand>>, State), CompileError>)
    requires StOk(song, st) && TablePacks(out)
    ensures r.Ok? ==> StOk(song, r.value.1) && st.pats.Keys <= r.value.1.pats.Keys && TablePacks(r.value.0)
    ensures r.Ok? ==> forall p :: p in r.value.0 <==> p in out || p in names
    ensures r.Ok? ==> forall p :: p in names ==> p in song.pattern
    ensures (exists p :: p in names && p !in song.pattern) ==> r.Err?
    decreases |names|
  {
    if names == [] then Ok((out, st))
    else
      var p := names[0];
      if p !in song.pattern then Err(NoPattern(p))
      else
        DefaultCtxOk();
        var st' :- if p in st.pats then Ok(st) else
          var o :- CompileSet(song, None, song.pattern[p], -1, DefaultCtx, st, fuel);
          Ok(o.st.(pats := o.st.pats[p := o.cmds]));
        var r :- CompilePatterns(song, names[1..], out[p := st'.pats[p]], st', fuel);
        assert forall x :: x in names <==> x == p || x in names[1..];
        Ok(r)
  }

  /** The sound effects asked for, in order: each must exist and is
      compiled afresh. */
  function CompileSfxs(song: PMMusic, names: seq<string>, out: map<string, seq<MusicCommand>>,
                       st: State, fuel: nat): (r: Result<map<string, seq<MusicCommand>>, CompileError>)
    requires StOk(song, st) && TablePacks(out)
    ensures r.Ok? ==> TablePacks(r.value)
    ensures r.Ok? ==> forall s :: s in r.value <==> s in out || s in names
    ensures (exists s :: s in names && s !in song.sfx) ==> r.Err?
    decreases |names|
  {
    if names == [] then Ok(out)
    else
      var s := names[0];
      if s !in song.sfx then Err(NoSfx(s))
      else
        DefaultCtxOk();
        var o :- CompileSet(song, None, song.sfx[s], -1, DefaultCtx, st, fuel);
        var r :- CompileSfxs(song, names[1..], out[s := o.cmds], o.st, fuel);
        assert forall x :: x in names <==> x == s || x in names[1..];
        Ok(r)
  }

  /** `compile(base, opts)`: the BGMs first, then the patterns asked for
      together with every pattern the BGMs play, then the sound effects,
      all through one compiler. */
  function Compile(song: PMMusic, bgms: seq<string>, patterns: seq<string>, sfx: seq<string>,
                   fuel: nat): (r: Result<Compiled, CompileError>)
    ensures r.Ok? ==> forall b :: b in r.value.bgm <==> b in bgms
    ensures r.Ok? ==> forall s :: s in r.value.sfx <==> s in sfx
    ensures r.Ok? ==> forall p :: p in patterns ==> p in r.value.pattern
    ensures r.Ok? ==> r.value.pattern.Keys <= song.pattern.Keys
    ensures r.Ok? ==> NamesIn(r.value.bgm, r.value.pattern.Keys)
    ensures r.Ok? ==> forall b :: b in bgms ==> b in song.bgm && r.value.bgm[b] == PatternNames(song.bgm[b])
    ensures r.Ok? ==> TablePacks(r.value.pattern) && TablePacks(r.value.sfx)
    ensures (exists b :: b in bgms && b !in song.bgm) ==> r.Err?
    ensures (exists p :: p in patterns && p !in song.pattern) ==> r.Err?
    ensures (exists s :: s in sfx && s !in song.sfx) ==> r.Err?
  {
    var (bm, st1) :- CompileBgms(song, bgms, map[], Fresh, fuel);
    var (pm, st2) :- CompilePatterns(song, patterns, map[], st1, fuel);
    var played := map k | k in st1.pats :: st2.pats[k];
    var sm :- CompileSfxs(song, sfx, map[], st2, fuel);
    Ok(Compiled(bm, pm + played, sm))
  }

  // ---------------------------------------------------------------------
  // Properties of the compiled song

  /** Every command the compiler emits packs, so each compiled list reads
      back as the packets it stands for. */
  lemma PackedRoundTrip(cs: seq<MusicCommand>)
    requires AllPack(cs, MaxLoops)
    ensures DecodeAll(EncodeAll(cs)) == Some(ExpectedAll(cs))
  {
    DecodeAllEncodeAll(cs);
  }

  lemma CompiledReadsBack(song: PMMusic, bgms: seq<string>, patterns: seq<string>, sfx: seq<string>,
                          fuel: nat, name: string)
    requires Compile(song, bgms, patterns, sfx, fuel).Ok?
    ensures name in Compile(song, bgms, patterns, sfx, fuel).value.pattern ==>
      var cs := Compile(song, bgms, patterns, sfx, fuel).value.pattern[name];
      DecodeAll(EncodeAll(cs)) == Some(ExpectedAll(cs))
    ensures name in Compile(song, bgms, patterns, sfx, fuel).value.sfx ==>
      var cs := Compile(song, bgms, patterns, sfx, fuel).value.sfx[name];
      DecodeAll(EncodeAll(cs)) == Some(ExpectedAll(cs))
  {
    var c := Compile(song, bgms, patterns, sfx, fuel).value;
    if name in c.pattern { PackedRoundTrip(c.pattern[name]); }
    if name in c.sfx { PackedRoundTrip(c.sfx[name]); }
  }

  /** A loop played more than once compiles to a mark, its body compiled
      as if something had already been emitted (so the body may not start
      with a pattern), and the command that jumps back to the mark
      `repeats - 1` more times; the body's context and memo tables carry
      over unchanged. */
  lemma RepeatedLoopShape(song: PMMusic, repeats: int, body: seq<Command>, loopID: int,
                          ctx: Ctx, st: State, fuel: nat)
    requires -1 <= loopID < MaxLoops && CtxOk(ctx) && StOk(song, st) && repeats > 1
    ensures var id := Max(loopID, 0);
      var r := CompileSet(song, Some(repeats), body, loopID, ctx, st, fuel);
      var b := CompileList(song, body, true, id, ctx, st, fuel);
      && (r.Ok? <==> b.Ok?)
      && (r.Ok? ==> r.value == b.value.(cmds := [MarkCommand(id)] + b.value.cmds + [LoopCommand(id, repeats - 1)]))
  {
    var id := Max(loopID, 0);
    assert CompileSet(song, Some(repeats), body, loopID, ctx, st, fuel)
        == CompileLooped(song, repeats - 1, body, id, ctx, st, fuel);
    LoopedShape(song, repeats - 1, body, id, ctx, st, fuel);
  }

  lemma LoopedShape(song: PMMusic, times: int, body: seq<Command>, id: int,
                    ctx: Ctx, st: State, fuel: nat)
    requires 0 <= id < MaxLoops && CtxOk(ctx) && StOk(song, st)
    ensures var r := CompileLooped(song, times, body, id, ctx, st, fuel);
      var b := CompileList(song, body, true, id, ctx, st, fuel);
      && (r.Ok? <==> b.Ok?)
      && (r.Ok? ==> r.value == b.value.(cmds := [MarkCommand(id)] + b.value.cmds + [LoopCommand(id, times)]))
      && (b.Err? ==> r == Err(b.error))
  {
  }

  /** A looped set fails as its body fails. */
  lemma SetPassesError(song: PMMusic, body: seq<Command>, id: int, ctx: Ctx, st: State, fuel: nat)
    requires 0 <= id < MaxLoops && CtxOk(ctx) && StOk(song, st)
    requires CompileList(song, body, true, id, ctx, st, fuel) == Err(LoopsExceeded)
    ensures CompileSet(song, Some(2), body, id, ctx, st, fuel) == Err(LoopsExceeded)
  {
    assert CompileSet(song, Some(2), body, id, ctx, st, fuel) == CompileLooped(song, 1, body, id, ctx, st, fuel);
    LoopedShape(song, 1, body, id, ctx, st, fuel);
  }

  /** A set that is not a loop, or a loop played once, is its commands
      compiled in order with nothing before them. */
  lemma PlainSetIsList(song: PMMusic, repeats: Option<int>, body: seq<Command>, loopID: int,
                       ctx: Ctx, st: State, fuel: nat)
    requires -1 <= loopID < MaxLoops && CtxOk(ctx) && StOk(song, st)
    requires repeats.None? || repeats == Some(1)
    ensures CompileSet(song, repeats, body, loopID, ctx, st, fuel)
         == CompileList(song, body, false, if repeats.Some? then Max(loopID, 0) else loopID, ctx, st, fuel)
  {
  }

  /** A loop played once is its body: no mark, no loop command. */
  lemma LoopOnceIsBody(song: PMMusic, body: seq<Command>, loopID: int, ctx: Ctx, st: State, fuel: nat)
    requires -1 <= loopID < MaxLoops && CtxOk(ctx) && StOk(song, st)
    ensures CompileSet(song, Some(1), body, loopID, ctx, st, fuel)
         == CompileSet(song, None, body, Max(loopID, 0), ctx, st, fuel)
  {
  }

  /** `n` loops, each the only command of the one around it, around
      `inner`. */
  function Nested(n: nat, inner: seq<Command>): seq<Command> {
    if n == 0 then inner else [Loop(2, Nested(n - 1, inner))]
  }

  /** Loop ids run from 0 to 2: a set whose loops nest deeper than that
      is refused, whatever the innermost loop holds (four loops deep in a
      pattern, for instance). */
  lemma {:induction false} NestedLoopsExceed(song: PMMusic, n: nat, inner: seq<Command>, emitted: bool,
                                             loopID: int, ctx: Ctx, st: State, fuel: nat)
    requires -1 <= loopID < MaxLoops && CtxOk(ctx) && StOk(song, st)
    requires n >= 1 && loopID + n >= MaxLoops && fuel >= n
    ensures CompileList(song, Nested(n, inner), emitted, loopID, ctx, st, fuel) == Err(LoopsExceeded)
  {
    var body, f := Nested(n - 1, inner), fuel - 1;
    assert Nested(n, inner) == [Loop(2, body)];
    NestedSetExceeds(song, n - 1, inner, loopID + 1, ctx, st, f);
    OneLoopFails(song, body, emitted, loopID, ctx, st, fuel);
  }

  /** A looped set whose loops nest past the last id is refused. */
  lemma {:induction false} NestedSetExceeds(song: PMMusic, n: nat, inner: seq<Command>,
                                            id: int, ctx: Ctx, st: State, fuel: nat)
    requires 0 <= id <= MaxLoops && CtxOk(ctx) && StOk(song, st)
    requires id + n >= MaxLoops && fuel >= n
    ensures CompileSet(song, Some(2), Nested(n, inner), id, ctx, st, fuel) == Err(LoopsExceeded)
    decreases n
  {
    if id < MaxLoops {
      var body, f := Nested(n - 1, inner), fuel - 1;
      NestedSetExceeds(song, n - 1, inner, id + 1, ctx, st, f);
      OneLoopFails(song, body, true, id, ctx, st, fuel);
      assert Nested(n, inner) == [Loop(2, body)];
      SetPassesError(song, Nested(n, inner), id, ctx, st, fuel);
    } else {
      DeepestSetExceeds(song, Nested(n, inner), ctx, st, fuel);
    }
  }

  /** A list holding one loop fails as the loop's set, one id further in,
      fails. */
  lemma OneLoopFails(song: PMMusic, body: seq<Command>, emitted: bool, id: int, ctx: Ctx, st: State, fuel: nat)
    requires -1 <= id < MaxLoops && CtxOk(ctx) && StOk(song, st) && fuel >= 1
    requires CompileSet(song, Some(2), body, id + 1, ctx, st, fuel - 1) == Err(LoopsExceeded)
    ensures CompileList(song, [Loop(2, body)], emitted, id, ctx, st, fuel) == Err(LoopsExceeded)
  {
    assert ValidateLoop(2).Ok?;
  }

  lemma DeepestSetExceeds(song: PMMusic, body: seq<Command>, ctx: Ctx, st: State, fuel: nat)
    requires CtxOk(ctx) && StOk(song, st)
    ensures CompileSet(song, Some(2), body, MaxLoops, ctx, st, fuel) == Err(LoopsExceeded)
  {
  }
}

=== FILE: engine.dfy ===
/** The music player that runs on the handheld: `PMMusicEngine` keeps two
    command streams, background music (BGM, a list of patterns) and a sound
    effect (SFX, one command list), and plays them from timer 1's interrupt.
    Each interrupt counts the current command's wait down; when it reaches
    zero the next commands are fetched until one with a nonzero wait, and the
    tone is programmed into timer 2 (preset and pivot) and the audio volume
    register.  The sound effect has priority over the music.

    Callbacks become values: the `onEnd` functions are recorded as flags and
    reported as `Callback` events, and a `throw` becomes a `Fault` next to
    the state the engine was left in. */
module MusicEngine {
  import opened Wrappers
  import opened Bits
  import opened Encoding
  import opened Timers
  import opened Pm

  /** `VOLTABLE`: for each master volume 0 to 4, the play volume that each
      command volume level selects.  Bits 0-1 of a play volume are the audio
      level, bit 2 moves the pivot down by four bits. */
  const VolTable: seq<seq<int>> :=
    [[0x00, 0x00, 0x00, 0x00],
     [0x00, 0x00, 0x06, 0x06],
     [0x00, 0x06, 0x06, 0x07],
     [0x00, 0x06, 0x02, 0x02],
     [0x00, 0x06, 0x02, 0x03]]

  /** The fetch budget of one interrupt, shared by both streams. */
  const RecursiveLimit: int := 65536
  /** `emulate` keeps reporting activity for this many calls after the
      player falls silent. */
  const PlayDecReset: int := 36
  /** Where the player's RAM window starts, relative to RAM, by default. */
  const DefaultRamOffset: int := 0x500
  /** `PokeHWCycles`: the timers are advanced in steps of this many cycles. */
  const HwCycles: nat := 16
  /** Prescale register values: oscillator 1 divided by 2 and by 256. */
  const Div2: int := 8
  const Div256: int := 13

  /** A loop mark: where the loop body starts and how often it has repeated. */
  datatype LoopInfo = LoopInfo(patOffset: int, dataOffset: int, count: int)

  /** One stream's state.  `offset` is the index of the next command,
      `onEnd` says whether an end callback is registered. */
  datatype Stream = Stream(
    data: seq<MusicCommand>, offset: int, wait: int,
    masterVol: int, playVol: int, frq: int, pvt: int,
    volTable: seq<int>, loops: map<int, LoopInfo>, onEnd: bool)

  /** The player: the machine it drives, the enable bits (`audEna` bit 0 for
      BGM, bit 1 for SFX), the BGM pattern list and both streams. */
  datatype Engine = Engine(
    pm: PM, mtime: int, audEna: int, ramOffset: int,
    pats: seq<seq<MusicCommand>>, patOffset: int,
    bgm: Stream, sfx: Stream, playdec: int)

  /** Why the player threw: a read past the end of a stream, a pattern jump
      out of the pattern list, a repeat without its mark, a RAM write outside
      the window, a spent fetch budget, a RAM window outside RAM. */
  datatype Fault =
    | NoCommand | OutOfRange | BadPattern | NoLoop | RamRange | RecursiveOverflow | BadRamOffset

  /** A registered `onEnd` callback being called. */
  datatype Callback = BgmEnded | SfxEnded

  datatype Changed = Changed(e: Engine, events: seq<Callback>)

  // ---------------------------------------------------------------------
  // Enable bits

  /** `audEna & 1`: the music is enabled. */
  predicate BgmOn(audEna: int) {
    audEna % 2 == 1
  }

  /** `audEna & 2`: the effect is enabled. */
  predicate SfxOn(audEna: int) {
    audEna / 2 % 2 == 1
  }

  /** `audEna &= 0x02; audEna |= 0x01` */
  function EnableBgm(a: int): (r: int)
    requires 0 <= a < 4
    ensures 0 <= r < 4 && BgmOn(r) && (SfxOn(r) <==> SfxOn(a))
  {
    a / 2 * 2 + 1
  }

  /** `audEna &= 0x01; audEna |= 0x02` */
  function EnableSfx(a: int): (r: int)
    requires 0 <= a < 4
    ensures 0 <= r < 4 && SfxOn(r) && (BgmOn(r) <==> BgmOn(a))
  {
    a % 2 + 2
  }

  /** `audEna &= 0x02` */
  function DisableBgm(a: int): (r: int)
    requires 0 <= a < 4
    ensures 0 <= r < 4 && !BgmOn(r) && (SfxOn(r) <==> SfxOn(a))
    ensures r == 0 <==> !SfxOn(a)
  {
    a / 2 * 2
  }

  /** `audEna &= 0x01` */
  function DisableSfx(a: int): (r: int)
    requires 0 <= a < 4
    ensures 0 <= r < 4 && !SfxOn(r) && (BgmOn(r) <==> BgmOn(a))
    ensures r == 0 <==> !BgmOn(a)
  {
    a % 2
  }

  /** The enable bits as the JavaScript operators compute them. */
  predicate EnableFacts(a: int)
    requires 0 <= a < 4
  {
    && (And(a, 1) != 0 <==> BgmOn(a)) && (And(a, 2) != 0 <==> SfxOn(a))
    && Or(And(a, 2), 1) == EnableBgm(a) && Or(And(a, 1), 2) == EnableSfx(a)
    && And(a, 2) == DisableBgm(a) && And(a, 1) == DisableSfx(a)
  }

  lemma EnableBitsAreMasks(a: int)
    requires 0 <= a < 4
    ensures EnableFacts(a)
  {
    LowMaskValues();
    UnionValues();
  }

  /** The two low masks on each two-bit enable value. */
  lemma LowMaskValues()
    ensures And(0, 1) == 0 && And(1, 1) == 1 && And(2, 1) == 0 && And(3, 1) == 1
    ensures And(0, 2) == 0 && And(1, 2) == 0 && And(2, 2) == 2 && And(3, 2) == 2
  {
  }

  /** Setting one enable bit when the other is already decided. */
  lemma UnionValues()
    ensures Or(0, 1) == 1 && Or(2, 1) == 3 && Or(0, 2) == 2 && Or(1, 2) == 3
  {
  }

  // ---------------------------------------------------------------------
  // State that every operation keeps

  /** The RAM window `DataView(ram.buffer, 0x1000 + ramOffset,
      0x1000 - ramOffset)` exists only for offsets that keep both its start
      and its length non-negative. */
  predicate RamWindow(ro: int) {
    -RamStart <= ro <= RamStart
  }

  predicate Ready(e: Engine) {
    && Pm.Valid(e.pm) && |e.pm.timers| == 3 && e.pm.audio.Some?
    && 0 <= e.audEna < 4 && RamWindow(e.ramOffset)
    && |e.bgm.volTable| == 4 && |e.sfx.volTable| == 4
  }

  /** `write2Reg` on a register pair that exists. */
  function Put2(pm: PM, reg: int, v: int): (r: PM)
    requires Pm.Valid(pm) && 0 <= reg < 0xff
    ensures Pm.Valid(r) && |r.timers| == |pm.timers| && r.audio.Some? == pm.audio.Some?
    ensures reg < 0x6f || reg > 0x71 ==> r.audio == pm.audio
  {
    Write2Reg(pm, reg, v).pm
  }

  // ---------------------------------------------------------------------
  // Volume and master time

  /** `setVolBGM` / `setVolSFX` as written: the guard `volume < 5` lets a
      negative volume through, and `VOLTABLE[volume]` is then `undefined`
      (`None` here), so the next command with a volume throws. */
  function SetVolAsWritten(s: Stream, v: int): (r: Option<Stream>)
    ensures v >= 5 ==> r == Some(s)
    ensures 0 <= v < 5 ==> r == Some(s.(masterVol := v, volTable := VolTable[v]))
    ensures r.None? <==> v < 0
  {
    if v < 5 then
      if 0 <= v then Some(s.(masterVol := v, volTable := VolTable[v])) else None
    else Some(s)
  }

  /** `setVolBGM` / `setVolSFX` with the guard the table needs: only the
      five master volumes change anything. */
  function SetVol(s: Stream, v: int): (r: Stream)
    ensures |s.volTable| == 4 ==> |r.volTable| == 4
    ensures 0 <= v < 5 ==> r.masterVol == v && r.volTable == VolTable[v]
    ensures !(0 <= v < 5) ==> r == s
    ensures r.(masterVol := s.masterVol, volTable := s.volTable) == s
  {
    if 0 <= v < 5 then s.(masterVol := v, volTable := VolTable[v]) else s
  }

  /** A negative volume leaves the player without a volume table as
      written; the guarded setter keeps the old one. */
  lemma NegativeVolumeLosesTable(s: Stream)
    ensures SetVolAsWritten(s, -1).None?
    ensures SetVol(s, -1) == s
  {
  }

  /** Both setters agree on every volume the table covers and above it. */
  lemma SetVolAgrees(s: Stream, v: int)
    requires v >= 0
    ensures SetVolAsWritten(s, v) == Some(SetVol(s, v))
  {
  }

  /** `setMasterTime`: timer 1's preset pair paces the interrupts. */
  function SetMasterTime(e: Engine, t: int): (r: Engine)
    requires Ready(e)
    ensures Ready(r) && r.mtime == t
    ensures r == e.(mtime := t, pm := r.pm)
  {
    e.(mtime := t, pm := Put2(e.pm, 0x3a, t))
  }

  /** A 16-bit master time becomes timer 1's preset word. */
  lemma MasterTimeSetsPreset(e: Engine, t: int)
    requires Ready(e) && 0 <= t < 0x1_0000
    ensures PresetWord(SetMasterTime(e, t).pm.timers[1]) == t
  {
    assert TimerAt(e.pm, 0x3a, LoPreset);
    Write2PresetWord(e.pm, 0x3a, t);
  }

  // ---------------------------------------------------------------------
  // Starting and stopping

  /** `bgmPats[i]`, which is `undefined` outside the list; reading a command
      from it then fails exactly as reading past the end of an empty list. */
  function PatternAt(pats: seq<seq<MusicCommand>>, i: int): (r: seq<MusicCommand>)
    ensures 0 <= i < |pats| ==> r == pats[i]
    ensures !(0 <= i < |pats|) ==> r == []
  {
    if 0 <= i < |pats| then pats[i] else []
  }

  function EndEvent(s: Stream, c: Callback): seq<Callback> {
    if s.onEnd then [c] else []
  }

  /** `playBGM(data, onEnd)`: the previous callback is called, the music
      restarts at pattern 0 with wait 1, and unless a sound effect holds
      the hardware, timers 1 and 2 are started. */
  function PlayBgm(e: Engine, pats: seq<seq<MusicCommand>>, onEnd: bool): (r: Changed)
    requires Ready(e)
    ensures Ready(r.e)
    ensures BgmOn(r.e.audEna) && (SfxOn(r.e.audEna) <==> SfxOn(e.audEna))
    ensures r.e.pats == pats && r.e.patOffset == 0
    ensures r.e.bgm == e.bgm.(data := PatternAt(pats, 0), offset := 0, wait := 1,
                              loops := map[], onEnd := onEnd)
    ensures r.e.sfx == e.sfx && r.events == EndEvent(e.bgm, BgmEnded)
  {
    var a := EnableBgm(e.audEna);
    var pm := if !SfxOn(a) then SetReg(Put2(Put2(e.pm, 0x38, 0x86), 0x4a, 0), 0x48, 0x86)
              else e.pm;
    var s := e.bgm.(data := PatternAt(pats, 0), offset := 0, wait := 1, loops := map[], onEnd := onEnd);
    Changed(e.(pats := pats, patOffset := 0, bgm := s, audEna := a, pm := pm),
            EndEvent(e.bgm, BgmEnded))
  }

  /** `stopBGM()`: the music is emptied, its callback called (it stays
      registered), and with nothing left playing timers 1 and 2 stop. */
  function StopBgm(e: Engine): (r: Changed)
    requires Ready(e)
    ensures Ready(r.e)
    ensures !BgmOn(r.e.audEna) && (SfxOn(r.e.audEna) <==> SfxOn(e.audEna))
    ensures r.e.bgm == e.bgm.(data := [])
    ensures r.e == e.(bgm := r.e.bgm, audEna := r.e.audEna, pm := r.e.pm)
    ensures r.events == EndEvent(e.bgm, BgmEnded)
  {
    var a := DisableBgm(e.audEna);
    var pm := if a == 0 then SetReg(SetReg(e.pm, 0x38, 0), 0x48, 0) else e.pm;
    Changed(e.(bgm := e.bgm.(data := []), audEna := a, pm := pm), EndEvent(e.bgm, BgmEnded))
  }

  /** `playSFX(data, onEnd)`: like `playBGM` for the effect, which always
      takes the hardware. */
  function PlaySfx(e: Engine, data: seq<MusicCommand>, onEnd: bool): (r: Changed)
    requires Ready(e)
    ensures Ready(r.e)
    ensures SfxOn(r.e.audEna) && (BgmOn(r.e.audEna) <==> BgmOn(e.audEna))
    ensures r.e.sfx == e.sfx.(data := data, offset := 0, wait := 1, loops := map[], onEnd := onEnd)
    ensures r.e.bgm == e.bgm && r.e.pats == e.pats && r.e.patOffset == e.patOffset
    ensures r.events == EndEvent(e.sfx, SfxEnded)
  {
    var a := EnableSfx(e.audEna);
    var pm := SetReg(Put2(Put2(e.pm, 0x38, 0x86), 0x4a, 0), 0x48, 0x86);
    var s := e.sfx.(data := data, offset := 0, wait := 1, loops := map[], onEnd := onEnd);
    Changed(e.(sfx := s, audEna := a, pm := pm), EndEvent(e.sfx, SfxEnded))
  }

  /** `stopSFX()` */
  function StopSfx(e: Engine): (r: Changed)
    requires Ready(e)
    ensures Ready(r.e)
    ensures !SfxOn(r.e.audEna) && (BgmOn(r.e.audEna) <==> BgmOn(e.audEna))
    ensures r.e.sfx == e.sfx.(data := [])
    ensures r.e == e.(sfx := r.e.sfx, audEna := r.e.audEna, pm := r.e.pm)
    ensures r.events == EndEvent(e.sfx, SfxEnded)
  {
    var a := DisableSfx(e.audEna);
    var pm := if a == 0 then SetReg(SetReg(e.pm, 0x38, 0), 0x48, 0) else e.pm;
    Changed(e.(sfx := e.sfx.(data := []), audEna := a, pm := pm), EndEvent(e.sfx, SfxEnded))
  }

  /** Starting the music and stopping it again leaves only the effect's
      enable bit, whatever was playing before. */
  lemma PlayThenStopBgm(e: Engine, pats: seq<seq<MusicCommand>>, onEnd: bool)
    requires Ready(e)
    ensures StopBgm(PlayBgm(e, pats, onEnd).e).e.audEna == (if SfxOn(e.audEna) then 2 else 0)
  {
  }

  /** The same for the effect. */
  lemma PlayThenStopSfx(e: Engine, data: seq<MusicCommand>, onEnd: bool)
    requires Ready(e)
    ensures StopSfx(PlaySfx(e, data, onEnd).e).e.audEna == (if BgmOn(e.audEna) then 1 else 0)
  {
  }

  // ---------------------------------------------------------------------
  // Fetching one command

  /** Reading a command: its wait, its volume through the stream's table,
      and the cursor moved past it. */
  function Take(s: Stream, cmd: MusicCommand): (r: Stream)
    requires |s.volTable| == 4
    ensures r == s.(wait := cmd.wait, playVol := r.playVol, offset := s.offset + 1)
    ensures cmd.Has(FlagVol) ==> r.playVol == s.volTable[cmd.volume % 4]
    ensures !cmd.Has(FlagVol) ==> r.playVol == s.playVol
  {
    AndTwoBits(cmd.volume);
    s.(wait := cmd.wait,
       playVol := if cmd.Has(FlagVol) then s.volTable[And(cmd.volume, 3)] else s.playVol,
       offset := s.offset + 1)
  }

  /** The preset and pivot a command carries. */
  function Tune(s: Stream, cmd: MusicCommand): (r: Stream)
    ensures r.frq == (if cmd.Has(FlagPreset) then cmd.preset else s.frq)
    ensures r.pvt == (if cmd.Has(FlagPivot) then cmd.pivot else s.pvt)
    ensures r == s.(frq := r.frq, pvt := r.pvt)
  {
    s.(frq := if cmd.Has(FlagPreset) then cmd.preset else s.frq,
       pvt := if cmd.Has(FlagPivot) then cmd.pivot else s.pvt)
  }

  /** `ram.setUint8(addr, value)` through the player's RAM window, which
      throws a RangeError outside the window. */
  function StoreRam(pm: PM, ro: int, addr: int, v: int): (r: Option<PM>)
    requires Pm.Valid(pm) && RamWindow(ro)
    ensures r.Some? <==> 0 <= addr < RamStart - ro
    ensures r.Some? ==> Pm.Valid(r.value) && r.value == Poke(pm, RamStart + ro + addr, v)
  {
    if 0 <= addr < RamStart - ro then Some(Poke(pm, RamStart + ro + addr, v)) else None
  }

  /** The RAM write a command asks for, if any. */
  function CommandRam(pm: PM, ro: int, cmd: MusicCommand): (r: Option<PM>)
    requires Pm.Valid(pm) && RamWindow(ro)
    ensures r.Some? ==> Pm.Valid(r.value) && r.value.timers == pm.timers && r.value.audio == pm.audio
    ensures !cmd.Has(FlagWriteRam) ==> r == Some(pm)
  {
    if cmd.Has(FlagWriteRam) then StoreRam(pm, ro, cmd.ramAddr, cmd.ramData) else Some(pm)
  }

  /** The jump distance of a pattern word: its 16-bit two's complement. */
  function JumpOf(p: int): (r: int)
    ensures 0 <= p < 0x1_0000 ==> -0x8000 <= r < 0x8000 && (r - p) % 0x1_0000 == 0
  {
    if p >= 0x8000 then p - 0x1_0000 else p
  }

  /** What a repeat command does with its mark: the mark is missing, the
      loop goes round again (with the updated table and the mark to return
      to), or the loop is done. */
  datatype Repeat = Unmarked | Again(loops: map<int, LoopInfo>, mark: LoopInfo) | Done

  function RepeatLoop(loops: map<int, LoopInfo>, id: int, num: int): (r: Repeat)
    ensures r.Unmarked? <==> id !in loops
    ensures r.Again? ==> id in loops && r.mark == loops[id] && loops[id].count != num
                         && r.loops == loops[id := loops[id].(count := loops[id].count + 1)]
    ensures r.Done? ==> id in loops && loops[id].count == num
  {
    if id !in loops then Unmarked
    else
      var lp := loops[id];
      if lp.count != num then Again(loops[id := lp.(count := lp.count + 1)], lp) else Done
  }

  /** The loop table after a repeat command has been reached `k` times. */
  function Reached(loops: map<int, LoopInfo>, id: int, num: int, k: nat): map<int, LoopInfo>
    decreases k
  {
    if k == 0 then loops
    else match RepeatLoop(loops, id, num)
      case Again(next, _) => Reached(next, id, num, k - 1)
      case _ => loops
  }

  /** A repeat command reached `k` more times moves its mark's count up by
      `k`, jumping back each time while the count differs from its repeat
      number.  From a fresh mark (count 0) with repeat number `num`, the
      first `num` repeats jump back and the next falls through, so the body
      plays `num + 1` times. */
  lemma {:induction false} LoopPlaysBody(loops: map<int, LoopInfo>, id: int, num: int, k: nat)
    requires id in loops && loops[id].count + k <= num
    ensures id in Reached(loops, id, num, k)
    ensures Reached(loops, id, num, k)[id] == loops[id].(count := loops[id].count + k)
    ensures RepeatLoop(Reached(loops, id, num, k), id, num).Again? <==> loops[id].count + k < num
    decreases k
  {
    if k > 0 {
      var next := loops[id := loops[id].(count := loops[id].count + 1)];
      assert RepeatLoop(loops, id, num) == Again(next, loops[id]);
      LoopPlaysBody(next, id, num, k - 1);
    }
  }

  // ---------------------------------------------------------------------
  // The hardware writes after a fetch

  /** The pivot a stream writes: `pvt >> 4` when its play volume has bit 2. */
  function PivotOut(s: Stream): int {
    if And(s.playVol, 4) != 0 then Sar(s.pvt, 4) else s.pvt
  }

  /** The stream's tone into timer 2's preset and pivot and its level into
      the audio volume register. */
  function Output(pm: PM, s: Stream): (r: PM)
    requires Pm.Valid(pm) && |pm.timers| == 3 && pm.audio.Some?
    ensures Pm.Valid(r)
    ensures |r.timers| == 3
    ensures r.audio == Some(s.playVol % 4)
  {
    var tuned := Tone(pm, s);
    AudioLevelWrites(tuned, s.playVol);
    SetReg(tuned, 0x71, And(s.playVol, 3))
  }

  /** The tone half of the output: timer 2's preset and pivot. */
  function Tone(pm: PM, s: Stream): (r: PM)
    requires Pm.Valid(pm) && |pm.timers| == 3 && pm.audio.Some?
    ensures Pm.Valid(r) && |r.timers| == 3 && r.audio == pm.audio
  {
    Put2(Put2(pm, 0x4a, s.frq), 0x4c, PivotOut(s))
  }

  /** With a 16-bit tone, timer 2 ends up with the stream's preset and
      pivot. */
  lemma OutputProgramsTimer(pm: PM, s: Stream)
    requires Pm.Valid(pm) && |pm.timers| == 3 && pm.audio.Some?
    requires 0 <= s.frq < 0x1_0000 && 0 <= PivotOut(s) < 0x1_0000
    requires 0 <= pm.timers[2].pivot < 0x1_0000
    ensures PresetWord(Output(pm, s).timers[2]) == s.frq
    ensures Output(pm, s).timers[2].pivot == PivotOut(s)
  {
    assert TimerAt(pm, 0x4a, LoPreset);
    Write2PresetWord(pm, 0x4a, s.frq);
    var pm1 := Put2(pm, 0x4a, s.frq);
    assert pm1.timers[2].pivot == pm.timers[2].pivot;
    assert TimerAt(pm1, 0x4c, PivotLow);
    Write2PivotWord(pm1, 0x4c, PivotOut(s));
    var pm2 := Put2(pm1, 0x4c, PivotOut(s));
    assert pm2.timers[2].lo.preset == pm1.timers[2].lo.preset;
    assert pm2.timers[2].hi.preset == pm1.timers[2].hi.preset;
  }

  /** The music reaches the hardware only while the effect is off or muted. */
  function BgmOutput(e: Engine): (r: PM)
    requires Ready(e)
    ensures Pm.Valid(r) && |r.timers| == 3 && r.audio.Some?
    ensures e.sfx.masterVol != 0 && SfxOn(e.audEna) ==> r == e.pm
    ensures e.sfx.masterVol == 0 || !SfxOn(e.audEna) ==> r == Output(e.pm, e.bgm)
  {
    if e.sfx.masterVol == 0 || !SfxOn(e.audEna) then Output(e.pm, e.bgm) else e.pm
  }

  // ---------------------------------------------------------------------
  // One interrupt

  datatype Status = Running | Returned | Faulted(fault: Fault)

  /** One command's effect: the state, the callbacks, and whether `irq`
      goes on, returns or throws. */
  datatype Step = Step(e: Engine, events: seq<Callback>, status: Status)

  /** A fetch loop's effect, with the fetch budget left. */
  datatype Stepped = Stepped(e: Engine, events: seq<Callback>, status: Status, limit: int)

  /** The fields a stream's processing never touches. */
  predicate Kept(e: Engine, r: Engine) {
    r.mtime == e.mtime && r.ramOffset == e.ramOffset && r.playdec == e.playdec && r.pats == e.pats
  }

  /** The repeat and mark part of a BGM command. */
  function BgmLoops(e: Engine, cmd: MusicCommand): (r: Step)
    requires Ready(e)
    ensures Ready(r.e) && Kept(e, r.e) && r.e.sfx == e.sfx && r.e.pm == e.pm
    ensures r.e.audEna == e.audEna && r.events == []
    ensures r.status.Faulted? <==> !cmd.Has(FlagMark) && cmd.Has(FlagLoop) && cmd.loopID !in e.bgm.loops
    ensures r.status.Faulted? ==> r.status.fault == NoLoop
  {
    if cmd.Has(FlagMark) then
      var mark := LoopInfo(e.patOffset, e.bgm.offset, 0);
      Step(e.(bgm := e.bgm.(loops := e.bgm.loops[cmd.loopID := mark])), [], Running)
    else if cmd.Has(FlagLoop) then
      match RepeatLoop(e.bgm.loops, cmd.loopID, cmd.loopNum)
      case Unmarked => Step(e, [], Faulted(NoLoop))
      case Again(loops, mark) =>
        var s := e.bgm.(loops := loops, data := PatternAt(e.pats, mark.patOffset), offset := mark.dataOffset);
        Step(e.(patOffset := mark.patOffset, bgm := s), [], Running)
      case Done => Step(e, [], Running)
    else Step(e, [], Running)
  }

  /** A BGM pattern jump: relative, sign-extended, and fatal outside the
      pattern list. */
  function BgmJump(e: Engine, cmd: MusicCommand): (r: Step)
    requires Ready(e)
    ensures Ready(r.e) && Kept(e, r.e) && r.e.sfx == e.sfx && r.e.pm == e.pm && r.events == []
    ensures var target := e.patOffset + JumpOf(cmd.pattern);
      && (r.status == Faulted(BadPattern) <==> !(0 <= target < |e.pats|))
      && (r.status == Faulted(BadPattern) ==> r.e.patOffset == target && r.e.audEna == 0)
      && (0 <= target < |e.pats| ==>
            r == BgmLoops(e.(patOffset := target, bgm := e.bgm.(data := e.pats[target], offset := 0)), cmd))
  {
    var target := e.patOffset + JumpOf(cmd.pattern);
    if 0 <= target < |e.pats| then
      BgmLoops(e.(patOffset := target, bgm := e.bgm.(data := e.pats[target], offset := 0)), cmd)
    else Step(e.(patOffset := target, audEna := 0), [], Faulted(BadPattern))
  }

  /** One BGM command, from reading it to its loop bookkeeping.  Reading
      past the end of the pattern stops the player. */
  function BgmCommand(e: Engine): (r: Step)
    requires Ready(e)
    ensures Ready(r.e) && Kept(e, r.e) && r.e.sfx == e.sfx
    ensures !(0 <= e.bgm.offset < |e.bgm.data|) ==> r == Step(e.(audEna := 0), [], Faulted(OutOfRange))
    ensures r.status == Returned ==> !BgmOn(r.e.audEna) && (SfxOn(r.e.audEna) <==> SfxOn(e.audEna))
  {
    var s := e.bgm;
    if !(0 <= s.offset < |s.data|) then Step(e.(audEna := 0), [], Faulted(OutOfRange))
    else
      var cmd := s.data[s.offset];
      var s1 := Take(s, cmd);
      var ram := CommandRam(e.pm, e.ramOffset, cmd);
      if ram.None? then Step(e.(bgm := s1), [], Faulted(RamRange))
      else
        var e1 := e.(pm := ram.value, bgm := Tune(s1, cmd));
        if cmd.Has(FlagEnd) then
          var c := StopBgm(e1);
          Step(c.e, c.events, Returned)
        else if cmd.Has(FlagPattern) then BgmJump(e1, cmd)
        else BgmLoops(e1, cmd)
  }

  /** The BGM fetch as written reads `bgmData[bgmDataOffset]` before its
      range check, so past the end it throws a TypeError and leaves the
      player enabled; otherwise it is `BgmCommand`. */
  function BgmCommandAsWritten(e: Engine): (r: Step)
    requires Ready(e)
    ensures !(0 <= e.bgm.offset < |e.bgm.data|) ==> r == Step(e, [], Faulted(NoCommand))
    ensures 0 <= e.bgm.offset < |e.bgm.data| ==> r == BgmCommand(e)
  {
    if !(0 <= e.bgm.offset < |e.bgm.data|) then Step(e, [], Faulted(NoCommand)) else BgmCommand(e)
  }

  /** The range check after `++bgmDataOffset` cannot fire: a command that
      was read leaves the cursor at most at the end, and a read past the end
      has already thrown, with the music still enabled. */
  lemma RangeCheckUnreachable(e: Engine)
    requires Ready(e) && 0 <= e.bgm.offset
    ensures var r := BgmCommandAsWritten(e);
      || (r.status == Faulted(NoCommand) && r.e.audEna == e.audEna)
      || e.bgm.offset + 1 <= |e.bgm.data|
  {
  }

  /** Running off the end of a pattern: as written the player stays
      enabled, so every later interrupt throws again; with the check before
      the read it is disabled and later interrupts do nothing. */
  lemma RunOffEnd(e: Engine)
    requires Ready(e) && BgmOn(e.audEna) && e.bgm.offset == |e.bgm.data|
    ensures BgmOn(BgmCommandAsWritten(e).e.audEna)
    ensures BgmCommand(e).e.audEna == 0
    ensures Irq(BgmCommand(e).e) == Played(BgmCommand(e).e, [], None)
  {
    QuietIrq(BgmCommand(e).e);
  }

  /** The BGM fetch loop: `while (recursiveLimit >= 0)`, one command per
      round, until a command with a nonzero wait; then the tone goes out. */
  function BgmFetch(e: Engine, limit: int): (r: Stepped)
    requires Ready(e)
    ensures Ready(r.e) && Kept(e, r.e) && r.e.sfx == e.sfx
    ensures r.limit < limit || (limit < 0 && r == Stepped(e, [], Running, limit))
    ensures limit >= -1 ==> r.limit >= -1
    ensures r.status == Running && r.limit >= 0 ==> r.e.bgm.wait != 0
    ensures r.status == Running ==> r.events == [] && r.e.audEna == e.audEna
    ensures r.status.Faulted? ==> r.events == []
    ensures r.status == Returned ==> !BgmOn(r.e.audEna) && (SfxOn(r.e.audEna) <==> SfxOn(e.audEna))
    decreases limit + 1
  {
    if limit < 0 then Stepped(e, [], Running, limit)
    else
      var st := BgmCommand(e);
      if !st.status.Running? then Stepped(st.e, st.events, st.status, limit - 1)
      else
        assert st.events == [] && st.e.audEna == e.audEna;
        if st.e.bgm.wait == 0 then BgmFetch(st.e, limit - 1)
        else Stepped(st.e.(pm := BgmOutput(st.e)), [], Running, limit - 1)
  }

  /** The BGM half of `irq`: count the wait down, and fetch when it is 0. */
  function BgmPhase(e: Engine, limit: int): (r: Stepped)
    requires Ready(e)
    ensures Ready(r.e) && Kept(e, r.e) && r.e.sfx == e.sfx
    ensures r.limit <= limit && (limit >= -1 ==> r.limit >= -1)
    ensures !BgmOn(e.audEna) ==> r == Stepped(e, [], Running, limit)
    ensures BgmOn(e.audEna) && e.bgm.wait != 0 && e.bgm.wait != 1 ==>
      r == Stepped(e.(bgm := e.bgm.(wait := e.bgm.wait - 1)), [], Running, limit)
    ensures r.status == Running ==> r.events == [] && r.e.audEna == e.audEna
    ensures r.status.Faulted? ==> r.events == []
    ensures r.status == Returned ==> !BgmOn(r.e.audEna) && (SfxOn(r.e.audEna) <==> SfxOn(e.audEna))
  {
    if !BgmOn(e.audEna) then Stepped(e, [], Running, limit)
    else
      var w := if e.bgm.wait != 0 then e.bgm.wait - 1 else 0;
      var e1 := e.(bgm := e.bgm.(wait := w));
      if w != 0 then Stepped(e1, [], Running, limit) else BgmFetch(e1, limit)
  }

  /** The repeat and mark part of an SFX command: marks always record
      pattern 0, and a repeat moves only the cursor. */
  function SfxLoops(e: Engine, cmd: MusicCommand): (r: Step)
    requires Ready(e)
    ensures Ready(r.e) && Kept(e, r.e) && r.e.bgm == e.bgm && r.e.pats == e.pats
    ensures r.e.patOffset == e.patOffset && r.e.pm == e.pm && r.e.audEna == e.audEna && r.events == []
    ensures r.status.Faulted? <==> !cmd.Has(FlagMark) && cmd.Has(FlagLoop) && cmd.loopID !in e.sfx.loops
  {
    if cmd.Has(FlagMark) then
      var mark := LoopInfo(0, e.sfx.offset, 0);
      Step(e.(sfx := e.sfx.(loops := e.sfx.loops[cmd.loopID := mark])), [], Running)
    else if cmd.Has(FlagLoop) then
      match RepeatLoop(e.sfx.loops, cmd.loopID, cmd.loopNum)
      case Unmarked => Step(e, [], Faulted(NoLoop))
      case Again(loops, mark) =>
        Step(e.(sfx := e.sfx.(loops := loops, offset := mark.dataOffset)), [], Running)
      case Done => Step(e, [], Running)
    else Step(e, [], Running)
  }

  /** One SFX command: an end or a jump stops the effect. */
  function SfxCommand(e: Engine): (r: Step)
    requires Ready(e)
    ensures Ready(r.e) && Kept(e, r.e) && r.e.bgm == e.bgm && r.e.pats == e.pats
    ensures r.e.patOffset == e.patOffset
    ensures !(0 <= e.sfx.offset < |e.sfx.data|) ==> r == Step(e.(audEna := 0), [], Faulted(OutOfRange))
    ensures r.status == Returned ==> !SfxOn(r.e.audEna) && (BgmOn(r.e.audEna) <==> BgmOn(e.audEna))
    ensures r.status == Returned <==>
      (&& 0 <= e.sfx.offset < |e.sfx.data|
       && e.sfx.data[e.sfx.offset].Has(FlagEnd + FlagPattern)
       && CommandRam(e.pm, e.ramOffset, e.sfx.data[e.sfx.offset]).Some?)
  {
    var s := e.sfx;
    if !(0 <= s.offset < |s.data|) then Step(e.(audEna := 0), [], Faulted(OutOfRange))
    else
      var cmd := s.data[s.offset];
      var s1 := Take(s, cmd);
      var ram := CommandRam(e.pm, e.ramOffset, cmd);
      if ram.None? then Step(e.(sfx := s1), [], Faulted(RamRange))
      else
        var e1 := e.(pm := ram.value, sfx := Tune(s1, cmd));
        if cmd.Has(FlagEnd + FlagPattern) then
          var c := StopSfx(e1);
          Step(c.e, c.events, Returned)
        else SfxLoops(e1, cmd)
  }

  /** The SFX fetch as written reads `sfxData[sfxDataOffset]` before its
      range check, so past the end it throws a TypeError and leaves the
      effect enabled; otherwise it is `SfxCommand`. */
  function SfxCommandAsWritten(e: Engine): (r: Step)
    requires Ready(e)
    ensures !(0 <= e.sfx.offset < |e.sfx.data|) ==> r == Step(e, [], Faulted(NoCommand))
    ensures 0 <= e.sfx.offset < |e.sfx.data| ==> r == SfxCommand(e)
  {
    if !(0 <= e.sfx.offset < |e.sfx.data|) then Step(e, [], Faulted(NoCommand)) else SfxCommand(e)
  }

  /** Running off the end of an effect: as written the effect stays
      enabled and every later interrupt throws again; with the check before
      the read it is disabled and later interrupts do nothing. */
  lemma SfxRunOffEnd(e: Engine)
    requires Ready(e) && SfxOn(e.audEna) && e.sfx.offset == |e.sfx.data|
    ensures SfxOn(SfxCommandAsWritten(e).e.audEna)
    ensures SfxCommand(e).e.audEna == 0
    ensures Irq(SfxCommand(e).e) == Played(SfxCommand(e).e, [], None)
  {
    QuietIrq(SfxCommand(e).e);
  }

  /** The SFX fetch loop; the effect always reaches the hardware. */
  function SfxFetch(e: Engine, limit: int): (r: Stepped)
    requires Ready(e)
    ensures Ready(r.e) && Kept(e, r.e) && r.e.bgm == e.bgm && r.e.pats == e.pats
    ensures r.limit < limit || (limit < 0 && r == Stepped(e, [], Running, limit))
    ensures r.limit >= -1 || r == Stepped(e, [], Running, limit)
    ensures r.status == Running && r.limit >= 0 ==> r.e.sfx.wait != 0
    ensures r.status == Running ==> r.events == [] && r.e.audEna == e.audEna
    ensures r.status.Faulted? ==> r.events == []
    decreases limit + 1
  {
    if limit < 0 then Stepped(e, [], Running, limit)
    else
      var st := SfxCommand(e);
      if !st.status.Running? then Stepped(st.e, st.events, st.status, limit - 1)
      else if st.e.sfx.wait == 0 then SfxFetch(st.e, limit - 1)
      else Stepped(st.e.(pm := Output(st.e.pm, st.e.sfx)), [], Running, limit - 1)
  }

  /** The SFX half of `irq`. */
  function SfxPhase(e: Engine, limit: int): (r: Stepped)
    requires Ready(e)
    ensures Ready(r.e) && Kept(e, r.e) && r.e.bgm == e.bgm && r.e.pats == e.pats
    ensures r.limit <= limit
    ensures r.limit >= -1 || r.limit == limit
    ensures !SfxOn(e.audEna) ==> r == Stepped(e, [], Running, limit)
    ensures r.status == Running ==> r.events == [] && r.e.audEna == e.audEna
  {
    if !SfxOn(e.audEna) then Stepped(e, [], Running, limit)
    else
      var w := if e.sfx.wait != 0 then e.sfx.wait - 1 else 0;
      var e1 := e.(sfx := e.sfx.(wait := w));
      if w != 0 then Stepped(e1, [], Running, limit) else SfxFetch(e1, limit)
  }

  /** What an interrupt leaves: the state, the callbacks and the fault it
      threw, if any. */
  datatype Played = Played(e: Engine, events: seq<Callback>, fault: Option<Fault>)

  function FaultOf(s: Status): Option<Fault> {
    if s.Faulted? then Some(s.fault) else None
  }

  /** `irq()`: the music, then (unless the music ended this tick) the
      effect, on one shared fetch budget; a budget spent to zero or below
      disables the player and throws. */
  function Irq(e: Engine): (r: Played)
    requires Ready(e)
    ensures Ready(r.e) && Kept(e, r.e)
  {
    var b := BgmPhase(e, RecursiveLimit);
    if !b.status.Running? then Played(b.e, b.events, FaultOf(b.status))
    else
      var s := SfxPhase(b.e, b.limit);
      if !s.status.Running? then Played(s.e, s.events, FaultOf(s.status))
      else if s.limit <= 0 then Played(s.e.(audEna := 0), [], Some(RecursiveOverflow))
      else Played(s.e, [], None)
  }

  /** With both streams disabled an interrupt does nothing. */
  lemma QuietIrq(e: Engine)
    requires Ready(e) && e.audEna == 0
    ensures Irq(e) == Played(e, [], None)
  {
  }

  /** While the music is waiting (wait above 1) and no effect plays, an
      interrupt only counts the wait down. */
  lemma BgmWaits(e: Engine)
    requires Ready(e) && BgmOn(e.audEna) && !SfxOn(e.audEna)
    requires e.bgm.wait != 0 && e.bgm.wait != 1
    ensures Irq(e) == Played(e.(bgm := e.bgm.(wait := e.bgm.wait - 1)), [], None)
  {
  }

  /** An end command in the music returns from the interrupt at once: the
      effect's state is as it was, and its wait is not counted down. */
  lemma BgmEndSkipsSfx(e: Engine)
    requires Ready(e) && BgmPhase(e, RecursiveLimit).status == Returned
    ensures Irq(e).e.sfx == e.sfx && Irq(e).fault.None?
    ensures !BgmOn(Irq(e).e.audEna) && (SfxOn(Irq(e).e.audEna) <==> SfxOn(e.audEna))
  {
  }

  /** A fetch that ends normally leaves a nonzero wait behind, so the next
      command is read only after that many interrupts. */
  lemma FetchEndsWaiting(e: Engine, limit: int)
    requires Ready(e) && BgmFetch(e, limit).status == Running && BgmFetch(e, limit).limit >= 0
    ensures BgmFetch(e, limit).e.bgm.wait != 0
  {
  }

  /** A pattern that only jumps to itself with wait 0. */
  const SelfJump: MusicCommand := MusicCommand(32, 0, 0, 0, 0, 0, 0, 0, 0, 0)

  /** A command that only jumps, by 0, without waiting. */
  predicate OnlyJump(c: MusicCommand) {
    && !c.Has(FlagVol) && !c.Has(FlagWriteRam) && !c.Has(FlagPreset) && !c.Has(FlagPivot)
    && !c.Has(FlagEnd) && c.Has(FlagPattern) && !c.Has(FlagMark) && !c.Has(FlagLoop)
    && c.wait == 0 && c.pattern == 0
  }

  lemma SelfJumpOnlyJumps()
    ensures OnlyJump(SelfJump)
  {
    assert SelfJump.flags == 32;
    assert And(32, 1) == 0 && And(32, 2) == 0 && And(32, 4) == 0 && And(32, 8) == 0;
    assert And(32, 16) == 0 && And(32, 32) == 32 && And(32, 64) == 0 && And(32, 128) == 0;
  }

  /** The BGM cursor sits on a one-command pattern that jumps to itself. */
  predicate Spinning(e: Engine, c: MusicCommand) {
    && OnlyJump(c) && e.pats == [[c]] && e.patOffset == 0
    && e.bgm.data == [c] && e.bgm.offset == 0 && e.bgm.wait == 0
  }

  /** The self-jump reads back the state it started from. */
  lemma SpinStep(e: Engine, c: MusicCommand)
    requires Ready(e) && Spinning(e, c)
    ensures BgmCommand(e) == Step(e, [], Running)
  {
    var s1 := Take(e.bgm, c);
    assert s1 == e.bgm.(offset := 1);
    assert Tune(s1, c) == s1;
    assert CommandRam(e.pm, e.ramOffset, c) == Some(e.pm);
    var e1 := e.(bgm := s1);
    assert JumpOf(0) == 0;
    assert e1.(patOffset := 0, bgm := e1.bgm.(data := e1.pats[0], offset := 0)) == e;
    assert BgmLoops(e, c) == Step(e, [], Running);
    assert BgmJump(e1, c) == Step(e, [], Running);
  }

  lemma {:induction false} SpinsOut(e: Engine, c: MusicCommand, limit: int)
    requires Ready(e) && Spinning(e, c) && limit >= -1
    ensures BgmFetch(e, limit) == Stepped(e, [], Running, -1)
    decreases limit + 1
  {
    if limit >= 0 {
      SpinStep(e, c);
      SpinsOut(e, c, limit - 1);
    }
  }

  /** A pattern that jumps to itself without waiting spends the whole fetch
      budget: the interrupt disables the player and throws. */
  lemma SelfJumpOverflows(e: Engine)
    requires Ready(e) && BgmOn(e.audEna) && !SfxOn(e.audEna)
    requires e.pats == [[SelfJump]] && e.patOffset == 0
    requires e.bgm.data == [SelfJump] && e.bgm.offset == 0 && e.bgm.wait == 1
    ensures Irq(e).fault == Some(RecursiveOverflow) && Irq(e).e.audEna == 0
  {
    var e1 := e.(bgm := e.bgm.(wait := 0));
    SelfJumpSpends(e);
    assert !SfxOn(e1.audEna);
    assert SfxPhase(e1, -1) == Stepped(e1, [], Running, -1);
  }

  /** The music phase of that interrupt runs the budget down to -1. */
  lemma SelfJumpSpends(e: Engine)
    requires Ready(e) && BgmOn(e.audEna)
    requires e.pats == [[SelfJump]] && e.patOffset == 0
    requires e.bgm.data == [SelfJump] && e.bgm.offset == 0 && e.bgm.wait == 1
    ensures BgmPhase(e, RecursiveLimit) == Stepped(e.(bgm := e.bgm.(wait := 0)), [], Running, -1)
  {
    SelfJumpOnlyJumps();
    JumpSpends(e, SelfJump);
  }

  /** Any command that only jumps to its own pattern spends the budget. */
  lemma JumpSpends(e: Engine, c: MusicCommand)
    requires Ready(e) && BgmOn(e.audEna) && OnlyJump(c)
    requires e.pats == [[c]] && e.patOffset == 0
    requires e.bgm.data == [c] && e.bgm.offset == 0 && e.bgm.wait == 1
    ensures BgmPhase(e, RecursiveLimit) == Stepped(e.(bgm := e.bgm.(wait := 0)), [], Running, -1)
  {
    var e1 := e.(bgm := e.bgm.(wait := 0));
    assert Ready(e1) && Spinning(e1, c);
    SpinsOut(e1, c, RecursiveLimit);
  }

  // ---------------------------------------------------------------------
  // Emulation

  /** A timer replaced by one that `sync` produced. */
  function SetTimer(pm: PM, i: int, t: Timer): (r: PM)
    requires Pm.Valid(pm) && |pm.timers| == 3 && 0 <= i < 3 && WellFormed(t)
    ensures Pm.Valid(r) && |r.timers| == 3 && r.audio == pm.audio && r.timers[i] == t
  {
    pm.(timers := pm.timers[i := t])
  }

  /** One round of `emulate`: every timer advances 16 cycles, and a timer-1
      underflow of the high half calls `irq` from inside its `sync`. */
  function SyncAll(e: Engine): (r: Played)
    requires Ready(e)
    ensures Ready(r.e) && Kept(e, r.e)
  {
    var t0 := Sync(e.pm.timers[0], HwCycles);
    var pm0 := SetTimer(e.pm, 0, t0.timer);
    var t1 := Sync(pm0.timers[1], HwCycles);
    var e1 := e.(pm := SetTimer(pm0, 1, t1.timer));
    var p := if HiUnderflow in t1.events then Irq(e1) else Played(e1, [], None);
    if p.fault.Some? then p
    else
      var t2 := Sync(p.e.pm.timers[2], HwCycles);
      Played(p.e.(pm := SetTimer(p.e.pm, 2, t2.timer)), p.events, None)
  }

  /** `while (cycles > 0) { ...; cycles -= 16 }` */
  function Rounds(e: Engine, cycles: int): (r: Played)
    requires Ready(e)
    ensures Ready(r.e) && Kept(e, r.e)
    decreases cycles
  {
    if cycles <= 0 then Played(e, [], None)
    else
      var p := SyncAll(e);
      if p.fault.Some? then p
      else
        var q := Rounds(p.e, cycles - HwCycles);
        Played(q.e, p.events + q.events, q.fault)
  }

  /** A silent player stays silent through a round of timer updates. */
  lemma QuietSync(e: Engine)
    requires Ready(e) && e.audEna == 0
    ensures SyncAll(e).e.audEna == 0 && SyncAll(e).events == [] && SyncAll(e).fault.None?
  {
    var t0 := Sync(e.pm.timers[0], HwCycles);
    var pm0 := SetTimer(e.pm, 0, t0.timer);
    var t1 := Sync(pm0.timers[1], HwCycles);
    var e1 := e.(pm := SetTimer(pm0, 1, t1.timer));
    QuietIrq(e1);
  }

  lemma {:induction false} QuietRounds(e: Engine, cycles: int)
    requires Ready(e) && e.audEna == 0
    ensures Rounds(e, cycles).e.audEna == 0
    ensures Rounds(e, cycles).events == [] && Rounds(e, cycles).fault.None?
    decreases cycles
  {
    if cycles > 0 {
      QuietSync(e);
      QuietRounds(SyncAll(e).e, cycles - HwCycles);
    }
  }

  /** `emulate(cycles)`'s effect and its answer: whether the player has been
      active within the last 36 calls. */
  datatype Emulated = Emulated(e: Engine, events: seq<Callback>, fault: Option<Fault>, playing: bool)

  function Emulate(e: Engine, cycles: int): (r: Emulated)
    requires Ready(e)
    ensures Ready(r.e)
    ensures r.e.playdec == (if e.audEna != 0 then PlayDecReset else e.playdec - 1)
    ensures r.playing <==> r.e.playdec != 0
  {
    var pd := if e.audEna != 0 then PlayDecReset else e.playdec - 1;
    var p := Rounds(e.(playdec := pd), cycles);
    Emulated(p.e, p.events, p.fault, p.e.playdec != 0)
  }

  /** The answers of `n` successive `emulate` calls, up to the first throw. */
  function Answers(e: Engine, cycles: int, n: nat): (r: seq<bool>)
    requires Ready(e)
    ensures |r| <= n
    decreases n
  {
    if n == 0 then []
    else
      var x := Emulate(e, cycles);
      if x.fault.Some? then [] else [x.playing] + Answers(x.e, cycles, n - 1)
  }

  /** Once the player is silent, the `k`-th later call answers `playdec != k`:
      activity is reported until the count reaches zero, once, and then again
      as the count goes negative. */
  lemma {:induction false} SilenceWindsDown(e: Engine, cycles: int, n: nat)
    requires Ready(e) && e.audEna == 0
    ensures |Answers(e, cycles, n)| == n
    ensures forall k :: 0 <= k < n ==> (Answers(e, cycles, n)[k] <==> e.playdec != k + 1)
    decreases n
  {
    if n > 0 {
      var x := Emulate(e, cycles);
      QuietStep(e, cycles);
      SilenceWindsDown(x.e, cycles, n - 1);
      var rest := Answers(x.e, cycles, n - 1);
      var all := Answers(e, cycles, n);
      assert all == [x.playing] + rest by { AnswersStep(e, cycles, n); }
      forall k | 0 <= k < n
        ensures all[k] <==> e.playdec != k + 1
      {
        if k > 0 {
          assert all[k] == rest[k - 1];
        }
      }
    }
  }

  /** One `emulate` call on a silent player: no throw, still silent, and the
      count steps down by one. */
  lemma QuietStep(e: Engine, cycles: int)
    requires Ready(e) && e.audEna == 0
    ensures Emulate(e, cycles).fault.None? && Emulate(e, cycles).e.audEna == 0
    ensures Emulate(e, cycles).e.playdec == e.playdec - 1
    ensures Emulate(e, cycles).playing <==> e.playdec != 1
  {
    QuietRounds(e.(playdec := e.playdec - 1), cycles);
  }

  lemma AnswersStep(e: Engine, cycles: int, n: nat)
    requires Ready(e) && n > 0 && Emulate(e, cycles).fault.None?
    ensures Answers(e, cycles, n)
         == [Emulate(e, cycles).playing] + Answers(Emulate(e, cycles).e, cycles, n - 1)
  {
  }

  // ---------------------------------------------------------------------
  // Construction

  const Idle: Stream := Stream([], 0, 1, 0, 0, 0, 0, [], map[], false)

  /** `new PMMusicEngine(mastertime, ramOffset)`: a machine with timers and
      audio, the master time in timer 1, the player's registers zeroed,
      timer 2 prescaled by 2 and started, both master volumes at 4.  The RAM
      window throws exactly for an offset outside -0x1000 to 0x1000; a
      negative offset opens the window over the BIOS area below RAM. */
  function NewEngine(mastertime: int, ramOffset: Option<int>): (r: Result<Engine, Fault>)
    ensures r.Err? <==> !RamWindow(ramOffset.GetOr(DefaultRamOffset))
    ensures r.Ok? ==> Ready(r.value) && r.value.audEna == 0 && r.value.pm.audio == Some(0)
    ensures r.Ok? ==> r.value.bgm.volTable == VolTable[4] && r.value.sfx.volTable == VolTable[4]
    ensures r.Ok? ==> r.value.bgm.wait == 1 && r.value.sfx.wait == 1
    ensures r.Ok? ==> r.value.ramOffset == ramOffset.GetOr(DefaultRamOffset)
  {
    var ro := ramOffset.GetOr(DefaultRamOffset);
    if !RamWindow(ro) then Err(BadRamOffset)
    else
      NewPMValid();
      var pm0 := InitAudio(InitTimers(NewPM));
      var pm1 := SetReg(Put2(pm0, 0x3a, mastertime), 0x71, 0);
      AndTwoBits(0);
      var pm2 := Put2(Put2(Put2(pm1, 0x38, 0), 0x4a, 0), 0x4c, 0);
      var pm3 := SetReg(SetReg(SetReg(SetReg(pm2, 0x1b, 0), 0x1d, 0), 0x1a, Div256), 0x1c, Div2);
      var pm4 := SetReg(Put2(pm3, 0x48, 0x86), 0x19, 0x20);
      Ok(Engine(pm4, mastertime, 0, ro, [], 0, SetVol(Idle, 4), SetVol(Idle, 4), PlayDecReset))
  }
}

=== FILE: float.dfy ===
/** The part of IEEE 754 binary64 arithmetic the music compiler's note
    lengths go through: the quotient of two positive numbers, rounded to
    the nearest double with ties to even, and `Math.trunc` of the result.
    The values stay far inside the normal range, so a double here is a
    mantissa over a power of two. */
module Float {
  import opened Util
  import opened Bits

  const TWO52: nat := 0x10_0000_0000_0000
  const TWO53: nat := 0x20_0000_0000_0000

  /** The positive double `mant / 2^scale`.  A rounded quotient has its
      mantissa in [2^52, 2^53]; 2^53 stands for the next binade's 2^52. */
  datatype Dbl = Dbl(mant: nat, scale: nat)

  /** The least `s >= from` that lifts `a / b` to at least 2^52. */
  function ScaleFrom(a: nat, b: nat, from: nat): (s: nat)
    requires a >= 1 && b >= 1
    ensures s >= from && TWO52 * b <= a * Pow2(s)
    ensures s == from || a * Pow2(s - 1) < TWO52 * b
    decreases TWO52 * b - a * Pow2(from)
  {
    if a * Pow2(from) >= TWO52 * b then from
    else
      ScaleDoubles(a, from + 1);
      ScaleFrom(a, b, from + 1)
  }

  /** The binade of `a / b`: `a * 2^s / b` lies in [2^52, 2^53). */
  function Scale(a: nat, b: nat): (s: nat)
    requires 1 <= a < TWO53 * b
    ensures TWO52 * b <= a * Pow2(s) < TWO53 * b
  {
    var s := ScaleFrom(a, b, 0);
    ScaleDoubles(a, s);
    s
  }

  /** The double nearest to `a / b`, ties to an even mantissa. */
  function Quot(a: nat, b: nat): (r: Dbl)
    requires 1 <= a < TWO53 * b
    ensures TWO52 <= r.mant <= TWO53
    ensures TWO52 * b <= a * Pow2(r.scale) < TWO53 * b
    ensures 2 * (r.mant * b) <= 2 * (a * Pow2(r.scale)) + b
    ensures 2 * (a * Pow2(r.scale)) <= 2 * (r.mant * b) + b
    ensures 2 * (r.mant * b) == 2 * (a * Pow2(r.scale)) + b ==> r.mant % 2 == 0
    ensures 2 * (a * Pow2(r.scale)) == 2 * (r.mant * b) + b ==> r.mant % 2 == 0
  {
    var s := Scale(a, b);
    Dbl(Nearest(a * Pow2(s), b), s)
  }

  /** The integer nearest to `n / b`, ties to even, for `n / b` in
      [2^52, 2^53). */
  function Nearest(n: nat, b: nat): (m: nat)
    requires b >= 1 && TWO52 * b <= n < TWO53 * b
    ensures TWO52 <= m <= TWO53
    ensures 2 * (m * b) <= 2 * n + b && 2 * n <= 2 * (m * b) + b
    ensures 2 * (m * b) == 2 * n + b ==> m % 2 == 0
    ensures 2 * n == 2 * (m * b) + b ==> m % 2 == 0
  {
    var q, rem := n / b, n % b;
    QuotientInBinade(n, b, q, rem);
    var up := 2 * rem > b || (2 * rem == b && q % 2 == 1);
    if up then q + 1 else q
  }

  lemma QuotientInBinade(n: nat, b: nat, q: int, rem: int)
    requires b >= 1 && TWO52 * b <= n < TWO53 * b
    requires q == n / b && rem == n % b
    ensures TWO52 <= q < TWO53 && n == q * b + rem && 0 <= rem < b
  {
    if q < TWO52 {
      MulMonotone(b, q + 1, TWO52);
    }
    if q >= TWO53 {
      MulMonotone(b, TWO53, q);
    }
  }

  /** `Math.trunc` of a positive double. */
  function Trunc(d: Dbl): (r: nat)
    ensures r * Pow2(d.scale) <= d.mant < (r + 1) * Pow2(d.scale)
  {
    FloorBracket(d.mant, Pow2(d.scale));
    d.mant / Pow2(d.scale)
  }

  /** The scale is the only one that puts `a * 2^s / b` in [2^52, 2^53). */
  lemma ScaleUnique(a: nat, b: nat, s: nat)
    requires 1 <= a < TWO53 * b
    requires TWO52 * b <= a * Pow2(s) < TWO53 * b
    ensures Scale(a, b) == s
  {
    var t := Scale(a, b);
    if t < s {
      ScaleOrder(a, b, t, s);
    } else if s < t {
      ScaleOrder(a, b, s, t);
    }
  }

  /** A larger scale lifts `a / b` at least one binade higher. */
  lemma ScaleOrder(a: nat, b: nat, t: nat, s: nat)
    requires t < s && TWO52 * b <= a * Pow2(t)
    ensures a * Pow2(s) >= TWO53 * b
  {
    Pow2Strict(t, s);
    MulMonotone(a, 2 * Pow2(t), Pow2(s));
  }

  /** Rounding once and then truncating gives the integer quotient: the
      rounding never reaches the next integer. */
  lemma TruncQuot(a: nat, b: nat)
    requires 1 <= a < TWO53 && b >= 1
    ensures Trunc(Quot(a, b)) == a / b
  {
    var d := Quot(a, b);
    var k, p := a / b, Pow2(d.scale);
    FloorBracket(a, b);
    RoundedNotBelow(a, b, d.mant, p, k);
    RoundedNotAbove(a, b, d.mant, p, k + 1);
    TruncUnique(d, k);
  }

  /** A mantissa within half a unit of `a * p / b` is at least `k * p`
      when `k <= a / b`. */
  lemma RoundedNotBelow(a: int, b: nat, m: int, p: nat, k: int)
    requires b >= 1 && 2 * (a * p) <= 2 * (m * b) + b && k * b <= a
    ensures m >= k * p
  {
    assert (k * b) * (2 * p) == (k * p) * (2 * b);
    if m < k * p {
      MulLe(m, k * p - 1, 2 * b);
      MulLe(k * b, a, 2 * p);
    }
  }

  /** ... and below `k * p` when `a / b < k`, as long as `a` is below
      2^53 so that half a unit is less than `1 / b`. */
  lemma RoundedNotAbove(a: nat, b: nat, m: int, p: nat, k: int)
    requires b >= 1 && p >= 1 && 2 * (m * b) <= 2 * (a * p) + b && a + 1 <= k * b
    requires TWO52 * b <= a * p && a < TWO53
    ensures m < k * p
  {
    if m >= k * p {
      MulLe(k * p, m, b);
      MulLe(a + 1, k * b, p);
      MulLe(a, TWO53 - 1, p);
      RingNotAbove(a, b, p, k);
    }
  }

  lemma RingNotAbove(a: int, b: int, p: int, k: int)
    ensures (a + 1) * p == a * p + p && (k * b) * p == (k * p) * b
    ensures (TWO53 - 1) * p == TWO53 * p - p
  {
  }

  /** The integer `w` divided by the double `d`, rounded. */
  function DivBy(w: nat, d: Dbl): (r: Dbl)
    requires 1 <= w && 1 <= d.mant && w * Pow2(d.scale) < TWO53 * d.mant
    ensures r == Quot(w * Pow2(d.scale), d.mant)
  {
    Quot(w * Pow2(d.scale), d.mant)
  }

  /** `w / (a / b)` with both quotients rounded: defined when `w * b` is at
      most 2^52. */
  lemma DivByQuotDefined(w: nat, a: nat, b: nat)
    requires 1 <= w && 1 <= a < TWO53 * b && w * b <= TWO52
    ensures w * Pow2(Quot(a, b).scale) < TWO53 * Quot(a, b).mant
  {
    var d := Quot(a, b);
    ScaledBelow(w, a, b, Pow2(d.scale), d.mant);
  }

  lemma ScaledBelow(w: nat, a: nat, b: nat, p: nat, m: nat)
    requires 1 <= a && a * p < TWO53 * b && w * b <= TWO52 && TWO52 <= m
    ensures w * p < TWO53 * m
  {
    MulAtLeastOne(p, a);
    assert p * a == a * p;
    MulLe(p, TWO53 * b - 1, w);
    assert (TWO53 * b - 1) * w == TWO53 * (w * b) - w;
    MulLe(w * b, TWO52, TWO53);
    MulLe(TWO52, m, TWO53);
  }

  /** `w / (a / b)` with both divisions in doubles. */
  function DivByQuot(w: nat, a: nat, b: nat): (r: Dbl)
    requires 1 <= w && 1 <= a < TWO53 * b && w * b <= TWO52
    ensures TWO52 <= r.mant <= TWO53
  {
    DivByQuotDefined(w, a, b);
    DivBy(w, Quot(a, b))
  }

  /** `w / (a / b)` rounded twice and truncated is the exact quotient
      `w * b / a` rounded toward zero, or, only when that quotient is a
      whole number, one less: the two roundings can land just below it but
      never past the next integer. */
  lemma TwoRoundings(w: nat, a: nat, b: nat)
    requires 1 <= w && 1 <= a && 1 <= b && a < TWO53 * b
    requires 3 * (w * b) + a <= TWO52
    ensures var r := Trunc(DivByQuot(w, a, b));
      || r == (w * b) / a
      || (r == (w * b) / a - 1 && (w * b) % a == 0)
  {
    var d := Quot(a, b);
    DivByQuotDefined(w, a, b);
    var x := DivBy(w, d);
    var m1, p1, m2, p2 := d.mant, Pow2(d.scale), x.mant, Pow2(x.scale);
    var wb: int := w * b;
    MulAtLeastOne(w, b);
    var n: int := wb / a;
    FloorChoice(wb, a);
    var k: int := if wb % a == 0 then n - 1 else n;
    RoundedTwiceNotBelow(w, a, b, m1, p1, m2, p2, k);
    RoundedTwiceNotAbove(w, a, b, m1, p1, m2, p2, n + 1);
    TruncBetween(x, k, n + 1);
  }

  /** The integers next to `x / a`: the floor `n`, the one below it when
      `a` divides `x`, and `n + 1`. */
  lemma FloorChoice(x: int, a: int)
    requires 1 <= x && 1 <= a
    ensures var n := x / a;
      && n >= 0
      && (x % a == 0 ==> n >= 1 && x >= (n - 1) * a + 1 && (n - 1) * a <= x)
      && (x % a != 0 ==> x >= n * a + 1 && n * a <= x)
      && x + 1 <= (n + 1) * a <= x + a
  {
    var n, r := x / a, x % a;
    assert x == a * n + r;
    assert (n + 1) * a == n * a + a;
    assert (n - 1) * a == n * a - a;
  }

  /** Both roundings keep `m2 / p2` at or above `k` when `k < w * b / a`
      and `k * a` is at most 2^53. */
  lemma RoundedTwiceNotBelow(w: nat, a: nat, b: nat, m1: nat, p1: nat, m2: nat, p2: nat, k: nat)
    requires 1 <= a && 1 <= b && 1 <= m1 && 1 <= p2
    requires 2 * (m1 * b) <= 2 * (a * p1) + b
    requires 2 * ((w * p1) * p2) <= 2 * (m2 * m1) + m1
    requires TWO52 * b <= a * p1
    requires w * b >= k * a + 1 && k * a <= TWO53
    ensures m2 >= k * p2
  {
    if m2 < k * p2 {
      BelowGap(w, a, b, m1, p1, m2, p2, k);
      BelowContradiction(a, b, p1, p2, k);
    }
  }

  lemma BelowGap(w: nat, a: nat, b: nat, m1: nat, p1: nat, m2: nat, p2: nat, k: nat)
    requires 1 <= b && 1 <= m1
    requires 2 * (m1 * b) <= 2 * (a * p1) + b
    requires 2 * ((w * p1) * p2) <= 2 * (m2 * m1) + m1
    requires w * b >= k * a + 1 && m2 + 1 <= k * p2
    ensures 2 * (p1 * p2) < k * b * p2
  {
    var K, T, X := k * p2, p1 * p2, (w * p1) * p2;
    MulLe(m2, K - 1, m1);
    var KM := K * m1;
    RingLess(K, m1);
    assert 2 * X <= 2 * KM - m1;
    MulLe(2 * X, 2 * KM - m1, b);
    MulLe(2 * (m1 * b), 2 * (a * p1) + b, K);
    MulLe(k * a + 1, w * b, 2 * T);
    RingShuffle(w, p1, p2, b);
    RingLessTimes(K, m1, b);
    RingScaled(a, p1, b, k, p2);
    RingPlusOne(k * a, T);
    MulAtLeastOne(m1, b);
  }

  lemma RingLess(K: int, m1: int)
    ensures (K - 1) * m1 == K * m1 - m1
  {
  }

  lemma RingShuffle(w: int, p1: int, p2: int, b: int)
    ensures (2 * ((w * p1) * p2)) * b == 2 * ((w * b) * (p1 * p2))
    ensures (w * b) * (2 * (p1 * p2)) == 2 * ((w * b) * (p1 * p2))
  {
  }

  lemma RingLessTimes(K: int, m1: int, b: int)
    ensures (2 * (K * m1) - m1) * b == 2 * ((m1 * b) * K) - m1 * b
    ensures (2 * (m1 * b)) * K == 2 * ((m1 * b) * K)
  {
  }

  lemma RingScaled(a: int, p1: int, b: int, k: int, p2: int)
    ensures (2 * (a * p1) + b) * (k * p2) == 2 * ((k * a) * (p1 * p2)) + k * b * p2
  {
  }

  lemma RingPlusOne(x: int, t: int)
    ensures (x + 1) * (2 * t) == 2 * (x * t) + 2 * t
  {
  }

  lemma BelowContradiction(a: nat, b: nat, p1: nat, p2: nat, k: nat)
    requires 1 <= p2 && 2 * (p1 * p2) < k * b * p2 && TWO52 * b <= a * p1
    ensures TWO53 < k * a
  {
    if k * b <= 2 * p1 {
      MulLe(k * b, 2 * p1, p2);
    }
    MulLe(2 * p1 + 1, k * b, a);
    assert (k * b) * a == (k * a) * b;
    if k * a <= TWO53 {
      MulLe(k * a, TWO53, b);
    }
  }

  /** ... and below `k` when `w * b / a < k` and `k * a + 2 * w * b` is at
      most 2^53. */
  lemma RoundedTwiceNotAbove(w: nat, a: nat, b: nat, m1: nat, p1: nat, m2: nat, p2: nat, k: nat)
    requires 1 <= w && 1 <= a && 1 <= b && 1 <= m1 && 1 <= p2
    requires 2 * (a * p1) <= 2 * (m1 * b) + b
    requires 2 * (m2 * m1) <= 2 * ((w * p1) * p2) + m1
    requires TWO52 * b <= a * p1 < TWO53 * b
    requires TWO52 * m1 <= (w * p1) * p2
    requires w * b + 1 <= k * a && k * a + 2 * (w * b) <= TWO53
    ensures m2 < k * p2
  {
    if m2 >= k * p2 {
      AboveGap(w, a, b, m1, p1, m2, p2, k);
      AboveContradiction(w, a, b, m1, p1, p2, k);
    }
  }

  lemma AboveGap(w: nat, a: nat, b: nat, m1: nat, p1: nat, m2: nat, p2: nat, k: nat)
    requires 2 * (a * p1) <= 2 * (m1 * b) + b
    requires 2 * (m2 * m1) <= 2 * ((w * p1) * p2) + m1
    requires w * b + 1 <= k * a && m2 >= k * p2
    ensures 2 * (p1 * p2) <= m1 * b + k * b * p2
  {
    var K, X := k * p2, (w * p1) * p2;
    MulLe(K, m2, m1);
    MulLe(2 * (K * m1), 2 * X + m1, b);
    MulLe(2 * (a * p1), 2 * (m1 * b) + b, K);
    MulLe(w * b + 1, k * a, 2 * (p1 * p2));
    RingAboveGap(w, a, b, m1, p1, p2, k);
  }

  lemma RingAboveGap(w: int, a: int, b: int, m1: int, p1: int, p2: int, k: int)
    ensures (2 * ((k * p2) * m1)) * b == 2 * ((m1 * b) * (k * p2))
    ensures (2 * ((w * p1) * p2) + m1) * b == 2 * ((w * b) * (p1 * p2)) + m1 * b
    ensures (2 * (a * p1)) * (k * p2) == 2 * ((k * a) * (p1 * p2))
    ensures (2 * (m1 * b) + b) * (k * p2) == 2 * ((m1 * b) * (k * p2)) + k * b * p2
    ensures (w * b + 1) * (2 * (p1 * p2)) == 2 * ((w * b) * (p1 * p2)) + 2 * (p1 * p2)
    ensures (k * a) * (2 * (p1 * p2)) == 2 * ((k * a) * (p1 * p2))
  {
  }

  lemma AboveContradiction(w: nat, a: nat, b: nat, m1: nat, p1: nat, p2: nat, k: nat)
    requires 1 <= w && 1 <= a && 1 <= b && 1 <= p2
    requires 2 * (p1 * p2) <= m1 * b + k * b * p2
    requires TWO52 * b <= a * p1 < TWO53 * b
    requires TWO52 * m1 <= (w * p1) * p2
    ensures TWO53 < k * a + 2 * (w * b)
  {
    var L := b * p2;
    MulLe(2 * (p1 * p2), m1 * b + k * b * p2, a);
    MulLe(TWO52 * b, a * p1, 2 * p2);
    RingAboveScaled(a, b, m1, p1, p2, k);
    MulLe(TWO52 * m1, (w * p1) * p2, a);
    MulLe(a * p1, TWO53 * b - 1, w * p2);
    RingAboveBound(w, a, b, m1, p1, p2);
    MulAtLeastOne(w, p2);
    assert m1 * a < 2 * ((w * b) * p2);
    MulLe(m1 * a + 1, 2 * ((w * b) * p2), b);
    RingAboveSum(w, a, b, m1, p2, k);
    if TWO53 >= k * a + 2 * (w * b) {
      MulLe(k * a + 2 * (w * b), TWO53, L);
    }
  }

  lemma RingAboveScaled(a: int, b: int, m1: int, p1: int, p2: int, k: int)
    ensures (2 * (p1 * p2)) * a == (a * p1) * (2 * p2)
    ensures (m1 * b + k * b * p2) * a == (m1 * a) * b + (k * a) * (b * p2)
    ensures (TWO52 * b) * (2 * p2) == TWO53 * (b * p2)
  {
  }

  lemma RingAboveBound(w: int, a: int, b: int, m1: int, p1: int, p2: int)
    ensures ((w * p1) * p2) * a == (a * p1) * (w * p2)
    ensures (TWO53 * b - 1) * (w * p2) == TWO53 * ((w * b) * p2) - w * p2
    ensures (TWO52 * m1) * a == TWO52 * (m1 * a)
  {
  }

  lemma RingAboveSum(w: int, a: int, b: int, m1: int, p2: int, k: int)
    ensures (m1 * a + 1) * b == (m1 * a) * b + b
    ensures (2 * ((w * b) * p2)) * b == 2 * ((w * b) * (b * p2))
    ensures (k * a + 2 * (w * b)) * (b * p2) == (k * a) * (b * p2) + 2 * ((w * b) * (b * p2))
  {
  }

  /** `Math.trunc` lies in any integer bracket of the double. */
  lemma TruncBetween(d: Dbl, lo: nat, hi: nat)
    requires lo * Pow2(d.scale) <= d.mant < hi * Pow2(d.scale)
    ensures lo <= Trunc(d) < hi
  {
    var r, p := Trunc(d), Pow2(d.scale);
    if r < lo {
      MulLe(r + 1, lo, p);
    }
    if r >= hi {
      MulLe(hi, r, p);
    }
  }

  /** `Math.trunc` is the one integer `k` with the double in [k, k + 1). */
  lemma TruncUnique(d: Dbl, k: nat)
    requires k * Pow2(d.scale) <= d.mant < (k + 1) * Pow2(d.scale)
    ensures Trunc(d) == k
  {
    DivUnique(d.mant, Pow2(d.scale), k, d.mant - k * Pow2(d.scale));
  }

  lemma FloorBracket(a: nat, b: nat)
    requires b >= 1
    ensures a / b >= 0
    ensures (a / b) * b <= a < (a / b + 1) * b
  {
    assert a == b * (a / b) + a % b;
  }

  lemma MulLe(x: int, y: int, c: nat)
    requires x <= y
    ensures x * c <= y * c
  {
    MulNonNegative(c, y - x);
    assert y * c == x * c + c * (y - x);
  }

  /** A quotient's double read off its binade and rounded mantissa. */
  lemma QuotIs(a: nat, b: nat, s: nat, m: nat)
    requires 1 <= a < TWO53 * b
    requires TWO52 * b <= a * Pow2(s) < TWO53 * b && m == Nearest(a * Pow2(s), b)
    ensures Quot(a, b) == Dbl(m, s)
  {
    ScaleUnique(a, b, s);
  }

  /** The powers of two of the binades the worked examples land in. */
  lemma Pow2Binades()
    ensures Pow2(44) == 0x1000_0000_0000 && Pow2(49) == 0x2_0000_0000_0000
    ensures Pow2(50) == 0x4_0000_0000_0000 && Pow2(53) == TWO53
  {
    Pow2Values();
    Pow2Add(32, 8);
    Pow2Add(40, 4);
    Pow2Add(32, 16);
    Pow2Add(48, 1);
    Pow2Add(48, 2);
    Pow2Add(48, 4);
    Pow2Add(52, 1);
    Pow2Add(49, 4);
  }

  lemma ScaleDoubles(a: nat, s: nat)
    ensures s > 0 ==> a * Pow2(s) == 2 * (a * Pow2(s - 1))
  {
  }

  lemma MulAtLeastOne(x: nat, y: nat)
    requires y >= 1
    ensures x * y >= x
  {
    MulMonotone(x, 1, y);
  }
}

=== FILE: notegen.dfy ===
/** Note generation in the music compiler: the preset table that turns a
    note and octave into a timer preset, the volume map, the random
    generator behind the random effect, and `_quant_sustain` /
    `_make_note`, which split one note into driver commands of at most 255
    ticks each. */
module NoteGen {
  import opened Wrappers
  import opened Util
  import opened Bits
  import opened Encoding
  import Ast

  // ---------------------------------------------------------------------
  // Compiler context

  /** Effect codes: the character code of the effect letter. */
  const EffectDisabled: int := 100    // 'd'
  const EffectArpeggio: int := 97     // 'a'
  const EffectPortamento: int := 112  // 'p'
  const EffectRandom: int := 114      // 'r'

  /** The state that carries from one command to the next while a command
      set compiles.  `ramAddr` is -1 when no RAM write is pending. */
  datatype Ctx = Ctx(
    wait: int, note2: int, note3: int, ramAddr: int, ramData: int,
    length: int, octave: int, volume: int, pulse: int, quantize: int,
    arpPtr: int, effType: int, effTick: int, sustain: int)

  const DefaultCtx := Ctx(24, -1, -1, -1, -1, 4, 4, 3, 128, 64, 0, 0, 1, 64)

  /** The ranges validation keeps every context field in: a wait of
      1..255 ticks, quantize and sustain in 64ths, a mapped volume 0..3, an
      arpeggio pointer 0..2, effect ticks 1..128, and a pending RAM write
      that is a byte to a byte address. */
  predicate CtxOk(ctx: Ctx) {
    1 <= ctx.wait <= 255 && 1 <= ctx.length <= 64
    && 0 <= ctx.volume <= 3 && 1 <= ctx.quantize <= 64 && 1 <= ctx.sustain <= 64
    && 0 <= ctx.arpPtr < 3 && 1 <= ctx.effTick <= 128
    && (ctx.ramAddr == -1 || (0 <= ctx.ramAddr < 0x100 && 0 <= ctx.ramData < 0x100))
  }

  lemma DefaultCtxOk()
    ensures CtxOk(DefaultCtx)
  {
  }

  /** An effect that replaces the wait of a sounding command by the effect
      tick count. */
  predicate EffectOn(ctx: Ctx) {
    ctx.effType == EffectArpeggio || ctx.effType == EffectPortamento || ctx.effType == EffectRandom
  }

  // ---------------------------------------------------------------------
  // Preset table and volume

  /** Timer presets of the 84 semitones from C1 to B7, one octave per
      row. */
  const Octave1: seq<int> := [0xEEE3, 0xE17A, 0xD4D2, 0xC8E0, 0xBD9A, 0xB2F6, 0xA8EA, 0x9F6F, 0x967C, 0x8E0A, 0x8611, 0x7E8B]
  const Octave2: seq<int> := [0x7771, 0x70BC, 0x6A68, 0x646F, 0x5ECC, 0x597A, 0x5474, 0x4FB7, 0x4B3D, 0x4704, 0x4308, 0x3F45]
  const Octave3: seq<int> := [0x3BB8, 0x385D, 0x3533, 0x3237, 0x2F65, 0x2CBC, 0x2A39, 0x27DB, 0x259E, 0x2381, 0x2183, 0x1FA2]
  const Octave4: seq<int> := [0x1DDB, 0x1C2E, 0x1A99, 0x191B, 0x17B2, 0x165D, 0x151C, 0x13ED, 0x12CE, 0x11C0, 0x10C1, 0x0FD0]
  const Octave5: seq<int> := [0x0EED, 0x0E16, 0x0D4C, 0x0C8D, 0x0BD8, 0x0B2E, 0x0A8D, 0x09F6, 0x0966, 0x08DF, 0x0860, 0x07E7]
  const Octave6: seq<int> := [0x0776, 0x070A, 0x06A5, 0x0646, 0x05EB, 0x0596, 0x0546, 0x04FA, 0x04B2, 0x046F, 0x042F, 0x03F3]
  const Octave7: seq<int> := [0x03BA, 0x0384, 0x0352, 0x0322, 0x02F5, 0x02CA, 0x02A2, 0x027C, 0x0258, 0x0237, 0x0217, 0x01F9]
  const NoteTable: seq<int> := Octave1 + Octave2 + Octave3 + Octave4 + Octave5 + Octave6 + Octave7

  /** The preset that stands for "no note". */
  const NoPreset: int := 0xFFFF

  /** `_getnotefreq` as written: the guard lets index 84 through, one past
      the table's last entry, and the array read there yields `undefined`
      (`None` here). */
  function GetNoteFreqAsWritten(note: int, octave: int): (r: Option<int>)
    ensures r.None? <==> Ast.Pitch(note, octave) == |NoteTable|
  {
    var num := Ast.Pitch(note, octave);
    if num < 0 || num > 7 * 12 then Some(NoPreset)
    else if num < |NoteTable| then Some(NoteTable[num])
    else None
  }

  /** C in octave 9 passes every check (octaves go up to 9) and reads past
      the table. */
  lemma TopNoteUndefined()
    ensures Ast.Pitch(0, 9) == 84 && Ast.Pitch(12, 8) == 84
    ensures GetNoteFreqAsWritten(0, 9).None? && GetNoteFreqAsWritten(12, 8).None?
  {
  }

  /** `_getnotefreq` with the guard at the table's end: the table entry of
      the semitone, or `0xFFFF` off the table. */
  function GetNoteFreq(note: int, octave: int): (r: int)
    ensures r == NoPreset <==> !(0 <= Ast.Pitch(note, octave) < |NoteTable|)
    ensures 0 <= Ast.Pitch(note, octave) < |NoteTable| ==> r == NoteTable[Ast.Pitch(note, octave)]
    ensures 0x1F9 <= r <= 0xFFFF
  {
    var num := Ast.Pitch(note, octave);
    if num < 0 || num >= |NoteTable| then NoPreset
    else NoteTableRange(num); NoteTable[num]
  }

  /** Where the as-written lookup is defined it agrees with the corrected
      one. */
  lemma GetNoteFreqAgrees(note: int, octave: int)
    requires Ast.Pitch(note, octave) != |NoteTable|
    ensures GetNoteFreqAsWritten(note, octave) == Some(GetNoteFreq(note, octave))
  {
  }

  lemma OctavesDecreasing()
    ensures forall i :: 0 <= i < 11 ==>
              (Octave1[i] > Octave1[i + 1] && Octave2[i] > Octave2[i + 1]
               && Octave3[i] > Octave3[i + 1] && Octave4[i] > Octave4[i + 1] && Octave5[i] > Octave5[i + 1]
               && Octave6[i] > Octave6[i + 1] && Octave7[i] > Octave7[i + 1])
    ensures Octave1[11] > Octave2[0] && Octave2[11] > Octave3[0] && Octave3[11] > Octave4[0]
      && Octave4[11] > Octave5[0] && Octave5[11] > Octave6[0] && Octave6[11] > Octave7[0]
  {
  }

  /** Each semitone up has a strictly smaller preset (a shorter period). */
  lemma NoteTableStep(i: int)
    requires 0 <= i < |NoteTable| - 1
    ensures NoteTable[i] > NoteTable[i + 1]
  {
    OctavesDecreasing();
  }

  /** Higher notes always get smaller presets. */
  lemma {:induction false} NoteTableDecreasing(i: int, j: int)
    requires 0 <= i < j < |NoteTable|
    ensures NoteTable[i] > NoteTable[j]
    decreases j - i
  {
    NoteTableStep(i);
    if j > i + 1 {
      NoteTableDecreasing(i + 1, j);
    }
  }

  /** Every preset lies between the last entry and the first. */
  lemma NoteTableRange(i: int)
    requires 0 <= i < |NoteTable|
    ensures 0x1F9 <= NoteTable[i] <= 0xEEE3
  {
    assert |NoteTable| == 84;
    if i > 0 {
      NoteTableDecreasing(0, i);
    }
    if i < 83 {
      NoteTableDecreasing(i, 83);
    }
  }

  /** A note one octave up lands twelve table entries on. */
  lemma OctaveUp(note: int, octave: int)
    ensures Ast.Pitch(note, octave + 1) == Ast.Pitch(note, octave) + 12
    ensures Ast.Pitch(note + 12, octave) == Ast.Pitch(note, octave + 1)
  {
  }

  /** `_mapVolume`: the 0..15 volume of the source onto the driver's four
      levels. */
  function MapVolume(volume: int): (r: int)
    ensures 0 <= r <= 3
    ensures r >= 1 <==> volume > 2
    ensures r >= 2 <==> volume > 4
    ensures r == 3 <==> volume > 8
  {
    if volume > 8 then 3
    else if volume > 4 then 2
    else if volume > 2 then 1
    else 0
  }

  lemma MapVolumeMonotone(a: int, b: int)
    requires a <= b
    ensures MapVolume(a) <= MapVolume(b)
  {
  }

  // ---------------------------------------------------------------------
  // Random generator

  /** `rand()`: one step of the 32-bit linear congruential generator, and
      bits 16..30 of the new state. */
  function Rand(seed: int): (r: (int, int))
    ensures 0 <= r.0 < 0x8000
    ensures 0 <= r.1 < TWO32
    ensures (seed * 1103515245 + 12345 - r.1) % TWO32 == 0
    ensures r.0 == (r.1 / 0x1_0000) % 0x8000
  {
    var next := CapU32(seed * 1103515245 + 12345);
    RandBits(next);
    (And(Sar(next, 16), 0x7fff), next)
  }

  /** `srand(seed)` */
  function Srand(seed: int): (r: int)
    ensures 0 <= r < TWO32 && (seed - r) % TWO32 == 0
  {
    CapU32(seed)
  }

  /** The generator's output bits do not depend on the sign `>>` sees. */
  lemma RandBits(x: int)
    requires 0 <= x < TWO32
    ensures And(Sar(x, 16), 0x7fff) == (x / 0x1_0000) % 0x8000
  {
    var s := CapS32(x);
    var q := s / 0x1_0000;
    assert Sar(x, 16) == q by {
      Pow2Values();
      assert 16 % 32 == 16;
    }
    SignedHighBits(x);
    assert And(q, 0x7fff) == q % 0x8000 by {
      Pow2Values();
      AndLow(q, 15);
    }
  }

  /** Reading the word as signed does not change bits 16 to 30. */
  lemma SignedHighBits(x: int)
    requires 0 <= x < TWO32
    ensures (CapS32(x) / 0x1_0000) % 0x8000 == (x / 0x1_0000) % 0x8000
  {
    var a, r := x / 0x1_0000, x % 0x1_0000;
    DivUnique(x, TWO32, 0, x);
    if x >= TWO31 {
      assert CapS32(x) == x - TWO32;
      DivUnique(x - TWO32, 0x1_0000, a - 0x1_0000, r);
      DivUnique(a - 0x1_0000, 0x8000, a / 0x8000 - 2, a % 0x8000);
    } else {
      assert CapS32(x) == x;
    }
  }

  // ---------------------------------------------------------------------
  // One command of `_make_note`

  /** The three presets of an arpeggio; the first is the note itself. */
  datatype Presets = Presets(p1: int, p2: int, p3: int)

  /** The preset of one command under the current effect, and the generator
      state after it. */
  function EffectPreset(p: Presets, portOff: int, portTot: int, ctx: Ctx, seed: int): (r: (int, int))
    requires portTot > 0 && 0 <= ctx.arpPtr < 3
    ensures ctx.effType != EffectRandom ==> r.1 == seed
    ensures !EffectOn(ctx) ==> r.0 == p.p1
    ensures ctx.effType == EffectArpeggio ==> r.0 in {p.p1, p.p2, p.p3}
  {
    if ctx.effType == EffectArpeggio then
      ([p.p1, p.p2, p.p3][ctx.arpPtr], seed)
    else if ctx.effType == EffectPortamento then
      var posfx := CapS32(CDiv(CapS32(portOff * 0x8000), portTot));
      (Sar(CapS32((0x8000 - posfx) * p.p1 + posfx * p.p2), 15), seed)
    else if ctx.effType == EffectRandom then
      var (posfx, next) := Rand(seed);
      (Sar(CapS32((0x8000 - posfx) * p.p1 + posfx * p.p2), 15), next)
    else (p.p1, seed)
  }

  /** The flags of a note command: volume always, preset and pivot for a
      sounding note, the RAM write when one is pending.  The bits are
      disjoint, so `|=` adds them. */
  function NoteFlags(sounding: bool, ram: bool): int {
    FlagVol + (if sounding then FlagPreset + FlagPivot else 0) + (if ram then FlagWriteRam else 0)
  }

  /** The flag tests read back the two choices. */
  lemma NoteFlagsRead(c: MusicCommand, sounding: bool, ram: bool)
    requires c.flags == NoteFlags(sounding, ram)
    ensures FlagsOf(c) == Flags(true, ram, sounding, sounding, false, false, false, false)
  {
    NoteFlagsBits(sounding, ram);
    FlagsOfLiteral(c, NoteFlags(sounding, ram));
  }

  lemma NoteFlagsBits(sounding: bool, ram: bool)
    ensures 0 <= NoteFlags(sounding, ram) < 0x100
    ensures ByteFlags(NoteFlags(sounding, ram)) == Flags(true, ram, sounding, sounding, false, false, false, false)
  {
    if sounding && ram {
      assert NoteFlags(sounding, ram) == 15;
    } else if sounding {
      assert NoteFlags(sounding, ram) == 13;
    } else if ram {
      assert NoteFlags(sounding, ram) == 3;
    } else {
      assert NoteFlags(sounding, ram) == 1;
    }
  }

  /** The pivot the driver gets for a preset: `preset * pulse / 256`
      rounded toward zero, wrapped to 16 bits. */
  function PivotOf(preset: int, pulse: int): (r: int)
    ensures 0 <= r < 0x1_0000
  {
    var x := CDiv(CapS32(preset * pulse), 0x100);
    Pow2Values();
    AndLow(x, 16);
    And(x, 0xffff)
  }

  /** The command `_make_note` emits with `wait` ticks still to go. */
  function NoteCommand(wait: int, portOff: int, portTot: int, p: Presets, volume: int, ctx: Ctx, seed: int)
    : (r: (MusicCommand, int))
    requires wait > 0 && portTot > 0 && CtxOk(ctx)
    ensures var c := r.0;
      1 <= c.wait <= 255 && 0 <= c.volume <= 3
      && c.flags == NoteFlags(p.p1 >= 0, ctx.ramAddr >= 0)
      && c.ramAddr == ctx.ramAddr && c.ramData == ctx.ramData
      && 0 <= c.pivot < 0x1_0000
      && (EffectOn(ctx) && volume != 0 ==> c.wait == ctx.effTick)
      && (!(EffectOn(ctx) && volume != 0) ==> c.wait == Min(wait, 0xff))
    ensures ctx.effType != EffectRandom ==> r.1 == seed
  {
    var (preset, next) := EffectPreset(p, portOff, portTot, ctx, seed);
    var w := if EffectOn(ctx) && volume != 0 then ctx.effTick else if wait > 0xff then 0xff else wait;
    (MusicCommand(NoteFlags(p.p1 >= 0, ctx.ramAddr >= 0), w, Clamp(volume, 0, 3),
                  ctx.ramAddr, ctx.ramData, preset, PivotOf(preset, ctx.pulse), 0, 0, 0),
     next)
  }

  /** A note command with a validated context packs: its RAM write is a
      byte pair and it carries no loop marker, only loop id 0. */
  lemma NoteCommandEncodable(wait: int, portOff: int, portTot: int, p: Presets, volume: int, ctx: Ctx, seed: int)
    requires wait > 0 && portTot > 0 && CtxOk(ctx)
    ensures Packs(NoteCommand(wait, portOff, portTot, p, volume, ctx, seed).0, 1)
  {
    var c := NoteCommand(wait, portOff, portTot, p, volume, ctx, seed).0;
    NoteFlagsRead(c, p.p1 >= 0, ctx.ramAddr >= 0);
  }

  // ---------------------------------------------------------------------
  // `_make_note` and `_quant_sustain`

  /** The commands emitted so far, the context and the generator state. */
  datatype Gen = Gen(cmds: seq<MusicCommand>, ctx: Ctx, seed: int)

  function TotalWait(cs: seq<MusicCommand>): int {
    if cs == [] then 0 else cs[0].wait + TotalWait(cs[1..])
  }

  predicate WaitsOk(cs: seq<MusicCommand>) {
    forall i :: 0 <= i < |cs| ==> 1 <= cs[i].wait <= 255
  }

  /** Only the first command carries the pending RAM write. */
  predicate RamFirstOnly(cs: seq<MusicCommand>) {
    forall i :: 0 < i < |cs| ==> cs[i].ramAddr == -1 && cs[i].ramData == -1
  }

  /** What `_make_note` does to the context: the RAM write is consumed and
      the arpeggio pointer moves on by one per command. */
  function Advanced(ctx: Ctx, n: int): Ctx {
    ctx.(ramAddr := -1, ramData := -1, arpPtr := (ctx.arpPtr + n) % 3)
  }

  /** The loop of `_make_note` from the point where `wait` ticks are left. */
  function NoteLoop(wait: int, portOff: int, portTot: int, p: Presets, volume: int, ctx: Ctx, seed: int)
    : (g: Gen)
    requires wait > 0 && portTot > 0 && CtxOk(ctx)
    ensures |g.cmds| >= 1 && WaitsOk(g.cmds) && RamFirstOnly(g.cmds)
    ensures g.cmds[0].ramAddr == ctx.ramAddr && g.cmds[0].ramData == ctx.ramData
    ensures g.ctx == Advanced(ctx, |g.cmds|) && CtxOk(g.ctx)
    ensures TotalWait(g.cmds) - g.cmds[|g.cmds| - 1].wait < wait <= TotalWait(g.cmds)
    ensures !(EffectOn(ctx) && volume != 0) ==> TotalWait(g.cmds) == wait
    ensures ctx.effType != EffectRandom ==> g.seed == seed
    ensures AllPack(g.cmds, 1)
    decreases wait
  {
    var (c, next) := NoteCommand(wait, portOff, portTot, p, volume, ctx, seed);
    NoteCommandEncodable(wait, portOff, portTot, p, volume, ctx, seed);
    var ctx1 := Advanced(ctx, 1);
    var left := wait - c.wait;
    if left <= 0 then Gen([c], ctx1, next)
    else
      var g := NoteLoop(left, portOff + c.wait, portTot, p, volume, ctx1, next);
      assert ([c] + g.cmds)[1..] == g.cmds;
      AllPackAppend([c], g.cmds, 1);
      AdvancedTwice(ctx, |g.cmds|);
      Gen([c] + g.cmds, g.ctx, g.seed)
  }

  lemma AdvancedTwice(ctx: Ctx, n: nat)
    ensures Advanced(Advanced(ctx, 1), n) == Advanced(ctx, n + 1)
  {
    var a := ctx.arpPtr;
    var q := (a + 1) / 3;
    assert (a + 1) % 3 + n == (a + n + 1) - 3 * q;
  }

  /** `_make_note`: a wait of 0 or less still plays one tick. */
  function MakeNote(wait: int, portOff: int, portTot: int, p: Presets, volume: int, ctx: Ctx, seed: int)
    : (g: Gen)
    requires portTot > 0 && CtxOk(ctx)
    ensures |g.cmds| >= 1 && WaitsOk(g.cmds) && RamFirstOnly(g.cmds)
    ensures g.cmds[0].ramAddr == ctx.ramAddr && g.cmds[0].ramData == ctx.ramData
    ensures g.ctx == Advanced(ctx, |g.cmds|) && CtxOk(g.ctx)
    ensures !(EffectOn(ctx) && volume != 0) ==> TotalWait(g.cmds) == Max(wait, 1)
    ensures ctx.effType != EffectRandom ==> g.seed == seed
    ensures AllPack(g.cmds, 1)
  {
    NoteLoop(if wait <= 0 then 1 else wait, portOff, portTot, p, volume, ctx, seed)
  }

  /** The three parts `_quant_sustain` cuts a note into: sustained,
      released (one volume step lower) and silent. */
  datatype Parts = Parts(sus: int, rel: int, off: int)

  function SplitNote(wait: int, quantize: int, sustain: int): (r: Parts)
    requires 1 <= quantize <= 64 && 1 <= sustain <= 64
    ensures r.sus >= 0 && r.rel >= 0 && r.off >= 0
    ensures r.sus + r.rel + r.off == Max(wait, 1)
    ensures quantize == 64 ==> r.off == 0
    ensures quantize == 64 && sustain == 64 ==> r.sus == Max(wait, 1)
  {
    var w := if wait <= 0 then 1 else wait;
    var on := CDiv(w * quantize, 64);
    OnBounds(w, quantize);
    var sus := CDiv(on * sustain, 64);
    OnBounds(on, sustain);
    Parts(sus, on - sus, w - on)
  }

  /** `trunc(w * q / 64)` lies between 0 and `w` for `q` in 1..64, and is
      `w` itself for `q = 64`. */
  lemma OnBounds(w: int, q: int)
    requires w >= 0 && 1 <= q <= 64
    ensures 0 <= CDiv(w * q, 64) <= w
    ensures q == 64 ==> CDiv(w * q, 64) == w
  {
    MulMonotone(w, q, 64);
    assert CDiv(w * q, 64) == (w * q) / 64;
  }

  function Append(a: Gen, b: Gen): Gen {
    Gen(a.cmds + b.cmds, b.ctx, b.seed)
  }

  /** What a stretch of note output looks like when it started from
      context `ctx` and generator state `seed`: nothing at all, or commands
      of 1..255 ticks of which only the first carries the pending RAM write,
      after which that write is consumed and the arpeggio pointer has moved
      on once per command.  Only the random effect draws numbers. */
  predicate Emitted(g: Gen, ctx: Ctx, seed: int) {
    (ctx.effType != EffectRandom ==> g.seed == seed)
    && if g.cmds == [] then g.ctx == ctx
       else
         WaitsOk(g.cmds) && RamFirstOnly(g.cmds)
         && g.cmds[0].ramAddr == ctx.ramAddr && g.cmds[0].ramData == ctx.ramData
         && g.ctx == Advanced(ctx, |g.cmds|)
  }

  lemma {:induction false} TotalWaitAppend(a: seq<MusicCommand>, b: seq<MusicCommand>)
    ensures TotalWait(a + b) == TotalWait(a) + TotalWait(b)
    decreases |a|
  {
    if a == [] {
      assert a + b == b;
    } else {
      assert (a + b)[1..] == a[1..] + b;
      TotalWaitAppend(a[1..], b);
    }
  }

  lemma AdvancedAdd(ctx: Ctx, m: nat, n: nat)
    ensures Advanced(Advanced(ctx, m), n) == Advanced(ctx, m + n)
  {
    var a := ctx.arpPtr;
    var q := (a + m) / 3;
    assert (a + m) % 3 + n == (a + m + n) - 3 * q;
  }

  /** Output from `ctx` followed by output from where it left off is output
      from `ctx`, and the ticks add up. */
  lemma AppendEmitted(a: Gen, b: Gen, ctx: Ctx, seed: int)
    requires Emitted(a, ctx, seed) && Emitted(b, a.ctx, a.seed)
    requires a.ctx.effType == ctx.effType
    ensures Emitted(Append(a, b), ctx, seed)
    ensures TotalWait(Append(a, b).cmds) == TotalWait(a.cmds) + TotalWait(b.cmds)
  {
    TotalWaitAppend(a.cmds, b.cmds);
    if a.cmds == [] {
      assert a.cmds + b.cmds == b.cmds;
    } else if b.cmds != [] {
      AdvancedAdd(ctx, |a.cmds|, |b.cmds|);
    } else {
      assert a.cmds + b.cmds == a.cmds;
    }
  }

  /** The one-command-per-part output of `_make_note` in terms of
      `Emitted`. */
  lemma MakeNoteEmitted(wait: int, portOff: int, portTot: int, p: Presets, volume: int, ctx: Ctx, seed: int)
    requires portTot > 0 && CtxOk(ctx)
    ensures var g := MakeNote(wait, portOff, portTot, p, volume, ctx, seed);
      Emitted(g, ctx, seed) && g.cmds != [] && g.ctx.effType == ctx.effType
  {
  }

  /** One part of `_quant_sustain`: a `_make_note` of `ticks` ticks
      appended to the output so far, or nothing for an empty part. */
  function Part(g: Gen, ticks: int, portOff: int, portTot: int, p: Presets, volume: int): (r: Gen)
    requires CtxOk(g.ctx) && (ticks != 0 ==> portTot > 0)
    ensures CtxOk(r.ctx)
    ensures AllPack(g.cmds, 1) ==> AllPack(r.cmds, 1)
  {
    if ticks != 0 then
      var m := MakeNote(ticks, portOff, portTot, p, volume, g.ctx, g.seed);
      AllPackAppend(g.cmds, m.cmds, 1);
      Append(g, m)
    else g
  }

  /** `_quant_sustain`: the sustained part at the context volume, the
      released part one step lower, the rest silent. */
  function QuantSustain(wait: int, p: Presets, ctx: Ctx, seed: int): (g: Gen)
    requires CtxOk(ctx)
    ensures CtxOk(g.ctx)
    ensures g.cmds != [] && Emitted(g, ctx, seed)
    ensures !EffectOn(ctx) ==> TotalWait(g.cmds) == Max(wait, 1)
    ensures AllPack(g.cmds, 1)
  {
    var parts := SplitNote(wait, ctx.quantize, ctx.sustain);
    ThreeParts(parts, p, ctx, seed);
    var on := parts.sus + parts.rel;
    var g1 := Part(Gen([], ctx, seed), parts.sus, 0, on, p, ctx.volume);
    var g2 := Part(g1, parts.rel, parts.sus, on, p, ctx.volume - 1);
    Part(g2, parts.off, 0, parts.off, p, 0)
  }

  /** A part keeps the output's shape and adds its ticks when no effect
      changes the waits. */
  lemma PartEmitted(g: Gen, ticks: int, portOff: int, portTot: int, p: Presets, volume: int, ctx: Ctx, seed: int)
    requires CtxOk(g.ctx) && (ticks != 0 ==> portTot > 0) && ticks >= 0
    requires Emitted(g, ctx, seed) && g.ctx.effType == ctx.effType
    ensures var r := Part(g, ticks, portOff, portTot, p, volume);
      Emitted(r, ctx, seed) && r.ctx.effType == ctx.effType
      && (ticks != 0 ==> r.cmds != []) && (g.cmds != [] ==> r.cmds != [])
      && (!(EffectOn(ctx) && volume != 0) ==> TotalWait(r.cmds) == TotalWait(g.cmds) + ticks)
  {
    if ticks != 0 {
      var m := MakeNote(ticks, portOff, portTot, p, volume, g.ctx, g.seed);
      MakeNoteEmitted(ticks, portOff, portTot, p, volume, g.ctx, g.seed);
      AppendEmitted(g, m, ctx, seed);
    }
  }

  /** Three parts in a row starting from empty output: the commands keep
      the `_make_note` shape, and without a wait-changing effect they add up
      to the parts' ticks. */
  lemma ThreeParts(parts: Parts, p: Presets, ctx: Ctx, seed: int)
    requires CtxOk(ctx)
    requires parts.sus >= 0 && parts.rel >= 0 && parts.off >= 0
    requires parts.sus + parts.rel + parts.off >= 1
    ensures var on := parts.sus + parts.rel;
      var g := Part(Part(Part(Gen([], ctx, seed), parts.sus, 0, on, p, ctx.volume),
                         parts.rel, parts.sus, on, p, ctx.volume - 1),
                    parts.off, 0, parts.off, p, 0);
      g.cmds != [] && Emitted(g, ctx, seed)
      && (!EffectOn(ctx) ==> TotalWait(g.cmds) == parts.sus + parts.rel + parts.off)
  {
    var on := parts.sus + parts.rel;
    var g0 := Gen([], ctx, seed);
    PartEmitted(g0, parts.sus, 0, on, p, ctx.volume, ctx, seed);
    var g1 := Part(g0, parts.sus, 0, on, p, ctx.volume);
    PartEmitted(g1, parts.rel, parts.sus, on, p, ctx.volume - 1, ctx, seed);
    var g2 := Part(g1, parts.rel, parts.sus, on, p, ctx.volume - 1);
    PartEmitted(g2, parts.off, 0, parts.off, p, 0, ctx, seed);
  }}

=== FILE: parser.dfy ===
/** The parts of the music-language parser that run after tokenisation: the
    number and boolean literals, the `NAME [body]` split of a directive's
    arguments, the settings directives, the loop stack that nests track and
    MML bodies, the per-command dialect rewrites of MML, and the hidden
    `<name>_ENDBGM` pattern that ends or loops a BGM.  Token streams stand
    for what the regular expressions of the tokeniser deliver. */
module Parser {
  import opened Wrappers
  import opened Text
  import opened Ast

  datatype ParseError =
    | Unexpected
    | ExpectedNumber
    | ExpectedBoolean
    | BadVolLevel(arg: string)
    | UnexpectedLoopEnd
    | NoSystemVolume(index: int)
    | MissingArgument

  // ---------------------------------------------------------------------
  // Number literals

  /** The length of the run of digits (hex or decimal) starting at `i`:
      what a greedy `[\da-fA-F]+` or `\d+` consumes. */
  function Run(s: string, i: nat, hex: bool): (n: nat)
    requires i <= |s|
    ensures i + n <= |s|
    ensures forall k :: i <= k < i + n ==> (if hex then IsHexDigit(s[k]) else IsDecDigit(s[k]))
    ensures i + n == |s| || !(if hex then IsHexDigit(s[i + n]) else IsDecDigit(s[i + n]))
    decreases |s| - i
  {
    if i == |s| || !(if hex then IsHexDigit(s[i]) else IsDecDigit(s[i])) then 0
    else 1 + Run(s, i + 1, hex)
  }

  /** A number as the tokeniser captured it: the base, a leading minus sign,
      and a non-empty run of digits. */
  datatype Literal = Literal(hex: bool, neg: bool, digits: string)

  predicate WellFormed(l: Literal) {
    |l.digits| > 0 && AllDigits(l.digits, if l.hex then 16 else 10)
  }

  /** `parseInt(sign + digits, base)` */
  function Value(l: Literal): int
    requires WellFormed(l)
  {
    var v: int := DigitsValue(l.digits, if l.hex then 16 else 10);
    if l.neg then -v else v
  }

  /** The literal of a digit run of base `hex ? 16 : 10` at `i`, if any. */
  function DigitsAt(s: string, i: nat, hex: bool, neg: bool): (r: Option<Literal>)
    requires i <= |s|
    ensures r.Some? ==> WellFormed(r.value) && r.value.hex == hex && r.value.neg == neg
    ensures r.Some? <==> Run(s, i, hex) > 0
  {
    var n := Run(s, i, hex);
    if n == 0 then None
    else
      var d := s[i..i + n];
      assert forall k :: 0 <= k < n ==> d[k] == s[i + k];
      Some(Literal(hex, neg, d))
  }

  /** `-?\d+` at `i` */
  function DecimalAt(s: string, i: nat): (r: Option<Literal>)
    requires i < |s|
    ensures r.Some? ==> WellFormed(r.value) && !r.value.hex
  {
    if s[i] == '-' && Run(s, i + 1, false) > 0 then DigitsAt(s, i + 1, false, true)
    else DigitsAt(s, i, false, false)
  }

  /** `(?:0x|\$)(-?[\da-fA-F]+)|(-?\d+)` at `i`: a prefixed hex number, the
      sign after the prefix, else a decimal. */
  function NumAt(s: string, i: nat): (r: Option<Literal>)
    requires i < |s|
    ensures r.Some? ==> WellFormed(r.value)
  {
    var p := if i + 1 < |s| && s[i] == '0' && s[i + 1] == 'x' then i + 2
             else if s[i] == '$' then i + 1 else 0;
    if p > 0 && p < |s| && s[p] == '-' && Run(s, p + 1, true) > 0 then DigitsAt(s, p + 1, true, true)
    else if p > 0 && Run(s, p, true) > 0 then DigitsAt(s, p, true, false)
    else DecimalAt(s, i)
  }

  /** `(-?)[#$]([\da-fA-F]+)|(-?\d+)` at `i`: the sign before the prefix,
      which may also be `#`. */
  function Num1At(s: string, i: nat): (r: Option<Literal>)
    requires i < |s|
    ensures r.Some? ==> WellFormed(r.value)
  {
    if i + 1 < |s| && s[i] == '-' && (s[i + 1] == '#' || s[i + 1] == '$') && Run(s, i + 2, true) > 0 then
      DigitsAt(s, i + 2, true, true)
    else if (s[i] == '#' || s[i] == '$') && Run(s, i + 1, true) > 0 then DigitsAt(s, i + 1, true, false)
    else DecimalAt(s, i)
  }

  /** The first position where a literal matches, as an unanchored
      `RegExp.exec` finds it. */
  function Scan(s: string, i: nat, one: bool): (r: Option<int>)
    requires i <= |s|
    decreases |s| - i
  {
    if i == |s| then None
    else
      var m := if one then Num1At(s, i) else NumAt(s, i);
      if m.Some? then Some(Value(m.value)) else Scan(s, i + 1, one)
  }

  /** `parseNum`; `None` is `NaN`. */
  function ParseNum(s: string): Option<int> {
    Scan(s, 0, false)
  }

  /** `parseNum1`; `None` is `NaN`. */
  function ParseNum1(s: string): Option<int> {
    Scan(s, 0, true)
  }

  /** `parsedToNum(hex, dec)` over the groups a literal regex captured:
      each is empty or a signed digit run. */
  function ParsedToNum(hex: Option<Literal>, dec: Option<Literal>): (r: Option<int>)
    requires hex.Some? ==> WellFormed(hex.value) && hex.value.hex
    requires dec.Some? ==> WellFormed(dec.value) && !dec.value.hex
    ensures r.None? <==> hex.None? && dec.None?
  {
    if hex.Some? then Some(Value(hex.value))
    else if dec.Some? then Some(Value(dec.value))
    else None
  }

  /** The text of a literal's signed digit run. */
  function Signed(neg: bool, digits: string): string {
    (if neg then "-" else "") + digits
  }

  /** A run of digits reaching the end of the text is read whole. */
  lemma {:induction false} RunToEnd(s: string, i: nat, hex: bool)
    requires i <= |s|
    requires forall k :: i <= k < |s| ==> (if hex then IsHexDigit(s[k]) else IsDecDigit(s[k]))
    ensures Run(s, i, hex) == |s| - i
    decreases |s| - i
  {
    if i < |s| {
      RunToEnd(s, i + 1, hex);
    }
  }

  /** The digits `toString(base)` prints for `n`, read at `i` of `s` up to
      the end of `s`. */
  lemma DigitsToEnd(s: string, i: nat, n: nat, hex: bool, neg: bool)
    requires i <= |s| && s[i..] == NatDigits(n, if hex then 16 else 10)
    ensures DigitsAt(s, i, hex, neg) == Some(Literal(hex, neg, s[i..]))
    ensures Value(Literal(hex, neg, s[i..])) == if neg then -(n as int) else n
  {
    var d := NatDigits(n, if hex then 16 else 10);
    assert forall k :: i <= k < |s| ==> s[k] == d[k - i];
    RunToEnd(s, i, hex);
    assert s[i..i + (|s| - i)] == s[i..];
    NatDigitsValue(n, if hex then 16 else 10);
  }

  /** `parseNum` reads back what `toString(10)` prints. */
  lemma ParseNumDecimal(n: int)
    ensures ParseNum(IntToString(n, 10)) == Some(n)
    ensures ParseNum1(IntToString(n, 10)) == Some(n)
  {
    var s := IntToString(n, 10);
    var d := NatDigits(if n < 0 then -n else n, 10);
    if n < 0 {
      assert s[1..] == d;
      DigitsToEnd(s, 1, -n, false, true);
    } else {
      assert s[0..] == d;
      DigitsToEnd(s, 0, n, false, false);
      assert IsDecDigit(s[0]);
      assert |s| > 1 ==> IsDecDigit(s[1]);
    }
  }

  /** After `$` or `0x` the hex digits of `toString(16)`, minus sign
      included, read back as the number. */
  lemma ParseNumHex(n: int, prefix: string)
    requires prefix == "$" || prefix == "0x"
    ensures ParseNum(prefix + IntToString(n, 16)) == Some(n)
  {
    var s := prefix + IntToString(n, 16);
    var p := |prefix|;
    assert s[p..] == IntToString(n, 16);
    assert p == (if |s| > 1 && s[0] == '0' && s[1] == 'x' then 2 else if s[0] == '$' then 1 else 0);
    var l := HexAfterPrefix(s, p, n);
    assert NumAt(s, 0) == Some(l);
  }

  /** The literal `parseNum` reads from `toString(16)` after a prefix
      ending at `p`. */
  lemma HexAfterPrefix(s: string, p: nat, n: int) returns (l: Literal)
    requires 1 <= p <= |s| && s[p..] == IntToString(n, 16)
    ensures WellFormed(l) && Value(l) == n
    ensures p < |s| && s[p] == '-' && Run(s, p + 1, true) > 0 ==> DigitsAt(s, p + 1, true, true) == Some(l)
    ensures !(p < |s| && s[p] == '-' && Run(s, p + 1, true) > 0) ==>
      Run(s, p, true) > 0 && DigitsAt(s, p, true, false) == Some(l)
  {
    var d := NatDigits(if n < 0 then -n else n, 16);
    if n < 0 {
      assert s[p + 1..] == d;
      DigitsToEnd(s, p + 1, -n, true, true);
      l := Literal(true, true, s[p + 1..]);
      assert s[p] == '-';
    } else {
      assert s[p..] == d;
      DigitsToEnd(s, p, n, true, false);
      l := Literal(true, false, s[p..]);
      assert s[p] == d[0] && IsHexDigit(d[0]);
    }
  }

  /** `parseNum1` takes the sign in front of the `$` or `#`. */
  lemma ParseNum1Hex(n: int, prefix: string)
    requires prefix == "$" || prefix == "#"
    ensures ParseNum1((if n < 0 then "-" else "") + prefix + NatDigits(if n < 0 then -n else n, 16)) == Some(n)
  {
    var d := NatDigits(if n < 0 then -n else n, 16);
    var s := (if n < 0 then "-" else "") + prefix + d;
    if n < 0 {
      assert s[2..] == d;
      DigitsToEnd(s, 2, -n, true, true);
    } else {
      assert s[1..] == d;
      DigitsToEnd(s, 1, n, true, false);
    }
  }

  /** The two readers disagree on where a hex literal's sign goes:
      `parseNum` skips a sign written before `$`... */
  lemma SignBeforePrefix()
    ensures ParseNum("-$1F") == Some(31) && ParseNum1("-$1F") == Some(-31)
  {
    var a := "-$1F";
    assert Run(a, 4, true) == 0;
    assert Run(a, 2, true) == 2;
    assert a[2..4] == "1F";
    assert DigitsValue("1F", 16) == 31 by { assert "1F"[..1] == "1"; }
    assert Run(a, 1, false) == 0;
    assert NumAt(a, 0) == None;
    assert NumAt(a, 1) == Some(Literal(true, false, "1F"));
    assert Num1At(a, 0) == Some(Literal(true, true, "1F"));
  }

  /** ... and `parseNum1` stops at a sign written after it. */
  lemma SignAfterPrefix()
    ensures ParseNum("$-1F") == Some(-31) && ParseNum1("$-1F") == Some(-1)
  {
    var b := "$-1F";
    assert Run(b, 4, true) == 0;
    assert Run(b, 2, true) == 2;
    assert b[2..4] == "1F";
    assert DigitsValue("1F", 16) == 31 by { assert "1F"[..1] == "1"; }
    assert NumAt(b, 0) == Some(Literal(true, true, "1F"));
    assert Run(b, 1, true) == 0 && Run(b, 0, false) == 0;
    assert Num1At(b, 0) == None;
    assert Run(b, 3, false) == 0;
    assert Run(b, 2, false) == 1 && b[2..3] == "1";
    assert Num1At(b, 1) == Some(Literal(false, true, "1"));
  }

  /** The captured groups read as the literal they spell. */
  lemma ParsedToNumAgrees(n: int, hex: bool)
    ensures var l := Literal(hex, n < 0, NatDigits(if n < 0 then -n else n, if hex then 16 else 10));
      ParsedToNum(if hex then Some(l) else None, if hex then None else Some(l)) == Some(n)
  {
    NatDigitsValue(if n < 0 then -n else n, if hex then 16 else 10);
  }

  // ---------------------------------------------------------------------
  // Booleans

  /** `parseBool`: trimmed and case-folded; `None` is `undefined`. */
  function ParseBool(s: string): (r: Option<bool>)
    ensures r == Some(false) <==> Lower(Trim(s)) in {"no", "false", "0"}
    ensures r == Some(true) <==> Lower(Trim(s)) in {"yes", "true", "1"}
  {
    var t := Lower(Trim(s));
    if t == "no" || t == "false" || t == "0" then Some(false)
    else if t == "yes" || t == "true" || t == "1" then Some(true)
    else None
  }

  /** Surrounding white space never changes the reading. */
  lemma ParseBoolTrimmed(s: string)
    ensures ParseBool(Trim(s)) == ParseBool(s)
  {
    TrimIdempotent(s);
  }

  /** The case of the letters never matters. */
  lemma ParseBoolAnyCase(s: string)
    ensures ParseBool(Upper(s)) == ParseBool(s)
  {
    assert Lower(Trim(Upper(s))) == Lower(Trim(s)) by {
      TrimUpper(s);
      LowerUpper(Trim(s));
    }
  }

  lemma TrimUpper(s: string)
    ensures Trim(Upper(s)) == Upper(Trim(s))
  {
    TrimStartUpper(s);
    TrimEndUpper(TrimStart(s));
  }

  lemma {:induction false} TrimStartUpper(s: string)
    ensures TrimStart(Upper(s)) == Upper(TrimStart(s))
    decreases |s|
  {
    if s != [] {
      var u := Upper(s);
      assert u[0] == UpperChar(s[0]) && (IsJsSpace(u[0]) <==> IsJsSpace(s[0]));
      if IsJsSpace(s[0]) {
        assert u[1..] == Upper(s[1..]);
        TrimStartUpper(s[1..]);
      }
    }
  }

  lemma {:induction false} TrimEndUpper(s: string)
    ensures TrimEnd(Upper(s)) == Upper(TrimEnd(s))
    decreases |s|
  {
    if s != [] {
      var u := Upper(s);
      var k := |s| - 1;
      assert u[k] == UpperChar(s[k]) && (IsJsSpace(u[k]) <==> IsJsSpace(s[k]));
      if IsJsSpace(s[k]) {
        assert u[..k] == Upper(s[..k]);
        TrimEndUpper(s[..k]);
      }
    }
  }

  lemma LowerUpper(s: string)
    ensures Lower(Upper(s)) == Lower(s)
  {
    assert forall i :: 0 <= i < |s| ==> LowerChar(UpperChar(s[i])) == LowerChar(s[i]);
  }

  // ---------------------------------------------------------------------
  // Names

  predicate IsNameStart(c: char) {
    c == '_' || ('a' <= c <= 'z') || ('A' <= c <= 'Z')
  }

  /** `\w` */
  predicate IsWordChar(c: char) {
    IsNameStart(c) || IsDecDigit(c)
  }

  /** The length of the run of word characters at `i`. */
  function WordRun(s: string, i: nat): (n: nat)
    requires i <= |s|
    ensures i + n <= |s|
    ensures forall k :: i <= k < i + n ==> IsWordChar(s[k])
    ensures i + n == |s| || !IsWordChar(s[i + n])
    decreases |s| - i
  {
    if i == |s| || !IsWordChar(s[i]) then 0 else 1 + WordRun(s, i + 1)
  }

  /** The first identifier anywhere in `s` at or after `i`: what the
      unanchored `[_a-zA-Z]\w*` finds, or "" when there is none. */
  function FindName(s: string, i: nat): (r: string)
    requires i <= |s|
    ensures |r| <= |s| - i
    decreases |s| - i
  {
    if i == |s| then ""
    else if IsNameStart(s[i]) then s[i..i + WordRun(s, i)]
    else FindName(s, i + 1)
  }

  /** `getNameMaybeBody` as written: the name is searched for anywhere in
      the trimmed text, but the body is cut after the name's length counted
      from the start. */
  function GetNameMaybeBodyAsWritten(text: string): (r: (string, string))
  {
    var t := Trim(text);
    var name := FindName(t, 0);
    (name, TrimStart(t[|name|..]))
  }

  /** The leading identifier of `s`, or "" when `s` does not start with
      one. */
  function LeadingName(s: string): (r: string)
    ensures r <= s
    ensures r != [] ==> IsNameStart(r[0])
    ensures forall k :: 0 <= k < |r| ==> IsWordChar(r[k])
    ensures |r| < |s| && r != [] ==> !IsWordChar(s[|r|])
    ensures r == [] <==> s == [] || !IsNameStart(s[0])
  {
    if s != [] && IsNameStart(s[0]) then s[..WordRun(s, 0)] else ""
  }

  /** `getNameMaybeBody` with the identifier taken from the front: the
      name, then the rest with its leading white space dropped. */
  function GetNameMaybeBody(text: string): (r: (string, string))
  {
    var t := Trim(text);
    var name := LeadingName(t);
    (name, TrimStart(t[|name|..]))
  }

  /** The name and the body rebuild the trimmed text, with only white space
      between them. */
  lemma NameBodySplit(text: string) returns (sp: string)
    ensures AllSpace(sp)
    ensures Trim(text) == GetNameMaybeBody(text).0 + sp + GetNameMaybeBody(text).1
  {
    var t := Trim(text);
    var name := LeadingName(t);
    var rest := t[|name|..];
    var body := TrimStart(rest);
    sp := rest[..|rest| - |body|];
    Rejoin(t, name, rest, sp, body);
  }

  lemma Rejoin(t: string, name: string, rest: string, sp: string, body: string)
    requires name <= t && rest == t[|name|..] && rest == sp + body
    ensures t == name + sp + body
  {
    assert t == name + rest;
  }

  /** Whenever the trimmed text starts with an identifier, or holds none,
      the code as written agrees with the corrected split. */
  lemma {:induction false} AsWrittenAgrees(text: string)
    requires var t := Trim(text); t == [] || IsNameStart(t[0]) || FindName(t, 0) == ""
    ensures GetNameMaybeBodyAsWritten(text) == GetNameMaybeBody(text)
  {
  }

  /** A text without white space at either end is its own trimmed form. */
  lemma TrimmedAlready(s: string)
    requires s == [] || (!IsJsSpace(s[0]) && !IsJsSpace(s[|s| - 1]))
    ensures TrimStart(s) == s && Trim(s) == s
  {
  }

  /** For a trimmed text such as `9ab cd` (a digit, then a two-character
      word) the code as written names the definition after the word it
      finds further in, but cuts the body one character into that word: the
      name and the body no longer rebuild the text.  Anchored at the start,
      the search finds no name and the whole text is the body. */
  lemma NameSearchUnanchored(t: string)
    requires 4 <= |t| && IsDecDigit(t[0]) && IsNameStart(t[1]) && IsWordChar(t[2])
    requires !IsWordChar(t[3]) && !IsJsSpace(t[|t| - 1])
    ensures GetNameMaybeBodyAsWritten(t) == (t[1..3], t[2..])
    ensures GetNameMaybeBody(t) == ("", t)
  {
    UnanchoredSplit(t);
    AnchoredSplit(t);
  }

  lemma UnanchoredSplit(t: string)
    requires 4 <= |t| && IsDecDigit(t[0]) && IsNameStart(t[1]) && IsWordChar(t[2])
    requires !IsWordChar(t[3]) && !IsJsSpace(t[|t| - 1])
    ensures GetNameMaybeBodyAsWritten(t) == (t[1..3], t[2..])
  {
    DigitNotSpace(t[0]);
    TrimmedAlready(t);
    assert WordRun(t, 1) == 2 by {
      assert WordRun(t, 3) == 0;
      assert WordRun(t, 2) == 1;
    }
    assert FindName(t, 0) == t[1..3] by {
      assert FindName(t, 1) == t[1..3];
    }
    var rest := t[2..];
    assert rest[0] == t[2] && rest[|rest| - 1] == t[|t| - 1];
    WordCharNotSpace(rest[0]);
    TrimmedAlready(rest);
    AsWrittenOfTrimmed(t);
  }

  lemma AsWrittenOfTrimmed(t: string)
    requires Trim(t) == t
    ensures GetNameMaybeBodyAsWritten(t) == (FindName(t, 0), TrimStart(t[|FindName(t, 0)|..]))
  {
  }

  /** Word characters are never white space. */
  lemma WordCharNotSpace(c: char)
    requires IsWordChar(c)
    ensures !IsJsSpace(c)
  {
  }

  /** A trimmed text that starts with a digit has no leading name: all of
      it is the body. */
  lemma AnchoredSplit(t: string)
    requires t != [] && IsDecDigit(t[0]) && !IsJsSpace(t[|t| - 1])
    ensures GetNameMaybeBody(t) == ("", t)
  {
    DigitNotSpace(t[0]);
    TrimmedAlready(t);
    SplitOfTrimmed(t);
    assert t[0..] == t;
  }

  lemma DigitNotSpace(c: char)
    requires IsDecDigit(c)
    ensures !IsJsSpace(c) && !IsNameStart(c)
  {
  }

  lemma SplitOfTrimmed(t: string)
    requires Trim(t) == t
    ensures GetNameMaybeBody(t) == (LeadingName(t), TrimStart(t[|LeadingName(t)|..]))
  {
  }

  // ---------------------------------------------------------------------
  // The loop stack of track and MML bodies

  /** What one token of a track or MML body asks of the loop stack.  A
      `Close` carries its repeat count, or `None` when the count written
      after it is not a number. */
  datatype LoopTok =
    | Open
    | Close(repeats: Option<int>)
    | Item(cmd: Command)
    | Bad(err: ParseError)

  /** Runs the tokens against a stack of open command lists; `stack[0]` is
      the body itself.  A close with no loop open fails with `stray`; a loop
      still open when the tokens run out is dropped with everything in it. */
  function Nest(ts: seq<LoopTok>, stack: seq<seq<Command>>, stray: ParseError): (r: Result<seq<Command>, ParseError>)
    requires |stack| >= 1
    decreases |ts|
  {
    if ts == [] then Ok(stack[0])
    else
      var n := |stack|;
      match ts[0]
      case Open => Nest(ts[1..], stack + [[]], stray)
      case Close(repeats) =>
        if n == 1 then Err(stray)
        else if repeats.None? then Err(ExpectedNumber)
        else
          var loop := Loop(repeats.value, stack[n - 1]);
          Nest(ts[1..], stack[..n - 2] + [stack[n - 2] + [loop]], stray)
      case Item(c) => Nest(ts[1..], stack[..n - 1] + [stack[n - 1] + [c]], stray)
      case Bad(e) => Err(e)
  }

  /** A body as the parsers build it: one list, nothing open. */
  function NestBody(ts: seq<LoopTok>, stray: ParseError): (r: Result<seq<Command>, ParseError>)
  {
    Nest(ts, [[]], stray)
  }

  /** The tokens are acceptable at loop depth `depth`: no bad token, and
      every close has a loop to end and a count. */
  predicate Accepted(ts: seq<LoopTok>, depth: nat)
    decreases |ts|
  {
    ts == [] ||
    match ts[0]
    case Open => Accepted(ts[1..], depth + 1)
    case Close(repeats) => depth > 0 && repeats.Some? && Accepted(ts[1..], depth - 1)
    case Item(_) => Accepted(ts[1..], depth)
    case Bad(_) => false
  }

  /** The loop depth after the tokens, starting from `depth`. */
  function DepthAfter(ts: seq<LoopTok>, depth: nat): nat
    decreases |ts|
  {
    if ts == [] then depth
    else match ts[0]
      case Open => DepthAfter(ts[1..], depth + 1)
      case Close(_) => DepthAfter(ts[1..], if depth > 0 then depth - 1 else 0)
      case _ => DepthAfter(ts[1..], depth)
  }

  /** The commands carried by the tokens, in order. */
  function Items(ts: seq<LoopTok>): seq<Command>
    decreases |ts|
  {
    if ts == [] then []
    else (if ts[0].Item? then [ts[0].cmd] else []) + Items(ts[1..])
  }

  /** The commands of a body with every loop opened up in place. */
  function Leaves(cs: seq<Command>): seq<Command>
    decreases cs
  {
    if cs == [] then []
    else (if cs[0].Loop? then Leaves(cs[0].commands) else [cs[0]]) + Leaves(cs[1..])
  }

  function LeavesAll(stack: seq<seq<Command>>): seq<Command>
    decreases |stack|
  {
    if stack == [] then [] else LeavesAll(stack[..|stack| - 1]) + Leaves(stack[|stack| - 1])
  }

  lemma {:induction false} LeavesAppend(a: seq<Command>, b: seq<Command>)
    ensures Leaves(a + b) == Leaves(a) + Leaves(b)
    decreases a
  {
    if a != [] {
      assert (a + b)[0] == a[0];
      assert (a + b)[1..] == a[1..] + b;
      LeavesAppend(a[1..], b);
    } else {
      assert a + b == b;
    }
  }

  /** The stack machine succeeds exactly on acceptable tokens. */
  lemma {:induction false} NestSucceeds(ts: seq<LoopTok>, stack: seq<seq<Command>>, stray: ParseError)
    requires |stack| >= 1
    ensures Nest(ts, stack, stray).Ok? <==> Accepted(ts, |stack| - 1)
    decreases |ts|
  {
    if ts != [] {
      var n := |stack|;
      match ts[0]
      case Open => NestSucceeds(ts[1..], stack + [[]], stray);
      case Close(repeats) =>
        if n > 1 && repeats.Some? {
          NestSucceeds(ts[1..], stack[..n - 2] + [stack[n - 2] + [Loop(repeats.value, stack[n - 1])]], stray);
        }
      case Item(c) => NestSucceeds(ts[1..], stack[..n - 1] + [stack[n - 1] + [c]], stray);
      case Bad(_) =>
    }
  }

  lemma LeavesOpen(stack: seq<seq<Command>>)
    ensures LeavesAll(stack + [[]]) == LeavesAll(stack)
  {
    var next := stack + [[]];
    assert next[..|stack|] == stack;
  }

  lemma LeavesItem(stack: seq<seq<Command>>, c: Command)
    requires |stack| >= 1
    ensures var n := |stack|;
      LeavesAll(stack[..n - 1] + [stack[n - 1] + [c]]) == LeavesAll(stack) + Leaves([c])
  {
    var n := |stack|;
    var next := stack[..n - 1] + [stack[n - 1] + [c]];
    assert next[..n - 1] == stack[..n - 1];
    LeavesAppend(stack[n - 1], [c]);
  }

  lemma LeavesSnoc(stack: seq<seq<Command>>, top: seq<Command>)
    ensures LeavesAll(stack + [top]) == LeavesAll(stack) + Leaves(top)
  {
    assert (stack + [top])[..|stack|] == stack;
  }

  lemma LeavesOneLoop(repeats: int, cs: seq<Command>)
    ensures Leaves([Loop(repeats, cs)]) == Leaves(cs)
  {
    assert [Loop(repeats, cs)][1..] == [];
  }

  lemma LeavesClose(below: seq<seq<Command>>, x: seq<Command>, y: seq<Command>, repeats: int)
    ensures LeavesAll(below + [x + [Loop(repeats, y)]]) == LeavesAll(below + [x] + [y])
  {
    var loop := Loop(repeats, y);
    var a, lx, ly := LeavesAll(below), Leaves(x), Leaves(y);
    assert LeavesAll(below + [x] + [y]) == a + lx + ly by {
      LeavesSnoc(below + [x], y);
      LeavesSnoc(below, x);
    }
    assert LeavesAll(below + [x + [loop]]) == a + lx + ly by {
      LeavesSnoc(below, x + [loop]);
      LeavesAppend(x, [loop]);
      LeavesOneLoop(repeats, y);
    }
  }

  /** One token of an acceptable run: the stack it leaves behind carries
      the same commands, once opened up. */
  lemma KeepStep(ts: seq<LoopTok>, stack: seq<seq<Command>>, stray: ParseError) returns (next: seq<seq<Command>>)
    requires ts != [] && |stack| >= 1 && Accepted(ts, |stack| - 1)
    ensures |next| >= 1 && Accepted(ts[1..], |next| - 1)
    ensures DepthAfter(ts[1..], |next| - 1) == DepthAfter(ts, |stack| - 1)
    ensures Nest(ts, stack, stray) == Nest(ts[1..], next, stray)
    ensures LeavesAll(next) + Leaves(Items(ts[1..])) == LeavesAll(stack) + Leaves(Items(ts))
  {
    if ts[0].Open? {
      next := KeepOpen(ts, stack, stray);
    } else if ts[0].Close? {
      next := KeepClose(ts, stack, stray);
    } else {
      next := KeepItem(ts, stack, stray);
    }
  }

  lemma KeepOpen(ts: seq<LoopTok>, stack: seq<seq<Command>>, stray: ParseError) returns (next: seq<seq<Command>>)
    requires ts != [] && ts[0].Open? && |stack| >= 1
    ensures next == stack + [[]]
    ensures Nest(ts, stack, stray) == Nest(ts[1..], next, stray)
    ensures LeavesAll(next) + Leaves(Items(ts[1..])) == LeavesAll(stack) + Leaves(Items(ts))
  {
    next := stack + [[]];
    LeavesOpen(stack);
    assert Items(ts) == Items(ts[1..]);
  }

  lemma KeepClose(ts: seq<LoopTok>, stack: seq<seq<Command>>, stray: ParseError) returns (next: seq<seq<Command>>)
    requires ts != [] && ts[0].Close? && ts[0].repeats.Some? && |stack| >= 2
    ensures |next| == |stack| - 1
    ensures Nest(ts, stack, stray) == Nest(ts[1..], next, stray)
    ensures LeavesAll(next) + Leaves(Items(ts[1..])) == LeavesAll(stack) + Leaves(Items(ts))
  {
    var n := |stack|;
    next := stack[..n - 2] + [stack[n - 2] + [Loop(ts[0].repeats.value, stack[n - 1])]];
    assert stack == stack[..n - 2] + [stack[n - 2]] + [stack[n - 1]];
    LeavesClose(stack[..n - 2], stack[n - 2], stack[n - 1], ts[0].repeats.value);
    assert Items(ts) == Items(ts[1..]);
  }

  lemma KeepItem(ts: seq<LoopTok>, stack: seq<seq<Command>>, stray: ParseError) returns (next: seq<seq<Command>>)
    requires ts != [] && ts[0].Item? && |stack| >= 1
    ensures next == stack[..|stack| - 1] + [stack[|stack| - 1] + [ts[0].cmd]]
    ensures Nest(ts, stack, stray) == Nest(ts[1..], next, stray)
    ensures LeavesAll(next) + Leaves(Items(ts[1..])) == LeavesAll(stack) + Leaves(Items(ts))
  {
    var n, c := |stack|, ts[0].cmd;
    next := stack[..n - 1] + [stack[n - 1] + [c]];
    LeavesItem(stack, c);
    assert Items(ts) == [c] + Items(ts[1..]);
    LeavesAppend([c], Items(ts[1..]));
  }

  /** When every loop is closed again, nesting only groups the commands: the
      body, with its loops opened up, is the open lists followed by the
      commands of the tokens. */
  lemma {:induction false} NestKeepsItems(ts: seq<LoopTok>, stack: seq<seq<Command>>, stray: ParseError)
    requires |stack| >= 1 && Accepted(ts, |stack| - 1) && DepthAfter(ts, |stack| - 1) == 0
    ensures Nest(ts, stack, stray).Ok?
    ensures Leaves(Nest(ts, stack, stray).value) == LeavesAll(stack) + Leaves(Items(ts))
    decreases |ts|
  {
    if ts == [] {
      LeavesSnoc([], stack[0]);
      assert stack == [] + [stack[0]];
    } else {
      var next := KeepStep(ts, stack, stray);
      NestKeepsItems(ts[1..], next, stray);
    }
  }

  /** For a whole body: what comes out holds the tokens' commands in order. */
  lemma BodyKeepsItems(ts: seq<LoopTok>, stray: ParseError)
    requires Accepted(ts, 0) && DepthAfter(ts, 0) == 0
    ensures NestBody(ts, stray).Ok?
    ensures Leaves(NestBody(ts, stray).value) == Leaves(Items(ts))
  {
    var root: seq<seq<Command>> := [[]];
    NestKeepsItems(ts, root, stray);
    assert root[..0] == [];
    assert LeavesAll(root) == [];
  }

  lemma NestStep(t: LoopTok, ts: seq<LoopTok>, stack: seq<seq<Command>>, stray: ParseError)
    requires |stack| >= 1
    ensures t.Open? ==> Nest([t] + ts, stack, stray) == Nest(ts, stack + [[]], stray)
    ensures t.Item? ==>
      Nest([t] + ts, stack, stray) == Nest(ts, stack[..|stack| - 1] + [stack[|stack| - 1] + [t.cmd]], stray)
    ensures t.Close? && |stack| >= 2 && t.repeats.Some? ==>
      Nest([t] + ts, stack, stray)
      == Nest(ts, stack[..|stack| - 2] + [stack[|stack| - 2] + [Loop(t.repeats.value, stack[|stack| - 1])]], stray)
    ensures t.Close? && |stack| == 1 ==> Nest([t] + ts, stack, stray) == Err(stray)
  {
    assert ([t] + ts)[0] == t && ([t] + ts)[1..] == ts;
  }

  /** A loop around one command, a loop left open at the end, and a close
      with nothing open. */
  lemma LoopShapes(c: Command, stray: ParseError)
    ensures NestBody([Open, Item(c), Close(Some(3))], stray) == Ok([Loop(3, [c])])
    ensures NestBody([Item(c), Open, Item(c)], stray) == Ok([c])
    ensures NestBody([Item(c), Close(Some(2))], stray) == Err(stray)
  {
    var root: seq<seq<Command>> := [[]];
    var none: seq<LoopTok> := [];
    NestStep(Open, [Item(c), Close(Some(3))], root, stray);
    assert root + [[]] == [[], []];
    var s2: seq<seq<Command>> := [[], []];
    NestStep(Item(c), [Close(Some(3))], s2, stray);
    assert s2[..1] == [[]] && s2[1] + [c] == [c];
    assert s2[..1] + [s2[1] + [c]] == [[], [c]];
    var s3: seq<seq<Command>> := [[], [c]];
    NestStep(Close(Some(3)), none, s3, stray);
    assert s3[..0] == [] && s3[0] + [Loop(3, [c])] == [Loop(3, [c])];
    assert s3[..0] + [s3[0] + [Loop(3, [c])]] == [[Loop(3, [c])]];
    assert [Close(Some(3))] + none == [Close(Some(3))];
    assert [Item(c)] + [Close(Some(3))] == [Item(c), Close(Some(3))];
    assert [Open] + [Item(c), Close(Some(3))] == [Open, Item(c), Close(Some(3))];

    NestStep(Item(c), [Open, Item(c)], root, stray);
    assert root[..0] + [[] + [c]] == [[c]];
    NestStep(Open, [Item(c)], [[c]], stray);
    assert [[c]] + [[]] == [[c], []];
    var s4: seq<seq<Command>> := [[c], []];
    NestStep(Item(c), none, s4, stray);
    assert s4[..1] + [s4[1] + [c]] == [[c], [c]];
    assert [Item(c)] + none == [Item(c)];
    assert [Open] + [Item(c)] == [Open, Item(c)];
    assert [Item(c)] + [Open, Item(c)] == [Item(c), Open, Item(c)];

    NestStep(Item(c), [Close(Some(2))], root, stray);
    NestStep(Close(Some(2)), none, [[c]], stray);
    assert [Close(Some(2))] + none == [Close(Some(2))];
    assert [Item(c)] + [Close(Some(2))] == [Item(c), Close(Some(2))];
  }

  // ---------------------------------------------------------------------
  // BGM bodies

  /** A token of a BGM body: a pattern name, or the `|` that marks where
      the loop starts. */
  datatype BgmTok = PatName(name: string) | LoopMark

  /** The commands a BGM body collects: each name plays its pattern, and a
      mark opens a set that takes every later name (a second mark opens a
      set inside the first). */
  function BgmList(ts: seq<BgmTok>): (r: seq<Command>)
    decreases |ts|
  {
    if ts == [] then []
    else if ts[0].LoopMark? then [CommandSet(BgmList(ts[1..]))]
    else [PlayPattern(ts[0].name)] + BgmList(ts[1..])
  }

  /** Plays the named patterns in order. */
  function Plays(names: seq<string>): (r: seq<Command>)
    ensures |r| == |names|
    ensures forall i :: 0 <= i < |names| ==> r[i] == PlayPattern(names[i])
  {
    seq(|names|, i requires 0 <= i < |names| => PlayPattern(names[i]))
  }

  function Names(names: seq<string>): seq<BgmTok>
    ensures |Names(names)| == |names|
  {
    seq(|names|, i requires 0 <= i < |names| => PatName(names[i]))
  }

  /** The name of the hidden pattern that ends or loops a BGM. */
  function TailName(name: string): string {
    name + "_ENDBGM"
  }

  /** A parsed BGM: its play list, and the hidden pattern it ends with. */
  datatype BgmParsed = BgmParsed(bgm: seq<Command>, tail: seq<Command>)

  /** Finishes a BGM's list.  An empty list is dropped.  When the last
      entry is the looped set, its patterns join the list and the hidden
      pattern jumps back over them (or ends, when the set is empty);
      otherwise the hidden pattern ends the song.  Either way the list
      closes by playing the hidden pattern. */
  function FinishBgm(name: string, cmds: seq<Command>): (r: Option<BgmParsed>)
    ensures r.None? <==> cmds == []
    ensures r.Some? ==> |r.value.bgm| >= 1 && Last(r.value.bgm) == PlayPattern(TailName(name))
    ensures r.Some? ==> |r.value.tail| == 1
  {
    if cmds == [] then None
    else
      var init, last := cmds[..|cmds| - 1], cmds[|cmds| - 1];
      if last.CommandSet? then
        var n := |last.commands|;
        Some(BgmParsed(init + last.commands + [PlayPattern(TailName(name))],
                       if n > 0 then [JumpPattern(-n)] else [End]))
      else
        Some(BgmParsed(cmds + [PlayPattern(TailName(name))], [End]))
  }

  /** Enters a BGM body into the song: the play list under its name and the
      hidden pattern under the tail name.  A BGM with no entries leaves the
      song as it was. */
  function AddBgm(song: PMMusic, name: string, ts: seq<BgmTok>): (r: PMMusic)
    ensures ts == [] ==> r == song
    ensures ts != [] ==> name in r.bgm && TailName(name) in r.pattern
    ensures r.sfx == song.sfx && r.macro == song.macro
  {
    var cmds := BgmList(ts);
    assert ts != [] ==> cmds != [];
    match FinishBgm(name, cmds)
    case None => song
    case Some(p) => song.(bgm := song.bgm[name := p.bgm], pattern := song.pattern[TailName(name) := p.tail])
  }

  function Last<T>(s: seq<T>): T
    requires s != []
  {
    s[|s| - 1]
  }

  lemma {:induction false} BgmListPlain(names: seq<string>)
    ensures BgmList(Names(names)) == Plays(names)
    decreases |names|
  {
    if names != [] {
      assert Names(names)[1..] == Names(names[1..]);
      BgmListPlain(names[1..]);
      assert Plays(names) == [PlayPattern(names[0])] + Plays(names[1..]);
    }
  }

  lemma {:induction false} BgmListMarked(before: seq<string>, after: seq<string>)
    ensures BgmList(Names(before) + [LoopMark] + Names(after)) == Plays(before) + [CommandSet(Plays(after))]
    decreases |before|
  {
    var ts := Names(before) + [LoopMark] + Names(after);
    if before == [] {
      assert ts == [LoopMark] + Names(after);
      assert ts[1..] == Names(after);
      BgmListPlain(after);
    } else {
      assert ts[0] == PatName(before[0]);
      assert ts[1..] == Names(before[1..]) + [LoopMark] + Names(after);
      BgmListMarked(before[1..], after);
      assert Plays(before) == [PlayPattern(before[0])] + Plays(before[1..]);
    }
  }

  /** Without a mark, the BGM plays its patterns once and the hidden
      pattern ends the song. */
  lemma BgmWithoutLoop(name: string, names: seq<string>)
    requires names != []
    ensures FinishBgm(name, BgmList(Names(names)))
      == Some(BgmParsed(Plays(names) + [PlayPattern(TailName(name))], [End]))
  {
    BgmListPlain(names);
    assert Plays(names)[|names| - 1] == PlayPattern(names[|names| - 1]);
  }

  /** With one mark, the patterns after it are played after the ones before
      it, and the hidden pattern jumps back to the first pattern after the
      mark: it sits at index |before| + |after| and jumps by -|after|. */
  lemma BgmWithLoop(name: string, before: seq<string>, after: seq<string>)
    ensures var ts := Names(before) + [LoopMark] + Names(after);
      var p := FinishBgm(name, BgmList(ts)).value;
      && p.bgm == Plays(before) + Plays(after) + [PlayPattern(TailName(name))]
      && p.bgm[|before| + |after|] == PlayPattern(TailName(name))
      && (after != [] ==> p.tail == [JumpPattern(-|after|)] && p.bgm[|before|] == PlayPattern(after[0]))
      && (after == [] ==> p.tail == [End])
  {
    BgmListMarked(before, after);
    var cmds := Plays(before) + [CommandSet(Plays(after))];
    assert cmds[..|cmds| - 1] == Plays(before);
  }

  // ---------------------------------------------------------------------
  // MML bodies

  /** A token of an MML body, with its numbers already read. */
  datatype MmlTok =
    | MOpen
    | MClose(count: Option<int>)
    | MNote(letter: char, accidental: string, length: Option<int>, dots: nat)
    | MRest(length: Option<int>, dots: nat)
    | MOne(cmd: char, arg: int)
    | MTwo(arg1: int, arg2: int)
    | MBare(cmd: char)
    | MEffect(effect: char, args: seq<int>)

  /** The shapes the MML tokeniser can deliver. */
  predicate MmlShape(t: MmlTok) {
    match t
    case MNote(letter, acc, _, dots) => 'a' <= letter <= 'g' && acc in {"", "-", "+", "#"} && dots <= 4
    case MRest(_, dots) => dots <= 4
    case MOne(c, _) => c in "%\\/vwloqs"
    case MBare(c) => c in "<>;" || 'A' <= c <= 'Z'
    case MEffect(e, _) => IsWordChar(e)
    case _ => true
  }

  /** The note of an MML note name: `#` is read as `+`, then the upper-case
      spelling is looked up in the note table. */
  function MmlNote(letter: char, acc: string): (r: int)
    requires 'a' <= letter <= 'g' && acc in {"", "-", "+", "#"}
    ensures IsNote(r) && r != Rest
  {
    var name := [UpperChar(letter)] + (if acc == "#" then "+" else acc);
    assert name[0] in "ABCDEFG";
    assert acc != "" ==> name[1..] == (if acc == "#" then "+" else acc);
    var n := Str2Note(name);
    assert n.Some? && n.value != Rest by {
      assert name == [name[0]] + name[1..];
    }
    n.value
  }

  /** The system volume scale: four steps read through `[0, 4, 8, 15]`, as
      written: an index outside the table reads `undefined`, which the
      `Volume` command turns into its default of full volume. */
  function SystemVolumeAsWritten(n: int): (r: int)
    ensures ValidateVolume(r).Ok?
  {
    if 0 <= n < 4 then [0, 4, 8, 15][n] else DefaultVolume
  }

  /** The system volume scale with the table's bounds kept: an index outside
      it has no volume. */
  function SystemVolume(n: int): (r: Option<int>)
    ensures r.Some? <==> 0 <= n < 4
    ensures r.Some? ==> 0 <= r.value <= 15 && r.value == SystemVolumeAsWritten(n)
  {
    if 0 <= n < 4 then Some([0, 4, 8, 15][n]) else None
  }

  /** `v5` in the system scale plays at full volume and passes validation,
      although the scale has only the steps 0 to 3. */
  lemma SystemVolumeOverflow()
    ensures SystemVolumeAsWritten(5) == 15 && ValidateVolume(SystemVolumeAsWritten(5)).Ok?
    ensures SystemVolumeAsWritten(-1) == SystemVolumeAsWritten(3)
    ensures SystemVolume(5).None? && SystemVolume(-1).None?
  {
  }

  /** The steps of the system scale get strictly louder, and the top step is
      full volume. */
  lemma SystemVolumeSteps(a: int, b: int)
    requires 0 <= a < b < 4
    ensures SystemVolume(a).value < SystemVolume(b).value
    ensures SystemVolume(3) == Some(15) && SystemVolume(0) == Some(0)
  {
  }

  /** `v`: the MML scale is the volume itself; the system scale goes through
      the table, and an index outside it is refused. */
  function MmlVolume(song: PMMusic, n: int): (r: LoopTok)
    ensures song.volLevelIsMML ==> r == Item(Volume(n))
    ensures !song.volLevelIsMML && 0 <= n < 4 ==> r == Item(Volume(SystemVolumeAsWritten(n)))
    ensures r.Bad? <==> !song.volLevelIsMML && !(0 <= n < 4)
  {
    if song.volLevelIsMML then Item(Volume(n))
    else match SystemVolume(n)
      case None => Bad(NoSystemVolume(n))
      case Some(v) => Item(Volume(v))
  }

  /** `q` under the short-quantize switch: steps of 7 from 7. */
  function ShortQuant(n: int): int {
    (n + 1) * 7
  }

  /** What one MML token asks of the loop stack. */
  function MmlItem(t: MmlTok, song: PMMusic): (r: LoopTok)
    requires MmlShape(t)
    ensures t.MOpen? <==> r.Open?
    ensures t.MClose? <==> r.Close?
    ensures r.Close? ==> r.repeats.Some?
    ensures r.Bad? ==> t.MEffect? || (t.MOne? && t.cmd == 'v')
  {
    match t
    case MOpen => Open
    case MClose(count) => Close(Some(if count.Some? then count.value else DefaultLoopRepeats))
    case MNote(letter, acc, length, dots) => Item(PlayNote(MmlNote(letter, acc), length, dots))
    case MRest(length, dots) => Item(PlayNote(Rest, length, dots))
    case MOne(c, n) => MmlOne(c, n, song)
    case MTwo(a1, a2) => Item(Ram(a1, a2))
    case MBare(c) =>
      Item(if c == '<' then StepOctave(song.octaveReverse)
           else if c == '>' then StepOctave(!song.octaveReverse)
           else if c == ';' then End
           else PlayMacro([c]))
    case MEffect(e, args) =>
      if e != 't' then Item(EffectStart([e], args))
      else if |args| > 1 then Bad(Unexpected)
      else Item(EffectTicks(if args == [] then DefaultEffectTicks else args[0]))
  }

  /** The single-number commands. */
  function MmlOne(c: char, n: int, song: PMMusic): (r: LoopTok)
    requires c in "%\\/vwloqs"
    ensures r.Bad? ==> c == 'v'
    ensures !r.Bad? ==> r.Item?
  {
    if c == 'v' then MmlVolume(song, n)
    else Item(
      if c == '%' then PulseWidthCmd(PulseWidth(n, false))
      else if c == '\\' || c == '/' then PulseWidthCmd(PulseWidth(n, true))
      else if c == 'w' then Wait(n)
      else if c == 'l' then Length(n)
      else if c == 'o' then Octave(n)
      else if c == 'q' then Quant(if song.shortQuantize then ShortQuant(n) else n)
      else Sustain(n))
  }

  /** An MML body: the tokens run against the loop stack, and a `]` with no
      loop open is an unexpected character. */
  function MmlBody(ts: seq<MmlTok>, song: PMMusic): (r: Result<seq<Command>, ParseError>)
    requires forall i :: 0 <= i < |ts| ==> MmlShape(ts[i])
  {
    NestBody(MmlItems(ts, song), Unexpected)
  }

  function MmlItems(ts: seq<MmlTok>, song: PMMusic): (r: seq<LoopTok>)
    requires forall i :: 0 <= i < |ts| ==> MmlShape(ts[i])
    ensures |r| == |ts|
    ensures forall i :: 0 <= i < |ts| ==> r[i] == MmlItem(ts[i], song)
  {
    seq(|ts|, i requires 0 <= i < |ts| => MmlItem(ts[i], song))
  }

  /** The short quantize steps fit the 64-step quantize range exactly for
      the arguments 0 to 8. */
  lemma ShortQuantRange(n: int)
    ensures ValidateQuant(ShortQuant(n), Some(64)).Ok? <==> 0 <= n <= 8
  {
    assert Truthy(Some(64));
  }

  /** Under `OCTAVEREV` the two octave-step characters trade places. */
  lemma OctaveReverseSwaps(song: PMMusic)
    ensures MmlItem(MBare('<'), song.(octaveReverse := true)) == MmlItem(MBare('>'), song.(octaveReverse := false))
    ensures MmlItem(MBare('>'), song.(octaveReverse := true)) == MmlItem(MBare('<'), song.(octaveReverse := false))
    ensures MmlItem(MBare('>'), song.(octaveReverse := false)) == Item(StepOctave(true))
  {
  }

  /** `#` and `+` spell the same note, a semitone above the natural, and
      `-` a semitone below. */
  lemma AccidentalSteps(letter: char)
    requires 'a' <= letter <= 'g'
    ensures MmlNote(letter, "#") == MmlNote(letter, "+") == MmlNote(letter, "") + 1
    ensures MmlNote(letter, "-") == MmlNote(letter, "") - 1
  {
    var u := UpperChar(letter);
    assert [u] + "" == [u];
    assert [u] + "+" == [u, '+'];
    assert [u] + "-" == [u, '-'];
    assert u in "ABCDEFG";
  }

  /** `xt` takes at most one argument and defaults to one tick; every other
      effect keeps its name and arguments. */
  lemma EffectTokens(e: char, args: seq<int>, song: PMMusic)
    requires IsWordChar(e)
    ensures MmlItem(MEffect('t', []), song) == Item(EffectTicks(1))
    ensures |args| > 1 ==> MmlItem(MEffect('t', args), song) == Bad(Unexpected)
    ensures e != 't' ==> MmlItem(MEffect(e, args), song) == Item(EffectStart([e], args))
  {
  }

  /** Every token but a bad one comes out of an acceptable MML body in
      order; in particular a body without loops is just its commands. */
  lemma MmlBodyFlat(ts: seq<MmlTok>, song: PMMusic)
    requires forall i :: 0 <= i < |ts| ==> MmlShape(ts[i]) && !ts[i].MOpen? && !ts[i].MClose?
    requires forall i :: 0 <= i < |ts| ==> !MmlItem(ts[i], song).Bad?
    ensures MmlBody(ts, song).Ok?
    ensures MmlBody(ts, song).value == Items(MmlItems(ts, song))
  {
    var items := MmlItems(ts, song);
    FlatNest(items, [[]]);
  }

  /** Tokens without opens or closes only append to the innermost list. */
  lemma {:induction false} FlatNest(ts: seq<LoopTok>, stack: seq<seq<Command>>)
    requires |stack| == 1
    requires forall i :: 0 <= i < |ts| ==> ts[i].Item?
    ensures Nest(ts, stack, Unexpected) == Ok(stack[0] + Items(ts))
    decreases |ts|
  {
    if ts != [] {
      var next := KeepItem(ts, stack, Unexpected);
      FlatNest(ts[1..], next);
      assert stack[..0] == [];
      assert next == [stack[0] + [ts[0].cmd]];
      assert Items(ts) == [ts[0].cmd] + Items(ts[1..]);
      assert next[0] + Items(ts[1..]) == stack[0] + Items(ts);
    } else {
      assert stack[0] + Items(ts) == stack[0];
    }
  }

  // ---------------------------------------------------------------------
  // Track bodies

  /** A token of a track body: a `ROW` already read into a row, or another
      command word with its argument text, absent when the word stands
      alone on its line. */
  datatype TrackTok = TRow(row: Row) | TCmd(cmd: string, args: Option<string>)

  /** The track command words the body acts on. */
  datatype TrackWord = OpenLoop | CloseLoop | CallMacro | EndTrack

  /** Which track command a word names, in any case; `None` for the words
      the body skips. */
  function TrackWordOf(cmd: string): (r: Option<TrackWord>)
  {
    var d := Upper(cmd);
    if d in {"LOOP", "MARK", "DO"} then Some(OpenLoop)
    else if d in {"ENDLOOP", "ENDL", "REPEAT"} then Some(CloseLoop)
    else if d == "MACRO" then Some(CallMacro)
    else if d == "END" then Some(EndTrack)
    else None
  }

  /** What one track token asks of the loop stack, if anything.  A loop end
      with blank or absent arguments keeps the default count; otherwise its
      trimmed argument must read as a number.  A macro call needs its
      name: trimming an absent argument is an error. */
  function TrackItem(t: TrackTok): (r: Option<LoopTok>)
    ensures t.TRow? ==> r == Some(Item(RowCmd(t.row)))
    ensures t.TCmd? ==> (r.None? <==> TrackWordOf(t.cmd).None?)
    ensures t.TCmd? && TrackWordOf(t.cmd) == Some(CloseLoop) ==> r == Some(Close(LoopEndCount(t.args)))
    ensures t.TCmd? && TrackWordOf(t.cmd) == Some(CallMacro) && t.args.Some? ==>
      r == Some(Item(PlayMacro(Trim(t.args.value))))
    ensures (r.Some? && r.value.Bad?) <==> (t.TCmd? && TrackWordOf(t.cmd) == Some(CallMacro) && t.args.None?)
    ensures r.Some? && r.value.Bad? ==> r.value.err == MissingArgument
  {
    match t
    case TRow(row) => Some(Item(RowCmd(row)))
    case TCmd(cmd, args) =>
      match TrackWordOf(cmd)
      case None => None
      case Some(OpenLoop) => Some(Open)
      case Some(CloseLoop) => Some(Close(LoopEndCount(args)))
      case Some(CallMacro) => if args.None? then Some(Bad(MissingArgument)) else Some(Item(PlayMacro(Trim(args.value))))
      case Some(EndTrack) => Some(Item(End))
  }

  /** The count of a track's loop end: absent or blank arguments keep the
      default, anything else must read as a number. */
  function LoopEndCount(args: Option<string>): (r: Option<int>)
    ensures r.None? ==> args.Some? && Trim(args.value) != "" && ParseNum1(Trim(args.value)).None?
  {
    if args.Some? && Trim(args.value) != "" then ParseNum1(Trim(args.value)) else Some(DefaultLoopRepeats)
  }

  function TrackItems(ts: seq<TrackTok>): (r: seq<LoopTok>)
    ensures |r| <= |ts|
    decreases |ts|
  {
    if ts == [] then []
    else
      var rest := TrackItems(ts[1..]);
      match TrackItem(ts[0])
      case None => rest
      case Some(l) => [l] + rest
  }

  /** A track body: its tokens run against the loop stack, and a loop end
      with no loop open is reported as such. */
  function TrackBody(ts: seq<TrackTok>): (r: Result<seq<Command>, ParseError>)
  {
    NestBody(TrackItems(ts), UnexpectedLoopEnd)
  }

  /** The case of a command word never matters. */
  lemma TrackWordCase(cmd: string)
    ensures TrackWordOf(Upper(cmd)) == TrackWordOf(cmd)
  {
    UpperUpper(cmd);
  }

  lemma OptionCase(name: string)
    ensures OptionOf(Upper(name)) == OptionOf(name)
  {
    UpperUpper(name);
  }

  lemma UpperUpper(s: string)
    ensures Upper(Upper(s)) == Upper(s)
  {
    assert forall i :: 0 <= i < |s| ==> UpperChar(UpperChar(s[i])) == UpperChar(s[i]);
  }

  /** A loop end reads its count from its argument, or keeps two. */
  lemma LoopEndCounts(args: string, n: int)
    ensures LoopEndCount(None) == Some(DefaultLoopRepeats)
    ensures AllSpace(args) ==> LoopEndCount(Some(args)) == Some(DefaultLoopRepeats)
    ensures LoopEndCount(Some(IntToString(n, 10))) == Some(n)
  {
    if AllSpace(args) {
      AllSpaceTrims(args);
    }
    ParseNumDecimal(n);
    IntToStringTrimmed(n);
  }

  lemma AllSpaceTrims(s: string)
    requires AllSpace(s)
    ensures Trim(s) == ""
  {
  }

  lemma IntToStringTrimmed(n: int)
    ensures Trim(IntToString(n, 10)) == IntToString(n, 10)
  {
    var s := IntToString(n, 10);
    var d := NatDigits(if n < 0 then -n else n, 10);
    assert s[|s| - 1] == d[|d| - 1];
    assert IsDecDigit(s[|s| - 1]);
    TrimmedAlready(s);
  }

  /** Words the track does not know are dropped. */
  lemma TrackSkipsUnknown(cmd: string, args: Option<string>, ts: seq<TrackTok>)
    requires TrackWordOf(cmd).None?
    ensures TrackItems([TCmd(cmd, args)] + ts) == TrackItems(ts)
    ensures TrackBody([TCmd(cmd, args)] + ts) == TrackBody(ts)
  {
    assert ([TCmd(cmd, args)] + ts)[1..] == ts;
  }

  lemma TrackItemsTwo(a: TrackTok, b: TrackTok)
    requires TrackItem(a).Some? && TrackItem(b).Some?
    ensures TrackItems([a, b]) == [TrackItem(a).value, TrackItem(b).value]
  {
    var ts := [a, b];
    assert ts[1..] == [b];
    assert ts[1..][1..] == [];
    assert TrackItems([b]) == [TrackItem(b).value];
  }

  /** A close in a track with no loop open is an unexpected loop end, even
      when its count is not a number. */
  lemma TrackStrayEnd(cmd: string, args: Option<string>, row: Row)
    requires TrackWordOf(cmd) == Some(CloseLoop)
    ensures TrackBody([TRow(row), TCmd(cmd, args)]) == Err(UnexpectedLoopEnd)
  {
    var c := Close(LoopEndCount(args));
    var r := Item(RowCmd(row));
    assert TrackItem(TRow(row)) == Some(r);
    assert TrackItem(TCmd(cmd, args)) == Some(c);
    TrackItemsTwo(TRow(row), TCmd(cmd, args));
    StrayAfterItem(r.cmd, c, UnexpectedLoopEnd);
  }

  /** A macro call with no name stops the track at that point, whatever
      follows it. */
  lemma MacroNeedsName(call: string, ts: seq<TrackTok>)
    requires TrackWordOf(call) == Some(CallMacro)
    ensures TrackBody([TCmd(call, None)] + ts) == Err(MissingArgument)
  {
    var all := [TCmd(call, None)] + ts;
    assert all[1..] == ts;
    assert TrackItems(all) == [Bad(MissingArgument)] + TrackItems(ts);
  }

  lemma StrayAfterItem(x: Command, c: LoopTok, stray: ParseError)
    requires c.Close?
    ensures NestBody([Item(x), c], stray) == Err(stray)
  {
    var root: seq<seq<Command>> := [[]];
    NestStep(Item(x), [c], root, stray);
    assert root[..0] == [] && root[0] + [x] == [x];
    NestStep(c, [], [[x]], stray);
    assert [c] + [] == [c];
    assert [Item(x)] + [c] == [Item(x), c];
  }

  // ---------------------------------------------------------------------
  // Song options

  /** The song options a directive can set. */
  datatype OptionName = MasterTime | VolLevelOpt | OctaveRev | ShortQuantize | TranscludeMacro

  /** Which option a directive name sets, in any case; `None` for the other
      directives. */
  function OptionOf(name: string): (r: Option<OptionName>)
  {
    var d := Upper(name);
    if d in {"MASTERTIME", "MTIME"} then Some(MasterTime)
    else if d in {"VOLLEVEL", "VOLLVL"} then Some(VolLevelOpt)
    else if d in {"OCTAVEREV", "OCTREV"} then Some(OctaveRev)
    else if d in {"SHORTQUANTIZE", "SHORTQ"} then Some(ShortQuantize)
    else if d in {"TRANSCLUDEMACRO", "TMACRO"} then Some(TranscludeMacro)
    else None
  }

  /** The `VOLLEVEL` argument: `mml` or `16` for the MML scale, `system` or
      `4` for the system scale. */
  function VolLevel(args: string): (r: Result<bool, ParseError>)
    ensures r.Ok? <==> Lower(Trim(args)) in {"mml", "16", "system", "4"}
    ensures r.Ok? ==> (r.value <==> Lower(Trim(args)) in {"mml", "16"})
  {
    var a := Lower(Trim(args));
    if a == "mml" || a == "16" then Ok(true)
    else if a == "system" || a == "4" then Ok(false)
    else Err(BadVolLevel(Trim(args)))
  }

  /** A directive that sets an option: the option changes and nothing else
      in the song does; an unreadable argument is an error. */
  function SetOption(song: PMMusic, opt: OptionName, args: string): (r: Result<PMMusic, ParseError>)
    ensures r.Ok? ==>
      r.value.bgm == song.bgm && r.value.pattern == song.pattern && r.value.sfx == song.sfx && r.value.macro == song.macro
    ensures opt == MasterTime ==>
      (r.Ok? <==> ParseNum1(Trim(args)).Some?)
      && (r.Ok? ==> r.value == song.(masterTime := ParseNum1(Trim(args)).value))
    ensures opt == VolLevelOpt ==>
      (r.Ok? <==> VolLevel(args).Ok?)
      && (r.Ok? ==> r.value == song.(volLevelIsMML := VolLevel(args).value))
    ensures opt == OctaveRev ==>
      (r.Ok? <==> ParseBool(args).Some?)
      && (r.Ok? ==> r.value == song.(octaveReverse := ParseBool(args).value))
    ensures opt == ShortQuantize ==>
      (r.Ok? <==> ParseBool(args).Some?)
      && (r.Ok? ==> r.value == song.(shortQuantize := ParseBool(args).value))
    ensures opt == TranscludeMacro ==>
      (r.Ok? <==> ParseBool(args).Some?)
      && (r.Ok? ==> r.value == song.(transcludeMacro := ParseBool(args).value))
    ensures r.Err? ==> r.error == (match opt
      case MasterTime => ExpectedNumber
      case VolLevelOpt => BadVolLevel(Trim(args))
      case _ => ExpectedBoolean)
  {
    match opt
    case MasterTime =>
      (match ParseNum1(Trim(args))
       case None => Err(ExpectedNumber)
       case Some(n) => Ok(song.(masterTime := n)))
    case VolLevelOpt =>
      (match VolLevel(args)
       case Err(e) => Err(e)
       case Ok(v) => Ok(song.(volLevelIsMML := v)))
    case _ =>
      match ParseBool(args)
      case None => Err(ExpectedBoolean)
      case Some(b) =>
        if opt == OctaveRev then Ok(song.(octaveReverse := b))
        else if opt == ShortQuantize then Ok(song.(shortQuantize := b))
        else Ok(song.(transcludeMacro := b))
  }

  /** Repeating a directive changes nothing more. */
  lemma SetOptionTwice(song: PMMusic, opt: OptionName, args: string)
    requires SetOption(song, opt, args).Ok?
    ensures SetOption(SetOption(song, opt, args).value, opt, args) == SetOption(song, opt, args)
  {
  }

  /** Directives for different options can be given in either order. */
  lemma SetOptionsCommute(song: PMMusic, o1: OptionName, a1: string, o2: OptionName, a2: string)
    requires o1 != o2
    requires SetOption(song, o1, a1).Ok? && SetOption(song, o2, a2).Ok?
    ensures SetOption(SetOption(song, o1, a1).value, o2, a2).Ok?
    ensures SetOption(SetOption(song, o1, a1).value, o2, a2)
      == SetOption(SetOption(song, o2, a2).value, o1, a1)
  {
  }

  // ---------------------------------------------------------------------
  // Definitions

  /** The kinds of body a definition directive fills. */
  datatype BodyKind = PatternBody | SfxBody | MacroBody

  /** Enters a parsed pattern, sound effect or macro under its name; a later
      definition of the same name replaces the earlier one. */
  function Define(song: PMMusic, kind: BodyKind, name: string, cmds: seq<Command>): (r: PMMusic)
    ensures kind == PatternBody ==> r == song.(pattern := song.pattern[name := cmds])
    ensures kind == SfxBody ==> r == song.(sfx := song.sfx[name := cmds])
    ensures kind == MacroBody ==> r == song.(macro := song.macro[name := cmds])
  {
    match kind
    case PatternBody => song.(pattern := song.pattern[name := cmds])
    case SfxBody => song.(sfx := song.sfx[name := cmds])
    case MacroBody => song.(macro := song.macro[name := cmds])
  }

  /** Only the last of two definitions of a name survives. */
  lemma RedefineReplaces(song: PMMusic, kind: BodyKind, name: string, a: seq<Command>, b: seq<Command>)
    ensures Define(Define(song, kind, name, a), kind, name, b) == Define(song, kind, name, b)
  {
  }

  /** With a count after the loop's end, the loop plays that many times. */
  lemma TrackRepeatExample(open: string, call: string, end: string, oargs: Option<string>, n: int)
    requires TrackWordOf(open) == Some(OpenLoop) && TrackWordOf(call) == Some(CallMacro)
    requires TrackWordOf(end) == Some(CloseLoop)
    ensures TrackBody([TCmd(open, oargs), TCmd(call, Some("A")), TCmd(end, Some(IntToString(n, 10)))]) == Ok([Loop(n, [PlayMacro("A")])])
  {
    TrimmedAlready("A");
    LoopEndCounts("", n);
    TrackLoop(open, call, end, oargs, "A", Some(IntToString(n, 10)), n);
  }

  lemma TrackLoop(open: string, call: string, end: string, oargs: Option<string>, name: string, args: Option<string>, k: int)
    requires TrackWordOf(open) == Some(OpenLoop) && TrackWordOf(call) == Some(CallMacro)
    requires TrackWordOf(end) == Some(CloseLoop) && LoopEndCount(args) == Some(k)
    requires Trim(name) == name
    ensures TrackBody([TCmd(open, oargs), TCmd(call, Some(name)), TCmd(end, args)]) == Ok([Loop(k, [PlayMacro(name)])])
  {
    var a, b, c := TCmd(open, oargs), TCmd(call, Some(name)), TCmd(end, args);
    assert TrackItem(a) == Some(Open);
    assert TrackItem(b) == Some(Item(PlayMacro(name)));
    assert TrackItem(c) == Some(Close(Some(k)));
    TrackItemsThree(a, b, c);
    LoopAround(PlayMacro(name), k, UnexpectedLoopEnd);
  }

  lemma TrackItemsThree(a: TrackTok, b: TrackTok, c: TrackTok)
    requires TrackItem(a).Some? && TrackItem(b).Some? && TrackItem(c).Some?
    ensures TrackItems([a, b, c]) == [TrackItem(a).value, TrackItem(b).value, TrackItem(c).value]
  {
    var ts := [a, b, c];
    assert ts[1..] == [b, c];
    TrackItemsTwo(b, c);
  }

  lemma LoopAround(x: Command, n: int, stray: ParseError)
    ensures NestBody([Open, Item(x), Close(Some(n))], stray) == Ok([Loop(n, [x])])
  {
    var root: seq<seq<Command>> := [[]];
    var none: seq<LoopTok> := [];
    NestStep(Open, [Item(x), Close(Some(n))], root, stray);
    var s2: seq<seq<Command>> := [[], []];
    assert root + [[]] == s2;
    NestStep(Item(x), [Close(Some(n))], s2, stray);
    assert s2[..1] == [[]] && s2[1] + [x] == [x];
    var s3: seq<seq<Command>> := [[], [x]];
    assert s2[..1] + [s2[1] + [x]] == s3;
    NestStep(Close(Some(n)), none, s3, stray);
    assert s3[..0] == [] && s3[0] + [Loop(n, [x])] == [Loop(n, [x])];
    assert s3[..0] + [s3[0] + [Loop(n, s3[1])]] == [[Loop(n, [x])]];
    assert [Close(Some(n))] + none == [Close(Some(n))];
    assert [Item(x)] + [Close(Some(n))] == [Item(x), Close(Some(n))];
    assert [Open] + [Item(x), Close(Some(n))] == [Open, Item(x), Close(Some(n))];
  }
}

=== FILE: pm.dfy ===
/** The handheld's address space as the sound player sees it: 2 MiB of
    memory (BIOS below 0x1000, RAM up to 0x2000, the 256 hardware registers
    at 0x2000 and cartridge ROM from 0x2100), the three general timers behind
    their registers, and the audio volume register.  A thrown exception is a
    `PmError`; a write that throws part-way keeps what it did before the
    throw, so writes return an `Outcome` holding both. */
module Pm {
  import opened Wrappers
  import opened Util
  import opened Bits
  import opened Timers

  const MemSize: int := 0x20_0000
  const RamStart: int := 0x1000
  const RegStart: int := 0x2000
  const RomStart: int := 0x2100

  type Byte = x: int | 0 <= x < 0x100

  datatype PmError =
    | CannotWriteRom
    | LoadTooBig
    | RegisterOutOfRange(reg: int)
    /** A `DataView` access outside its view. */
    | RangeError(offset: int)

  /** `audio` is present once `initAudio` has run; it holds the audio
      volume level (0 to 3) behind the `volume` setter. */
  datatype PM = PM(mem: map<int, Byte>, timers: seq<Timer>, audio: Option<int>)

  datatype Outcome = Outcome(pm: PM, fault: Option<PmError>)

  /** `new PM()`: zeroed memory, no timers, no audio. */
  const NewPM: PM := PM(map[], [], None)

  /** `initTimers` */
  function InitTimers(pm: PM): (r: PM)
    ensures Valid(pm) ==> Valid(r)
    ensures |r.timers| == 3
  {
    pm.(timers := [NewTimer, NewTimer, NewTimer])
  }

  /** `initAudio`: a new `Audio` starts at full volume. */
  function InitAudio(pm: PM): (r: PM)
    ensures Valid(pm) ==> Valid(r)
    ensures r.audio == Some(3)
  {
    pm.(audio := Some(3))
  }

  /** Every address stored lies in memory, the timer list is empty or holds
      the three general timers, each well formed, and the audio level is
      two bits. */
  predicate Valid(pm: PM) {
    && (forall a :: a in pm.mem ==> 0 <= a < MemSize)
    && (|pm.timers| == 0 || |pm.timers| == 3)
    && (forall i :: 0 <= i < |pm.timers| ==> WellFormed(pm.timers[i]))
    && (pm.audio.Some? ==> 0 <= pm.audio.value < 4)
  }

  lemma NewPMValid()
    ensures Valid(NewPM) && Valid(InitAudio(InitTimers(NewPM)))
  {
  }

  /** A memory byte; the backing `ArrayBuffer` starts zeroed. */
  function Peek(pm: PM, a: int): Byte {
    if a in pm.mem then pm.mem[a] else 0
  }

  function Poke(pm: PM, a: int, v: int): (r: PM)
    ensures r.mem == pm.mem[a := v % 0x100]
  {
    pm.(mem := pm.mem[a := v % 0x100])
  }

  /** The `audio.volume` amplitude for a level. */
  function Amplitude(level: int): int
    requires 0 <= level < 4
  {
    [0, 0x2000, 0x2000, 0x4000][level]
  }

  // ---------------------------------------------------------------------
  // Timer registers

  datatype TimerField =
    | PrescaleReg | OscReg | LoControl | HiControl | LoPreset | HiPreset | PivotLow | PivotHigh

  datatype TimerReg = TimerReg(index: int, field: TimerField)

  /** Which timer register, if any, a register number names: 0x18 to 0x1d
      hold the prescale and oscillator pairs of timers 0 to 2, and each timer
      has six control, preset and pivot registers at 0x30, 0x38 and 0x48. */
  function TimerRegOf(reg: int): (r: Option<TimerReg>)
    ensures r.Some? ==> 0 <= r.value.index < 3
    ensures r.Some? ==> 0x18 <= reg <= 0x4d
  {
    if 0x18 <= reg <= 0x1d then
      Some(TimerReg((reg - 0x18) / 2, if reg % 2 == 0 then PrescaleReg else OscReg))
    else if 0x30 <= reg <= 0x35 then Some(TimerReg(0, ControlField(reg - 0x30)))
    else if 0x38 <= reg <= 0x3d then Some(TimerReg(1, ControlField(reg - 0x38)))
    else if 0x48 <= reg <= 0x4d then Some(TimerReg(2, ControlField(reg - 0x48)))
    else None
  }

  function ControlField(k: int): TimerField
    requires 0 <= k < 6
  {
    [LoControl, HiControl, LoPreset, HiPreset, PivotLow, PivotHigh][k]
  }

  /** The `readReg` value of a timer register. */
  function ReadTimer(t: Timer, f: TimerField): int {
    match f
    case PrescaleReg => Or(Shl(t.hi.prescale, 4), t.lo.prescale)
    case OscReg => Or(Shl(t.hi.oscillator, 1), t.lo.oscillator)
    case LoControl => Or(if t.wideMode then 0x80 else 0, if t.lo.enabled then 4 else 0)
    case HiControl => if t.hi.enabled then 4 else 0
    case LoPreset => t.lo.preset
    case HiPreset => t.hi.preset
    case PivotLow => And(t.pivot, 0xff)
    case PivotHigh => Sar(t.pivot, 8)
  }

  /** The `writeReg` effect on a timer register. */
  function WriteTimer(t: Timer, f: TimerField, v: int): (r: Timer)
    requires WellFormed(t)
    ensures WellFormed(r)
  {
    match f
    case PrescaleReg =>
      PrescaleBits(v);
      t.(hi := SetPrescale(t.hi, Sar(And(v, 0xf0), 4)), lo := SetPrescale(t.lo, And(v, 0x0f)))
    case OscReg =>
      t.(hi := SetOscillator(t.hi, Sar(And(v, 2), 1)), lo := SetOscillator(t.lo, And(v, 1)))
    case LoControl =>
      t.(wideMode := And(v, 0x80) != 0, lo := SetEnabled(t.lo, And(v, 4) != 0))
    case HiControl =>
      t.(hi := SetEnabled(t.hi, And(v, 4) != 0))
    case LoPreset => t.(lo := t.lo.(preset := v))
    case HiPreset => t.(hi := t.hi.(preset := v))
    case PivotLow => t.(pivot := Or(And(t.pivot, 0xff00), v))
    case PivotHigh => t.(pivot := Or(And(t.pivot, 0x00ff), Shl(v, 8)))
  }

  // ---------------------------------------------------------------------
  // Registers

  /** `readReg(reg)` as written: register 0x71 answers the audio volume
      getter, which returns the amplitude, not the level written. */
  function ReadRegAsWritten(pm: PM, reg: int): (r: Result<int, PmError>)
    requires Valid(pm)
    ensures r.Err? <==> reg < 0 || reg > 0xff
  {
    if reg < 0 || reg > 0xff then Err(RegisterOutOfRange(reg))
    else if reg == 0x71 && pm.audio.Some? then Ok(Amplitude(pm.audio.value))
    else ReadRegCommon(pm, reg)
  }

  /** `readReg(reg)` with register 0x71 reading back the level it holds. */
  function ReadReg(pm: PM, reg: int): (r: Result<int, PmError>)
    requires Valid(pm)
    ensures r.Err? <==> reg < 0 || reg > 0xff
    ensures r.Err? ==> r.error == RegisterOutOfRange(reg)
    ensures 0 <= reg <= 0xff && TimerRegOf(reg).None? && (reg != 0x71 || pm.audio.None?) ==>
              r == Ok(Peek(pm, RegStart + reg))
  {
    if reg < 0 || reg > 0xff then Err(RegisterOutOfRange(reg))
    else if reg == 0x71 && pm.audio.Some? then Ok(pm.audio.value)
    else ReadRegCommon(pm, reg)
  }

  /** The registers both readings agree on: timer registers once the timers
      exist, and the stored register byte otherwise. */
  function ReadRegCommon(pm: PM, reg: int): Result<int, PmError>
    requires Valid(pm)
  {
    var tr := TimerRegOf(reg);
    if tr.Some? && |pm.timers| == 3 then Ok(ReadTimer(pm.timers[tr.value.index], tr.value.field))
    else Ok(Peek(pm, RegStart + reg))
  }

  /** `writeReg(reg, value)` on a register that exists: the raw byte is
      stored first, then the timer or audio state behind it changes. */
  function SetReg(pm: PM, reg: int, v: int): (r: PM)
    requires Valid(pm) && 0 <= reg <= 0xff
    ensures Valid(r)
    ensures r.mem == pm.mem[RegStart + reg := v % 0x100]
    ensures TimerRegOf(reg).None? ==> r.timers == pm.timers
    ensures reg != 0x70 && reg != 0x71 ==> r.audio == pm.audio
    ensures |r.timers| == |pm.timers| && r.audio.Some? == pm.audio.Some?
  {
    var stored := Poke(pm, RegStart + reg, v);
    var tr := TimerRegOf(reg);
    if tr.Some? then
      if |pm.timers| == 3 then
        var i := tr.value.index;
        stored.(timers := pm.timers[i := WriteTimer(pm.timers[i], tr.value.field, v)])
      else stored
    else if reg == 0x70 && pm.audio.Some? then
      if And(v, 3) != 0 then stored.(audio := Some(0)) else stored
    else if reg == 0x71 && pm.audio.Some? then
      AndTwoBits(v);
      stored.(audio := Some(And(v, 3)))
    else stored
  }

  /** `writeReg(reg, value)`: the register view is 256 bytes long, so any
      other register number throws before anything is stored. */
  function WriteReg(pm: PM, reg: int, v: int): (r: Outcome)
    requires Valid(pm)
    ensures Valid(r.pm)
    ensures r.fault.Some? <==> reg < 0 || reg > 0xff
    ensures r.fault.Some? ==> r.pm == pm
    ensures |r.pm.timers| == |pm.timers| && r.pm.audio.Some? == pm.audio.Some?
  {
    if 0 <= reg <= 0xff then Outcome(SetReg(pm, reg, v), None)
    else Outcome(pm, Some(RangeError(reg)))
  }

  /** `write2Reg(reg, value)`: the low byte to `reg`, then `value >> 8` to
      `reg + 1`.  At register 0xff the first write lands before the second
      throws. */
  function Write2Reg(pm: PM, reg: int, v: int): (r: Outcome)
    requires Valid(pm)
    ensures Valid(r.pm)
    ensures r.fault.None? <==> 0 <= reg < 0xff
    ensures reg == 0xff ==> r.pm == SetReg(pm, 0xff, And(v, 0xff))
    ensures |r.pm.timers| == |pm.timers| && r.pm.audio.Some? == pm.audio.Some?
    ensures reg < 0x6f || reg > 0x71 ==> r.pm.audio == pm.audio
  {
    var first := WriteReg(pm, reg, And(v, 0xff));
    if first.fault.Some? then first
    else WriteReg(first.pm, reg + 1, Sar(v, 8))
  }

  // ---------------------------------------------------------------------
  // The CPU-facing accessors

  /** Addresses with bit 15 set select a 32 KiB bank of the cartridge:
      `(page << 15) | (addr & 0x7fff)`. */
  function BankAddress(page: int, addr: int): int {
    if And(addr, 0x8000) != 0 then Or(Shl(page, 15), And(addr, 0x7fff)) else addr
  }

  /** `read1(page, addr)` */
  function Read1(pm: PM, page: int, addr: int): (r: Result<int, PmError>)
    requires Valid(pm)
    ensures var a := BankAddress(page, addr);
      && (RegStart <= a < RomStart ==> r == ReadReg(pm, a - RegStart))
      && (!(RegStart <= a < RomStart) ==> (r.Ok? <==> 0 <= a < MemSize))
  {
    var a := BankAddress(page, addr);
    if RegStart <= a < RomStart then ReadReg(pm, a - RegStart)
    else if 0 <= a < MemSize then Ok(Peek(pm, a))
    else Err(RangeError(a))
  }

  /** `read2(page, addr)`: two registers read as `(hi << 8) | lo`, or a
      little-endian memory word. */
  function Read2(pm: PM, page: int, addr: int): (r: Result<int, PmError>)
    requires Valid(pm)
  {
    var a := BankAddress(page, addr);
    if RegStart <= a < RomStart then
      var lo :- ReadReg(pm, a - RegStart);
      var hi :- ReadReg(pm, a + 1 - RegStart);
      Ok(Or(Shl(hi, 8), lo))
    else if 0 <= a && a + 2 <= MemSize then Ok(Peek(pm, a) + 0x100 * Peek(pm, a + 1))
    else Err(RangeError(a))
  }

  /** Only RAM and the registers accept writes. */
  predicate Writable(addr: int) {
    RamStart <= addr < RomStart
  }

  /** `write1(addr, value)` */
  function Write1(pm: PM, addr: int, v: int): (r: Outcome)
    requires Valid(pm)
    ensures Valid(r.pm)
    ensures r.fault == Some(CannotWriteRom) <==> !Writable(addr)
    ensures r.fault.Some? ==> r.pm == pm
  {
    if !Writable(addr) then Outcome(pm, Some(CannotWriteRom))
    else if addr < RegStart then Outcome(Poke(pm, addr, v), None)
    else WriteReg(pm, addr - RegStart, v)
  }

  /** `write2(addr, value)`: a little-endian word into RAM, or two registers. */
  function Write2(pm: PM, addr: int, v: int): (r: Outcome)
    requires Valid(pm)
    ensures Valid(r.pm)
    ensures r.fault == Some(CannotWriteRom) <==> !Writable(addr)
    ensures r.fault.Some? <==> !Writable(addr) || addr == RomStart - 1
  {
    if !Writable(addr) then Outcome(pm, Some(CannotWriteRom))
    else if addr < RegStart then
      var w := U16(v);
      Outcome(Poke(Poke(pm, addr, w % 0x100), addr + 1, w / 0x100), None)
    else Write2Reg(pm, addr - RegStart, v)
  }

  /** `load(addr, data)`: copies bytes into memory one by one; a copy that
      would run past the end throws before writing, and a negative address
      throws at the first byte. */
  method Load(pm: PM, addr: int, data: seq<Byte>) returns (r: Outcome)
    requires Valid(pm)
    ensures Valid(r.pm)
    ensures addr + |data| > MemSize <==> r.fault == Some(LoadTooBig)
    ensures r.fault.None? <==> addr + |data| <= MemSize && (addr >= 0 || |data| == 0)
    ensures r.fault.None? ==> forall i :: 0 <= i < |data| ==> Peek(r.pm, addr + i) == data[i]
    ensures forall a :: !(addr <= a < addr + |data|) ==> Peek(r.pm, a) == Peek(pm, a)
    ensures r.pm.timers == pm.timers && r.pm.audio == pm.audio
  {
    if addr + |data| > MemSize {
      return Outcome(pm, Some(LoadTooBig));
    }
    if addr < 0 && |data| > 0 {
      return Outcome(pm, Some(RangeError(addr)));
    }
    var cur := pm;
    var i := 0;
    while i < |data|
      invariant 0 <= i <= |data|
      invariant Valid(cur)
      invariant cur.timers == pm.timers && cur.audio == pm.audio
      invariant forall j :: 0 <= j < i ==> Peek(cur, addr + j) == data[j]
      invariant forall a :: !(addr <= a < addr + i) ==> Peek(cur, a) == Peek(pm, a)
    {
      cur := Poke(cur, addr + i, data[i]);
      i := i + 1;
    }
    return Outcome(cur, None);
  }

  // ---------------------------------------------------------------------
  // Bit-level facts about the register encodings

  /** `(v & 0xf0) >> 4` and `v & 0x0f`: the two nibbles of the stored byte. */
  lemma PrescaleBits(v: int)
    ensures Sar(And(v, 0xf0), 4) == (v % 0x100) / 16
    ensures And(v, 0x0f) == v % 16
  {
    Pow2Values();
    var u := ToUint32(v);
    AndF0(u);
    var m := ((u / 16) % 16) * 16;
    assert 0 <= m <= 0xf0;
    CapS32Identity(m);
    assert And(v, 0xf0) == m;
    SarSmall(m, 4);
    assert Sar(And(v, 0xf0), 4) == (u / 16) % 16;
    var a, b := u / 0x100, u % 0x100;
    assert u == 0x100 * a + b;
    DivUnique(u, 16, 16 * a + b / 16, b % 16);
    DivUnique(u / 16, 16, a, b / 16);
    ModOfCongruent(v, u, TWO32, 0x100);
    AndLow(v, 4);
  }

  /** Two nibbles packed back as `(hi << 4) | lo`. */
  lemma NibblesJoin(h: int, l: int)
    requires 0 <= h < 16 && 0 <= l < 16
    ensures Or(Shl(h, 4), l) == h * 16 + l
  {
    Pow2Values();
    ShlSmall(h, 4);
    OrWord(l, h * 16, 4);
    OrComm(l, h * 16);
  }

  /** `(v & 2) >> 1` and `v & 1`: bits 1 and 0. */
  lemma OscBits(v: int)
    ensures Sar(And(v, 2), 1) == (v % 4) / 2
    ensures And(v, 1) == v % 2
  {
    Pow2Values();
    var u := ToUint32(v);
    AndBit(v, 1);
    ModOfCongruent(v, u, TWO32, 4);
    DivHalfMod(u, 2);
    assert And(v, 2) == 2 * ((v % 4) / 2);
    SarSmall(And(v, 2), 1);
    AndLow(v, 1);
  }

  /** Two bits packed back as `(hi << 1) | lo`. */
  lemma BitsJoin(h: int, l: int)
    requires 0 <= h < 2 && 0 <= l < 2
    ensures Or(Shl(h, 1), l) == h * 2 + l
  {
    Pow2Values();
    ShlSmall(h, 1);
    OrWord(l, h * 2, 1);
    OrComm(l, h * 2);
  }

  /** The lo-control mask `0x84` is the wide-mode bit plus the enable bit. */
  lemma ControlBits(v: int)
    ensures And(v, 0x84) == And(v, 0x80) + And(v, 4)
    ensures And(v, 0x80) == 0 || And(v, 0x80) == 0x80
    ensures And(v, 4) == 0 || And(v, 4) == 4
  {
    Pow2Values();
    var u := ToUint32(v);
    AndBit(v, 7);
    AndBit(v, 2);
    AndEven2(u, 0x21);
    var y := u / 4;
    assert AndNat(y, 0x21) == 2 * AndNat(y / 2, 0x10) + (if y % 2 == 1 then 1 else 0) by {
      if y != 0 {
        assert 0x21 / 2 == 0x10 && 0x21 % 2 == 1;
      }
    }
    AndSingle(y / 2, 4);
    assert (y / 2) / 16 == u / 128;
    assert AndNat(u, 0x84) == (if Bit(u, 7) then 0x80 else 0) + (if Bit(u, 2) then 4 else 0);
    ToUint32Identity(0x84);
    CapS32Identity(AndNat(u, 0x84));
  }

  /** Two disjoint flags `a | b` add up. */
  lemma FlagsJoin(a: bool, b: bool)
    ensures Or(if a then 0x80 else 0, if b then 4 else 0) ==
            (if a then 0x80 else 0) + (if b then 4 else 0)
  {
    Pow2Values();
    OrWord(if b then 4 else 0, if a then 0x80 else 0, 3);
    OrComm(if b then 4 else 0, if a then 0x80 else 0);
  }

  /** Reading the pivot halves: `p & 0xff` and `p >> 8`. */
  lemma PivotReads(p: int)
    requires 0 <= p < 0x1_0000
    ensures And(p, 0xff) == p % 0x100
    ensures Sar(p, 8) == p / 0x100
  {
    Pow2Values();
    AndByte(p);
    SarSmall(p, 8);
  }

  /** `p &= 0xff00; p |= v` replaces the low byte. */
  lemma PivotLowWrite(p: int, v: int)
    requires 0 <= p < 0x1_0000 && 0 <= v < 0x100
    ensures Or(And(p, 0xff00), v) == (p / 0x100) * 0x100 + v
  {
    Pow2Values();
    var q := p / 0x100;
    var high := q * 0x100;
    assert q < 0x100 && q % 0x100 == q;
    AndSmall(p, 0xff00);
    AndFF00(p);
    assert And(p, 0xff00) == high;
    DivUnique(high, 0x100, q, 0);
    OrWord(v, high, 8);
    OrComm(v, high);
  }

  /** `p &= 0x00ff; p |= v << 8` replaces the high byte. */
  lemma PivotHighWrite(p: int, v: int)
    requires 0 <= p < 0x1_0000 && 0 <= v < 0x100
    ensures Or(And(p, 0x00ff), Shl(v, 8)) == p % 0x100 + v * 0x100
  {
    Pow2Values();
    AndByte(p);
    ShlSmall(v, 8);
    var high := v * 0x100;
    DivUnique(high, 0x100, v, 0);
    OrWord(p % 0x100, high, 8);
  }

  /** Bank switching: an address below 0x8000 is used as is; one above
      selects `page`'s 32 KiB bank. */
  lemma BankAddressValue(page: int, addr: int)
    requires 0 <= page < 0x1_0000 && 0 <= addr < 0x1_0000
    ensures BankAddress(page, addr) ==
      if addr >= 0x8000 then page * 0x8000 + (addr - 0x8000) else addr
  {
    BankBit(addr);
    if addr >= 0x8000 {
      BankJoin(page, addr);
    }
  }

  lemma BankBit(addr: int)
    requires 0 <= addr < 0x1_0000
    ensures And(addr, 0x8000) != 0 <==> addr >= 0x8000
  {
    Pow2Values();
    AndBit(addr, 15);
    ToUint32Identity(addr);
  }

  lemma BankJoin(page: int, addr: int)
    requires 0 <= page < 0x1_0000 && 0x8000 <= addr < 0x1_0000
    ensures Or(Shl(page, 15), And(addr, 0x7fff)) == page * 0x8000 + (addr - 0x8000)
  {
    Pow2Values();
    var high := page * 0x8000;
    var low := addr - 0x8000;
    assert And(addr, 0x7fff) == low by {
      AndLow(addr, 15);
      DivUnique(addr, 0x8000, 1, low);
    }
    assert Shl(page, 15) == high by { ShlSmall(page, 15); }
    assert Or(high, low) == high + low by {
      DivUnique(high, 0x8000, page, 0);
      OrSmall(high, low);
      OrNatComm(high, low);
      OrAddLow(low, high, 15);
    }
  }

  /** `(hi << 8) | lo` for two bytes. */
  lemma BytesJoin(h: int, l: int)
    requires 0 <= h < 0x100 && 0 <= l < 0x100
    ensures Or(Shl(h, 8), l) == h * 0x100 + l
  {
    Pow2Values();
    ShlSmall(h, 8);
    DivUnique(h * 0x100, 0x100, h, 0);
    OrWord(l, h * 0x100, 8);
    OrComm(l, h * 0x100);
  }

  /** The byte `write2Reg` stores second: `value >> 8`, kept modulo 2^8. */
  lemma HighByteStored(v: int)
    ensures Sar(v, 8) % 0x100 == (v / 0x100) % 0x100
  {
    Pow2Values();
    var c := CapS32(v);
    var k := (v - c) / TWO32;
    assert v - c == TWO32 * k;
    assert c == v + 0x100_0000 * (-0x100 * k);
    var q, s := v / 0x100, v % 0x100;
    assert c == 0x100 * (q - 0x100_0000 * k) + s;
    DivUnique(c, 0x100, q - 0x100_0000 * k, s);
    assert Sar(v, 8) == q - 0x100_0000 * k;
    DivUnique(q - 0x100_0000 * k, 0x100, q / 0x100 - 0x1_0000 * k, q % 0x100);
  }

  /** A word split into its low byte and the low byte of `value >> 8`, then
      joined again, is the value modulo 2^16. */
  lemma WordSplitJoin(v: int)
    ensures (v / 0x100) % 0x100 * 0x100 + v % 0x100 == v % 0x1_0000
  {
    var q, s := v / 0x100, v % 0x100;
    var a, b := q / 0x100, q % 0x100;
    assert v == 0x1_0000 * a + (0x100 * b + s);
    DivUnique(v, 0x1_0000, a, 0x100 * b + s);
  }

  // ---------------------------------------------------------------------
  // What a write leaves for a later read

  /** A RAM byte written with `write1` reads back as its low 8 bits. */
  lemma RamRoundTrip(pm: PM, page: int, addr: int, v: int)
    requires Valid(pm) && RamStart <= addr < RegStart
    ensures Write1(pm, addr, v).fault.None?
    ensures Read1(Write1(pm, addr, v).pm, page, addr) == Ok(v % 0x100)
  {
    BankBit(addr);
  }

  /** A RAM word written with `write2` reads back, little-endian, as its low
      16 bits. */
  lemma RamWordRoundTrip(pm: PM, page: int, addr: int, v: int)
    requires Valid(pm) && RamStart <= addr < RegStart - 1
    ensures Write2(pm, addr, v).fault.None?
    ensures Read2(Write2(pm, addr, v).pm, page, addr) == Ok(v % 0x1_0000)
  {
    BankBit(addr);
    var w := v % 0x1_0000;
    var after := Write2(pm, addr, v).pm;
    assert Peek(after, addr) == w % 0x100;
    assert Peek(after, addr + 1) == w / 0x100;
  }

  /** Every register write stores the raw byte before anything else. */
  lemma WriteRegStoresByte(pm: PM, reg: int, v: int)
    requires Valid(pm) && 0 <= reg <= 0xff
    ensures Peek(WriteReg(pm, reg, v).pm, RegStart + reg) == v % 0x100
  {
  }

  /** `write2Reg` stores the low byte in `reg` and `value >> 8` in `reg + 1`. */
  lemma Write2RegStores(pm: PM, reg: int, v: int)
    requires Valid(pm) && 0 <= reg < 0xff
    ensures var after := Write2Reg(pm, reg, v).pm;
      && Peek(after, RegStart + reg) == v % 0x100
      && Peek(after, RegStart + reg + 1) == (v / 0x100) % 0x100
  {
    AndByte(v);
    HighByteStored(v);
  }

  /** A register with no timer or audio meaning behind it, written with
      `write1` through the bus, reads back as the stored byte. */
  lemma PlainRegisterRoundTrip(pm: PM, page: int, reg: int, v: int)
    requires Valid(pm) && 0 <= reg <= 0xff && TimerRegOf(reg).None? && reg != 0x71
    ensures Write1(pm, RegStart + reg, v).fault.None?
    ensures Read1(Write1(pm, RegStart + reg, v).pm, page, RegStart + reg) == Ok(v % 0x100)
  {
    BankBit(RegStart + reg);
  }

  /** Two plain registers written with `write2` read back with `read2` as the
      value's low 16 bits. */
  lemma RegisterWordRoundTrip(pm: PM, page: int, reg: int, v: int)
    requires Valid(pm) && 0 <= reg < 0xff
    requires TimerRegOf(reg).None? && TimerRegOf(reg + 1).None?
    requires reg != 0x71 && reg + 1 != 0x71
    ensures Write2(pm, RegStart + reg, v).fault.None?
    ensures Read2(Write2(pm, RegStart + reg, v).pm, page, RegStart + reg) == Ok(v % 0x1_0000)
  {
    var a := RegStart + reg;
    assert BankAddress(page, a) == a by { BankBit(a); }
    var after := Write2Reg(pm, reg, v).pm;
    assert Write2(pm, a, v).pm == after;
    var l, h := v % 0x100, (v / 0x100) % 0x100;
    assert ReadReg(after, reg) == Ok(l) && ReadReg(after, reg + 1) == Ok(h) by {
      Write2RegStores(pm, reg, v);
    }
    assert Read2(after, page, a) == Ok(Or(Shl(h, 8), l));
    assert Or(Shl(h, 8), l) == v % 0x1_0000 by {
      BytesJoin(h, l);
      WordSplitJoin(v);
    }
  }

  /** The timer register `reg` once the timers exist. */
  predicate TimerAt(pm: PM, reg: int, f: TimerField) {
    |pm.timers| == 3 && TimerRegOf(reg).Some? && TimerRegOf(reg).value.field == f
  }

  /** Writing a timer register changes that timer alone, as `WriteTimer`
      says. */
  lemma TimerWritten(pm: PM, reg: int, v: int)
    requires Valid(pm) && |pm.timers| == 3 && TimerRegOf(reg).Some?
    ensures var tr := TimerRegOf(reg).value;
      SetReg(pm, reg, v).timers == pm.timers[tr.index := WriteTimer(pm.timers[tr.index], tr.field, v)]
  {
  }

  /** Reading a timer register reads the field behind it. */
  lemma TimerRead(pm: PM, reg: int)
    requires Valid(pm) && |pm.timers| == 3 && TimerRegOf(reg).Some?
    ensures var tr := TimerRegOf(reg).value;
      ReadReg(pm, reg) == Ok(ReadTimer(pm.timers[tr.index], tr.field))
  {
  }

  /** A timer register written and read again: the field behind it. */
  lemma TimerRoundTrip(pm: PM, reg: int, v: int)
    requires Valid(pm) && |pm.timers| == 3 && TimerRegOf(reg).Some?
    ensures var tr := TimerRegOf(reg).value;
      ReadReg(SetReg(pm, reg, v), reg) == Ok(ReadTimer(WriteTimer(pm.timers[tr.index], tr.field, v), tr.field))
  {
    TimerWritten(pm, reg, v);
    TimerRead(SetReg(pm, reg, v), reg);
  }

  /** A prescale register reads back the byte written: high nibble from the
      high half, low nibble from the low half. */
  lemma PrescaleRoundTrip(pm: PM, reg: int, v: int)
    requires Valid(pm) && TimerAt(pm, reg, PrescaleReg)
    ensures ReadReg(SetReg(pm, reg, v), reg) == Ok(v % 0x100)
  {
    TimerRoundTrip(pm, reg, v);
    PrescaleField(pm.timers[TimerRegOf(reg).value.index], v);
  }

  lemma PrescaleField(t: Timer, v: int)
    requires WellFormed(t)
    ensures ReadTimer(WriteTimer(t, PrescaleReg, v), PrescaleReg) == v % 0x100
  {
    PrescaleBits(v);
    NibblesJoin((v % 0x100) / 16, v % 16);
    assert (v % 0x100) / 16 * 16 + v % 16 == v % 0x100 by {
      var a, b := v / 0x100, v % 0x100;
      DivUnique(v, 16, 16 * a + b / 16, b % 16);
    }
  }

  /** An oscillator register reads back the low two bits written. */
  lemma OscRoundTrip(pm: PM, reg: int, v: int)
    requires Valid(pm) && TimerAt(pm, reg, OscReg)
    ensures ReadReg(SetReg(pm, reg, v), reg) == Ok(v % 4)
  {
    TimerRoundTrip(pm, reg, v);
    OscField(pm.timers[TimerRegOf(reg).value.index], v);
  }

  lemma OscField(t: Timer, v: int)
    requires WellFormed(t)
    ensures ReadTimer(WriteTimer(t, OscReg, v), OscReg) == v % 4
  {
    OscBits(v);
    var h, l := (v % 4) / 2, v % 2;
    assert Sar(And(v, 2), 1) % 2 == h && And(v, 1) % 2 == l;
    BitsJoin(h, l);
    assert h * 2 + l == v % 4 by {
      var a, b := v / 4, v % 4;
      DivUnique(v, 2, 2 * a + b / 2, b % 2);
    }
  }

  /** A low-half control register reads back `value & 0x84`: the wide-mode
      bit and the enable bit. */
  lemma LoControlRoundTrip(pm: PM, reg: int, v: int)
    requires Valid(pm) && TimerAt(pm, reg, LoControl)
    ensures ReadReg(SetReg(pm, reg, v), reg) == Ok(And(v, 0x84))
  {
    TimerRoundTrip(pm, reg, v);
    ControlBits(v);
    FlagsJoin(And(v, 0x80) != 0, And(v, 4) != 0);
  }

  /** A high-half control register reads back `value & 0x04`. */
  lemma HiControlRoundTrip(pm: PM, reg: int, v: int)
    requires Valid(pm) && TimerAt(pm, reg, HiControl)
    ensures ReadReg(SetReg(pm, reg, v), reg) == Ok(And(v, 4))
  {
    TimerRoundTrip(pm, reg, v);
    ControlBits(v);
  }

  /** Preset registers keep the value written as it is. */
  lemma PresetRoundTrip(pm: PM, reg: int, v: int)
    requires Valid(pm) && (TimerAt(pm, reg, LoPreset) || TimerAt(pm, reg, HiPreset))
    ensures ReadReg(SetReg(pm, reg, v), reg) == Ok(v)
  {
    TimerRoundTrip(pm, reg, v);
  }

  /** The two pivot registers of one timer sit side by side. */
  lemma PivotNeighbours(reg: int)
    requires TimerRegOf(reg).Some?
    ensures var tr := TimerRegOf(reg).value;
      && (tr.field == PivotLow ==> TimerRegOf(reg + 1) == Some(TimerReg(tr.index, PivotHigh)))
      && (tr.field == PivotHigh ==> TimerRegOf(reg - 1) == Some(TimerReg(tr.index, PivotLow)))
      && (tr.field == LoPreset ==> TimerRegOf(reg + 1) == Some(TimerReg(tr.index, HiPreset)))
  {
  }

  /** Writing a byte to the pivot's low register replaces only the pivot's
      low byte; the low register reads it back and the high one is
      unchanged. */
  lemma PivotLowRoundTrip(pm: PM, reg: int, v: int)
    requires Valid(pm) && TimerAt(pm, reg, PivotLow) && 0 <= v < 0x100
    requires 0 <= pm.timers[TimerRegOf(reg).value.index].pivot < 0x1_0000
    ensures var i := TimerRegOf(reg).value.index;
      && SetReg(pm, reg, v).timers[i].pivot == pm.timers[i].pivot / 0x100 * 0x100 + v
      && ReadReg(SetReg(pm, reg, v), reg) == Ok(v)
      && ReadReg(SetReg(pm, reg, v), reg + 1) == ReadReg(pm, reg + 1)
  {
    var i := TimerRegOf(reg).value.index;
    var t := pm.timers[i];
    var after := SetReg(pm, reg, v);
    TimerWritten(pm, reg, v);
    PivotNeighbours(reg);
    TimerRead(after, reg);
    TimerRead(after, reg + 1);
    TimerRead(pm, reg + 1);
    PivotLowField(t, v);
  }

  lemma PivotLowField(t: Timer, v: int)
    requires WellFormed(t) && 0 <= t.pivot < 0x1_0000 && 0 <= v < 0x100
    ensures var w := WriteTimer(t, PivotLow, v);
      && w.pivot == t.pivot / 0x100 * 0x100 + v
      && 0 <= w.pivot < 0x1_0000 && w.pivot % 0x100 == v
      && ReadTimer(w, PivotLow) == v
      && ReadTimer(w, PivotHigh) == ReadTimer(t, PivotHigh)
  {
    var p := t.pivot;
    var q := p / 0x100 * 0x100 + v;
    var w := WriteTimer(t, PivotLow, v);
    assert w.pivot == q by { PivotLowWrite(p, v); }
    assert 0 <= q < 0x1_0000 && q / 0x100 == p / 0x100 && q % 0x100 == v by {
      DivUnique(q, 0x100, p / 0x100, v);
    }
    assert ReadTimer(w, PivotLow) == v by { PivotReads(q); }
    assert ReadTimer(w, PivotHigh) == ReadTimer(t, PivotHigh) by {
      PivotReads(p);
      PivotReads(q);
    }
  }

  /** Writing a byte to the pivot's high register replaces only the pivot's
      high byte. */
  lemma PivotHighRoundTrip(pm: PM, reg: int, v: int)
    requires Valid(pm) && TimerAt(pm, reg, PivotHigh) && 0 <= v < 0x100
    requires 0 <= pm.timers[TimerRegOf(reg).value.index].pivot < 0x1_0000
    ensures var i := TimerRegOf(reg).value.index;
      && SetReg(pm, reg, v).timers[i].pivot == v * 0x100 + pm.timers[i].pivot % 0x100
      && ReadReg(SetReg(pm, reg, v), reg) == Ok(v)
      && ReadReg(SetReg(pm, reg, v), reg - 1) == ReadReg(pm, reg - 1)
  {
    var i := TimerRegOf(reg).value.index;
    var t := pm.timers[i];
    var after := SetReg(pm, reg, v);
    TimerWritten(pm, reg, v);
    PivotNeighbours(reg);
    TimerRead(after, reg);
    TimerRead(after, reg - 1);
    TimerRead(pm, reg - 1);
    PivotHighField(t, v);
  }

  lemma PivotHighField(t: Timer, v: int)
    requires WellFormed(t) && 0 <= t.pivot < 0x1_0000 && 0 <= v < 0x100
    ensures var w := WriteTimer(t, PivotHigh, v);
      && w.pivot == v * 0x100 + t.pivot % 0x100
      && 0 <= w.pivot < 0x1_0000
      && ReadTimer(w, PivotHigh) == v
      && ReadTimer(w, PivotLow) == ReadTimer(t, PivotLow)
  {
    var p := t.pivot;
    var q := v * 0x100 + p % 0x100;
    var w := WriteTimer(t, PivotHigh, v);
    assert w.pivot == q by { PivotHighWrite(p, v); }
    assert 0 <= q < 0x1_0000 && q / 0x100 == v && q % 0x100 == p % 0x100 by {
      DivUnique(q, 0x100, v, p % 0x100);
    }
    assert ReadTimer(w, PivotHigh) == v by { PivotReads(q); }
    assert ReadTimer(w, PivotLow) == ReadTimer(t, PivotLow) by {
      PivotReads(p);
      PivotReads(q);
    }
  }

  /** Register 0x71 sets the audio level to `value & 3`; register 0x70 with
      any of those bits set silences it. */
  lemma AudioVolumeWrites(pm: PM, v: int)
    requires Valid(pm) && pm.audio.Some?
    ensures SetReg(pm, 0x71, v).audio == Some(v % 4)
    ensures SetReg(pm, 0x70, v).audio == if v % 4 != 0 then Some(0) else pm.audio
  {
    AndTwoBits(v);
  }

  /** Writing the low two bits of v sets the same level as writing v. */
  lemma AudioLevelWrites(pm: PM, v: int)
    requires Valid(pm) && pm.audio.Some?
    ensures SetReg(pm, 0x71, And(v, 3)).audio == Some(v % 4)
  {
    AndTwoBits(v);
    var level := And(v, 3);
    assert level % 4 == v % 4;
    AudioVolumeWrites(pm, level);
  }

  /** The audio level written to register 0x71 reads back. */
  lemma AudioVolumeRoundTrip(pm: PM, v: int)
    requires Valid(pm) && pm.audio.Some?
    ensures ReadReg(SetReg(pm, 0x71, v), 0x71) == Ok(v % 4)
  {
    AndTwoBits(v);
  }

  /** As written, register 0x71 reads back the amplitude the level selects:
      level 1 reads as 0x2000, a value no byte register can hold. */
  lemma AudioVolumeReadsAmplitude(pm: PM)
    requires Valid(pm) && pm.audio.Some?
    ensures ReadRegAsWritten(SetReg(pm, 0x71, 1), 0x71) == Ok(0x2000)
    ensures ReadReg(SetReg(pm, 0x71, 1), 0x71) == Ok(1)
  {
    AndTwoBits(1);
  }

  /** `write2Reg` on a register pair below 0xff: the low byte, then
      `value >> 8`. */
  lemma Write2Steps(pm: PM, reg: int, v: int)
    requires Valid(pm) && 0 <= reg < 0xff
    ensures Write2Reg(pm, reg, v).pm == SetReg(SetReg(pm, reg, And(v, 0xff)), reg + 1, Sar(v, 8))
  {
  }

  /** The two bytes `write2Reg` produces from a 16-bit value. */
  lemma WordBytes(v: int)
    requires 0 <= v < 0x1_0000
    ensures And(v, 0xff) == v % 0x100 && Sar(v, 8) == v / 0x100
    ensures v / 0x100 * 0x100 + v % 0x100 == v
  {
    PivotReads(v);
  }

  /** A 16-bit value written with `write2Reg` to a timer's preset pair
      becomes the timer's `preset` word. */
  lemma Write2PresetWord(pm: PM, reg: int, v: int)
    requires Valid(pm) && TimerAt(pm, reg, LoPreset) && 0 <= v < 0x1_0000
    ensures PresetWord(Write2Reg(pm, reg, v).pm.timers[TimerRegOf(reg).value.index]) == v
  {
    var i := TimerRegOf(reg).value.index;
    var l, h := v % 0x100, v / 0x100;
    WordBytes(v);
    PivotNeighbours(reg);
    Write2Steps(pm, reg, v);
    var pm1 := SetReg(pm, reg, l);
    TimerWritten(pm, reg, l);
    var pm2 := SetReg(pm1, reg + 1, h);
    TimerWritten(pm1, reg + 1, h);
    assert pm2.timers[i].hi.preset == h && pm2.timers[i].lo.preset == l;
  }

  /** A 16-bit value written with `write2Reg` to a timer's pivot pair
      becomes the timer's pivot. */
  lemma Write2PivotWord(pm: PM, reg: int, v: int)
    requires Valid(pm) && TimerAt(pm, reg, PivotLow) && 0 <= v < 0x1_0000
    requires 0 <= pm.timers[TimerRegOf(reg).value.index].pivot < 0x1_0000
    ensures Write2Reg(pm, reg, v).pm.timers[TimerRegOf(reg).value.index].pivot == v
  {
    var i := TimerRegOf(reg).value.index;
    var l, h := v % 0x100, v / 0x100;
    WordBytes(v);
    PivotNeighbours(reg);
    Write2Steps(pm, reg, v);
    var pm1 := SetReg(pm, reg, l);
    TimerWritten(pm, reg, l);
    var t1 := WriteTimer(pm.timers[i], PivotLow, l);
    assert pm1.timers[i] == t1;
    PivotLowField(pm.timers[i], l);
    var pm2 := SetReg(pm1, reg + 1, h);
    TimerWritten(pm1, reg + 1, h);
    PivotHighField(t1, h);
  }

}

=== FILE: text.dfy ===
/** The string primitives the toolchain borrows from JavaScript: the
    whitespace set of `String.prototype.trim`, ASCII case mapping, and the
    digit strings of `Number.prototype.toString(radix)` / `parseInt` on
    integers. */
module Text {

  /** JavaScript's WhiteSpace and LineTerminator code points, the set that
      `trim`, `trimStart` and `\s` recognise. */
  predicate IsJsSpace(c: char) {
    c == ' ' || c == '\t' || c == '\n' || c == '\r' || c == '\U{000B}' || c == '\U{000C}'
    || c == '\U{00A0}' || c == '\U{1680}' || ('\U{2000}' <= c <= '\U{200A}')
    || c == '\U{2028}' || c == '\U{2029}' || c == '\U{202F}' || c == '\U{205F}'
    || c == '\U{3000}' || c == '\U{FEFF}'
  }

  predicate AllSpace(s: string) {
    forall i :: 0 <= i < |s| ==> IsJsSpace(s[i])
  }

  /** `s.trimStart()` */
  function TrimStart(s: string): (r: string)
    ensures |r| <= |s| && s == s[..|s| - |r|] + r
    ensures AllSpace(s[..|s| - |r|])
    ensures r == [] || !IsJsSpace(r[0])
  {
    if s == [] || !IsJsSpace(s[0]) then s
    else
      var r := TrimStart(s[1..]);
      assert s[..|s| - |r|] == [s[0]] + s[1..][..|s[1..]| - |r|];
      r
  }

  /** `s.trimEnd()` */
  function TrimEnd(s: string): (r: string)
    ensures |r| <= |s| && s == r + s[|r|..]
    ensures AllSpace(s[|r|..])
    ensures r == [] || !IsJsSpace(r[|r| - 1])
  {
    if s == [] || !IsJsSpace(s[|s| - 1]) then s
    else
      var r := TrimEnd(s[..|s| - 1]);
      assert s[|r|..] == s[..|s| - 1][|r|..] + [s[|s| - 1]];
      r
  }

  /** `s.trim()` */
  function Trim(s: string): (r: string)
    ensures |r| <= |s|
    ensures r == [] || (!IsJsSpace(r[0]) && !IsJsSpace(r[|r| - 1]))
  {
    TrimEnd(TrimStart(s))
  }

  lemma TrimIdempotent(s: string)
    ensures Trim(Trim(s)) == Trim(s)
  {
    var r := Trim(s);
    if r != [] {
      assert TrimStart(r) == r;
      assert TrimEnd(r) == r;
    }
  }

  function LowerChar(c: char): char {
    if 'A' <= c <= 'Z' then (c as int - 'A' as int + 'a' as int) as char else c
  }

  function UpperChar(c: char): char {
    if 'a' <= c <= 'z' then (c as int - 'a' as int + 'A' as int) as char else c
  }

  /** `s.toLowerCase()` restricted to ASCII letters; every string the model
      compares it with is ASCII. */
  function Lower(s: string): (r: string)
    ensures |r| == |s|
    ensures forall i :: 0 <= i < |s| ==> r[i] == LowerChar(s[i])
  {
    if s == [] then [] else [LowerChar(s[0])] + Lower(s[1..])
  }

  /** `s.toUpperCase()` on ASCII letters. */
  function Upper(s: string): (r: string)
    ensures |r| == |s|
    ensures forall i :: 0 <= i < |s| ==> r[i] == UpperChar(s[i])
  {
    if s == [] then [] else [UpperChar(s[0])] + Upper(s[1..])
  }

  function Repeat(c: char, n: nat): (r: string)
    ensures |r| == n && forall i :: 0 <= i < n ==> r[i] == c
  {
    if n == 0 then [] else [c] + Repeat(c, n - 1)
  }

  predicate IsDecDigit(c: char) {
    '0' <= c <= '9'
  }

  predicate IsHexDigit(c: char) {
    IsDecDigit(c) || ('a' <= c <= 'f') || ('A' <= c <= 'F')
  }

  /** Value of a hex digit in either case. */
  function DigitValue(c: char): (v: nat)
    requires IsHexDigit(c)
    ensures v < 16
    ensures IsDecDigit(c) ==> v < 10
  {
    if IsDecDigit(c) then c as int - '0' as int
    else if 'a' <= c <= 'f' then c as int - 'a' as int + 10
    else c as int - 'A' as int + 10
  }

  /** The lower-case digit `toString(16)` writes for `d`. */
  function DigitChar(d: nat): (c: char)
    requires d < 16
    ensures IsHexDigit(c) && DigitValue(c) == d
    ensures d < 10 ==> IsDecDigit(c)
  {
    if d < 10 then (d + '0' as int) as char else (d - 10 + 'a' as int) as char
  }

  predicate AllDigits(s: string, base: nat)
    requires base == 10 || base == 16
  {
    forall i :: 0 <= i < |s| ==> (if base == 10 then IsDecDigit(s[i]) else IsHexDigit(s[i]))
  }

  /** The value `parseInt` reads from a run of digits. */
  function DigitsValue(s: string, base: nat): nat
    requires base == 10 || base == 16
    requires AllDigits(s, base)
  {
    if s == [] then 0
    else DigitsValue(s[..|s| - 1], base) * base + DigitValue(s[|s| - 1])
  }

  /** Digits of a non-negative integer, most significant first, without
      leading zeros. */
  function NatDigits(n: nat, base: nat): (r: string)
    requires base == 10 || base == 16
    ensures |r| >= 1 && AllDigits(r, base)
    ensures |r| > 1 ==> r[0] != '0'
    decreases n
  {
    if n < base then [DigitChar(n)]
    else
      var r := NatDigits(n / base, base) + [DigitChar(n % base)];
      r
  }

  /** `n.toString(radix)` for an integer `n`. */
  function IntToString(n: int, base: nat): (r: string)
    requires base == 10 || base == 16
    ensures |r| >= 1
    ensures (r[0] == '-') <==> n < 0
  {
    if n < 0 then "-" + NatDigits(-n, base) else NatDigits(n, base)
  }

  /** Reading back printed digits returns the number. */
  lemma {:induction false} NatDigitsValue(n: nat, base: nat)
    requires base == 10 || base == 16
    ensures DigitsValue(NatDigits(n, base), base) == n
    decreases n
  {
    if n >= base {
      var r := NatDigits(n, base);
      NatDigitsValue(n / base, base);
      assert r[..|r| - 1] == NatDigits(n / base, base);
    }
  }

  /** Leading zeros do not change a digit run's value. */
  lemma {:induction false} LeadingZerosValue(z: nat, s: string, base: nat)
    requires base == 10 || base == 16
    requires AllDigits(s, base)
    ensures AllDigits(Repeat('0', z) + s, base)
    ensures DigitsValue(Repeat('0', z) + s, base) == DigitsValue(s, base)
    decreases |s|
  {
    var t := Repeat('0', z) + s;
    if s == [] {
      assert t == Repeat('0', z);
      ZerosValue(z, base);
    } else {
      assert t[..|t| - 1] == Repeat('0', z) + s[..|s| - 1];
      LeadingZerosValue(z, s[..|s| - 1], base);
    }
  }

  lemma {:induction false} ZerosValue(z: nat, base: nat)
    requires base == 10 || base == 16
    ensures AllDigits(Repeat('0', z), base)
    ensures DigitsValue(Repeat('0', z), base) == 0
    decreases z
  {
    if z > 0 {
      var t := Repeat('0', z);
      assert t[..|t| - 1] == Repeat('0', z - 1);
      ZerosValue(z - 1, base);
    }
  }
}

=== FILE: timers.dfy ===
/** The handheld's general-purpose timers.  A timer has two halves, `lo`
    and `hi`, that count down on their own or, in wide mode, as one 16-bit
    counter.  A half keeps its count scaled by 2^24: the byte the hardware
    shows is the top byte of a 32-bit count, and every clock cycle removes a
    decrement chosen by the half's oscillator and prescale settings.  The
    `onUnderflow` and `onPivot` callbacks become events that `Sync` returns. */
module Timers {
  import opened Util
  import opened Bits

  /** One step of the shown byte: `1 << 24`. */
  const Unit: int := 0x100_0000

  /** A prescale setting; the register file only ever stores a nibble. */
  type Nibble = x: int | 0 <= x < 16

  /** Divisors behind the enabled entries (prescale 8 to 15) of the two
      oscillators' decrement tables. */
  const Osc1Divisors: seq<int> := [2, 8, 32, 64, 128, 256, 1024, 4096]
  const Osc2Divisors: seq<int> := [122, 244, 488, 977, 1953, 3906, 7812, 15625]

  /** The decrement table entry: nothing for prescale 0 to 7, and
      `0x1000000 / divisor` above.  Osc2's entries are fractions; here they
      are rounded down. */
  function TableDec(osc2: bool, prescale: Nibble): (r: nat)
    ensures r == 0 <==> prescale < 8
    ensures r <= Unit / 2
  {
    if prescale < 8 then 0
    else Unit / (if osc2 then Osc2Divisors else Osc1Divisors)[prescale - 8]
  }

  /** Osc1's entries divide 2^24 exactly; a larger prescale always counts
      strictly slower, on either oscillator. */
  lemma TableDecSlower(osc2: bool, p: Nibble, q: Nibble)
    requires 8 <= p < q
    ensures TableDec(osc2, q) < TableDec(osc2, p)
    ensures !osc2 ==> TableDec(false, p) * Osc1Divisors[p - 8] == Unit
  {
  }

  // ---------------------------------------------------------------------
  // One half

  datatype SubTimer = SubTimer(
    preset: int, count: int, enabled: bool, prescale: Nibble, oscillator: int, dec: nat)

  /** `new _GeneralTimerByte()`: preset 0xff, everything else zero or off. */
  const NewSubTimer: SubTimer := SubTimer(0xff, 0, false, 0, 0, 0)

  /** `_updateDec`: a disabled half has no decrement; an enabled one takes
      its oscillator's table entry for its prescale. */
  function DecOf(enabled: bool, oscillator: int, prescale: Nibble): nat {
    if enabled then TableDec(oscillator != 0, prescale) else 0
  }

  /** The decrement agrees with the settings it was computed from, the
      oscillator is one bit and the count is a 32-bit value. */
  predicate Consistent(s: SubTimer) {
    && 0 <= s.oscillator < 2
    && s.dec == DecOf(s.enabled, s.oscillator, s.prescale)
    && 0 <= s.count < TWO32
  }

  lemma NewSubTimerConsistent()
    ensures Consistent(NewSubTimer) && NewSubTimer.dec == 0
  {
  }

  /** A consistent half counts exactly when it is enabled with a prescale of
      8 or more. */
  lemma DecZeroIff(s: SubTimer)
    requires Consistent(s)
    ensures s.dec == 0 <==> !s.enabled || s.prescale < 8
    ensures !s.enabled ==> s.dec == 0
  {
  }

  /** `set enabled(b)` */
  function SetEnabled(s: SubTimer, b: bool): (r: SubTimer)
    ensures r.enabled == b
    ensures r == s.(enabled := b, dec := r.dec)
    ensures 0 <= s.oscillator < 2 && 0 <= s.count < TWO32 ==> Consistent(r)
  {
    s.(enabled := b, dec := DecOf(b, s.oscillator, s.prescale))
  }

  /** `set prescale(i)` */
  function SetPrescale(s: SubTimer, i: Nibble): (r: SubTimer)
    ensures r.prescale == i
    ensures r == s.(prescale := i, dec := r.dec)
    ensures 0 <= s.oscillator < 2 && 0 <= s.count < TWO32 ==> Consistent(r)
  {
    s.(prescale := i, dec := DecOf(s.enabled, s.oscillator, i))
  }

  /** `set oscillator(i)` keeps only bit 0 of `i`. */
  function SetOscillator(s: SubTimer, i: int): (r: SubTimer)
    ensures r.oscillator == i % 2
    ensures r == s.(oscillator := i % 2, dec := r.dec)
    ensures 0 <= s.count < TWO32 ==> Consistent(r)
  {
    var bit := And(i, 1);
    assert bit == i % 2 by { AndLow(i, 1); }
    s.(oscillator := bit, dec := DecOf(s.enabled, bit, s.prescale))
  }

  /** The decrement is recomputed from scratch by every setter, so the order
      in which the settings are written does not matter. */
  lemma SettersCommute(s: SubTimer, b: bool, p: Nibble, o: int)
    ensures SetPrescale(SetOscillator(s, o), p) == SetOscillator(SetPrescale(s, p), o)
    ensures SetEnabled(SetPrescale(s, p), b) == SetPrescale(SetEnabled(s, b), p)
    ensures SetEnabled(SetOscillator(s, o), b) == SetOscillator(SetEnabled(s, b), o)
  {
  }

  // ---------------------------------------------------------------------
  // JavaScript's shifts and masks on counts

  /** `capU32(preset << 24)`: the count a half restarts from, with the
      preset's low byte as the shown byte (`ReloadIsShift`). */
  function Reload(preset: int): (r: int)
    ensures 0 <= r < TWO32
    ensures r / Unit == preset % 0x100
  {
    (preset % 0x100) * Unit
  }

  /** `count >>> 24`: the byte a half shows (`TopByteIsShift`). */
  function TopByte(c: int): (r: int)
    requires 0 <= c < TWO32
    ensures 0 <= r < 0x100
  {
    c / Unit
  }

  /** `(count >>> 16) & 0xff00`: the shown byte moved up to bits 8 to 15
      (`HighByteIsMask`). */
  function HighByte(c: int): (r: int)
    requires 0 <= c < TWO32
    ensures 0 <= r < 0x1_0000 && r % 0x100 == 0
  {
    TopByte(c) * 0x100
  }

  /** `low | high`, in either operand order, for a shown byte and a high
      part: the 16-bit value they form (`CombineIsOr`). */
  function Combine(low: int, high: int): (r: int)
    requires 0 <= low < 0x100 && 0 <= high < 0x1_0000 && high % 0x100 == 0
    ensures 0 <= r < 0x1_0000
  {
    high + low
  }

  // ---------------------------------------------------------------------
  // The JavaScript expressions behind those functions

  lemma ReloadIsShift(p: int)
    ensures CapU32(Shl(p, 24)) == Reload(p)
  {
    Pow2Values();
    var u := ToUint32(p);
    var x := u * Unit;
    assert Shl(p, 24) == CapS32(x);
    var t := (p % 0x100) * Unit;
    assert u % 0x100 == p % 0x100 by { ModOfCongruent(p, u, TWO32, 0x100); }
    var q := u / 0x100;
    assert u == 0x100 * q + u % 0x100;
    assert x - t == TWO32 * q;
    var y := CapS32(x);
    var c := CapU32(y);
    var k1 := (x - y) / TWO32;
    var k2 := (y - c) / TWO32;
    assert x - y == TWO32 * k1;
    assert y - c == TWO32 * k2;
    assert c - t == TWO32 * (q - k1 - k2);
    MulSmall(TWO32, q - k1 - k2);
  }

  lemma TopByteIsShift(c: int)
    requires 0 <= c < TWO32
    ensures Shr(c, 24) == TopByte(c)
  {
    Pow2Values();
    ToUint32Identity(c);
  }

  lemma HighByteIsMask(c: int)
    requires 0 <= c < TWO32
    ensures And(Shr(c, 16), 0xff00) == HighByte(c)
  {
    var x := c / 0x1_0000;
    assert Shr(c, 16) == x by {
      Pow2Values();
      ToUint32Identity(c);
      assert 16 % 32 == 16;
    }
    var t := c / Unit;
    assert (x / 0x100) % 0x100 == t by {
      QuotientOfQuotient(c);
      DivUnique(t, 0x100, 0, t);
    }
    assert And(x, 0xff00) == t * 0x100 by {
      AndSmall(x, 0xff00);
      AndFF00(x);
    }
    assert HighByte(c) == t * 0x100;
  }

  /** Dividing by 2^16 and then by 2^8 is dividing by 2^24. */
  lemma QuotientOfQuotient(c: int)
    requires 0 <= c < TWO32
    ensures (c / 0x1_0000) / 0x100 == c / Unit
    ensures c / Unit < 0x100
  {
    var q, s := c / Unit, c % Unit;
    var s1, s0 := s / 0x1_0000, s % 0x1_0000;
    assert s == 0x1_0000 * s1 + s0 && s1 < 0x100;
    assert c == 0x1_0000 * (0x100 * q + s1) + s0;
    DivUnique(c, 0x1_0000, 0x100 * q + s1, s0);
    DivUnique(c / 0x1_0000, 0x100, q, s1);
  }

  lemma CombineIsOr(low: int, high: int)
    requires 0 <= low < 0x100 && 0 <= high < 0x1_0000 && high % 0x100 == 0
    ensures Or(low, high) == Combine(low, high) && Or(high, low) == Combine(low, high)
    ensures CapU32(Combine(low, high)) == Combine(low, high)
  {
    Pow2Values();
    OrWord(low, high, 8);
    OrComm(low, high);
    CapU32Identity(high + low);
  }

  // ---------------------------------------------------------------------
  // The timer

  datatype Timer = Timer(wideMode: bool, pivot: int, hi: SubTimer, lo: SubTimer)

  /** `new GeneralTimer()` */
  const NewTimer: Timer := Timer(false, 0, NewSubTimer, NewSubTimer)

  predicate WellFormed(t: Timer) {
    Consistent(t.hi) && Consistent(t.lo)
  }

  datatype TimerEvent = LoUnderflow | HiUnderflow | PivotReached

  datatype Synced = Synced(timer: Timer, events: seq<TimerEvent>)

  predicate NoRepeats(es: seq<TimerEvent>) {
    forall i, j :: 0 <= i < j < |es| ==> es[i] != es[j]
  }

  /** The `preset` getter: `(hi.preset << 8) | lo.preset`. */
  function PresetWord(t: Timer): (r: int)
    ensures 0 <= t.hi.preset < 0x100 && 0 <= t.lo.preset < 0x100 ==>
              r == t.hi.preset * 0x100 + t.lo.preset
  {
    if 0 <= t.hi.preset < 0x100 && 0 <= t.lo.preset < 0x100 then
      Pow2Values();
      ShlSmall(t.hi.preset, 8);
      CombineIsOr(t.lo.preset, t.hi.preset * 0x100);
      Or(Shl(t.hi.preset, 8), t.lo.preset)
    else
      Or(Shl(t.hi.preset, 8), t.lo.preset)
  }

  /** The `count` getter: the two shown bytes as one 16-bit value
      (`CountWordIsGetter`). */
  function CountWord(t: Timer): (r: int)
    requires WellFormed(t)
    ensures 0 <= r < 0x1_0000
  {
    Combine(TopByte(t.lo.count), HighByte(t.hi.count))
  }

  /** `lo.count >>> 24 | ((hi.count >>> 24) << 8)` */
  lemma CountWordIsGetter(t: Timer)
    requires WellFormed(t)
    ensures Or(Shr(t.lo.count, 24), Shl(Shr(t.hi.count, 24), 8)) == CountWord(t)
  {
    var h, l := TopByte(t.hi.count), TopByte(t.lo.count);
    TopByteIsShift(t.hi.count);
    TopByteIsShift(t.lo.count);
    Pow2Values();
    ShlSmall(h, 8);
    CombineIsOr(l, h * 0x100);
  }

  /** `_dec * cycles`: how far an enabled half's count drops in one sync. */
  function Drain(dec: nat, cycles: nat): (r: nat)
    ensures dec == 0 || cycles == 0 ==> r == 0
  {
    MulNonNegative(dec, cycles);
    dec * cycles
  }

  /** An enabled half whose count would drop below zero. */
  predicate Underflows(s: SubTimer, cycles: nat) {
    s.enabled && s.count < Drain(s.dec, cycles)
  }

  /** A half counting on its own (not in wide mode): an enabled half drops by
      its drain and, when it would go below zero, restarts from its preset. */
  function CountDown(s: SubTimer, cycles: nat): (r: SubTimer)
    requires Consistent(s)
    ensures Consistent(r)
    ensures r == s.(count := r.count)
    ensures !s.enabled ==> r == s
    ensures s.enabled && !Underflows(s, cycles) ==> r.count == s.count - Drain(s.dec, cycles)
    ensures Underflows(s, cycles) ==> r.count == (s.preset % 0x100) * Unit
  {
    if !s.enabled then s
    else
      var c := s.count - Drain(s.dec, cycles);
      if c < 0 then s.(count := Reload(s.preset)) else s.(count := c)
  }

  /** The combined count `sync` compares with the pivot before counting:
      in wide mode it pairs the NEW high byte with the old low byte, in split
      mode the old high byte with the NEW low byte. */
  function PreCount(before: Timer, after: Timer): int
    requires WellFormed(before) && WellFormed(after)
  {
    if before.wideMode then TopByte(after.hi.count) * 0x100 + TopByte(before.lo.count)
    else TopByte(before.hi.count) * 0x100 + TopByte(after.lo.count)
  }

  /** `sync` in split mode: each enabled half counts down on its own and
      reports its own underflow; the pivot is checked when `hi` is enabled. */
  function SyncSplit(t: Timer, cycles: nat): (r: Synced)
    requires WellFormed(t) && !t.wideMode
    ensures WellFormed(r.timer)
    ensures r.timer == t.(lo := CountDown(t.lo, cycles), hi := CountDown(t.hi, cycles))
    ensures r.events ==
      (if Underflows(t.lo, cycles) then [LoUnderflow] else []) +
      (if Underflows(t.hi, cycles) then [HiUnderflow] else []) +
      (if t.hi.enabled && PreCount(t, r.timer) > t.pivot && CountWord(r.timer) <= t.pivot
       then [PivotReached] else [])
  {
    var lo := CountDown(t.lo, cycles);
    var hi := CountDown(t.hi, cycles);
    var after := t.(lo := lo, hi := hi);
    var pre := Combine(TopByte(lo.count), HighByte(t.hi.count));
    var post := Combine(TopByte(lo.count), HighByte(hi.count));
    Synced(after,
      (if Underflows(t.lo, cycles) then [LoUnderflow] else []) +
      (if Underflows(t.hi, cycles) then [HiUnderflow] else []) +
      (if t.hi.enabled && pre > t.pivot && post <= t.pivot then [PivotReached] else []))
  }

  /** The counts after a wide-mode sync of an enabled `lo`: `lo` drops by its
      drain; below zero it borrows one step from `hi` and wraps, unless `hi`
      runs out too, in which case both restart from their presets. */
  function WideCounts(t: Timer, cycles: nat): (r: (int, int))
    requires WellFormed(t)
    ensures 0 <= r.0 < TWO32 && 0 <= r.1 < TWO32
  {
    var low := t.lo.count - Drain(t.lo.dec, cycles);
    if low >= 0 then (low, t.hi.count)
    else if t.hi.count - Unit < 0 then (Reload(t.lo.preset), Reload(t.hi.preset))
    else (low % TWO32, t.hi.count - Unit)
  }

  /** `sync` in wide mode: only `lo`'s settings count, and only the high
      half's underflow is reported. */
  function SyncWide(t: Timer, cycles: nat): (r: Synced)
    requires WellFormed(t) && t.wideMode
    ensures WellFormed(r.timer)
    ensures !t.lo.enabled ==> r == Synced(t, [])
    ensures t.lo.enabled ==>
      r.timer == t.(lo := t.lo.(count := WideCounts(t, cycles).0),
                    hi := t.hi.(count := WideCounts(t, cycles).1))
    ensures t.lo.enabled ==> (r.events ==
      (if Underflows(t.lo, cycles) && t.hi.count < Unit then [HiUnderflow] else []) +
      (if PreCount(t, r.timer) > t.pivot && CountWord(r.timer) <= t.pivot
       then [PivotReached] else []))
  {
    if !t.lo.enabled then Synced(t, [])
    else
      var counts := WideCounts(t, cycles);
      var after := t.(lo := t.lo.(count := counts.0), hi := t.hi.(count := counts.1));
      var high := HighByte(counts.1);
      var pre := Combine(TopByte(t.lo.count), high);
      var post := Combine(TopByte(counts.0), high);
      Synced(after,
        (if Underflows(t.lo, cycles) && t.hi.count < Unit then [HiUnderflow] else []) +
        (if pre > t.pivot && post <= t.pivot then [PivotReached] else []))
  }

  /** `GeneralTimer.sync(cycles)`. */
  function Sync(t: Timer, cycles: nat): (r: Synced)
    requires WellFormed(t)
    ensures WellFormed(r.timer)
    ensures r.timer == t.(lo := t.lo.(count := r.timer.lo.count),
                          hi := t.hi.(count := r.timer.hi.count))
    ensures NoRepeats(r.events)
    ensures LoUnderflow in r.events <==> !t.wideMode && Underflows(t.lo, cycles)
    ensures HiUnderflow in r.events <==>
      if t.wideMode then Underflows(t.lo, cycles) && t.hi.count < Unit
      else Underflows(t.hi, cycles)
    ensures PivotReached in r.events <==>
      && (if t.wideMode then t.lo.enabled else t.hi.enabled)
      && PreCount(t, r.timer) > t.pivot
      && CountWord(r.timer) <= t.pivot
  {
    if t.wideMode then SyncWide(t, cycles) else SyncSplit(t, cycles)
  }

  // ---------------------------------------------------------------------
  // Properties of `sync`

  /** A timer with nothing enabled that counts (wide mode reads `lo` only)
      does not change and reports nothing. */
  lemma SyncDisabled(t: Timer, cycles: nat)
    requires WellFormed(t) && !t.lo.enabled && (t.wideMode || !t.hi.enabled)
    ensures Sync(t, cycles) == Synced(t, [])
  {
  }

  /** A sync of zero cycles changes nothing and reports nothing. */
  lemma SyncIdle(t: Timer)
    requires WellFormed(t)
    ensures Sync(t, 0) == Synced(t, [])
  {
    var r := Sync(t, 0);
    assert r.timer == t;
    assert PreCount(t, r.timer) == CountWord(r.timer);
  }

  /** In wide mode the halves form one counter worth `hi * 2^8 + lo`. */
  function WideValue(t: Timer): int {
    0x100 * t.hi.count + t.lo.count
  }

  /** A wide-mode sync that borrows at most once, and does not run `hi` out,
      lowers the combined counter by exactly the drain: the borrow of one
      step from `hi` pays for `lo`'s wrap. */
  lemma {:induction false} WideCountsDown(t: Timer, cycles: nat)
    requires WellFormed(t) && t.wideMode && t.lo.enabled
    requires Drain(t.lo.dec, cycles) <= t.lo.count + TWO32
    requires Underflows(t.lo, cycles) ==> t.hi.count >= Unit
    ensures WideValue(Sync(t, cycles).timer) == WideValue(t) - Drain(t.lo.dec, cycles)
    ensures HiUnderflow !in Sync(t, cycles).events
  {
  }

  /** When the high half runs out in wide mode both halves restart, so the
      `count` getter shows the `preset` getter's value. */
  lemma WideReloadShowsPreset(t: Timer, cycles: nat)
    requires WellFormed(t) && t.wideMode
    requires 0 <= t.hi.preset < 0x100 && 0 <= t.lo.preset < 0x100
    requires HiUnderflow in Sync(t, cycles).events
    ensures CountWord(Sync(t, cycles).timer) == PresetWord(t)
  {
    var a := Sync(t, cycles).timer;
    assert TopByte(a.lo.count) == t.lo.preset;
    assert TopByte(a.hi.count) == t.hi.preset;
  }
}

=== FILE: util.dfy ===
/** The integer helpers of the music toolchain: 32-bit wrap-around in both
    signednesses, division truncated toward zero, and the wrapper that turns
    an `undefined` sample into an `EmptyError`.  All numbers here are the
    integral values the toolchain works with; JavaScript's `Math.trunc` is the
    identity on them. */
module Util {
  import opened Wrappers

  const TWO31: int := 0x8000_0000
  const TWO32: int := 0x1_0000_0000

  /** Unsigned 32-bit wrap: the low 31 bits of the operand plus its bit 31. */
  function CapU32(n: int): (r: int)
    ensures 0 <= r < TWO32
    ensures (n - r) % TWO32 == 0
  {
    var add := if (n / TWO31) % 2 == 1 then TWO31 else 0;
    n % TWO31 + add
  }

  /** Signed 32-bit wrap (`Math.trunc(n) | 0`), i.e. JavaScript's ToInt32. */
  function CapS32(n: int): (r: int)
    ensures -TWO31 <= r < TWO31
    ensures (n - r) % TWO32 == 0
  {
    var u := n % TWO32;
    if u >= TWO31 then u - TWO32 else u
  }

  lemma CapS32Identity(n: int)
    requires -TWO31 <= n < TWO31
    ensures CapS32(n) == n
  {
  }

  lemma CapU32Identity(n: int)
    requires 0 <= n < TWO32
    ensures CapU32(n) == n
  {
  }

  lemma CapU32Idempotent(n: int)
    ensures CapU32(CapU32(n)) == CapU32(n)
  {
    CapU32Identity(CapU32(n));
  }

  /** `Math.floor(x / y)` for integers. */
  function FloorDiv(x: int, y: int): int
    requires y != 0
  {
    if y > 0 then x / y else (-x) / (-y)
  }

  /** `Math.min` and `Math.max` of two integers. */
  function Min(a: int, b: int): int {
    if a <= b then a else b
  }

  function Max(a: int, b: int): int {
    if a >= b then a else b
  }

  /** `Math.max(lo, Math.min(hi, x))` */
  function Clamp(x: int, lo: int, hi: int): (r: int)
    requires lo <= hi
    ensures lo <= r <= hi
    ensures lo <= x <= hi ==> r == x
    ensures x < lo ==> r == lo
    ensures x > hi ==> r == hi
  {
    Max(lo, Min(hi, x))
  }

  function Abs(x: int): nat {
    if x < 0 then -x else x
  }

  /** Division that rounds toward zero: ceiling when the operands' signs
      differ, floor when they agree. */
  function CDiv(x: int, y: int): (r: int)
    requires y != 0
    ensures r == (if (x < 0) == (y < 0) then Abs(x) / Abs(y) else -(Abs(x) / Abs(y)))
  {
    if (x < 0) != (y < 0) then -FloorDiv(-x, y) else FloorDiv(x, y)
  }

  /** Truncating division is odd in its dividend. */
  lemma CDivNegate(x: int, y: int)
    requires y != 0
    ensures CDiv(-x, y) == -CDiv(x, y)
  {
    var ax: int, ay: int := Abs(x), Abs(y);
    assert Abs(-x) == ax;
    var q: int := ax / ay;
    if x == 0 {
      assert q == 0 by { assert ax == 0 && ay > 0; }
      assert CDiv(-x, y) == CDiv(x, y) == 0;
    } else if (x < 0) == (y < 0) {
      assert CDiv(x, y) == q && CDiv(-x, y) == -q;
    } else {
      assert CDiv(x, y) == -q && CDiv(-x, y) == q;
    }
  }

  /** The quotient truncated toward zero never overshoots in magnitude, and the
      remainder it leaves is smaller than the divisor. */
  lemma CDivBounds(x: int, y: int)
    requires y != 0
    ensures Abs(CDiv(x, y) * y) <= Abs(x) < Abs(CDiv(x, y) * y) + Abs(y)
  {
    var ax: int, ay: int := Abs(x), Abs(y);
    var q := ax / ay;
    assert ax == ay * q + ax % ay && 0 <= ax % ay < ay;
    assert Abs(CDiv(x, y)) == q;
    AbsMul(CDiv(x, y), y);
    assert q * ay == ay * q;
  }

  lemma AbsMul(a: int, b: int)
    ensures Abs(a * b) == Abs(a) * Abs(b)
  {
    MulNonNegative(Abs(a), Abs(b));
    if a < 0 && b >= 0 {
      assert a * b == -(Abs(a) * Abs(b));
    } else if a >= 0 && b < 0 {
      assert a * b == -(Abs(a) * Abs(b));
    } else if a < 0 && b < 0 {
      assert a * b == Abs(a) * Abs(b);
    }
  }

  lemma {:induction false} MulNonNegative(a: nat, b: nat)
    ensures a * b >= 0
    decreases a
  {
    if a > 0 {
      MulNonNegative(a - 1, b);
      assert a * b == (a - 1) * b + b;
    }
  }

  lemma MulMonotone(a: nat, b: int, c: int)
    requires 0 <= b <= c
    ensures 0 <= a * b <= a * c
  {
    MulNonNegative(a, b);
    MulNonNegative(a, c - b);
    assert a * c == a * b + a * (c - b);
  }

  datatype EmptyError = EmptyError

  /** Turns a sample source that may yield `undefined` into one that fails
      with `EmptyError` instead. */
  function UndefinedThrowsEmpty<T>(f: () -> Option<T>): (g: () -> Result<T, EmptyError>)
    ensures f().Some? ==> g() == Ok(f().value)
    ensures g().Err? <==> f().None?
  {
    () => var res := f(); if res.None? then Err(EmptyError) else Ok(res.value)
  }
}

=== FILE: wrappers.dfy ===
/** Failure-carrying datatypes shared by every module of the model.
    `Option` stands for a JavaScript value that may be `undefined` (or `NaN`
    where the source uses it as "no number"); `Result` stands for an
    operation that may throw. */
module Wrappers {

  datatype Option<+T> = None | Some(value: T) {
    function GetOr(default: T): T {
      match this
      case Some(v) => v
      case None => default
    }

    predicate IsFailure() {
      None?
    }

    function PropagateFailure<U>(): Option<U>
      requires None?
    {
      None
    }

    function Extract(): T
      requires Some?
    {
      value
    }
  }

  datatype Result<+T, +E> = Ok(value: T) | Err(error: E) {
    predicate IsFailure() {
      Err?
    }

    function PropagateFailure<U>(): Result<U, E>
      requires Err?
    {
      Err(error)
    }

    function Extract(): T
      requires Ok?
    {
      value
    }
  }
}
